=== FILE: README.md ===
# Autonomous code review: a verified model of its core

The system reviews a Python codebase with a language model. It then turns the
model's free-text fix suggestions into edits on the files under review. This
project models the parts of it that hold logic, in Dafny:

- **The two fix editors.**
  - Both locate the fix text in a saved report and work out which existing
    files it talks about.
  - Both rewrite those files, writing a file only when its content changes.
  - The enhanced editor runs four matching strategies whose dicts are merged
    with `dict.update`. It folds each fix into the file by a function
    rewrite, an import-block rewrite or an appended marked block.
  - The simple editor tries a fixed list of key-paths, then three gated
    patterns (header, nearest code block, positional pairing), and replaces
    the whole file.
- **The client bookkeeping.** The upload-id table, how the context of a
  request is built, how the session history grows, and when the autonomous
  review loop stops.
- **The three-phase reviewer.** Review, then human decisions, then fixes,
  which are applied only once approved. The two fields that carry results
  from one phase to the next gate the later phases.
- **The clean iterative reviewer.**
  - the focus table and the iteration loop;
  - token totals;
  - the combined analysis;
  - the emoji classifier and the markdown report;
  - the approval logic of the human review.
- **The per-iteration prompt table.**
- **The small algorithms in the example programs the tool is run against:**
  - a bubble sort in place;
  - triplicate detection;
  - searches and matrix scans;
  - Fibonacci, factorial and the digit extractor;
  - dictionary merging;
  - validation and scoring rules;
  - list-backed user managers.

## How the model is built

- **One module per source file,** plus `Common` and `Workspace`.
  - `Common` holds the string helpers (`strip`, `split`/`join`, `find`,
    decimal rendering), a `Json` value type for loaded reports, and an
    insertion-ordered dict `ODict` with `dict.update`.
  - `Workspace` holds a directory as a sequence of `SourceFile` entries (name,
    content, and whether reading or writing it fails), in glob order.
- **Regular expressions are not verified.**
  - The simple editor gets its matches from a `SimpleScan` value. The enhanced
    editor gets its matches from a `FixScan` value: header matches, fenced
    code blocks as (start, end, code), and mention-pattern matches.
  - A parameter `scanner: string -> …` computes that value from the fix text.
  - Declaration lookup and `re.sub` are function fields of a `Syntax` value.
  - The `file_<digits>_` prefix removal is written out (`Workspace.StripIdPrefix`).
- **The language model is a function parameter.** For the client and the
  three-phase reviewer it maps a message list to `Replied(message)` or
  `Raised(error)`. For the clean iterative reviewer it maps the iteration
  number to that result; see "## Left out".
  - A message carries content and optional token counts.
  - Clocks, user input, save failures and Python's `str()` of a loaded value
    are parameters too.
- **State that the source updates in place is a Dafny class:**
  - `ModelClient.Client` (upload table and session history);
  - `ThreePhase.ThreePhaseReviewer`;
  - `PerformanceDisaster.PerformanceNightmare`;
  - `BugParadise.PyDict` and `BugParadise.GlobalState`;
  - in `CodeQuality`: `A`, `UserManagerBad`, `UserNotificationEmailProcessor`
    and the module globals `Globals`.
- **Loops become methods proved against specification functions.** The
  properties are proved about those functions as lemmas.
- **The in-place sort keeps its `array`.**
- **Exceptions are modelled as values:**
  - `None` stands for a `KeyError`, `TypeError` or `IndexError`;
  - `Raised`/`Failed` stand for errors that propagate;
  - `Crashed` stands for an exception that escapes an editor.
- **Three behaviours of the code worth noting:**
  - The enhanced editor's `function_replacement` goes straight to the appended
    block when the target is not declared. It does not try the other rewrites
    first.
  - The strategy results are merged with `dict.update`: a later strategy's
    list for a file replaces an earlier one rather than being accumulated.
  - The simple editor's third filename stage (append `.py`) can never succeed
    (`SimpleEditor.PyStageUnreachable`).
- **Both copies of `performance_disaster.py` are byte-identical.** One module
  models them and cites the `code_under_review` copy.

## Model

| member | source | states |
|---|---|---|
| Common.StripSpec | src/claude4_autonomous_code_review/simple_file_editor.py:282 | `strip()` keeps a contiguous slice and drops only whitespace around it; the result has no whitespace at either end |
| Common.StripIdempotent | src/claude4_autonomous_code_review/simple_file_editor.py:282-290 | stripping already-stripped content changes nothing, which is why a repeated fix finds nothing to write |
| Common.JoinSplit | src/claude4_autonomous_code_review/enhanced_file_editor.py:374-394 | splitting content on newlines and joining the lines back with newlines restores the content |
| Common.DecRoundTrip | src/claude4_autonomous_code_review/claude4_client.py:55-56 | the decimal rendering used in ids and headings reads back as the same number |
| Common.Lookup | src/claude4_autonomous_code_review/simple_file_editor.py:103-110 | `key in d` holds exactly when the key is present, and `d[key]` is a value bound to it |
| Common.Put | src/claude4_autonomous_code_review/enhanced_file_editor.py:162-166 | `d[k] = v`: `k` gets `v`; a new key goes to the end and an existing key keeps its place |
| Common.UpdateOverwrites | src/claude4_autonomous_code_review/enhanced_file_editor.py:125-139 | after `d.update(e)` every key of `e` holds `e`'s value and the old value is dropped; other keys keep theirs; old keys keep their places and new keys follow in `e`'s order |
| Workspace.StripIdPrefix | src/claude4_autonomous_code_review/enhanced_file_editor.py:151-157 | `re.sub(r'^file_\d+_', '', s)` only removes a prefix: the result is a suffix of `s`; when it removes something, `s` starts with `file_`, at least one digit follows, and an underscore ends the removed part |
| Workspace.StripIdPrefixOfId | src/claude4_autonomous_code_review/claude4_client.py:55-56 | removing the prefix from an uploaded-file id `file_<n>_<name>` gives back `name` |
| Workspace.PyFiles | src/claude4_autonomous_code_review/simple_file_editor.py:160 | the glob for `*.py` lists exactly the directory's Python entries |
| Workspace.FindFile | src/claude4_autonomous_code_review/enhanced_file_editor.py:156-157 | the entry found is the first with that name; there is none exactly when no entry has it |
| Workspace.PathOf | src/claude4_autonomous_code_review/simple_file_editor.py:294 | the model of `str(codebase_path / name)` (no contract; `PathOfTrivialRoots` states its behaviour on special roots) |
| Workspace.PathOfTrivialRoots | src/claude4_autonomous_code_review/enhanced_file_editor.py:338 | under the root `.` a file is recorded as plain `name`, under `/` as `/name`, and a trailing slash of the root is not doubled |
| Common.BaseName | src/claude4_autonomous_code_review/clean_review.py:204 | `Path(p).name` has no slash and is never `.`; it is empty exactly when the path has no part pathlib keeps, as for `.` and `/` |
| SimpleEditor.FirstYieldSpec | src/claude4_autonomous_code_review/simple_file_editor.py:103-132 | the key-paths are tried in order; the first one that yields decides the result; nothing is found only when no path yields |
| SimpleEditor.ExtractFixesText | src/claude4_autonomous_code_review/simple_file_editor.py:99-132 | the model of the source function (no contract of its own); `FirstYieldSpec` and `NestedStringWins` state what it returns |
| SimpleEditor.NestedStringWins | src/claude4_autonomous_code_review/simple_file_editor.py:104-120 | a string at `applied_fixes.generated_fixes` is returned verbatim, whatever the other keys hold |
| SimpleEditor.Explore | src/claude4_autonomous_code_review/simple_file_editor.py:134-154 | the summary of an object within the depth limit is an object with exactly its keys, holds only strings at its leaves, and nests no deeper than the remaining depth allows |
| SimpleEditor.DebugReportStructure | src/claude4_autonomous_code_review/simple_file_editor.py:134-154 | the summary has exactly the report's keys, holds strings at its leaves, and nests objects at most three deep |
| SimpleEditor.FindMatchingFile | src/claude4_autonomous_code_review/simple_file_editor.py:226-254 | a file that is found is one of the listed files |
| SimpleEditor.TwoStageMatch | src/claude4_autonomous_code_review/simple_file_editor.py:226-254 | the model of the source function (no contract of its own); `PyStageUnreachable` shows it equals the three-stage search |
| SimpleEditor.FirstMatch | src/claude4_autonomous_code_review/simple_file_editor.py:236-252 | each stage picks the first file, in glob order, that passes its test; no file is picked only when none passes |
| SimpleEditor.PyStageUnreachable | src/claude4_autonomous_code_review/simple_file_editor.py:243-254 | the `.py`-append stage never returns a file; the exact and substring stages alone decide |
| SimpleEditor.EmptyNameMatchesFirst | src/claude4_autonomous_code_review/simple_file_editor.py:230-245 | a header name that is empty once stripped and de-prefixed matches the first Python file |
| SimpleEditor.SortNamesSpec | src/claude4_autonomous_code_review/simple_file_editor.py:215 | sorting by name yields the same names, as a permutation, in ascending order |
| SimpleEditor.DistinctPermutation | src/claude4_autonomous_code_review/simple_file_editor.py:215 | sorting distinct file names keeps them distinct |
| SimpleEditor.Pattern1LastWins | src/claude4_autonomous_code_review/simple_file_editor.py:170-185 | pattern 1 maps a file exactly when some header names it, and keeps the code of the last such header |
| SimpleEditor.Pattern1 | src/claude4_autonomous_code_review/simple_file_editor.py:170-185 | pattern 1 maps only listed files and yields a well-formed dict; `Pattern1LastWins` states its contents |
| SimpleEditor.Targets | src/claude4_autonomous_code_review/simple_file_editor.py:175-183 | one entry per header, in text order: the file its name matches, if any, and its stripped code |
| SimpleEditor.Pattern1Listed | src/claude4_autonomous_code_review/simple_file_editor.py:175-185 | pattern 1 maps only listed files |
| SimpleEditor.Closest | src/claude4_autonomous_code_review/simple_file_editor.py:198-207 | the chosen block is nearest the mention; of equally near blocks the earliest wins; there is one whenever there are blocks |
| SimpleEditor.ClosestBlock | src/claude4_autonomous_code_review/simple_file_editor.py:198-207 | the `min_distance` loop finds exactly that nearest block |
| SimpleEditor.Pattern2Spec | src/claude4_autonomous_code_review/simple_file_editor.py:187-211 | with distinct file names, a file gets content from pattern 2 exactly when its nearest block is non-empty and closer than 1000 characters, and gets that block's stripped code |
| SimpleEditor.Pattern2 | src/claude4_autonomous_code_review/simple_file_editor.py:187-211 | the model of the source function (no contract of its own); `Pattern2Spec` states its contents |
| SimpleEditor.Pattern3Pairs | src/claude4_autonomous_code_review/simple_file_editor.py:213-222 | with as many blocks as files, the i-th file in name order gets the i-th block's stripped code, and the dict's keys are the files in name order |
| SimpleEditor.Pattern3 | src/claude4_autonomous_code_review/simple_file_editor.py:213-222 | pattern 3 pairs only when there are as many blocks as files, and maps only listed files; `Pattern3Pairs` states the pairing |
| SimpleEditor.SimpleParse | src/claude4_autonomous_code_review/simple_file_editor.py:156-224 | the parsed dict is a well-formed ordered dict; pattern 2 runs only when pattern 1 found nothing, and pattern 3 only when both found nothing |
| SimpleEditor.ParsedNamesListed | src/claude4_autonomous_code_review/simple_file_editor.py:156-224 | every file the parse maps is a listed Python file |
| SimpleEditor.ParsePattern1 | src/claude4_autonomous_code_review/simple_file_editor.py:170-185 | the header loop builds the pattern-1 dict |
| SimpleEditor.ParsePattern2 | src/claude4_autonomous_code_review/simple_file_editor.py:187-211 | the mention loop builds the pattern-2 dict |
| SimpleEditor.ParsePattern3 | src/claude4_autonomous_code_review/simple_file_editor.py:213-222 | the positional loop builds the pattern-3 dict |
| SimpleEditor.ParseFileFixesWithDebug | src/claude4_autonomous_code_review/simple_file_editor.py:156-224 | the method returns the gated parse over the directory's Python files |
| SimpleEditor.ApplyFix | src/claude4_autonomous_code_review/simple_file_editor.py:267-298 | an error is recorded exactly when the file cannot be read, or cannot be written while its stripped new content differs; that error is `Error applying fixes to <path>: <reason>` and the directory stays as it was; otherwise the file ends up holding the stripped new content; it is written and recorded (path and description) exactly when that differs from the old content; no other entry changes |
| SimpleEditor.ApplyFixIdempotent | src/claude4_autonomous_code_review/simple_file_editor.py:282-298 | applying the same fix a second time writes nothing and records nothing |
| SimpleEditor.ApplyFixToFile | src/claude4_autonomous_code_review/simple_file_editor.py:267-298 | the method computes `ApplyFix` |
| SimpleEditor.ApplyEachFrame | src/claude4_autonomous_code_review/simple_file_editor.py:81-88 | the per-file loop leaves unlisted files untouched; errors are only appended, at most one per listed file |
| SimpleEditor.ApplyEach | src/claude4_autonomous_code_review/simple_file_editor.py:81-88 | the per-file loop keeps the directory's entries and their names |
| SimpleEditor.ApplyEachErrors | src/claude4_autonomous_code_review/simple_file_editor.py:81-88 | with distinct keys, the errors the loop appends are exactly `RunErrors`: one `Error applying fixes to <path>: <reason>` per listed file that cannot be read, or cannot be written while its stripped new content differs from the original, in key order; a failing file does not stop the loop |
| SimpleEditor.ApplyEachErrorsLast | src/claude4_autonomous_code_review/simple_file_editor.py:81-88 | with distinct keys, the last round appends the error of the last listed file as it stood before the loop, since no earlier round touched it |
| SimpleEditor.ApplyEachLastErrors | src/claude4_autonomous_code_review/simple_file_editor.py:81-88 | the last round appends the error of the last listed file's entry as the earlier rounds left it |
| SimpleEditor.ApplyEachWrites | src/claude4_autonomous_code_review/simple_file_editor.py:81-88 | after the loop, every listed file that can be read and written holds its stripped new content |
| SimpleEditor.ApplyAll | src/claude4_autonomous_code_review/simple_file_editor.py:81-88 | the loop computes the per-file fold over the dict's keys in insertion order |
| SimpleEditor.ParsedReady | src/claude4_autonomous_code_review/simple_file_editor.py:58-88 | every parsed file exists in the directory and has a content to write |
| SimpleEditor.NoFixes | src/claude4_autonomous_code_review/simple_file_editor.py:36-41 | without fix text the run either crashes (on `applied_fixes.keys()`) or reports that there are no fixes |
| SimpleEditor.SimpleApplyReport | src/claude4_autonomous_code_review/simple_file_editor.py:22-97 | the run crashes exactly when the located text is truthy and not a string, or is missing while `applied_fixes` is not a dict; it reports "no fixes" with the report's structure exactly when the text is missing otherwise; the no-parse dict carries the text length, the first 500 characters and `DebugPatterns` of the text; nothing is written unless the run completes |
| SimpleEditor.SimpleCompletedWrites | src/claude4_autonomous_code_review/simple_file_editor.py:58-97 | a completed run writes the stripped content of every parsed file that can be read and written; it leaves every other file alone; its errors are exactly `RunErrors` over the parsed files in key order (one per file that cannot be read, or cannot be written while its content changes), so at most one per parsed file |
| SimpleEditor.CountFrom | src/claude4_autonomous_code_review/simple_file_editor.py:256-265 | `re.findall` of a literal counts non-overlapping matches left to right; the count is positive exactly when the literal occurs |
| SimpleEditor.CountFromBound | src/claude4_autonomous_code_review/simple_file_editor.py:256-265 | the non-overlapping matches fit in the text: count times pattern length is at most the text's length |
| SimpleEditor.CountFromPositions | src/claude4_autonomous_code_review/simple_file_editor.py:256-265 | for a pattern that cannot overlap itself, the `findall` count equals the number of places where the pattern starts |
| SimpleEditor.PythonMentionsArePositions | src/claude4_autonomous_code_review/simple_file_editor.py:263 | `python_mentions` counts every place where `.py` starts |
| SimpleEditor.HeaderEnd | src/claude4_autonomous_code_review/simple_file_editor.py:261 | a `\*\*\s*File:` match (ignoring case) starts at an index exactly when two asterisks there are followed, after any whitespace, by the letters of `File:`; the match is at least seven characters long |
| SimpleEditor.HeadersFrom | src/claude4_autonomous_code_review/simple_file_editor.py:261 | the header count is positive exactly when some header match exists, and is at most a seventh of the text's length |
| SimpleEditor.DebugPatterns | src/claude4_autonomous_code_review/simple_file_editor.py:256-265 | `_debug_patterns`: the text length; a header count that is positive exactly when a header match exists; a fence count that is positive exactly when the text holds a fence; one `.py` mention per place it starts |
| SimpleEditor.ApplyFixesFromReport | src/claude4_autonomous_code_review/simple_file_editor.py:22-97 | the method computes `SimpleApplyReport` |
| EnhancedEditor.PyIn | src/claude4_autonomous_code_review/enhanced_file_editor.py:34 | Python's `in`: key membership for a dict, substring for a string, and a `TypeError` exactly for values that are not containers |
| EnhancedEditor.LocateFixes | src/claude4_autonomous_code_review/enhanced_file_editor.py:33-38 | the fix text comes from `applied_fixes.generated_fixes` when both keys are present, else from top-level `generated_fixes` |
| EnhancedEditor.FixesText | src/claude4_autonomous_code_review/enhanced_file_editor.py:33-63 | a missing or falsy fix text gives the "no fixes" error carrying the report's top-level keys; any text that is used was located and truthy |
| EnhancedEditor.UnwrapTextBlock | src/claude4_autonomous_code_review/enhanced_file_editor.py:51-63 | a `[TextBlock(` rendering without `text='` is left unchanged |
| EnhancedEditor.TextBlockRoundTrip | src/claude4_autonomous_code_review/enhanced_file_editor.py:51-63 | unwrapping the rendering of a one-block list gives back its non-empty text (when the text has no backslash); an empty text leaves the rendering as it is |
| EnhancedEditor.AddFix | src/claude4_autonomous_code_review/enhanced_file_editor.py:162-166 | `setdefault(k, []).append(f)`: only `k`'s list changes, gaining `f` at its end |
| EnhancedEditor.GroupContents | src/claude4_autonomous_code_review/enhanced_file_editor.py:141-279 | a strategy's dict holds exactly the files it emitted fixes for, each with the fixes emitted for it in emission order |
| EnhancedEditor.MergeLaterWins | src/claude4_autonomous_code_review/enhanced_file_editor.py:125-139 | the merged dict holds every file some strategy found; for a file found by several strategies it keeps the last strategy's list (mention, then function, then proximity, then header) and drops the earlier ones |
| EnhancedEditor.GroupKeysExist | src/claude4_autonomous_code_review/enhanced_file_editor.py:162-166 | a strategy's dict holds only files it emitted, so when all emitted files exist, all its files exist |
| EnhancedEditor.HeaderEmissionsSpec | src/claude4_autonomous_code_review/enhanced_file_editor.py:141-168 | the header strategy emits a fix exactly for each header whose name, stripped and without its `file_<digits>_` prefix, is an existing file |
| EnhancedEditor.ParseExplicitHeaders | src/claude4_autonomous_code_review/enhanced_file_editor.py:141-168 | the header loop builds the dict grouped from those emissions |
| EnhancedEditor.FirstNear | src/claude4_autonomous_code_review/enhanced_file_editor.py:199-212 | the chosen block is the first in text order that starts less than 500 characters from the mention; there is none only if no block does |
| EnhancedEditor.ScanNear | src/claude4_autonomous_code_review/enhanced_file_editor.py:199-212 | the loop with its `break` finds that first near block |
| EnhancedEditor.MentionsFrom | src/claude4_autonomous_code_review/enhanced_file_editor.py:186-188 | every reported mention lies inside the text and equals the file name up to ASCII case |
| EnhancedEditor.FileProximity | src/claude4_autonomous_code_review/enhanced_file_editor.py:198-212 | a file gets at most one fix per mention, and all of them are for that file |
| EnhancedEditor.ProximityEmissionsNames | src/claude4_autonomous_code_review/enhanced_file_editor.py:170-214 | the proximity strategy emits fixes only for listed Python files |
| EnhancedEditor.ParseFilenameWithCodeblocks | src/claude4_autonomous_code_review/enhanced_file_editor.py:170-214 | the nested mention and block loops build the dict grouped from those emissions |
| EnhancedEditor.FilesDeclaringSpec | src/claude4_autonomous_code_review/enhanced_file_editor.py:281-298 | the files returned are exactly the readable files that declare the name |
| EnhancedEditor.FindFilesWithName | src/claude4_autonomous_code_review/enhanced_file_editor.py:281-298 | the loop returns those files in directory order, skipping files that cannot be read |
| EnhancedEditor.NameEmissionsSpec | src/claude4_autonomous_code_review/enhanced_file_editor.py:232-246 | one function-replacement fix per file declaring the name, in the order the files were found |
| EnhancedEditor.FunctionEmissionsNames | src/claude4_autonomous_code_review/enhanced_file_editor.py:216-248 | the function strategy emits fixes only for files of the directory |
| EnhancedEditor.ParseFunctionFixes | src/claude4_autonomous_code_review/enhanced_file_editor.py:216-248 | the block, name and file loops build the dict grouped from those emissions |
| EnhancedEditor.MentionEmissionsExist | src/claude4_autonomous_code_review/enhanced_file_editor.py:250-279 | the mention strategy emits fixes only for existing files |
| EnhancedEditor.ParseFileMentions | src/claude4_autonomous_code_review/enhanced_file_editor.py:250-279 | the pattern loop builds the dict grouped from those emissions |
| EnhancedEditor.EnhancedParseFixes | src/claude4_autonomous_code_review/enhanced_file_editor.py:121-139 | the method returns the merge of the four strategy dicts |
| EnhancedEditor.ParseFixes | src/claude4_autonomous_code_review/enhanced_file_editor.py:121-139 | the model of the source function (no contract of its own); `MergeLaterWins` and `ParsedFilesExist` state its contents |
| EnhancedEditor.ParsedFilesExist | src/claude4_autonomous_code_review/enhanced_file_editor.py:121-139 | every file in the merged dict exists in the directory |
| EnhancedEditor.FirstWhere | src/claude4_autonomous_code_review/enhanced_file_editor.py:378-391 | the scan stops at the first line from `k` on that is (or is not) an import line |
| EnhancedEditor.ImportRewrite | src/claude4_autonomous_code_review/enhanced_file_editor.py:372-394 | the import rewrite is unused exactly when no line is an import line |
| EnhancedEditor.ImportRunReplaced | src/claude4_autonomous_code_review/enhanced_file_editor.py:374-394 | the first maximal run of import lines becomes the new code as one line; the lines before it and after it, later import lines included, keep their order |
| EnhancedEditor.RewriteImports | src/claude4_autonomous_code_review/enhanced_file_editor.py:374-394 | the line walk with its `in_imports` and `imports_added` flags computes that rewrite |
| EnhancedEditor.FirstDeclRewrite | src/claude4_autonomous_code_review/enhanced_file_editor.py:362-370 | the first defined name whose declaration matches decides the rewrite; there is no match only when no name matches |
| EnhancedEditor.Fallback | src/claude4_autonomous_code_review/enhanced_file_editor.py:397 | the appended block keeps the content as a strict prefix and ends with the new code and the end marker |
| EnhancedEditor.FunctionMissAppends | src/claude4_autonomous_code_review/enhanced_file_editor.py:350-358 | a function replacement whose target is not declared goes straight to the appended block, which always changes the content |
| EnhancedEditor.CodeMissAppends | src/claude4_autonomous_code_review/enhanced_file_editor.py:360-397 | a code replacement that matches no declaration and is not an import block is appended, which changes the content |
| EnhancedEditor.ImportCodeRewrites | src/claude4_autonomous_code_review/enhanced_file_editor.py:372-394 | an import block applied to content with an import line replaces the first import run and keeps the other lines |
| EnhancedEditor.ApplySingleFix | src/claude4_autonomous_code_review/enhanced_file_editor.py:344-397 | the method computes one fix's effect, or the exception `re.sub` raises |
| EnhancedEditor.SingleFix | src/claude4_autonomous_code_review/enhanced_file_editor.py:344-397 | the model of the source function (no contract of its own); `FunctionMissAppends`, `CodeMissAppends`, `ImportCodeRewrites` and `Fallback` state its cases |
| EnhancedEditor.FoldFixes | src/claude4_autonomous_code_review/enhanced_file_editor.py:316-331 | at most one description per fix; with none recorded, the content is unchanged |
| EnhancedEditor.FoldDescriptions | src/claude4_autonomous_code_review/enhanced_file_editor.py:316-331 | the descriptions recorded are exactly those of the fixes that changed the content they were applied to, in the order of the fixes, and the content right after the last of them is the final content |
| EnhancedEditor.ChangedListed | src/claude4_autonomous_code_review/enhanced_file_editor.py:316-331 | the k-th recorded description belongs to the k-th fix that changed the content |
| EnhancedEditor.ChangedComplete | src/claude4_autonomous_code_review/enhanced_file_editor.py:316-331 | every fix that changed the content it was applied to has its description recorded |
| EnhancedEditor.NoChangeAfter | src/claude4_autonomous_code_review/enhanced_file_editor.py:316-331 | fixes that leave the content as it was can be dropped from the end of the list without changing the result |
| EnhancedEditor.FoldSkipsRaising | src/claude4_autonomous_code_review/enhanced_file_editor.py:316-331 | a fix whose rewrite raises leaves the running content as it was and records nothing |
| EnhancedEditor.FoldOfMisses | src/claude4_autonomous_code_review/enhanced_file_editor.py:316-331 | when every fix is a function replacement that misses, each one is appended and its description recorded in order; the original content is a strict prefix of the result |
| EnhancedEditor.ApplyFixesToContent | src/claude4_autonomous_code_review/enhanced_file_editor.py:316-331 | the fold loop computes `FoldFixes` |
| EnhancedEditor.ApplyToFile | src/claude4_autonomous_code_review/enhanced_file_editor.py:300-342 | only this file's entry can change; a file that can be read and written ends up holding its fixes folded into its content; an unchanged fold returns results and directory untouched; a change writes the folded content and records the path and exactly the fold's descriptions; an error is added exactly when the read fails, or the content changed and the write fails, and then nothing is written |
| EnhancedEditor.ApplyEach | src/claude4_autonomous_code_review/enhanced_file_editor.py:101-108 | the per-file loop keeps the directory's names, leaves files outside the dict unchanged, and adds at most one error or modification per file |
| EnhancedEditor.ApplyEachLast | src/claude4_autonomous_code_review/enhanced_file_editor.py:101-108 | the last listed file's round changes only its own entry, and folds its fixes into its original content |
| EnhancedEditor.ApplyEachWritesAt | src/claude4_autonomous_code_review/enhanced_file_editor.py:101-108 | with distinct keys, the m-th listed file, if it can be read and written, ends up holding its fixes folded into its original content |
| EnhancedEditor.ApplyEachWrites | src/claude4_autonomous_code_review/enhanced_file_editor.py:101-108 | with distinct keys, after the loop every listed file that can be read and written holds its fixes folded into its original content |
| EnhancedEditor.ApplyFixesToFile | src/claude4_autonomous_code_review/enhanced_file_editor.py:300-342 | the method computes `ApplyToFile` |
| EnhancedEditor.ApplyAllFiles | src/claude4_autonomous_code_review/enhanced_file_editor.py:101-108 | the per-file loop folds `ApplyToFile` over the dict's files in insertion order |
| EnhancedEditor.ApplyReport | src/claude4_autonomous_code_review/enhanced_file_editor.py:21-119 | without fix text nothing is edited and the report's keys are returned; the no-parse debug text is the first 1000 characters of the fix text; a completed run detected at least one file and records at most one error or modification per file; files the parse did not find are left alone |
| EnhancedEditor.CompletedWrites | src/claude4_autonomous_code_review/enhanced_file_editor.py:77-108 | a completed run leaves every parsed file that can be read and written holding its fixes folded into its original content, and every other file as it was |
| EnhancedEditor.ApplyFixesFromReport | src/claude4_autonomous_code_review/enhanced_file_editor.py:21-119 | the method computes `ApplyReport` |
| CleanReview.FocusOf | src/claude4_autonomous_code_review/clean_review.py:65-78 | an iteration outside 1..10 gets the focus `Deep Analysis <i>` |
| CleanReview.Emoji | src/claude4_autonomous_code_review/clean_review.py:270-283 | the model of the source function (no contract of its own); `EmojiKeywordOrder` states the keyword precedence |
| CleanReview.EmojiKeywordOrder | src/claude4_autonomous_code_review/clean_review.py:270-283 | the first keyword in the fixed order wins: the lock exactly when "security" occurs; the bolt exactly when "performance" does and "security" does not; the memo exactly when no keyword occurs |
| CleanReview.IterationsSpec | src/claude4_autonomous_code_review/clean_review.py:64-130 | the loop completes exactly when no request raises; it then holds one record per iteration, numbered 1..n in order, each with its focus, response and token counts |
| CleanReview.Iterations | src/claude4_autonomous_code_review/clean_review.py:64-130 | the model of the source function (no contract of its own); `IterationsSpec`, `IterationsComplete` and `IterationsRaise` state its results |
| CleanReview.IterationsComplete | src/claude4_autonomous_code_review/clean_review.py:64-130 | the loop completes exactly when every one of the n requests gets a reply |
| CleanReview.IterationsRaise | src/claude4_autonomous_code_review/clean_review.py:64-130 | one raising request makes the whole run fail; nothing catches it |
| CleanReview.RunIterations | src/claude4_autonomous_code_review/clean_review.py:64-130 | the loop computes the specified records |
| CleanReview.TotalsOfRun | src/claude4_autonomous_code_review/clean_review.py:122-134 | the token totals are the sums of what the replies report, a reply without usage counting 0 |
| CleanReview.TotalsOfRecords | src/claude4_autonomous_code_review/clean_review.py:122-134 | records that carry the token counts of replies 1 to `n` total exactly what those replies report |
| CleanReview.AnalysisHasEverySection | src/claude4_autonomous_code_review/clean_review.py:146-149 | every iteration's heading and response appear in the combined analysis, and the first one starts it |
| CleanReview.Sections | src/claude4_autonomous_code_review/clean_review.py:146-149 | one analysis section per iteration record, in order |
| CleanReview.RunIterativeReview | src/claude4_autonomous_code_review/clean_review.py:29-193 | the review completes exactly when no request raises; it then holds exactly `max_iterations` entries numbered in order with their focus and response; `actual_iterations` is their count; token totals are the reported sums; the analysis is the joined sections; at most the first ten files are listed |
| CleanReview.HeaderLines | src/claude4_autonomous_code_review/clean_review.py:200-218 | the report starts with 17 header lines |
| CleanReview.FileLines | src/claude4_autonomous_code_review/clean_review.py:221-222 | one numbered line per analysed file, in order |
| CleanReview.IterationBlock | src/claude4_autonomous_code_review/clean_review.py:231-253 | each iteration's section is 13 lines long and opens with its heading |
| CleanReview.IterationLinesSpec | src/claude4_autonomous_code_review/clean_review.py:231-253 | the k-th section starts at line 13·k of the iteration part |
| CleanReview.IterationLines | src/claude4_autonomous_code_review/clean_review.py:231-253 | the iteration part has 13 lines per iteration |
| CleanReview.FooterLines | src/claude4_autonomous_code_review/clean_review.py:256-266 | the report ends with 9 footer lines |
| CleanReview.MarkdownFiles | src/claude4_autonomous_code_review/clean_review.py:221-222 | the report lists the analysed files by base name, numbered from 1, right after the header |
| CleanReview.MarkdownSections | src/claude4_autonomous_code_review/clean_review.py:224-253 | the report has one section per iteration, in order, each opening with `### <emoji> Iteration n: focus` |
| CleanReview.AppendFileLines | src/claude4_autonomous_code_review/clean_review.py:221-222 | the file-list loop appends exactly the numbered file lines |
| CleanReview.AppendIterationLines | src/claude4_autonomous_code_review/clean_review.py:231-253 | the iteration loop appends exactly the iteration sections |
| CleanReview.GenerateMarkdown | src/claude4_autonomous_code_review/clean_review.py:195-268 | the report is the newline-join of header, file list, iteration sections and footer |
| CleanReview.MarkdownLines | src/claude4_autonomous_code_review/clean_review.py:195-268 | the model of the source function (no contract of its own); `MarkdownFiles` and `MarkdownSections` state its layout |
| CleanReview.Preview | src/claude4_autonomous_code_review/clean_review.py:317-321 | an analysis of at most 1000 characters is shown whole; a longer one shows its first 1000 characters followed by the count of the remaining ones |
| CleanReview.ApprovesSpec | src/claude4_autonomous_code_review/clean_review.py:332 | exactly the answers that are `y` or `Y` once stripped approve |
| CleanReview.DecisionsOf | src/claude4_autonomous_code_review/clean_review.py:329-335 | the decisions approve the fixes exactly when the answer approves |
| CleanReview.FixReportReadable | src/claude4_autonomous_code_review/clean_review.py:390-398 | the simple editor finds the generated fix text in the fix report, unchanged |
| CleanReview.HumanReview | src/claude4_autonomous_code_review/clean_review.py:286-426 | it reports "no review results" exactly when there are none, and "not approved" exactly when the answer does not approve; generated fixes are saved where the editor reads them; they are applied exactly when the second answer approves; the codebase changes only through that application |
| ModelClient.FirstTen | src/claude4_autonomous_code_review/claude4_client.py:157 | at most ten files, a prefix of those found, and all of them when there are at most ten |
| ModelClient.IdPrefixUnique | src/claude4_autonomous_code_review/claude4_client.py:55-56 | an id determines the number in its prefix |
| ModelClient.NextIdFresh | src/claude4_autonomous_code_review/claude4_client.py:55-56 | the next upload's id is not already in a numbered table, so ids never collide |
| ModelClient.UploadStepSpec | src/claude4_autonomous_code_review/claude4_client.py:41-59 | a missing path raises "File not found" and an unreadable file raises, both leaving the table unchanged; a successful upload adds exactly one entry, with the fresh id `file_<size>_<name>` holding the file's content; the numbering is preserved |
| ModelClient.UploadStep | src/claude4_autonomous_code_review/claude4_client.py:41-59 | the model of the source function (no contract of its own); `UploadStepSpec` states its effect |
| ModelClient.UploadStepsSpec | src/claude4_autonomous_code_review/claude4_client.py:157-164 | exactly the paths that exist and can be read are uploaded, in the order given; the k-th is stored under `file_<size+k>_<name>` with its content; the table gains exactly those ids at its end and stays numbered |
| ModelClient.Uploadable | src/claude4_autonomous_code_review/claude4_client.py:157-164 | the paths that upload, in order: at most as many as were given |
| ModelClient.RefPartsKnown | src/claude4_autonomous_code_review/claude4_client.py:70-78 | unknown ids are skipped; each known reference adds its header and then its content, in reference order |
| ModelClient.Known | src/claude4_autonomous_code_review/claude4_client.py:72-73 | the references kept are uploaded ids from the request, at most as many as were given |
| ModelClient.RefPartsSkipsUnknown | src/claude4_autonomous_code_review/claude4_client.py:72-76 | unknown ids contribute nothing to the context |
| ModelClient.RefPartsLayout | src/claude4_autonomous_code_review/claude4_client.py:72-76 | known references contribute two parts each: the `File:` header, then the file's content |
| ModelClient.ContextShape | src/claude4_autonomous_code_review/claude4_client.py:70-78 | the context starts with the task and contains every known reference's content |
| ModelClient.FirstRequest | src/claude4_autonomous_code_review/claude4_client.py:157-164 | the first request after the uploads: the task followed by the header and content of each uploaded file, in order (no contract of its own; `FirstRequestCarriesUploads` states it) |
| ModelClient.FirstRequestCarriesUploads | src/claude4_autonomous_code_review/claude4_client.py:61-78 | the first request starts with the task and contains the content of every file that uploaded |
| ModelClient.KnownAll | src/claude4_autonomous_code_review/claude4_client.py:70-78 | when every id is in the upload table, no reference is skipped |
| ModelClient.ContinueStepGrows | src/claude4_autonomous_code_review/claude4_client.py:109-130 | a continuation keeps the history as a prefix and adds to it |
| ModelClient.ContinueStep | src/claude4_autonomous_code_review/claude4_client.py:102-132 | the model of the source function (no contract of its own); `ContinueStepGrows` states how the history grows |
| ModelClient.ContinuationsUnfold | src/claude4_autonomous_code_review/claude4_client.py:220-247 | one loop step ends the loop on a raised call or a stop phrase, and otherwise records the reply and goes on |
| ModelClient.ContinuationsSpec | src/claude4_autonomous_code_review/claude4_client.py:220-247 | the loop ends exactly when the iterations run out, a reply asks to stop, or a call raises; replies are numbered consecutively; only the last may ask to stop; each recorded iteration adds two history entries and a failed call adds one |
| ModelClient.Continuations | src/claude4_autonomous_code_review/claude4_client.py:220-247 | the model of the source function (no contract of its own); `ContinuationsSpec` and `ContinuationsUnfold` state when it stops and what it records |
| ModelClient.Preview500 | src/claude4_autonomous_code_review/claude4_client.py:210 | a response longer than 500 characters shows its first 500 and `...`; a shorter one is shown whole |
| ModelClient.RunRecords | src/claude4_autonomous_code_review/claude4_client.py:226-233 | one iteration record per recorded reply, in order |
| ModelClient.Client.constructor | src/claude4_autonomous_code_review/claude4_client.py:32-37 | a new client has an empty upload table and an empty history |
| ModelClient.Client.UploadFile | src/claude4_autonomous_code_review/claude4_client.py:41-59 | the table is updated as `UploadStepSpec` describes; the history is unchanged |
| ModelClient.Client.BuildContext | src/claude4_autonomous_code_review/claude4_client.py:70-78 | the loop builds the newline-joined context parts |
| ModelClient.Client.CreateAnalysisMessage | src/claude4_autonomous_code_review/claude4_client.py:61-100 | a single-message request carries the context; on a reply exactly two turns (user, then assistant) are appended and the history is never reset; a raising call changes nothing |
| ModelClient.Client.ContinueSession | src/claude4_autonomous_code_review/claude4_client.py:102-132 | an empty history raises `ValueError` and changes nothing; otherwise the instruction and then the reply are appended |
| ModelClient.Client.UploadAll | src/claude4_autonomous_code_review/claude4_client.py:157-164 | the loop computes `UploadSteps`: the ids and paths of the uploads that succeeded, in order, and the table afterwards; the history is unchanged |
| ModelClient.Client.ContinueLoop | src/claude4_autonomous_code_review/claude4_client.py:220-247 | the loop computes the specified replies and history |
| ModelClient.Client.RunAutonomousCodeReview | src/claude4_autonomous_code_review/claude4_client.py:134-272 | the uploaded files are exactly those of the first ten found that exist and can be read, in order; an error is stored exactly when no iteration was recorded, and then the history is unchanged; the upload table is the one the upload fold leaves; the first request is `FirstRequest` of the task and the uploads, so it carries every uploaded file's content, and a raise of it is the stored error; otherwise the request and reply open the new history, iteration 1 is the first reply and the later ones the continuation loop's; iterations are numbered 1, 2, … and at most `max_iterations`; totals are the sums over the recorded iterations |
| ThreePhase.ReviewJsonShown | src/claude4_autonomous_code_review/three_phase_reviewer.py:99-113 | a phase-1 result is truthy, has every field phase 2 displays, and carries the reply as its analysis |
| ThreePhase.DecisionsDictReadable | src/claude4_autonomous_code_review/three_phase_reviewer.py:170-177 | the decisions approve exactly when the answer approves, and carry the stripped priority and notes |
| ThreePhase.Phase2Spec | src/claude4_autonomous_code_review/three_phase_reviewer.py:134-197 | without results phase 2 raises "no review results" and changes nothing; a given file replaces the results first; a failure never touches the decisions; a success returns the review and the decisions it stored |
| ThreePhase.Phase2 | src/claude4_autonomous_code_review/three_phase_reviewer.py:134-197 | the model of the source function (no contract of its own); `Phase2Spec` and `Phase2ShownSpec` state its gating |
| ThreePhase.Phase2ShownSpec | src/claude4_autonomous_code_review/three_phase_reviewer.py:145-197 | the same gating once the review results are in place |
| ThreePhase.FormatError | src/claude4_autonomous_code_review/three_phase_reviewer.py:153 | formatting a non-numeric cost with `.4f` raises Python's text for its kind: the `ValueError` text exactly for a string, the `TypeError` texts for `None`, lists and dicts |
| ThreePhase.ImplementationPromptQuotes | src/claude4_autonomous_code_review/three_phase_reviewer.py:222-240 | the fix request quotes the original analysis and the priority focus |
| ThreePhase.FinalResultsFields | src/claude4_autonomous_code_review/three_phase_reviewer.py:263-268 | the final result bundles the review results, the decisions and the applied fixes |
| ThreePhase.FixResultsFields | src/claude4_autonomous_code_review/three_phase_reviewer.py:246-257 | the applied fixes are marked human-approved and carry the model's reply |
| ThreePhase.Phase3ApplySpec | src/claude4_autonomous_code_review/three_phase_reviewer.py:212-281 | without decisions phase 3 raises "no human decisions"; decisions that do not approve give `not_approved` with no model call; the history changes only under an approval; a success bundles review, decisions and fixes marked human-approved |
| ThreePhase.Phase3Apply | src/claude4_autonomous_code_review/three_phase_reviewer.py:212-281 | the model of the source function (no contract of its own); `Phase3ApplySpec` and `Phase3ApplySession` state its cases |
| ThreePhase.Phase3ApplySession | src/claude4_autonomous_code_review/three_phase_reviewer.py:215-240 | the model is called only under an approval, and then the history grows |
| ThreePhase.Phase3Spec | src/claude4_autonomous_code_review/three_phase_reviewer.py:199-281 | a given file supplies both fields before the same checks run; a file that fails to load changes nothing |
| ThreePhase.Phase3 | src/claude4_autonomous_code_review/three_phase_reviewer.py:199-281 | the model of the source function (no contract of its own); `Phase3Spec` states how a loaded file feeds it |
| ThreePhase.Phase3OnDecisions | src/claude4_autonomous_code_review/three_phase_reviewer.py:170-177 | over the decisions phase 2 stores, the answer `y` sends the fix request and any other answer stops with `not_approved` |
| ThreePhase.PhasesInSequence | src/claude4_autonomous_code_review/three_phase_reviewer.py:32-281 | phase 2 accepts what phase 1 stored; with `y`, phase 3 sends the request and returns the reply as the implemented fixes; otherwise it stops without a request |
| ThreePhase.ThreePhaseReviewer.constructor | src/claude4_autonomous_code_review/three_phase_reviewer.py:27-30 | a new reviewer has a fresh client and no results or decisions |
| ThreePhase.ThreePhaseReviewer.Phase1Review | src/claude4_autonomous_code_review/three_phase_reviewer.py:32-132 | the client's upload table is the one the upload fold leaves; the request is `FirstRequest` of the analysis prompt and the uploads; a raising request fails with its error and leaves the history; a reply appends the request and the reply to the history, and the result is the review JSON of that reply unless the save fails; the results are stored only after a successful call and save; the decisions are never touched |
| ThreePhase.ThreePhaseReviewer.Phase2HumanReview | src/claude4_autonomous_code_review/three_phase_reviewer.py:134-197 | the method computes `Phase2` on the two fields |
| ThreePhase.ThreePhaseReviewer.Phase3ApplyFixes | src/claude4_autonomous_code_review/three_phase_reviewer.py:199-281 | the method computes `Phase3` on the two fields and the client's history; the upload table is unchanged |
| IterationPrompts.GetIterationPrompt | src/claude4_autonomous_code_review/iteration_prompts.py:117-135 | a prompt exists exactly for n ≥ 1; 1..10 give their table entry; later iterations give the Deep Dive template naming `ITERATION n: Deep Dive Analysis`; every prompt starts, after whitespace, with `ITERATION n:`; `max_iterations` is not used |
| IterationPrompts.LStripSkips | src/claude4_autonomous_code_review/iteration_prompts.py:5-115 | the indentation in front of a prompt's first word is exactly what `lstrip` removes |
| IterationPrompts.HeadingOf | src/claude4_autonomous_code_review/iteration_prompts.py:5-115 | each table entry 1..10, once left-stripped, starts with `ITERATION k:` |
| IterationPrompts.SectionHeading | src/claude4_autonomous_code_review/iteration_prompts.py:5-115 | table entry k starts, after its indentation, with `ITERATION k:` |
| IterationPrompts.DeepDiveHeading | src/claude4_autonomous_code_review/iteration_prompts.py:122-135 | the Deep Dive template starts with `ITERATION n:` and names the Deep Dive analysis |
| PerformanceDisaster.PerformanceNightmare.constructor | code_under_review/performance_disaster.py:9-14 | the fields start empty |
| PerformanceDisaster.PerformanceNightmare.AddItem | code_under_review/performance_disaster.py:16-23 | `data` stays duplicate-free; an absent item is appended and logged, a present one changes neither; `duplicate_storage[len(data)]` is overwritten every time |
| PerformanceDisaster.TriplicatesSpec | code_under_review/performance_disaster.py:25-35 | exactly the values occurring at least three times, each once, in the order of their first occurrences |
| PerformanceDisaster.Triplicates | code_under_review/performance_disaster.py:25-35 | the model of the source function (no contract of its own); `TriplicatesSpec` and `TriplicatesOrdered` state its result |
| PerformanceDisaster.TriplicatesOrdered | code_under_review/performance_disaster.py:25-35 | the duplicates list has no repeats and follows the order of first occurrence |
| PerformanceDisaster.PerformanceNightmare.ScanPairs | code_under_review/performance_disaster.py:27-34 | the loops over j and k for one i add `items[i]` exactly when it occurs at two other positions and is not yet listed |
| PerformanceDisaster.PerformanceNightmare.FindDuplicatesNightmare | code_under_review/performance_disaster.py:25-35 | the triple loop computes those triplicates |
| PerformanceDisaster.PerformanceNightmare.InefficientSort | code_under_review/performance_disaster.py:37-44 | the same list comes back, sorted in place in ascending order, as a permutation of the input |
| PerformanceDisaster.PerformanceNightmare.BubblePass | code_under_review/performance_disaster.py:40-43 | one pass of the inner loop carries the largest of the first m items to position m−1, keeps the sorted tail, and only permutes |
| PerformanceDisaster.NestedMatchesSpec | code_under_review/performance_disaster.py:46-55 | every quadruple of equal cells at distinct positions is listed, and only those, in lexicographic order |
| PerformanceDisaster.PerformanceNightmare.NestedLoopNightmare | code_under_review/performance_disaster.py:46-55 | the four nested loops compute those matches |
| PerformanceDisaster.MatchesIStep | code_under_review/performance_disaster.py:49-54 | one pass of the `i` loop appends exactly the matches of the cells of row `i` |
| PerformanceDisaster.MatchesJStep | code_under_review/performance_disaster.py:50-54 | one pass of the `j` loop appends exactly the matches of cell (i, j) |
| PerformanceDisaster.RowsSpec | code_under_review/performance_disaster.py:49-54 | concatenating rows, each holding in order the matches whose first index is that row, lists in lexicographic order exactly the matches whose first index is below `n` |
| PerformanceDisaster.FibAgrees | code_under_review/performance_disaster.py:70-74 | the doubly recursive definition equals the linear iteration from (0, 1), and it is never negative from 0 on |
| PerformanceDisaster.Fib | code_under_review/performance_disaster.py:70-74 | the model of the source function (no contract of its own); `FibAgrees` and `FibNonNegative` state its values |
| PerformanceDisaster.FibIterShift | code_under_review/performance_disaster.py:70-74 | stepping from two consecutive Fibonacci numbers k times reaches the number k places on |
| PerformanceDisaster.FibNonNegative | code_under_review/performance_disaster.py:70-74 | `fib` is never negative and never decreases on the naturals |
| PerformanceDisaster.IndicesOfSpec | code_under_review/performance_disaster.py:111-118 | exactly the indices holding the target, strictly ascending |
| PerformanceDisaster.IndicesOf | code_under_review/performance_disaster.py:111-118 | the model of the source function (no contract of its own); `IndicesOfSpec` states its result |
| PerformanceDisaster.PerformanceNightmare.InefficientSearch | code_under_review/performance_disaster.py:111-118 | the loop computes those indices |
| PerformanceDisaster.ProductsSpec | code_under_review/performance_disaster.py:120-128 | n·n products, entry i·n+j being the sum of the items up to i times the sum up to j |
| PerformanceDisaster.ProductRowsLength | code_under_review/performance_disaster.py:120-128 | the result has n·n entries |
| PerformanceDisaster.ProductRowsEntry | code_under_review/performance_disaster.py:120-128 | entry i·n + j is the prefix sum up to i times the prefix sum up to j |
| PerformanceDisaster.PerformanceNightmare.RedundantCalculations | code_under_review/performance_disaster.py:120-128 | the nested loops compute those products |
| PerformanceDisaster.InefficientDataProcessing | code_under_review/performance_disaster.py:210-234 | for a non-empty list: the count, a maximum and a minimum that occur in the list, and the sum |
| BugParadise.FactorialPositive | code_under_review/bug_paradise.py:28-33 | `factorial(n)` is at least 1 and at least n |
| BugParadise.FactorialMultiple | code_under_review/bug_paradise.py:28-33 | every k in 1..n divides `factorial(n)` |
| BugParadise.Factorial | code_under_review/bug_paradise.py:28-33 | the model of the source function (no contract of its own); `FactorialPositive` and `FactorialMultiple` state its values |
| BugParadise.ExtractNumbers | code_under_review/bug_paradise.py:92-98 | the loop returns the digit values of the text |
| BugParadise.DigitPositions | code_under_review/bug_paradise.py:92-98 | the values of exactly the digit characters, in text order |
| BugParadise.DigitsOf | code_under_review/bug_paradise.py:92-98 | the model of the source function (no contract of its own); `DigitPositions` states its result |
| BugParadise.WordPrefix | code_under_review/bug_paradise.py:108-111 | the longest prefix without whitespace: it stops at the first whitespace or at the end |
| BugParadise.FirstWordSpec | code_under_review/bug_paradise.py:108-111 | the first word exists exactly when some character is not whitespace; it is then the first maximal run without whitespace |
| BugParadise.GetFirstWord | code_under_review/bug_paradise.py:108-111 | the model of the source function (no contract of its own); `FirstWordSpec` and `WordPrefix` state its result |
| BugParadise.BuggySearch | code_under_review/bug_paradise.py:182-187 | -1 exactly when the target is absent, otherwise the index of its first occurrence |
| BugParadise.Iterate | code_under_review/bug_paradise.py:200-203 | a `for` loop over a list visits its items; over a number, boolean or None it raises `TypeError` |
| BugParadise.ItemNamesFails | code_under_review/bug_paradise.py:202-204 | once one item lacks a name, the whole walk fails |
| BugParadise.ItemNamesSpec | code_under_review/bug_paradise.py:202-204 | the item walk succeeds exactly when every item has a `name`, and returns those names in order |
| BugParadise.CategoryNamesSpec | code_under_review/bug_paradise.py:200-204 | the category walk succeeds exactly when every category yields its item names; then each category's names follow those of the earlier categories, and together they start the result |
| BugParadise.NestedNamesOfList | code_under_review/bug_paradise.py:198-204 | a well-formed `categories` list yields every item's name, categories outer and items inner |
| BugParadise.NestedNamesMissing | code_under_review/bug_paradise.py:198-204 | a missing `categories` key, or one holding a number, boolean or null, raises |
| BugParadise.ProcessNestedData | code_under_review/bug_paradise.py:198-204 | the nested loops compute those names or raise |
| BugParadise.MergeDictionaries | code_under_review/bug_paradise.py:212-215 | `dict1` is updated in place with `dict2` and returned itself |
| BugParadise.MergeSpec | code_under_review/bug_paradise.py:212-215 | afterwards the keys are the union of both dicts; `dict2`'s values win and `dict1`'s other values stay; `dict1`'s keys keep their order in front |
| BugParadise.PyDict.constructor | code_under_review/bug_paradise.py:212-215 | a dict object holds the given well-formed entries |
| BugParadise.GlobalState.constructor | code_under_review/bug_paradise.py:227-229 | the counter starts at 0 and the cache empty |
| BugParadise.GlobalState.UpdateGlobalState | code_under_review/bug_paradise.py:231-235 | the counter grows by `value` and only the entry for the new counter changes in the cache: one step of `Updates` |
| BugParadise.UpdatesAccumulate | code_under_review/bug_paradise.py:227-235 | after any run of updates the counter is the running sum of the values, the cache never loses a key, and the last value sits under the final counter |
| BugParadise.Updates | code_under_review/bug_paradise.py:227-235 | the model of the source function (no contract of its own); `UpdatesAccumulate` states the counter and cache after a run of updates |
| BugParadise.GetLastNItems | code_under_review/bug_paradise.py:238-240 | `items[-n:]`: the last n items for 0 < n ≤ len; everything for n > len and also for n == 0; a negative n drops the first -n items |
| BugParadise.LastZeroItemsKeepsAll | code_under_review/bug_paradise.py:238-240 | as written, the last 0 items of `[1, 2]` are both items |
| BugParadise.LastNItems | code_under_review/bug_paradise.py:238-240 | the corrected slice: a suffix of length min(n, len) |
| BugParadise.LastNItemsAgrees | code_under_review/bug_paradise.py:238-240 | the corrected slice agrees with `items[-n:]` for every positive n; only n == 0 separates them |
| CodeQuality.A.F | bad_code_bak/code_quality_nightmare.py:27-47 | `b` grows by the 100³ products i·j·k exactly when x, y and z are all non-zero; returns and stores 42x + 17y − 99z; the global `data` becomes `b` and the cache files the result under `last_calc` |
| CodeQuality.Globals.constructor | bad_code_bak/code_quality_nightmare.py:11-17 | the globals `data`, `cache` and `users` start empty |
| CodeQuality.A.constructor | bad_code_bak/code_quality_nightmare.py:21-25 | `b` starts empty and `c` at 0 |
| CodeQuality.CubeLength | bad_code_bak/code_quality_nightmare.py:35-38 | n outer iterations append 10000·n entries |
| CodeQuality.CubeEntry | bad_code_bak/code_quality_nightmare.py:35-38 | the appended block has a million entries, the one at 10000·i + 100·j + k being i·j·k |
| CodeQuality.UserManagerBad.constructor | bad_code_bak/code_quality_nightmare.py:51-55 | an empty manager with room for 1000 users |
| CodeQuality.UserManagerBad.AddUser | bad_code_bak/code_quality_nightmare.py:57-75 | the same new record is appended to `userList` and to the global `users`; `total_users` grows by one |
| CodeQuality.UserManagerBad.GetUserByEmail | bad_code_bak/code_quality_nightmare.py:77-82 | the first record with that address, or None exactly when there is none |
| CodeQuality.RemoveFirstSpec | bad_code_bak/code_quality_nightmare.py:84-89 | at most one record is removed, the first whose `id` matches |
| CodeQuality.RemoveFirst | bad_code_bak/code_quality_nightmare.py:84-89 | the model of the source function (no contract of its own); `RemoveFirstSpec` states what is removed |
| CodeQuality.FirstWithId | bad_code_bak/code_quality_nightmare.py:86-87 | the index the loop stops at: no earlier record has the id, and a record found there has it; `|list|` when none does |
| CodeQuality.RemoveFirstMiss | bad_code_bak/code_quality_nightmare.py:84-89 | when no record has the id, the list is unchanged |
| CodeQuality.RemoveFirstHit | bad_code_bak/code_quality_nightmare.py:84-89 | when record `i` is the first with the id, exactly that record is removed and the others keep their order |
| CodeQuality.UserManagerBad.DeleteUserById | bad_code_bak/code_quality_nightmare.py:84-89 | the list loses that record and `total_users` is not decremented |
| CodeQuality.DeleteNoneRemovesFirst | bad_code_bak/code_quality_nightmare.py:60-67 | records built by `AddUser` have no `id`, so deleting id None removes the first of them |
| CodeQuality.ValidateWellTyped | bad_code_bak/code_quality_nightmare.py:152-183 | on a well-typed user object, validation holds exactly when the name is non-empty, the email contains `@`, the age lies in 0..150 and the status is active or inactive |
| CodeQuality.ValidateMissing | bad_code_bak/code_quality_nightmare.py:152-183 | None is invalid, and an object lacking any of the four keys is invalid |
| CodeQuality.ValidateComplexUser | bad_code_bak/code_quality_nightmare.py:152-183 | the model of the source function (no contract of its own); `ValidateWellTyped` and `ValidateMissing` state when it holds |
| CodeQuality.ScoreType1 | bad_code_bak/code_quality_nightmare.py:196-206 | the score lies in 0..125 |
| CodeQuality.ScoresDiffer | bad_code_bak/code_quality_nightmare.py:208-236 | type 2 adds 15 and type 3 adds 30 for premium users; otherwise they equal type 1 |
| CodeQuality.ScoreType2 | bad_code_bak/code_quality_nightmare.py:208-221 | the model of the source function (no contract of its own); `ScoresDiffer` relates it to type 1 |
| CodeQuality.ScoreType3 | bad_code_bak/code_quality_nightmare.py:223-236 | the model of the source function (no contract of its own); `ScoresDiffer` relates it to type 1 |
| CodeQuality.UserNotificationEmailProcessor.constructor | bad_code_bak/code_quality_nightmare.py:341-345 | all four lists start empty |
| CodeQuality.UserNotificationEmailProcessor.AddUserAndSendWelcomeEmailAndCreateNotification | bad_code_bak/code_quality_nightmare.py:347-368 | users, emails, notifications and processed names each grow by exactly one; the new id is the previous user count plus one |

## Left out

- **The language model's API, prompt wording and float costs.** The API is a
  function parameter, and requests are built from abbreviated prompt texts
  (`ThreePhase.AnalysisPrompt`, `ThreePhase.ImplementationPrompt`, the
  initial prompt and instructions of `ModelClient`). The cost estimates are
  floating point: `_calculate_cost` and the cost lines of `clean_review.py`
  and `claude4_client.py` are parameters or left out.
- CleanReview.Iterations, CleanReview.RunIterativeReview: the replies are a
  function of the iteration number alone (`api: nat -> ApiResult`). So the
  clean reviewer's requests are not modelled: the `upload_file` calls
  (clean_review.py:55), the file ids passed to `create_analysis_message`
  (line 103), the history `continue_autonomous_session` sends (line 116) and
  the `get_iteration_prompt` text placed in each prompt (lines 84 and 107).
  The records and the report do not depend on them, since no record stores
  its prompt.
- **Regular-expression matching.** Header, fence, mention and declaration
  matching and `re.sub` come in as parameters. So the model does not capture:
  - that `re.sub` replaces every match;
  - that `re.sub` interprets backslashes in the new code.
- **File system, clock, input, logging and printing.**
  - JSON load/dump of reports, globbing and timestamps are parameters or left
    out.
  - The backup copies (`shutil.copy2`) and the backup directory are left out,
    and the model assumes every copy succeeds. In both editors the copy runs
    inside the per-file `try` (simple_file_editor.py:81-88 with 272-275,
    enhanced_file_editor.py:101-107 with 307-310): a copy that raises records
    `Error applying fixes to …` for that file and skips its write. The model
    writes such a file. Only a file whose `readError` is set is skipped that
    way.
  - `input()` answers are parameters. Logging and `print` are left out.
- **Python's object `.text` attribute on a fix list item.** A loaded report is
  JSON, so only the dict form `{'text': …}` can occur.
- **Unicode.** `str.lower`, `str.upper`, `isspace` and `isdigit` are modelled
  on ASCII (whitespace below U+0100). So is the regex class `\s` in the
  `_debug_patterns` header count, while the case-insensitive letters of
  `File:` there follow Python's `re.IGNORECASE`, `i` also matching `İ` and `ı`.
- **`clean_review.py`'s human review.**
  - Creating a fresh client and the fix-generation request are left out.
  - The extracted fix text is the parameter `fixContent`, and the simple
    editor is applied to it.
- **Module-level glue:**
  - the command-line entry points;
  - the demo script, the result viewer, the debug script and `apply_fixes.py`,
    which depends on a `file_editor` module that is not part of this model;
  - configuration and setup.
- **security_nightmare.py (both copies).** It consists of foreign calls (SQL
  strings, `subprocess`, `pickle`, hashing, `random`, HTTP requests).
- **Other functions of the example programs**, because they are floating point,
  random, I/O, network, time, `eval` or concurrency:
  - `memory_leak_function`, `string_concatenation_hell`,
    `database_n_plus_one_simulation`, `simulate_db_query`,
    `memory_inefficient_copy`, `nested_dictionary_hell`,
    `process_large_file_inefficiently`, `create_performance_problems`;
  - the other methods of `BuggyCalculator` (`divide`, `calculate_average`,
    `get_percentage`, `square_root`) and of `StringProcessor`
    (`split_and_clean`), and `DataProcessor`, `DateTimeProcessor`,
    `NetworkProcessor`, `MutableDefaultBug`, `MemoryLeakGenerator`,
    `ConcurrencyBugs`, `unsafe_cast`, `calculate_compound_interest`,
    `process_user_input`, `calculate_discount`;
  - `process_everything`, `do_stuff`, the `Processor` chain,
    `create_user_profile`, `add_numbers`, `old_calculation`, `unused_function`,
    `process_order`, `debug_heavy_function`.
- **Fields no modelled operation reads.** These are `a.d`, `a.e`, the cache of
  `PerformanceNightmare`, and the `created_at` clock reading of a user record,
  which is a parameter.
- **Names and paths.**
  - File names are compared literally, without path resolution. In the
    source, `./x.py` or `sub/../x.py` from a header reach the same file, and
    the same dict key, as `x.py`. In the model they are separate names that
    match no entry. An empty cleaned header name (`**File: file_1_**`) names the
    directory itself. It exists in the source, gets fixes and fails on reading
    into `errors`; the model emits nothing for it.
  - A root with exactly two leading slashes, which pathlib keeps as `//`, is
    not modelled.
- **Loaded JSON.**
  - `Common.Lookup` returns the first binding of a key that occurs twice in an
    object. `json.load` keeps the last one; the model's objects come from
    reports the tool wrote itself, which have no duplicate keys.
  - `Json` has no floating-point case. Phase 1 saves `cost_estimate` as a
    float; the model stores it as an integer number of cents, and
    `_debug_report_structure` would report its type as `float`.
  - A file's `readError` stands for any exception reading it raises, operating
    system and decoding errors alike. `_find_files_with_name` and
    `upload_file` read with `errors='ignore'`, so in the source a file that
    fails only on decoding is still searched for declarations and still
    uploaded, with its undecodable bytes dropped. The model skips it in both
    (`EnhancedEditor.FilesDeclaring`, `ModelClient.UploadStep`).
  - Looking a key up in a value that is not a dict raises `TypeError` in the
    source; the model records the same text as for a missing key.
  - `SimpleEditor.ExtractFixesText`, `SimpleEditor.SimpleApplyReport` and
    `EnhancedEditor.LocateFixes` take the loaded report as a JSON object (its
    list of fields). A report file whose top level is a list, a string, a
    number or `null` is not modelled. For such a report both editors'
    `apply_fixes_from_report` raise: the simple editor finds no text
    (every `current[key]` raises `TypeError` and is skipped) and then calls
    `report.keys()` (simple_file_editor.py:112-132 and 36-38); the
    enhanced editor raises at `report['applied_fixes']`,
    `report['generated_fixes']` or `report.keys()`
    (enhanced_file_editor.py:33-42).

Contracts stated deliberately weaker or narrower than the source:

- BugParadise.Factorial: requires `n >= 0`, because the source recurses
  without end on a negative argument.
- CodeQuality.ScoreType1: the input record has all four counters and the
  verified flag (`ScoreType2` and `ScoreType3` too). A missing key, which
  raises `KeyError` in the source, is not modelled.
- CodeQuality.ValidateComplexUser: `in`, `len` and comparisons are modelled
  on JSON values only. Exceptions of other Python types are one `None`.
- CodeQuality.UserNotificationEmailProcessor.AddUserAndSendWelcomeEmailAndCreateNotification:
  takes `name` and `email` as strings. The source indexes `user_data['name']`
  and `user_data['email']`, so a missing key (`KeyError`) is not modelled.
  Nor is a non-string name: the source then appends to `users`, `emails` and
  `notifications` before `.upper()` raises, leaving `processed_data` one
  entry short, which the model's invariant excludes.
- CodeQuality.A.F: takes integers. The source accepts any values, tests them
  for truth and multiplies them (`x * 42` repeats a string), which is not
  modelled.
- PerformanceDisaster.InefficientDataProcessing: requires a non-empty list,
  because the source raises `IndexError` on `data_list[0]` for an empty one.
- PerformanceDisaster.PerformanceNightmare.AddItem: items are integers, and
  the history line uses the time as a parameter.
- EnhancedEditor.UnwrapTextBlock: the round trip is proved only for texts
  without a backslash, because unescaping is not injective on them.
- SimpleEditor.FindMatchingFile: its contract only bounds the index; which
  file is chosen is stated by `PyStageUnreachable` and
  `EmptyNameMatchesFirst`.

## Findings

| source | as written | input that shows it | evidently intended | confidence | as-written member | corrected member |
|---|---|---|---|---|---|---|
| code_under_review/bug_paradise.py:238-240 | `get_last_n_items` returns `items[-n:]`, and `-0` is `0`, so `n == 0` returns the whole list | `items = [1, 2]`, `n = 0` gives `[1, 2]` | the last 0 items, i.e. `[]`; in general a suffix of length `min(n, len(items))` | high; not executed | BugParadise.LastZeroItemsKeepsAll | BugParadise.LastNItemsAgrees |

=== FILE: bug_paradise.dfy ===
/**
  The integer and string routines of the bug fixture: factorial, digit
  extraction, the first word, linear search, the nested-name walk, dictionary
  merging, the global counter and the last-items slice.
 */
module BugParadise {
  import opened Common

  // ---------------------------------------------------------------------------
  // BuggyCalculator.factorial
  // ---------------------------------------------------------------------------

  /** `factorial`: it recurses without end on a negative `n`, so the model requires `n >= 0`. */
  function Factorial(n: int): int
    requires n >= 0
    decreases n
  {
    if n == 0 then 1 else n * Factorial(n - 1)
  }

  /** `factorial(n)` is at least 1 and at least `n`. */
  lemma {:induction false} FactorialPositive(n: nat)
    ensures Factorial(n) >= 1 && Factorial(n) >= n
  {
    if n > 0 {
      FactorialPositive(n - 1);
    }
  }

  /** Every `k` in `1..n` divides `factorial(n)`; the quotient is returned. */
  lemma {:induction false} FactorialMultiple(n: nat, k: nat) returns (q: int)
    requires 1 <= k <= n
    ensures Factorial(n) == k * q
  {
    if k == n {
      q := Factorial(n - 1);
    } else {
      var q' := FactorialMultiple(n - 1, k);
      q := n * q';
      assert n * (k * q') == k * (n * q');
    }
  }

  // ---------------------------------------------------------------------------
  // StringProcessor.extract_numbers and get_first_word
  // ---------------------------------------------------------------------------

  /** The values of the digit characters of `text`, in order. */
  function DigitsOf(text: string): seq<nat>
  {
    if text == [] then []
    else DigitsOf(text[..|text| - 1]) + (if IsDigit(text[|text| - 1]) then [DigitValue(text[|text| - 1])] else [])
  }

  /** `extract_numbers`. */
  method ExtractNumbers(text: string) returns (numbers: seq<nat>)
    ensures numbers == DigitsOf(text)
  {
    numbers := [];
    var i := 0;
    while i < |text|
      invariant 0 <= i <= |text|
      invariant numbers == DigitsOf(text[..i])
    {
      assert text[..i + 1][..i] == text[..i];
      if IsDigit(text[i]) {
        numbers := numbers + [DigitValue(text[i])];
      }
      i := i + 1;
    }
    assert text[..i] == text;
  }

  /**
    `idx` lists the digit positions of `text`, ascending, and entry `k` of
    `DigitsOf(text)` is the value of the digit at `idx[k]`.
   */
  ghost predicate DigitIndex(text: string, idx: seq<nat>)
  {
    && |idx| == |DigitsOf(text)|
    && (forall k :: 0 <= k < |idx| ==> idx[k] < |text| && IsDigit(text[idx[k]]) && DigitsOf(text)[k] == DigitValue(text[idx[k]]))
    && (forall a, b :: 0 <= a < b < |idx| ==> idx[a] < idx[b])
    && (forall i :: 0 <= i < |text| && IsDigit(text[i]) ==> i in idx)
  }

  /** The digit positions after one more character: its own is added when it is a digit. */
  function NextDigitIndex(text: string, prev: seq<nat>): seq<nat>
    requires text != []
  {
    if IsDigit(text[|text| - 1]) then prev + [|text| - 1] else prev
  }

  /** The values clause of `DigitIndex` carries over one more character. */
  lemma DigitValuesStep(text: string, prev: seq<nat>)
    requires text != []
    requires |prev| == |DigitsOf(text[..|text| - 1])|
    requires forall k :: 0 <= k < |prev| ==>
               (prev[k] < |text| - 1 && IsDigit(text[..|text| - 1][prev[k]])
                && DigitsOf(text[..|text| - 1])[k] == DigitValue(text[..|text| - 1][prev[k]]))
    ensures var idx := NextDigitIndex(text, prev);
            && |idx| == |DigitsOf(text)|
            && forall k :: 0 <= k < |idx| ==> idx[k] < |text| && IsDigit(text[idx[k]]) && DigitsOf(text)[k] == DigitValue(text[idx[k]])
  {
    var init := text[..|text| - 1];
    var idx := NextDigitIndex(text, prev);
    assert DigitsOf(text) == DigitsOf(init) + (if IsDigit(text[|text| - 1]) then [DigitValue(text[|text| - 1])] else []);
    forall k | 0 <= k < |idx|
      ensures idx[k] < |text| && IsDigit(text[idx[k]]) && DigitsOf(text)[k] == DigitValue(text[idx[k]])
    {
      if k < |prev| {
        assert idx[k] == prev[k] && DigitsOf(text)[k] == DigitsOf(init)[k];
        assert text[prev[k]] == init[prev[k]];
      }
    }
  }

  /** The positions stay ascending. */
  lemma DigitOrderStep(text: string, prev: seq<nat>)
    requires text != []
    requires forall k :: 0 <= k < |prev| ==> prev[k] < |text| - 1
    requires forall a, b :: 0 <= a < b < |prev| ==> prev[a] < prev[b]
    ensures var idx := NextDigitIndex(text, prev);
            forall a, b :: 0 <= a < b < |idx| ==> idx[a] < idx[b]
  {
  }

  /** Every digit position stays listed. */
  lemma DigitCoverStep(text: string, prev: seq<nat>)
    requires text != []
    requires forall i :: 0 <= i < |text| - 1 && IsDigit(text[..|text| - 1][i]) ==> i in prev
    ensures var idx := NextDigitIndex(text, prev);
            forall i :: 0 <= i < |text| && IsDigit(text[i]) ==> i in idx
  {
    var init := text[..|text| - 1];
    var idx := NextDigitIndex(text, prev);
    forall i | 0 <= i < |text| && IsDigit(text[i]) ensures i in idx {
      if i < |text| - 1 {
        assert init[i] == text[i];
      } else {
        assert idx[|prev|] == i;
      }
    }
  }

  /** Appending one character extends the digit positions by its own, when it is a digit. */
  lemma DigitIndexStep(text: string, prev: seq<nat>) returns (idx: seq<nat>)
    requires text != [] && DigitIndex(text[..|text| - 1], prev)
    ensures DigitIndex(text, idx)
  {
    DigitValuesStep(text, prev);
    DigitOrderStep(text, prev);
    DigitCoverStep(text, prev);
    idx := NextDigitIndex(text, prev);
  }

  /**
    `extract_numbers` returns the value of each digit of `text` and nothing
    else, in order: entry `k` is the value of the character at `idx[k]`, the
    positions ascend, and every digit position is among them.
   */
  lemma {:induction false} DigitPositions(text: string) returns (idx: seq<nat>)
    ensures |idx| == |DigitsOf(text)|
    ensures forall k :: 0 <= k < |idx| ==> idx[k] < |text| && IsDigit(text[idx[k]]) && DigitsOf(text)[k] == DigitValue(text[idx[k]])
    ensures forall a, b :: 0 <= a < b < |idx| ==> idx[a] < idx[b]
    ensures forall i :: 0 <= i < |text| && IsDigit(text[i]) ==> i in idx
  {
    if text == [] {
      idx := [];
    } else {
      var prev := DigitPositions(text[..|text| - 1]);
      idx := DigitIndexStep(text, prev);
    }
    assert DigitIndex(text, idx);
  }

  /** The longest prefix of `s` without whitespace. */
  function WordPrefix(s: string): (w: string)
    ensures |w| <= |s| && w == s[..|w|]
    ensures forall k :: 0 <= k < |w| ==> !IsSpace(w[k])
    ensures |w| == |s| || IsSpace(s[|w|])
  {
    if s == [] || IsSpace(s[0]) then [] else [s[0]] + WordPrefix(s[1..])
  }

  /** `str.split()` with no separator: the maximal runs of non-whitespace characters. */
  function Words(s: string): seq<string>
    decreases |s|
  {
    LStripSpec(s);
    var t := LStrip(s);
    if t == [] then []
    else
      var w := WordPrefix(t);
      [w] + Words(t[|w|..])
  }

  /** `get_first_word`: `words[0]` raises `IndexError` when there is no word, which is `None` here. */
  function GetFirstWord(sentence: string): Option<string>
  {
    var words := Words(sentence);
    if words == [] then None else Some(words[0])
  }

  /**
    The first word exists exactly when some character is not whitespace; it
    is then a non-empty run without whitespace, preceded only by whitespace
    and followed by whitespace or the end.
   */
  lemma FirstWordSpec(sentence: string) returns (start: nat)
    ensures GetFirstWord(sentence).None? <==> forall i :: 0 <= i < |sentence| ==> IsSpace(sentence[i])
    ensures GetFirstWord(sentence).Some? ==>
              var w := GetFirstWord(sentence).value;
              w != [] && start + |w| <= |sentence| && sentence[start..start + |w|] == w
              && (forall k :: 0 <= k < start ==> IsSpace(sentence[k]))
              && (forall k :: 0 <= k < |w| ==> !IsSpace(w[k]))
              && (start + |w| == |sentence| || IsSpace(sentence[start + |w|]))
  {
    LStripSpec(sentence);
    var t := LStrip(sentence);
    start := |sentence| - |t|;
    if t == [] {
      assert forall i :: 0 <= i < |sentence| ==> IsSpace(sentence[i]);
    } else {
      assert !IsSpace(sentence[start]) by {
        assert t[0] == sentence[start];
      }
      var w := WordPrefix(t);
      assert GetFirstWord(sentence) == Some(w);
      assert sentence[start..start + |w|] == w by {
        assert t[..|w|] == sentence[start..][..|w|];
      }
      if start + |w| < |sentence| {
        assert sentence[start + |w|] == t[|w|];
      }
    }
  }

  // ---------------------------------------------------------------------------
  // buggy_search
  // ---------------------------------------------------------------------------

  /** `buggy_search`: the first index holding `target`, or -1 when there is none. */
  method BuggySearch(data: seq<int>, target: int) returns (r: int)
    ensures r == -1 <==> target !in data
    ensures r != -1 ==> 0 <= r < |data| && data[r] == target && target !in data[..r]
  {
    var i := 0;
    while i < |data|
      invariant 0 <= i <= |data|
      invariant target !in data[..i]
    {
      if data[i] == target {
        return i;
      }
      assert data[..i + 1] == data[..i] + [data[i]];
      i := i + 1;
    }
    assert data[..i] == data;
    return -1;
  }

  // ---------------------------------------------------------------------------
  // process_nested_data
  // ---------------------------------------------------------------------------

  /**
    Iterating a loaded value: a list yields its items, an object its keys, a
    string its characters; any other value raises `TypeError` (`None`).
   */
  function Iterate(j: Json): (r: Option<seq<Json>>)
    ensures j.JArr? ==> r == Some(j.items)
    ensures j.JNull? || j.JBool? || j.JInt? ==> r.None?
  {
    match j
    case JArr(items) => Some(items)
    case JObj(fields) => Some(seq(|fields|, i requires 0 <= i < |fields| => JStr(fields[i].0)))
    case JStr(s) => Some(seq(|s|, i requires 0 <= i < |s| => JStr([s[i]])))
    case _ => None
  }

  /** `item['name']` for the first `n` items; a missing key or a non-object raises (`None`). */
  function ItemNames(items: seq<Json>, n: nat): Option<seq<Json>>
    requires n <= |items|
  {
    if n == 0 then Some([])
    else
      match ItemNames(items, n - 1)
      case None => None
      case Some(prev) =>
        match Index(items[n - 1], "name")
        case None => None
        case Some(name) => Some(prev + [name])
  }

  /** The names of one category's items, when `category['items']` exists, iterates and every item has a name. */
  function CategoryItems(category: Json): Option<seq<Json>>
  {
    match Index(category, "items")
    case None => None
    case Some(its) =>
      match Iterate(its)
      case None => None
      case Some(items) => ItemNames(items, |items|)
  }

  /** The names of the first `n` categories, outer loop over categories, inner over items. */
  function CategoryNames(cats: seq<Json>, n: nat): Option<seq<Json>>
    requires n <= |cats|
  {
    if n == 0 then Some([])
    else
      match CategoryNames(cats, n - 1)
      case None => None
      case Some(prev) =>
        match CategoryItems(cats[n - 1])
        case None => None
        case Some(names) => Some(prev + names)
  }

  /** `process_nested_data`'s result; `None` stands for the `KeyError` or `TypeError` it raises. */
  function NestedNames(data: Json): Option<seq<Json>>
  {
    match Index(data, "categories")
    case None => None
    case Some(c) =>
      match Iterate(c)
      case None => None
      case Some(cats) => CategoryNames(cats, |cats|)
  }

  /** `process_nested_data`. */
  method ProcessNestedData(data: Json) returns (r: Option<seq<Json>>)
    ensures r == NestedNames(data)
  {
    var categories := Index(data, "categories");
    if categories.None? {
      return None;
    }
    var cats := Iterate(categories.value);
    if cats.None? {
      return None;
    }
    var result: seq<Json> := [];
    var i := 0;
    while i < |cats.value|
      invariant 0 <= i <= |cats.value|
      invariant CategoryNames(cats.value, i) == Some(result)
    {
      var names := CollectCategory(cats.value[i], result);
      if names.None? {
        CategoryNamesFails(cats.value, i + 1, |cats.value|);
        return None;
      }
      result := names.value;
      i := i + 1;
    }
    return Some(result);
  }

  /** One pass of the outer loop: `category['items']`, iterated, each item's name appended to `result`. */
  method CollectCategory(category: Json, result: seq<Json>) returns (r: Option<seq<Json>>)
    ensures r == match CategoryItems(category) case None => None case Some(names) => Some(result + names)
  {
    var itemsField := Index(category, "items");
    if itemsField.None? {
      return None;
    }
    var items := Iterate(itemsField.value);
    if items.None? {
      return None;
    }
    r := CollectNames(items.value, result);
  }

  /** The inner loop of `process_nested_data`: appends each item's name to `result`. */
  method CollectNames(items: seq<Json>, result: seq<Json>) returns (r: Option<seq<Json>>)
    ensures r == match ItemNames(items, |items|) case None => None case Some(names) => Some(result + names)
  {
    var acc := result;
    var k := 0;
    while k < |items|
      invariant 0 <= k <= |items|
      invariant ItemNames(items, k).Some? && acc == result + ItemNames(items, k).value
    {
      var name := Index(items[k], "name");
      if name.None? {
        ItemNamesFails(items, k + 1, |items|);
        return None;
      }
      acc := acc + [name.value];
      k := k + 1;
    }
    return Some(acc);
  }

  /** Once an item has failed, the walk stays failed. */
  lemma {:induction false} ItemNamesFails(items: seq<Json>, k: nat, n: nat)
    requires k <= n <= |items| && ItemNames(items, k).None?
    ensures ItemNames(items, n).None?
    decreases n - k
  {
    if k < n {
      ItemNamesFails(items, k + 1, n);
    }
  }

  /** Once a category has failed, the walk stays failed. */
  lemma {:induction false} CategoryNamesFails(cats: seq<Json>, k: nat, n: nat)
    requires k <= n <= |cats| && CategoryNames(cats, k).None?
    ensures CategoryNames(cats, n).None?
    decreases n - k
  {
    if k < n {
      CategoryNamesFails(cats, k + 1, n);
    }
  }

  /**
    The item walk succeeds exactly when every item is an object with a
    `name`, and then returns those names in item order.
   */
  lemma {:induction false} ItemNamesSpec(items: seq<Json>, n: nat)
    requires n <= |items|
    ensures ItemNames(items, n).Some? <==> forall k :: 0 <= k < n ==> Index(items[k], "name").Some?
    ensures ItemNames(items, n).Some? ==>
              |ItemNames(items, n).value| == n &&
              forall k :: 0 <= k < n ==> ItemNames(items, n).value[k] == Index(items[k], "name").value
  {
    if n > 0 {
      ItemNamesSpec(items, n - 1);
      if ItemNames(items, n - 1).None? {
        assert !(forall k :: 0 <= k < n - 1 ==> Index(items[k], "name").Some?);
      }
    }
  }

  /**
    The category walk succeeds exactly when every category yields its item
    names; the names of each category then follow those of the earlier ones,
    and all of them start the result.
   */
  lemma {:induction false} CategoryNamesSpec(cats: seq<Json>, n: nat)
    requires n <= |cats|
    ensures CategoryNames(cats, n).Some? <==> forall c :: 0 <= c < n ==> CategoryItems(cats[c]).Some?
    ensures CategoryNames(cats, n).Some? ==>
              forall c :: 0 <= c < n ==>
                CategoryNames(cats, c).Some? && CategoryItems(cats[c]).Some?
                && CategoryNames(cats, c).value + CategoryItems(cats[c]).value <= CategoryNames(cats, n).value
  {
    if n > 0 {
      CategoryNamesSpec(cats, n - 1);
      if CategoryNames(cats, n).Some? {
        var prev := CategoryNames(cats, n - 1).value;
        assert CategoryNames(cats, n).value == prev + CategoryItems(cats[n - 1]).value;
        forall c | 0 <= c < n - 1
          ensures CategoryNames(cats, c).value + CategoryItems(cats[c]).value <= CategoryNames(cats, n).value
        {
          assert CategoryNames(cats, c).value + CategoryItems(cats[c]).value <= prev;
        }
      }
    }
  }

  /** A data object whose `categories` list is well formed yields the names of all items, category by category. */
  lemma NestedNamesOfList(fields: seq<(string, Json)>, cats: seq<Json>)
    requires Lookup(fields, "categories") == Some(JArr(cats))
    ensures NestedNames(JObj(fields)) == CategoryNames(cats, |cats|)
    ensures NestedNames(JObj(fields)).Some? <==> forall c :: 0 <= c < |cats| ==> CategoryItems(cats[c]).Some?
  {
    CategoryNamesSpec(cats, |cats|);
  }

  /** Without a `categories` key, or when it is a number, a boolean or null, the walk raises. */
  lemma NestedNamesMissing(data: Json)
    requires Index(data, "categories").None? || Index(data, "categories").value.JInt?
             || Index(data, "categories").value.JBool? || Index(data, "categories").value.JNull?
    ensures NestedNames(data).None?
  {
  }

  // ---------------------------------------------------------------------------
  // merge_dictionaries and update_global_state
  // ---------------------------------------------------------------------------

  /** A Python dictionary object, which `merge_dictionaries` changes in place. */
  class PyDict {
    var entries: ODict<Json>

    ghost predicate Valid()
      reads this
    {
      entries.Valid()
    }

    constructor(entries0: ODict<Json>)
      requires entries0.Valid()
      ensures Valid() && entries == entries0
    {
      entries := entries0;
    }
  }

  /** `merge_dictionaries`: `dict1.update(dict2)`, returning `dict1` itself. */
  method MergeDictionaries(dict1: PyDict, dict2: PyDict) returns (r: PyDict)
    requires dict1.Valid() && dict2.Valid()
    modifies dict1
    ensures r == dict1 && dict1.Valid()
    ensures dict1.entries == Update(old(dict1.entries), old(dict2.entries))
  {
    UpdateOverwrites(dict1.entries, dict2.entries);
    dict1.entries := Update(dict1.entries, dict2.entries);
    r := dict1;
  }

  /**
    After the merge, the keys are those of both dictionaries, `dict2`'s values
    win, `dict1`'s other values stay, and `dict1`'s keys keep their order in
    front of the keys only `dict2` had.
   */
  lemma MergeSpec(d1: ODict<Json>, d2: ODict<Json>)
    requires d1.Valid() && d2.Valid()
    ensures Update(d1, d2).Valid()
    ensures forall k :: k in Update(d1, d2).vals <==> k in d1.vals || k in d2.vals
    ensures forall k :: k in d2.vals ==> Update(d1, d2).vals[k] == d2.vals[k]
    ensures forall k :: k in d1.vals && k !in d2.vals ==> Update(d1, d2).vals[k] == d1.vals[k]
    ensures d1.keys <= Update(d1, d2).keys
  {
    UpdateOverwrites(d1, d2);
  }

  /** The module globals `GLOBAL_COUNTER` and `GLOBAL_CACHE`. */
  class GlobalState {
    var counter: int
    var cache: map<int, int>

    constructor()
      ensures counter == 0 && cache == map[]
    {
      counter := 0;
      cache := map[];
    }

    /** `update_global_state`: adds `value` to the counter and files `value` under the new counter. */
    method UpdateGlobalState(value: int)
      modifies this
      ensures counter == old(counter) + value
      ensures cache == old(cache)[counter := value]
      ensures (counter, cache) == Updates(old(counter), old(cache), [value])
    {
      counter := counter + value;
      cache := cache[counter := value];
    }
  }

  /** The counter and the cache after `update_global_state` was called with each of `values` in turn. */
  function Updates(counter: int, cache: map<int, int>, values: seq<int>): (int, map<int, int>)
  {
    if values == [] then (counter, cache)
    else
      var prev := Updates(counter, cache, values[..|values| - 1]);
      var c := prev.0 + values[|values| - 1];
      (c, prev.1[c := values[|values| - 1]])
  }

  /**
    After any run of updates the counter is the running sum, the cache is
    never cleared (no key is ever dropped), and the last value sits under the
    final counter.
   */
  lemma {:induction false} UpdatesAccumulate(counter: int, cache: map<int, int>, values: seq<int>)
    ensures Updates(counter, cache, values).0 == counter + Sum(values)
    ensures cache.Keys <= Updates(counter, cache, values).1.Keys
    ensures values != [] ==>
              Updates(counter, cache, values).0 in Updates(counter, cache, values).1
              && Updates(counter, cache, values).1[Updates(counter, cache, values).0] == values[|values| - 1]
  {
    if values != [] {
      UpdatesAccumulate(counter, cache, values[..|values| - 1]);
    }
  }

  // ---------------------------------------------------------------------------
  // get_last_n_items
  // ---------------------------------------------------------------------------

  /** Python's `s[start:]` for an integer `start`, negative values counting from the end. */
  function SliceFrom<T>(s: seq<T>, start: int): seq<T>
  {
    if start < 0 then s[(if |s| + start < 0 then 0 else |s| + start)..]
    else s[(if start > |s| then |s| else start)..]
  }

  /**
    `get_last_n_items` as written, `items[-n:]`: the last `n` items for
    `0 < n <= len`, all of them for `n > len`, all of them again for
    `n == 0`, and all but the first `-n` for negative `n`.
   */
  function GetLastNItems<T>(items: seq<T>, n: int): (r: seq<T>)
    ensures 0 < n <= |items| ==> |r| == n && r == items[|items| - n..]
    ensures n > |items| ==> r == items
    ensures n == 0 ==> r == items
    ensures n < 0 ==> r == items[(if -n > |items| then |items| else -n)..]
  {
    SliceFrom(items, -n)
  }

  /** As written, asking for the last 0 items of `[1, 2]` returns both. */
  lemma LastZeroItemsKeepsAll()
    ensures GetLastNItems([1, 2], 0) == [1, 2]
  {
  }

  /** The last `n` items, never more than there are: none for `n == 0`. */
  function LastNItems<T>(items: seq<T>, n: nat): (r: seq<T>)
    ensures |r| == (if n < |items| then n else |items|)
    ensures r == items[|items| - |r|..]
  {
    items[(if n < |items| then |items| - n else 0)..]
  }

  /** The corrected slice agrees with `items[-n:]` for every positive `n`, and only `n == 0` separates them. */
  lemma LastNItemsAgrees<T>(items: seq<T>, n: nat)
    ensures n > 0 ==> LastNItems(items, n) == GetLastNItems(items, n)
    ensures n == 0 ==> LastNItems(items, n) == [] && (items != [] ==> GetLastNItems(items, n) != [])
  {
  }
}

=== FILE: clean_review.dfy ===
/**
  The iterative reviewer: a fixed run of `max_iterations` model calls, one per
  focus area, whose replies are recorded, summed up, joined into one analysis
  and rendered as a markdown report; and the human step that previews the
  analysis, asks for approval and, if given, writes a fix report in the shape
  the simple editor reads and optionally applies it.

  The model is an opaque function: `api(i)` is what the request of iteration
  `i` returns, a message or a raised exception.
 */
module CleanReview {
  import opened Common
  import opened Workspace
  import opened SimpleEditor
  import opened ModelClient

  // ---------------------------------------------------------------------------
  // Focus areas and their emoji
  // ---------------------------------------------------------------------------

  /** The `focus_areas` dict of iterations 1 to 10, in order. */
  const FocusAreas: seq<string> := [
    "Security & Critical Bugs",
    "Performance & Resources",
    "Input Validation & Data Flow",
    "Error Handling & Edge Cases",
    "Architecture & Design",
    "Concurrency & Thread Safety",
    "Configuration & Environment",
    "Integration & API Security",
    "Business Logic & Domain Rules",
    "Comprehensive Risk Assessment"]

  /** `focus_areas.get(i, f"Deep Analysis {i}")`. */
  function FocusOf(i: int): (r: string)
    ensures !(1 <= i <= 10) ==> r == "Deep Analysis " + IntToString(i)
  {
    if 1 <= i <= |FocusAreas| then FocusAreas[i - 1] else "Deep Analysis " + IntToString(i)
  }

  /**
    `_get_emoji`: the emoji of the first keyword found in the lower-cased
    focus, in a fixed order, or a memo when none is.
   */
  function Emoji(focus: string): string
  {
    var f := Lower(focus);
    if Contains(f, "security") then "🔒"
    else if Contains(f, "performance") then "⚡"
    else if Contains(f, "input") || Contains(f, "validation") then "🔍"
    else if Contains(f, "error") then "🐛"
    else if Contains(f, "architecture") then "🏗️"
    else if Contains(f, "concurrency") then "⚖️"
    else if Contains(f, "configuration") then "⚙️"
    else if Contains(f, "integration") || Contains(f, "api") then "🌐"
    else if Contains(f, "business") then "💼"
    else if Contains(f, "comprehensive") then "🎯"
    else "📝"
  }

  /**
    The first keyword wins: the lock exactly when "security" occurs, the
    bolt exactly when "performance" does and "security" does not, and the
    memo exactly when no keyword occurs. So focus 8, "Integration & API
    Security", gets the lock of its "security" and not the globe its
    "integration" and "api" would give.
   */
  lemma EmojiKeywordOrder(focus: string)
    ensures var r := Emoji(focus);
            && (r == "🔒" <==> Contains(Lower(focus), "security"))
            && (r == "⚡" <==> !Contains(Lower(focus), "security") && Contains(Lower(focus), "performance"))
            && (r == "📝" <==>
                  !Contains(Lower(focus), "security") && !Contains(Lower(focus), "performance")
                  && !Contains(Lower(focus), "input") && !Contains(Lower(focus), "validation")
                  && !Contains(Lower(focus), "error") && !Contains(Lower(focus), "architecture")
                  && !Contains(Lower(focus), "concurrency") && !Contains(Lower(focus), "configuration")
                  && !Contains(Lower(focus), "integration") && !Contains(Lower(focus), "api")
                  && !Contains(Lower(focus), "business") && !Contains(Lower(focus), "comprehensive"))
  {
  }

  // ---------------------------------------------------------------------------
  // The iteration loop
  // ---------------------------------------------------------------------------

  /** One entry of `iterations_data`; the timestamp is left out. */
  datatype IterationRecord = IterationRecord(iteration: nat, focus: string, promptTokens: nat, completionTokens: nat, response: string)

  function Record(i: nat, m: Message): IterationRecord
  {
    IterationRecord(i, FocusOf(i), PromptTokens(m), CompletionTokens(m), m.content)
  }

  /**
    The records of iterations 1 to `n`, or None when one of the requests
    raises: nothing in `run_iterative_review` catches it.
   */
  function Iterations(api: nat -> ApiResult, n: nat): Option<seq<IterationRecord>>
  {
    if n == 0 then Some([])
    else
      match Iterations(api, n - 1)
      case None => None
      case Some(rs) =>
        match api(n)
        case Raised(_) => None
        case Replied(m) => Some(rs + [Record(n, m)])
  }

  /**
    The run completes exactly when no request raises, and then holds one
    record per iteration, numbered 1 to `n` in order, each with its focus and
    its reply's content and token counts.
   */
  lemma {:induction false} IterationsSpec(api: nat -> ApiResult, n: nat)
    ensures Iterations(api, n).Some? <==> forall i :: 1 <= i <= n ==> api(i).Replied?
    ensures Iterations(api, n).Some? ==>
              var rs := Iterations(api, n).value;
              |rs| == n && forall k :: 0 <= k < n ==> rs[k] == Record(k + 1, api(k + 1).message)
  {
    IterationsComplete(api, n);
    if Iterations(api, n).Some? {
      IterationsLength(api, n);
      forall k | 0 <= k < n ensures Iterations(api, n).value[k] == Record(k + 1, api(k + 1).message) {
        IterationsAt(api, n, k);
      }
    }
  }

  lemma {:induction false} IterationsComplete(api: nat -> ApiResult, n: nat)
    ensures Iterations(api, n).Some? <==> forall i :: 1 <= i <= n ==> api(i).Replied?
  {
    if n > 0 {
      IterationsComplete(api, n - 1);
      if Iterations(api, n - 1).Some? && api(n).Replied? {
        forall i | 1 <= i <= n ensures api(i).Replied? {
          if i < n {
            assert 1 <= i <= n - 1;
          }
        }
      }
    }
  }

  lemma {:induction false} IterationsLength(api: nat -> ApiResult, n: nat)
    requires Iterations(api, n).Some?
    ensures |Iterations(api, n).value| == n
  {
    if n > 0 {
      IterationsLength(api, n - 1);
    }
  }

  lemma {:induction false} IterationsAt(api: nat -> ApiResult, n: nat, k: nat)
    requires Iterations(api, n).Some? && k < n
    ensures k < |Iterations(api, n).value| && api(k + 1).Replied?
    ensures Iterations(api, n).value[k] == Record(k + 1, api(k + 1).message)
  {
    IterationsLength(api, n);
    IterationsLength(api, n - 1);
    var rs := Iterations(api, n - 1).value;
    assert Iterations(api, n).value == rs + [Record(n, api(n).message)];
    if k < n - 1 {
      IterationsAt(api, n - 1, k);
    }
  }

  /** The loop of `run_iterative_review` over `range(1, max_iterations + 1)`. */
  method RunIterations(api: nat -> ApiResult, maxIterations: nat) returns (r: Option<seq<IterationRecord>>)
    ensures r == Iterations(api, maxIterations)
  {
    var rs: seq<IterationRecord> := [];
    var i := 1;
    while i <= maxIterations
      invariant 1 <= i <= maxIterations + 1
      invariant Iterations(api, i - 1) == Some(rs)
    {
      var reply := api(i);
      if reply.Raised? {
        IterationsRaise(api, i, maxIterations);
        return None;
      }
      rs := rs + [Record(i, reply.message)];
      i := i + 1;
    }
    return Some(rs);
  }

  /** Once a request raises, no longer run completes. */
  lemma {:induction false} IterationsRaise(api: nat -> ApiResult, i: nat, n: nat)
    requires 1 <= i <= n && api(i).Raised?
    ensures Iterations(api, n).None?
    decreases n
  {
    if n > i {
      IterationsRaise(api, i, n - 1);
    }
  }

  /** The sum of the prompt tokens of some records. */
  function TotalPrompt(rs: seq<IterationRecord>): nat
  {
    if rs == [] then 0 else TotalPrompt(rs[..|rs| - 1]) + rs[|rs| - 1].promptTokens
  }

  function TotalCompletion(rs: seq<IterationRecord>): nat
  {
    if rs == [] then 0 else TotalCompletion(rs[..|rs| - 1]) + rs[|rs| - 1].completionTokens
  }

  /** The input tokens the replies to requests 1 to `n` report, a reply without usage counting 0. */
  function ReportedInput(api: nat -> ApiResult, n: nat): nat
  {
    if n == 0 then 0
    else ReportedInput(api, n - 1) + (if api(n).Replied? then PromptTokens(api(n).message) else 0)
  }

  function ReportedOutput(api: nat -> ApiResult, n: nat): nat
  {
    if n == 0 then 0
    else ReportedOutput(api, n - 1) + (if api(n).Replied? then CompletionTokens(api(n).message) else 0)
  }

  /** A completed run's token totals are the sums of what its replies report. */
  lemma TotalsOfRun(api: nat -> ApiResult, n: nat)
    requires Iterations(api, n).Some?
    ensures TotalPrompt(Iterations(api, n).value) == ReportedInput(api, n)
    ensures TotalCompletion(Iterations(api, n).value) == ReportedOutput(api, n)
  {
    IterationsSpec(api, n);
    var rs := Iterations(api, n).value;
    forall i | 1 <= i <= n
      ensures api(i).Replied?
      ensures rs[i - 1].promptTokens == PromptTokens(api(i).message)
      ensures rs[i - 1].completionTokens == CompletionTokens(api(i).message)
    {
      assert rs[i - 1] == Record(i, api(i).message);
    }
    TotalsOfRecords(rs, api, n);
  }

  /** Records carrying the token counts of replies 1 to `n` total what those replies report. */
  lemma {:induction false} TotalsOfRecords(rs: seq<IterationRecord>, api: nat -> ApiResult, n: nat)
    requires |rs| == n
    requires forall i :: 1 <= i <= n ==>
               api(i).Replied? &&
               rs[i - 1].promptTokens == PromptTokens(api(i).message) &&
               rs[i - 1].completionTokens == CompletionTokens(api(i).message)
    ensures TotalPrompt(rs) == ReportedInput(api, n)
    ensures TotalCompletion(rs) == ReportedOutput(api, n)
  {
    if n > 0 {
      var init := rs[..n - 1];
      forall i | 1 <= i <= n - 1
        ensures api(i).Replied?
        ensures init[i - 1].promptTokens == PromptTokens(api(i).message)
        ensures init[i - 1].completionTokens == CompletionTokens(api(i).message)
      {
        assert init[i - 1] == rs[i - 1];
      }
      TotalsOfRecords(init, api, n - 1);
    }
  }

  // ---------------------------------------------------------------------------
  // The combined analysis
  // ---------------------------------------------------------------------------

  /** One iteration's part of `comprehensive_analysis`. */
  function Section(r: IterationRecord): string
  {
    "=== ITERATION " + Dec(r.iteration) + ": " + r.focus + " ===\n" + r.response
  }

  function Sections(rs: seq<IterationRecord>): (r: seq<string>)
    ensures |r| == |rs| && forall k :: 0 <= k < |rs| ==> r[k] == Section(rs[k])
  {
    seq(|rs|, k requires 0 <= k < |rs| => Section(rs[k]))
  }

  /** `comprehensive_analysis`: the sections joined by blank lines, in iteration order. */
  function AllAnalysis(rs: seq<IterationRecord>): string
  {
    Join("\n\n", Sections(rs))
  }

  /** Every iteration's heading and response appear in the analysis, and the first one starts it. */
  lemma AnalysisHasEverySection(rs: seq<IterationRecord>)
    ensures forall k :: 0 <= k < |rs| ==> Contains(AllAnalysis(rs), Section(rs[k]))
    ensures |rs| > 0 ==> StartsWith(AllAnalysis(rs), Section(rs[0]))
  {
    forall k | 0 <= k < |rs| ensures Contains(AllAnalysis(rs), Section(rs[k])) {
      JoinHasPart("\n\n", Sections(rs), k);
    }
    if |rs| > 1 {
      var ss := Sections(rs);
      assert AllAnalysis(rs) == ss[0] + ("\n\n" + Join("\n\n", ss[1..]));
    }
  }

  // ---------------------------------------------------------------------------
  // The review results
  // ---------------------------------------------------------------------------

  /**
    The `review_results` dict. The cost estimate is floating-point and comes
    in already formatted, as do the timestamps and the duration.
   */
  datatype ReviewResults = ReviewResults(
    codebasePath: string,
    reviewGoals: string,
    maxIterations: nat,
    actualIterations: nat,
    filesAnalyzed: seq<string>,
    modelUsed: string,
    iterations: seq<IterationRecord>,
    analysis: string,
    totalInput: nat,
    totalOutput: nat,
    costText: string,
    duration: string)

  /** `run_iterative_review` up to the saved reports, or None when a request raises. */
  method RunIterativeReview(codebasePath: string, reviewGoals: string, maxIterations: nat, found: seq<string>,
                            model: string, api: nat -> ApiResult, costText: string, duration: string)
    returns (r: Option<ReviewResults>)
    ensures r.Some? <==> forall i :: 1 <= i <= maxIterations ==> api(i).Replied?
    ensures r.Some? ==>
              && r.value.actualIterations == |r.value.iterations| == r.value.maxIterations == maxIterations
              && (forall k :: 0 <= k < maxIterations ==>
                    r.value.iterations[k].iteration == k + 1 && r.value.iterations[k].focus == FocusOf(k + 1)
                    && r.value.iterations[k].response == api(k + 1).message.content)
              && r.value.totalInput == ReportedInput(api, maxIterations)
              && r.value.totalOutput == ReportedOutput(api, maxIterations)
              && r.value.analysis == AllAnalysis(r.value.iterations)
              && r.value.filesAnalyzed == FirstTen(found)
  {
    IterationsSpec(api, maxIterations);
    var run := RunIterations(api, maxIterations);
    if run.None? {
      return None;
    }
    var rs := run.value;
    TotalsOfRun(api, maxIterations);
    var totalIn := TotalPrompt(rs);
    var totalOut := TotalCompletion(rs);
    r := Some(ReviewResults(codebasePath, reviewGoals, maxIterations, |rs|, FirstTen(found), model, rs,
                            AllAnalysis(rs), totalIn, totalOut, costText, duration));
  }

  // ---------------------------------------------------------------------------
  // The markdown report
  // ---------------------------------------------------------------------------

  /** The lines before the file list. */
  function HeaderLines(res: ReviewResults, generated: string): (r: seq<string>)
    ensures |r| == 17
  {
    [ "# 🔍 Iterative Code Review Report",
      "",
      "**Generated:** " + generated,
      "**Codebase:** `" + BaseName(res.codebasePath) + "`",
      "**Model:** " + res.modelUsed,
      "**Iterations:** " + Dec(res.actualIterations) + "/" + Dec(res.maxIterations),
      "**Cost:** $" + res.costText,
      "**Duration:** " + res.duration,
      "",
      "---",
      "",
      "## 🎯 Review Goals",
      "",
      "> " + res.reviewGoals,
      "",
      "## 📁 Files Analyzed",
      "" ]
  }

  /** The file list, numbered from 1. */
  function FileLine(k: nat, path: string): string
  {
    Dec(k + 1) + ". `" + BaseName(path) + "`"
  }

  function FileLines(files: seq<string>): (r: seq<string>)
    ensures |r| == |files| && forall k :: 0 <= k < |files| ==> r[k] == FileLine(k, files[k])
  {
    seq(|files|, k requires 0 <= k < |files| => FileLine(k, files[k]))
  }

  const MidLines: seq<string> := ["", "## 🔄 Iteration Summary", ""]

  /** The heading line of one iteration's section. */
  function IterationHeading(r: IterationRecord): string
  {
    "### " + Emoji(r.focus) + " Iteration " + Dec(r.iteration) + ": " + r.focus
  }

  /** The thirteen lines of one iteration's section. */
  function IterationBlock(r: IterationRecord): (b: seq<string>)
    ensures |b| == 13 && b[0] == IterationHeading(r)
  {
    [ IterationHeading(r),
      "",
      "**Tokens:** " + Thousands(r.promptTokens) + " input → " + Thousands(r.completionTokens) + " output",
      "",
      "<details>",
      "<summary>View detailed findings from Iteration " + Dec(r.iteration) + "</summary>",
      "",
      "```",
      r.response,
      "```",
      "",
      "</details>",
      "" ]
  }

  function IterationLines(rs: seq<IterationRecord>): (r: seq<string>)
    ensures |r| == 13 * |rs|
  {
    if rs == [] then [] else IterationLines(rs[..|rs| - 1]) + IterationBlock(rs[|rs| - 1])
  }

  /** Thirteen lines per iteration, the k-th section starting with the k-th heading. */
  lemma {:induction false} IterationLinesSpec(rs: seq<IterationRecord>)
    ensures forall k :: 0 <= k < |rs| ==> IterationLines(rs)[13 * k] == IterationHeading(rs[k])
  {
    if rs != [] {
      var init := rs[..|rs| - 1];
      IterationLinesSpec(init);
      forall k | 0 <= k < |rs| ensures IterationLines(rs)[13 * k] == IterationHeading(rs[k]) {
        if k < |rs| - 1 {
          assert rs[k] == init[k];
        }
      }
    }
  }

  function FooterLines(res: ReviewResults): (r: seq<string>)
    ensures |r| == 9
  {
    [ "---",
      "",
      "## 📊 Summary",
      "",
      "- **Total Tokens:** " + Thousands(res.totalInput) + " input → " + Thousands(res.totalOutput) + " output",
      "- **Total Cost:** $" + res.costText,
      "- **Analysis Duration:** " + res.duration,
      "",
      "*Report generated by Clean Iterative Code Review System*" ]
  }

  /** The `lines` of `_generate_markdown`. */
  function MarkdownLines(res: ReviewResults, generated: string): seq<string>
  {
    HeaderLines(res, generated) + FileLines(res.filesAnalyzed) + MidLines + IterationLines(res.iterations) + FooterLines(res)
  }

  lemma IndexInMiddle(a: seq<string>, b: seq<string>, c: seq<string>, k: nat)
    requires k < |b|
    ensures (a + b + c)[|a| + k] == b[k]
  {
  }

  /** The markdown lists the analysed files by name, numbered from 1, right after the 17 header lines. */
  lemma MarkdownFiles(res: ReviewResults, generated: string)
    ensures forall k :: 0 <= k < |res.filesAnalyzed| ==>
              MarkdownLines(res, generated)[17 + k] == Dec(k + 1) + ". `" + BaseName(res.filesAnalyzed[k]) + "`"
  {
    var head := HeaderLines(res, generated);
    var files := FileLines(res.filesAnalyzed);
    var tail := MidLines + IterationLines(res.iterations) + FooterLines(res);
    assert MarkdownLines(res, generated) == head + files + tail;
    forall k | 0 <= k < |res.filesAnalyzed| ensures (head + files + tail)[17 + k] == FileLine(k, res.filesAnalyzed[k]) {
      IndexInMiddle(head, files, tail, k);
    }
  }

  /**
    The markdown has one section per iteration, in order, each opening with
    the iteration's heading (its emoji, number and focus) and 13 lines long,
    after the header, the file list and 3 more lines.
   */
  lemma MarkdownSections(res: ReviewResults, generated: string)
    ensures forall k :: 0 <= k < |res.iterations| ==>
              MarkdownLines(res, generated)[20 + |res.filesAnalyzed| + 13 * k] == IterationHeading(res.iterations[k])
  {
    IterationLinesSpec(res.iterations);
    var head := HeaderLines(res, generated) + FileLines(res.filesAnalyzed) + MidLines;
    var body := IterationLines(res.iterations);
    var tail := FooterLines(res);
    assert MarkdownLines(res, generated) == head + body + tail;
    forall k | 0 <= k < |res.iterations| ensures (head + body + tail)[|head| + 13 * k] == IterationHeading(res.iterations[k]) {
      IndexInMiddle(head, body, tail, 13 * k);
    }
  }

  /** The file-list loop of `_generate_markdown`. */
  method AppendFileLines(lines0: seq<string>, files: seq<string>) returns (lines: seq<string>)
    ensures lines == lines0 + FileLines(files)
  {
    lines := lines0;
    var i := 0;
    while i < |files|
      invariant 0 <= i <= |files|
      invariant lines == lines0 + FileLines(files[..i])
    {
      assert FileLines(files[..i + 1]) == FileLines(files[..i]) + [FileLine(i, files[i])];
      lines := lines + [FileLine(i, files[i])];
      i := i + 1;
    }
    assert files[..i] == files;
  }

  lemma IterationLinesStep(rs: seq<IterationRecord>, j: nat)
    requires j < |rs|
    ensures IterationLines(rs[..j + 1]) == IterationLines(rs[..j]) + IterationBlock(rs[j])
  {
    assert rs[..j + 1][..j] == rs[..j];
  }

  /** The iteration loop of `_generate_markdown`. */
  method AppendIterationLines(lines0: seq<string>, rs: seq<IterationRecord>) returns (lines: seq<string>)
    ensures lines == lines0 + IterationLines(rs)
  {
    lines := lines0;
    var j := 0;
    while j < |rs|
      invariant 0 <= j <= |rs|
      invariant lines == lines0 + IterationLines(rs[..j])
    {
      IterationLinesStep(rs, j);
      var block := IterationBlock(rs[j]);
      ConcatAssoc(lines0, IterationLines(rs[..j]), block);
      lines := lines + block;
      j := j + 1;
    }
    assert rs[..j] == rs;
  }

  /** `_generate_markdown`: builds the lines with `extend` and `append`, then joins them. */
  method GenerateMarkdown(res: ReviewResults, generated: string) returns (md: string)
    ensures md == Join("\n", MarkdownLines(res, generated))
  {
    var lines := HeaderLines(res, generated);
    lines := AppendFileLines(lines, res.filesAnalyzed);
    lines := lines + MidLines;
    lines := AppendIterationLines(lines, res.iterations);
    lines := lines + FooterLines(res);
    md := Join("\n", lines);
  }

  // ---------------------------------------------------------------------------
  // Human review and fix generation
  // ---------------------------------------------------------------------------

  /** What is shown of the analysis: all of it up to 1000 characters, else the first 1000 and a count of the rest. */
  function Preview(analysis: string): (r: string)
    ensures |analysis| <= 1000 ==> r == analysis
    ensures |analysis| > 1000 ==>
              StartsWith(r, analysis[..1000])
              && r[1000..] == "\n... (" + Dec(|analysis| - 1000) + " more characters)"
  {
    if |analysis| > 1000 then analysis[..1000] + "\n... (" + Dec(|analysis| - 1000) + " more characters)"
    else analysis
  }

  /** `input(...).strip().lower() == 'y'`. */
  predicate Approves(answer: string)
  {
    Lower(Strip(answer)) == "y"
  }

  /** Exactly the answers that are `y` or `Y` once surrounding whitespace is removed approve. */
  lemma ApprovesSpec(answer: string)
    ensures Approves(answer) <==> Strip(answer) == "y" || Strip(answer) == "Y"
  {
    var s := Strip(answer);
    if Approves(answer) {
      assert |s| == 1 && LowerChar(s[0]) == 'y';
      assert s == [s[0]];
    }
  }

  /** The raw lines typed at the four prompts, and at the final "apply?" prompt. */
  datatype Answers = Answers(name: string, approve: string, priority: string, notes: string, apply: string)

  datatype Decisions = Decisions(timestamp: string, reviewerName: string, approveFixes: bool, priorityFocus: string, notes: string)

  function DecisionsOf(a: Answers, timestamp: string): (d: Decisions)
    ensures d.approveFixes <==> Approves(a.approve)
  {
    Decisions(timestamp, Strip(a.name), Approves(a.approve), Strip(a.priority), Strip(a.notes))
  }

  function DecisionsJson(d: Decisions): Json
  {
    JObj([("timestamp", JStr(d.timestamp)), ("reviewer_name", JStr(d.reviewerName)),
          ("approve_fixes", JBool(d.approveFixes)), ("priority_focus", JStr(d.priorityFocus)), ("notes", JStr(d.notes))])
  }

  /** The fix report written for the editor, with the generated text under `applied_fixes.generated_fixes`. */
  function FixReport(reviewName: string, d: Decisions, timestamp: string, fixContent: string): seq<(string, Json)>
  {
    [("original_review", JStr(reviewName)), ("human_decisions", DecisionsJson(d)), ("timestamp", JStr(timestamp)),
     ("applied_fixes", JObj([("generated_fixes", JStr(fixContent))]))]
  }

  /** The simple editor finds the generated fix text in the fix report, unchanged. */
  lemma FixReportReadable(reviewName: string, d: Decisions, timestamp: string, fixContent: string, pyStr: Json -> string)
    ensures ExtractFixesText(FixReport(reviewName, d, timestamp, fixContent), pyStr) == Some(JStr(fixContent))
  {
    var report := FixReport(reviewName, d, timestamp, fixContent);
    var af := [("generated_fixes", JStr(fixContent))];
    LookupAt(af, 0);
    LookupAt(report, 3);
    NestedStringWins(report, af, fixContent, pyStr);
  }

  datatype HumanOutcome =
    | NoReviewResults
    | NotApproved(decisions: Decisions)
    | FixesGenerated(decisions: Decisions, fixReport: seq<(string, Json)>, applied: Option<SimpleOutcome>)

  /**
    `human_review_and_apply_fixes` on the chosen review results (None when
    there are none): the outcome and the codebase afterwards. `fixContent`
    is the text extracted from the model's fix reply; `scanner` and `pyStr`
    are the simple editor's parameters.
   */
  function HumanReview(results: Option<ReviewResults>, reviewName: string, answers: Answers, timestamp: string,
                       fixContent: string, dir: seq<SourceFile>, scanner: string -> SimpleScan, pyStr: Json -> string)
    : (r: (HumanOutcome, seq<SourceFile>))
    ensures r.0.NoReviewResults? <==> results.None?
    ensures r.0.NotApproved? <==> results.Some? && !Approves(answers.approve)
    ensures r.0.FixesGenerated? ==> ExtractFixesText(r.0.fixReport, pyStr) == Some(JStr(fixContent))
    ensures r.0.FixesGenerated? ==> (r.0.applied.Some? <==> Approves(answers.apply))
    ensures !r.0.NotApproved? && !r.0.NoReviewResults? ==> r.0.decisions.approveFixes
    ensures !(r.0.FixesGenerated? && r.0.applied.Some?) ==> r.1 == dir
    ensures SameNames(r.1, dir)
  {
    match results
    case None => (NoReviewResults, dir)
    case Some(res) =>
      var d := DecisionsOf(answers, timestamp);
      if !d.approveFixes then (NotApproved(d), dir)
      else
        var report := FixReport(reviewName, d, timestamp, fixContent);
        FixReportReadable(reviewName, d, timestamp, fixContent, pyStr);
        if Approves(answers.apply) then
          var applied := SimpleApplyReport(report, res.codebasePath, dir, scanner, pyStr);
          (FixesGenerated(d, report, Some(applied.0)), applied.1)
        else (FixesGenerated(d, report, None), dir)
  }
}

=== FILE: client.dfy ===
/**
  The model client: a table of uploaded files keyed by generated ids, the
  conversation history it keeps between calls, and the autonomous review loop
  built on them.

  The model is an opaque function from the message list of a request to a
  reply or a raised exception.
 */
module ModelClient {
  import opened Common
  import opened Workspace

  datatype Usage = Usage(inputTokens: nat, outputTokens: nat)

  /** A model reply: its content as `str(message.content)` renders it, and its token usage if it has one. */
  datatype Message = Message(content: string, usage: Option<Usage>)

  datatype ApiResult = Replied(message: Message) | Raised(error: string)

  datatype Role = User | Assistant

  /** One entry of `session_context`. */
  datatype Turn = Turn(role: Role, content: string)

  /** Input tokens of a reply; a reply without usage counts 0. */
  function PromptTokens(m: Message): nat
  {
    match m.usage
    case Some(u) => u.inputTokens
    case None => 0
  }

  function CompletionTokens(m: Message): nat
  {
    match m.usage
    case Some(u) => u.outputTokens
    case None => 0
  }

  /** `list(codebase_path.rglob("*.py"))[:10]`. */
  function FirstTen(found: seq<string>): (r: seq<string>)
    ensures |r| <= 10 && r <= found
    ensures |found| <= 10 ==> r == found
  {
    if |found| <= 10 then found else found[..10]
  }

  // ---------------------------------------------------------------------------
  // Uploaded-file ids
  // ---------------------------------------------------------------------------

  /** The id `upload_file` gives the `n`-th upload of a file called `name`. */
  function FileId(n: nat, name: string): string
  {
    "file_" + Dec(n) + "_" + name
  }

  /** The part of an id that carries its number. */
  function IdPrefix(n: nat): string
  {
    "file_" + Dec(n) + "_"
  }

  /** The number in an id prefix is determined by the string: two prefixes of one string carry the same number. */
  lemma IdPrefixUnique(s: string, i: nat, n: nat)
    requires StartsWith(s, IdPrefix(i)) && StartsWith(s, IdPrefix(n))
    ensures i == n
  {
    var di, dn := Dec(i), Dec(n);
    var t := s[5..];
    assert t == di + ("_" + s[5 + |di| + 1..]) by {
      assert s[..|IdPrefix(i)|] == IdPrefix(i);
    }
    assert t == dn + ("_" + s[5 + |dn| + 1..]) by {
      assert s[..|IdPrefix(n)|] == IdPrefix(n);
    }
    LeadingDigitsOf(di, "_" + s[5 + |di| + 1..]);
    LeadingDigitsOf(dn, "_" + s[5 + |dn| + 1..]);
    assert di == t[..|di|] == dn;
    DecInjective(i, n);
  }

  /** Every id in the table starts with its own position: the i-th upload's id is `file_i_...`. */
  predicate IdsNumbered(keys: seq<string>)
  {
    forall i :: 0 <= i < |keys| ==> StartsWith(keys[i], IdPrefix(i))
  }

  /** The id of the next upload is not yet in a numbered table. */
  lemma NextIdFresh(keys: seq<string>, name: string)
    requires IdsNumbered(keys)
    ensures FileId(|keys|, name) !in keys
  {
    var id := FileId(|keys|, name);
    assert StartsWith(id, IdPrefix(|keys|)) by {
      assert id == IdPrefix(|keys|) + name;
    }
    if id in keys {
      var i :| 0 <= i < |keys| && keys[i] == id;
      IdPrefixUnique(id, i, |keys|);
    }
  }

  datatype Upload = Uploaded(id: string) | UploadFailed(error: string)

  /**
    `upload_file` on the table: a missing path raises `FileNotFoundError`
    and a failed read raises too, both leaving the table as it was;
    otherwise the content is stored under the next id.
   */
  function UploadStep(table: ODict<string>, path: string, fs: seq<SourceFile>): (r: (Upload, ODict<string>))
  {
    match FindFile(fs, path)
    case None => (UploadFailed("File not found: " + path), table)
    case Some(i) =>
      match fs[i].readError
      case Some(e) => (UploadFailed(e), table)
      case None =>
        var id := FileId(|table.keys|, BaseName(path));
        (Uploaded(id), Put(table, id, fs[i].content))
  }

  /**
    A successful upload adds exactly one entry, under a fresh id numbered by
    the table's size and ending in the file's name, holding the file's
    content; a failed one changes nothing. The numbering is preserved.
   */
  lemma UploadStepSpec(table: ODict<string>, path: string, fs: seq<SourceFile>)
    requires table.Valid() && IdsNumbered(table.keys)
    ensures var (u, t) := UploadStep(table, path, fs);
            && t.Valid() && IdsNumbered(t.keys)
            && (u.UploadFailed? ==> t == table)
            && (u.UploadFailed? <==> !Exists(fs, path) || fs[FindFile(fs, path).value].readError.Some?)
            && (!Exists(fs, path) ==> u == UploadFailed("File not found: " + path))
            && (u.Uploaded? ==>
                  && u.id == FileId(|table.keys|, BaseName(path))
                  && u.id !in table.keys
                  && t.keys == table.keys + [u.id]
                  && t.vals == table.vals[u.id := fs[FindFile(fs, path).value].content])
  {
    var (u, t) := UploadStep(table, path, fs);
    if u.Uploaded? {
      NextIdFresh(table.keys, BaseName(path));
      forall i | 0 <= i < |t.keys| ensures StartsWith(t.keys[i], IdPrefix(i)) {
        if i == |table.keys| {
          assert t.keys[i] == IdPrefix(i) + BaseName(path);
        } else {
          assert t.keys[i] == table.keys[i];
        }
      }
    }
  }

  /** Whether `upload_file` succeeds on `path`: the file exists and can be read. */
  predicate CanUpload(fs: seq<SourceFile>, path: string)
  {
    match FindFile(fs, path)
    case None => false
    case Some(i) => fs[i].readError.None?
  }

  /** The paths that upload, in order. */
  function Uploadable(paths: seq<string>, fs: seq<SourceFile>): (r: seq<string>)
    ensures |r| <= |paths|
  {
    if paths == [] then []
    else
      var p := paths[|paths| - 1];
      Uploadable(paths[..|paths| - 1], fs) + (if CanUpload(fs, p) then [p] else [])
  }

  /** Every path that uploads is one of the paths given, and can be uploaded. */
  lemma {:induction false} UploadableIn(paths: seq<string>, fs: seq<SourceFile>, k: nat)
    requires k < |Uploadable(paths, fs)|
    ensures Uploadable(paths, fs)[k] in paths && CanUpload(fs, Uploadable(paths, fs)[k])
    decreases |paths|
  {
    var init := paths[..|paths| - 1];
    if k < |Uploadable(init, fs)| {
      UploadableIn(init, fs, k);
      assert Uploadable(paths, fs)[k] == Uploadable(init, fs)[k];
      assert Uploadable(init, fs)[k] in init;
    }
  }

  /**
    The upload loop of `run_autonomous_code_review` on the table: the ids and
    paths of the uploads that succeeded, in order, and the table afterwards.
   */
  function UploadSteps(table: ODict<string>, paths: seq<string>, fs: seq<SourceFile>)
    : (r: (seq<string>, seq<string>, ODict<string>))
  {
    if paths == [] then ([], [], table)
    else
      var prev := UploadSteps(table, paths[..|paths| - 1], fs);
      var p := paths[|paths| - 1];
      var step := UploadStep(prev.2, p, fs);
      if step.0.Uploaded? then (prev.0 + [step.0.id], prev.1 + [p], step.1) else (prev.0, prev.1, step.1)
  }

  /**
    The k-th id numbers the k-th uploaded path by the table's old size plus
    k, and holds that file's content.
   */
  ghost predicate UploadsStored(size: nat, ids: seq<string>, up: seq<string>, vals: map<string, string>, fs: seq<SourceFile>)
  {
    && |ids| == |up|
    && forall k :: 0 <= k < |ids| ==>
         && Exists(fs, up[k])
         && ids[k] == FileId(size + k, BaseName(up[k]))
         && ids[k] in vals && vals[ids[k]] == fs[FindFile(fs, up[k]).value].content
  }

  /**
    What an upload run has recorded: the table stays valid and numbered, and
    gains exactly the ids, at its end, each stored as `UploadsStored` says.
   */
  ghost predicate UploadsRecorded(table: ODict<string>, ids: seq<string>, up: seq<string>, t: ODict<string>, fs: seq<SourceFile>)
  {
    && t.Valid() && IdsNumbered(t.keys)
    && t.keys == table.keys + ids
    && UploadsStored(|table.keys|, ids, up, t.vals, fs)
  }

  /** Storing one more upload under a fresh id, numbered next, keeps the earlier ones stored. */
  lemma StoredAppend(size: nat, ids: seq<string>, up: seq<string>, vals: map<string, string>,
                     id: string, p: string, fs: seq<SourceFile>)
    requires UploadsStored(size, ids, up, vals, fs)
    requires id !in ids
    requires Exists(fs, p) && id == FileId(size + |ids|, BaseName(p))
    ensures UploadsStored(size, ids + [id], up + [p], vals[id := fs[FindFile(fs, p).value].content], fs)
  {
    var ids', up' := ids + [id], up + [p];
    var vals' := vals[id := fs[FindFile(fs, p).value].content];
    forall k | 0 <= k < |ids'|
      ensures Exists(fs, up'[k]) && ids'[k] == FileId(size + k, BaseName(up'[k]))
              && ids'[k] in vals' && vals'[ids'[k]] == fs[FindFile(fs, up'[k]).value].content
    {
      if k < |ids| {
        assert ids'[k] == ids[k] && up'[k] == up[k];
        assert ids[k] != id;
      } else {
        assert ids'[k] == id && up'[k] == p;
      }
    }
  }

  /** One more upload keeps what the run has recorded. */
  lemma UploadsRecordedStep(table: ODict<string>, ids: seq<string>, up: seq<string>, t: ODict<string>, p: string, fs: seq<SourceFile>)
    requires UploadsRecorded(table, ids, up, t, fs)
    ensures var step := UploadStep(t, p, fs);
            && (step.0.Uploaded? <==> CanUpload(fs, p))
            && (step.0.Uploaded? ==> UploadsRecorded(table, ids + [step.0.id], up + [p], step.1, fs))
            && (step.0.UploadFailed? ==> UploadsRecorded(table, ids, up, step.1, fs))
  {
    UploadStepSpec(t, p, fs);
    var step := UploadStep(t, p, fs);
    if step.0.Uploaded? {
      assert |t.keys| == |table.keys| + |ids|;
      assert step.0.id !in ids by {
        assert forall x :: x in ids ==> x in t.keys;
      }
      StoredAppend(|table.keys|, ids, up, t.vals, step.0.id, p, fs);
      assert step.1.keys == table.keys + (ids + [step.0.id]);
    }
  }

  /**
    Exactly the paths that exist and can be read are uploaded, in the order
    given; the k-th of them is stored under the id numbered by the table's
    size plus k, holding its content; the table gains exactly those ids, at
    its end, and stays numbered.
   */
  lemma {:induction false} UploadStepsSpec(table: ODict<string>, paths: seq<string>, fs: seq<SourceFile>)
    requires table.Valid() && IdsNumbered(table.keys)
    ensures var (ids, up, t) := UploadSteps(table, paths, fs);
            && t.Valid() && IdsNumbered(t.keys)
            && up == Uploadable(paths, fs)
            && |ids| == |up|
            && t.keys == table.keys + ids
            && forall k :: 0 <= k < |ids| ==>
                 && Exists(fs, up[k])
                 && ids[k] == FileId(|table.keys| + k, BaseName(up[k]))
                 && ids[k] in t.vals && t.vals[ids[k]] == fs[FindFile(fs, up[k]).value].content
    decreases |paths|
  {
    if paths == [] {
      assert UploadsRecorded(table, [], [], table, fs);
    } else {
      UploadStepsSpec(table, paths[..|paths| - 1], fs);
      var prev := UploadSteps(table, paths[..|paths| - 1], fs);
      UploadsRecordedStep(table, prev.0, prev.1, prev.2, paths[|paths| - 1], fs);
    }
    var r := UploadSteps(table, paths, fs);
    assert UploadsRecorded(table, r.0, r.1, r.2, fs);
  }

  // ---------------------------------------------------------------------------
  // The request context
  // ---------------------------------------------------------------------------

  /** The header that introduces a referenced file's content. */
  function FileHeader(id: string): string
  {
    "\n--- File: " + id + " ---\n"
  }

  /** The parts added for the references, in order; ids not in the table add nothing. */
  function RefParts(table: map<string, string>, refs: seq<string>): seq<string>
  {
    if refs == [] then []
    else
      var last := refs[|refs| - 1];
      RefParts(table, refs[..|refs| - 1]) + (if last in table then [FileHeader(last), table[last]] else [])
  }

  /** `context_parts`: the task, then header and content of each known reference. */
  function ContextParts(task: string, table: map<string, string>, refs: seq<string>): seq<string>
  {
    [task] + RefParts(table, refs)
  }

  /** The references that are in the table, in order. */
  function Known(table: map<string, string>, refs: seq<string>): (r: seq<string>)
    ensures |r| <= |refs|
    ensures forall x :: x in r ==> x in table && x in refs
  {
    if refs == [] then []
    else
      var last := refs[|refs| - 1];
      Known(table, refs[..|refs| - 1]) + (if last in table then [last] else [])
  }

  /** Unknown ids add nothing: the parts are those of the known references alone. */
  lemma {:induction false} RefPartsSkipsUnknown(table: map<string, string>, refs: seq<string>)
    ensures RefParts(table, refs) == RefParts(table, Known(table, refs))
    decreases |refs|
  {
    if refs != [] {
      var init := refs[..|refs| - 1];
      var last := refs[|refs| - 1];
      RefPartsSkipsUnknown(table, init);
      var ks := Known(table, init);
      if last in table {
        assert Known(table, refs) == ks + [last];
        assert (ks + [last])[..|ks|] == ks;
        assert RefParts(table, ks + [last]) == RefParts(table, ks) + [FileHeader(last), table[last]];
        assert RefParts(table, refs) == RefParts(table, init) + [FileHeader(last), table[last]];
      } else {
        assert Known(table, refs) == ks;
        assert RefParts(table, refs) == RefParts(table, init) + [];
      }
    }
  }

  /** References that are all known add two parts each: header, then content. */
  lemma {:induction false} RefPartsLayout(table: map<string, string>, ks: seq<string>)
    requires forall x :: x in ks ==> x in table
    ensures |RefParts(table, ks)| == 2 * |ks|
    ensures forall k :: 0 <= k < |ks| ==>
              RefParts(table, ks)[2 * k] == FileHeader(ks[k]) && RefParts(table, ks)[2 * k + 1] == table[ks[k]]
  {
    if ks != [] {
      var init := ks[..|ks| - 1];
      RefPartsLayout(table, init);
      assert forall k :: 0 <= k < |init| ==> init[k] == ks[k];
    }
  }

  /**
    Unknown ids are skipped: the context is built from the known references
    alone, two parts (header, then content) for each.
   */
  lemma RefPartsKnown(table: map<string, string>, refs: seq<string>)
    ensures RefParts(table, refs) == RefParts(table, Known(table, refs))
    ensures |RefParts(table, refs)| == 2 * |Known(table, refs)|
    ensures forall k :: 0 <= k < |Known(table, refs)| ==>
              RefParts(table, refs)[2 * k] == FileHeader(Known(table, refs)[k])
              && RefParts(table, refs)[2 * k + 1] == table[Known(table, refs)[k]]
  {
    RefPartsSkipsUnknown(table, refs);
    RefPartsLayout(table, Known(table, refs));
  }

  /** The request text starts with the task. */
  lemma ContextStartsWithTask(task: string, table: map<string, string>, refs: seq<string>)
    ensures StartsWith(Join("\n", ContextParts(task, table, refs)), task)
  {
    var parts := ContextParts(task, table, refs);
    if |parts| > 1 {
      assert Join("\n", parts) == task + ("\n" + Join("\n", parts[1..]));
    }
  }

  /** The context starts with the task, and contains every known reference's content. */
  lemma ContextShape(task: string, table: map<string, string>, refs: seq<string>)
    ensures StartsWith(Join("\n", ContextParts(task, table, refs)), task)
    ensures forall x :: x in Known(table, refs) ==> Contains(Join("\n", ContextParts(task, table, refs)), table[x])
  {
    var parts := ContextParts(task, table, refs);
    ContextStartsWithTask(task, table, refs);
    RefPartsKnown(table, refs);
    var ks := Known(table, refs);
    forall x | x in ks ensures Contains(Join("\n", parts), table[x]) {
      var k :| 0 <= k < |ks| && ks[k] == x;
      assert parts[2 * k + 2] == table[x];
      JoinHasPart("\n", parts, 2 * k + 2);
    }
  }

  /** With every reference in the table, none is skipped. */
  lemma {:induction false} KnownAll(table: map<string, string>, refs: seq<string>)
    requires forall x :: x in refs ==> x in table
    ensures Known(table, refs) == refs
    decreases |refs|
  {
    if refs != [] {
      var init := refs[..|refs| - 1];
      KnownAll(table, init);
      assert refs == init + [refs[|refs| - 1]];
    }
  }

  /**
    The first request of a review that uploads `paths` into `table`: the task
    followed by the header and content of every file that uploaded, in order.
   */
  function FirstRequest(task: string, table: ODict<string>, paths: seq<string>, fs: seq<SourceFile>): Turn
  {
    var (ids, _, t) := UploadSteps(table, paths, fs);
    Turn(User, Join("\n", ContextParts(task, t.vals, ids)))
  }

  /** The first request starts with the task and carries the content of every file that uploaded. */
  lemma FirstRequestCarriesUploads(task: string, table: ODict<string>, paths: seq<string>, fs: seq<SourceFile>)
    requires table.Valid() && IdsNumbered(table.keys)
    ensures StartsWith(FirstRequest(task, table, paths, fs).content, task)
    ensures forall p :: p in Uploadable(paths, fs) ==>
              Exists(fs, p) && Contains(FirstRequest(task, table, paths, fs).content, fs[FindFile(fs, p).value].content)
  {
    var (ids, up, t) := UploadSteps(table, paths, fs);
    UploadStepsSpec(table, paths, fs);
    KnownAll(t.vals, ids);
    ContextShape(task, t.vals, ids);
    forall p | p in up
      ensures Exists(fs, p) && Contains(FirstRequest(task, table, paths, fs).content, fs[FindFile(fs, p).value].content)
    {
      var k :| 0 <= k < |up| && up[k] == p;
      assert ids[k] in Known(t.vals, ids);
    }
  }

  // ---------------------------------------------------------------------------
  // The continuation loop of the autonomous review
  // ---------------------------------------------------------------------------

  /** The reply asks to stop: it mentions "review complete" or "no more issues", in any case. */
  predicate IsStop(content: string)
  {
    Contains(Lower(content), "review complete") || Contains(Lower(content), "no more issues")
  }

  /** Why the continuation loop ended. */
  datatype Stop = Exhausted | StopPhrase | CallFailed(error: string)

  /** One `continue_autonomous_session` call on a non-empty history: the reply and the history afterwards. */
  function ContinueStep(session: seq<Turn>, instruction: string, api: seq<Turn> -> ApiResult): (r: (ApiResult, seq<Turn>))
  {
    var asked := session + [Turn(User, instruction)];
    match api(asked)
    case Raised(e) => (Raised(e), asked)
    case Replied(m) => (Replied(m), asked + [Turn(Assistant, m.content)])
  }

  /** A step adds the instruction, and the reply when there is one, to the history. */
  lemma ContinueStepGrows(session: seq<Turn>, instruction: string, api: seq<Turn> -> ApiResult)
    ensures |ContinueStep(session, instruction, api).1| > |session|
    ensures ContinueStep(session, instruction, api).1[..|session|] == session
  {
    var asked := session + [Turn(User, instruction)];
    assert asked[..|session|] == session;
    assert (asked + [Turn(Assistant, "")])[..|session|] == session;
  }

  /**
    Iterations `i` to `maxIterations` of the continuation loop: the replies
    recorded (with their iteration number), the history afterwards, and why
    the loop ended.
   */
  function Continuations(session: seq<Turn>, i: nat, maxIterations: nat, instruction: string, api: seq<Turn> -> ApiResult)
    : (seq<(nat, Message)>, seq<Turn>, Stop)
    decreases maxIterations + 1 - i
  {
    if i > maxIterations then ([], session, Exhausted)
    else
      var (reply, s') := ContinueStep(session, instruction, api);
      match reply
      case Raised(e) => ([], s', CallFailed(e))
      case Replied(m) =>
        if IsStop(m.content) then ([(i, m)], s', StopPhrase)
        else
          var (rest, s'', stop) := Continuations(s', i + 1, maxIterations, instruction, api);
          ([(i, m)] + rest, s'', stop)
  }

  /**
    One round of the continuation loop keeps the records and history still
    to come equal to what `Continuations` computes from the start.
   */
  lemma ContinueLoopStep(goal: (seq<(nat, Message)>, seq<Turn>, Stop), rs: seq<(nat, Message)>, session: seq<Turn>,
                         i: nat, maxIterations: nat, instruction: string, api: seq<Turn> -> ApiResult)
    requires i <= maxIterations
    requires goal.0 == rs + Continuations(session, i, maxIterations, instruction, api).0
    requires goal.1 == Continuations(session, i, maxIterations, instruction, api).1
    ensures var (reply, s') := ContinueStep(session, instruction, api);
            && (reply.Raised? ==> goal.0 == rs && goal.1 == s')
            && (reply.Replied? && IsStop(reply.message.content) ==> goal.0 == rs + [(i, reply.message)] && goal.1 == s')
            && (reply.Replied? && !IsStop(reply.message.content) ==>
                  && goal.0 == (rs + [(i, reply.message)]) + Continuations(s', i + 1, maxIterations, instruction, api).0
                  && goal.1 == Continuations(s', i + 1, maxIterations, instruction, api).1)
  {
    ContinuationsUnfold(session, i, maxIterations, instruction, api);
    var (reply, s') := ContinueStep(session, instruction, api);
    if reply.Raised? {
      assert rs + [] == rs;
    } else if !IsStop(reply.message.content) {
      var rest := Continuations(s', i + 1, maxIterations, instruction, api).0;
      assert rs + ([(i, reply.message)] + rest) == (rs + [(i, reply.message)]) + rest;
    }
  }

  /** One step of the continuation loop, by the three ways a call can end. */
  lemma ContinuationsUnfold(session: seq<Turn>, i: nat, maxIterations: nat, instruction: string, api: seq<Turn> -> ApiResult)
    requires i <= maxIterations
    ensures var (reply, s') := ContinueStep(session, instruction, api);
            && (reply.Raised? ==> Continuations(session, i, maxIterations, instruction, api) == ([], s', CallFailed(reply.error)))
            && (reply.Replied? && IsStop(reply.message.content) ==>
                  Continuations(session, i, maxIterations, instruction, api) == ([(i, reply.message)], s', StopPhrase))
            && (reply.Replied? && !IsStop(reply.message.content) ==>
                  Continuations(session, i, maxIterations, instruction, api).0
                    == [(i, reply.message)] + Continuations(s', i + 1, maxIterations, instruction, api).0
                  && Continuations(session, i, maxIterations, instruction, api).1
                    == Continuations(s', i + 1, maxIterations, instruction, api).1)
  {
  }

  /**
    The loop stops exactly when the iterations run out, a reply asks to stop,
    or a call raises: replies are numbered consecutively from `i`; only the
    last may ask to stop, and it does when that ended the loop; all
    iterations run when none of that happens; each recorded iteration adds a
    user and an assistant turn to the history, and a failed call adds its
    user turn.
   */
  lemma {:induction false} ContinuationsSpec(session: seq<Turn>, i: nat, maxIterations: nat, instruction: string,
                                             api: seq<Turn> -> ApiResult)
    ensures var (rs, s, stop) := Continuations(session, i, maxIterations, instruction, api);
            && i + |rs| <= (if i <= maxIterations then maxIterations + 1 else i)
            && (forall k :: 0 <= k < |rs| ==> rs[k].0 == i + k)
            && (forall k :: 0 <= k < |rs| - 1 ==> !IsStop(rs[k].1.content))
            && (stop == Exhausted ==> i + |rs| == (if i <= maxIterations then maxIterations + 1 else i) && (rs == [] || !IsStop(rs[|rs| - 1].1.content)))
            && (stop == StopPhrase ==> rs != [] && IsStop(rs[|rs| - 1].1.content))
            && session <= s
            && |s| == |session| + 2 * |rs| + (if stop.CallFailed? then 1 else 0)
    decreases maxIterations + 1 - i
  {
    if i <= maxIterations {
      var (reply, s') := ContinueStep(session, instruction, api);
      if reply.Replied? && !IsStop(reply.message.content) {
        ContinuationsSpec(s', i + 1, maxIterations, instruction, api);
      }
    }
  }

  // ---------------------------------------------------------------------------
  // The autonomous review results
  // ---------------------------------------------------------------------------

  /** `str(content)[:500] + "..."` when it is longer than 500 characters, else the whole text. */
  function Preview500(content: string): (r: string)
    ensures |content| <= 500 ==> r == content
    ensures |content| > 500 ==> |r| == 503 && r[..500] == content[..500] && r[500..] == "..."
  {
    if |content| > 500 then content[..500] + "..." else content
  }

  /** One entry of `results["iterations"]`; the timestamp is left out. */
  datatype RunIteration = RunIteration(iteration: nat, promptTokens: nat, completionTokens: nat, responsePreview: string)

  function RunRecord(i: nat, m: Message): RunIteration
  {
    RunIteration(i, PromptTokens(m), CompletionTokens(m), Preview500(m.content))
  }

  function RunRecords(rs: seq<(nat, Message)>): (r: seq<RunIteration>)
    ensures |r| == |rs| && forall k :: 0 <= k < |rs| ==> r[k] == RunRecord(rs[k].0, rs[k].1)
  {
    seq(|rs|, k requires 0 <= k < |rs| => RunRecord(rs[k].0, rs[k].1))
  }

  /**
    The records of a run whose first request replied with `first`: numbered
    1, 2, … and at most `maxIterations` of them (one when it is 0); the
    history only grows.
   */
  lemma RunRecordsNumbered(session: seq<Turn>, first: Message, maxIterations: nat, instruction: string,
                           api: seq<Turn> -> ApiResult)
    ensures var (rs, s, _) := Continuations(session, 2, maxIterations, instruction, api);
            var its := [RunRecord(1, first)] + RunRecords(rs);
            && (forall k :: 0 <= k < |its| ==> its[k].iteration == k + 1)
            && |its| <= (if maxIterations == 0 then 1 else maxIterations)
            && session <= s
  {
    ContinuationsSpec(session, 2, maxIterations, instruction, api);
  }

  function RunTotalPrompt(its: seq<RunIteration>): nat
  {
    if its == [] then 0 else RunTotalPrompt(its[..|its| - 1]) + its[|its| - 1].promptTokens
  }

  function RunTotalCompletion(its: seq<RunIteration>): nat
  {
    if its == [] then 0 else RunTotalCompletion(its[..|its| - 1]) + its[|its| - 1].completionTokens
  }

  /** The results dict of `run_autonomous_code_review`; times, duration and the floating-point cost are left out. */
  datatype ReviewRun = ReviewRun(uploadedFiles: seq<string>, iterations: seq<RunIteration>, error: Option<string>,
                                 totalInput: nat, totalOutput: nat)

  /** The instruction sent with every continuation. */
  const ContinueInstruction: string :=
    "Continue your code review. Find more issues and document them clearly. Remember: REVIEW ONLY - do not provide code implementations."

  /** The error `continue_autonomous_session` raises on an empty history. */
  const NoSessionError: string := "No session context available. Start with create_analysis_message first."

  class Client {
    const model: string
    var uploadedFiles: ODict<string>
    var sessionContext: seq<Turn>

    /** The table is a dict whose i-th id is numbered i. */
    ghost predicate Valid()
      reads this
    {
      uploadedFiles.Valid() && IdsNumbered(uploadedFiles.keys)
    }

    constructor(model: string)
      ensures Valid() && this.model == model && uploadedFiles.keys == [] && sessionContext == []
    {
      this.model := model;
      uploadedFiles := EmptyDict();
      sessionContext := [];
    }

    /** `upload_file`. */
    method UploadFile(path: string, fs: seq<SourceFile>) returns (r: Upload)
      requires Valid()
      modifies this
      ensures Valid()
      ensures (r, uploadedFiles) == UploadStep(old(uploadedFiles), path, fs)
      ensures sessionContext == old(sessionContext)
    {
      UploadStepSpec(uploadedFiles, path, fs);
      var found := FindFile(fs, path);
      if found.None? {
        return UploadFailed("File not found: " + path);
      }
      var f := fs[found.value];
      if f.readError.Some? {
        return UploadFailed(f.readError.value);
      }
      var id := FileId(|uploadedFiles.keys|, BaseName(path));
      uploadedFiles := Put(uploadedFiles, id, f.content);
      r := Uploaded(id);
    }

    /** The context-building loop of `create_analysis_message`. */
    method BuildContext(task: string, refs: seq<string>) returns (full: string)
      ensures full == Join("\n", ContextParts(task, uploadedFiles.vals, refs))
    {
      var parts := [task];
      var i := 0;
      while i < |refs|
        invariant 0 <= i <= |refs|
        invariant parts == ContextParts(task, uploadedFiles.vals, refs[..i])
      {
        assert refs[..i + 1][..i] == refs[..i];
        if refs[i] in uploadedFiles.vals {
          parts := parts + [FileHeader(refs[i]), uploadedFiles.vals[refs[i]]];
        }
        i := i + 1;
      }
      assert refs[..i] == refs;
      full := Join("\n", parts);
    }

    /**
      `create_analysis_message`: a single-message request carrying the built
      context; on a reply, the request and the reply are appended to the
      history, which is never reset; a raising call changes nothing.
     */
    method CreateAnalysisMessage(task: string, refs: seq<string>, api: seq<Turn> -> ApiResult) returns (r: ApiResult)
      modifies this
      ensures uploadedFiles == old(uploadedFiles)
      ensures r == api([Turn(User, Join("\n", ContextParts(task, uploadedFiles.vals, refs)))])
      ensures r.Raised? ==> sessionContext == old(sessionContext)
      ensures r.Replied? ==>
                sessionContext == old(sessionContext)
                  + [Turn(User, Join("\n", ContextParts(task, uploadedFiles.vals, refs))), Turn(Assistant, r.message.content)]
    {
      var full := BuildContext(task, refs);
      r := api([Turn(User, full)]);
      if r.Replied? {
        sessionContext := sessionContext + [Turn(User, full), Turn(Assistant, r.message.content)];
      }
    }

    /**
      `continue_autonomous_session`: `ValueError` on an empty history, with
      nothing changed; otherwise the instruction is appended and the whole
      history is sent, and the reply is appended when there is one (a raising
      call leaves the instruction in the history).
     */
    method ContinueSession(instruction: string, api: seq<Turn> -> ApiResult) returns (r: ApiResult)
      modifies this
      ensures uploadedFiles == old(uploadedFiles)
      ensures old(sessionContext) == [] ==> r == Raised(NoSessionError) && sessionContext == []
      ensures old(sessionContext) != [] ==> (r, sessionContext) == ContinueStep(old(sessionContext), instruction, api)
    {
      if sessionContext == [] {
        return Raised(NoSessionError);
      }
      sessionContext := sessionContext + [Turn(User, instruction)];
      r := api(sessionContext);
      if r.Replied? {
        sessionContext := sessionContext + [Turn(Assistant, r.message.content)];
      }
    }

    /** The upload loop of `run_autonomous_code_review`: the ids and the paths of the files that uploaded. */
    method UploadAll(paths: seq<string>, fs: seq<SourceFile>) returns (ids: seq<string>, uploaded: seq<string>)
      requires Valid()
      modifies this
      ensures Valid()
      ensures sessionContext == old(sessionContext)
      ensures (ids, uploaded, uploadedFiles) == UploadSteps(old(uploadedFiles), paths, fs)
      ensures uploaded == Uploadable(paths, fs)
      ensures |ids| == |uploaded| <= |paths|
      ensures |uploadedFiles.keys| == |old(uploadedFiles.keys)| + |ids|
      ensures forall k :: 0 <= k < |ids| ==> ids[k] in uploadedFiles.vals
      ensures forall p :: p in uploaded ==> p in paths && Exists(fs, p)
    {
      ghost var table0 := uploadedFiles;
      ids, uploaded := [], [];
      var i := 0;
      while i < |paths|
        invariant 0 <= i <= |paths|
        invariant Valid()
        invariant sessionContext == old(sessionContext)
        invariant (ids, uploaded, uploadedFiles) == UploadSteps(table0, paths[..i], fs)
      {
        assert paths[..i + 1][..i] == paths[..i];
        var u := UploadFile(paths[i], fs);
        if u.Uploaded? {
          ids := ids + [u.id];
          uploaded := uploaded + [paths[i]];
        }
        i := i + 1;
      }
      assert paths[..i] == paths;
      UploadStepsSpec(table0, paths, fs);
      forall p | p in uploaded ensures p in paths && Exists(fs, p) {
        var k :| 0 <= k < |uploaded| && uploaded[k] == p;
        UploadableIn(paths, fs, k);
      }
    }

    /** The continuation loop of `run_autonomous_code_review`, from iteration 2. */
    method ContinueLoop(instruction: string, maxIterations: nat, api: seq<Turn> -> ApiResult) returns (rs: seq<(nat, Message)>)
      requires sessionContext != []
      modifies this
      ensures uploadedFiles == old(uploadedFiles)
      ensures (rs, sessionContext) == (Continuations(old(sessionContext), 2, maxIterations, instruction, api).0,
                                       Continuations(old(sessionContext), 2, maxIterations, instruction, api).1)
    {
      ghost var goal := Continuations(sessionContext, 2, maxIterations, instruction, api);
      rs := [];
      var i := 2;
      while i <= maxIterations
        invariant 2 <= i
        invariant sessionContext != []
        invariant uploadedFiles == old(uploadedFiles)
        invariant goal.0 == rs + Continuations(sessionContext, i, maxIterations, instruction, api).0
        invariant goal.1 == Continuations(sessionContext, i, maxIterations, instruction, api).1
        decreases maxIterations + 1 - i
      {
        ghost var before := sessionContext;
        var reply := ContinueSession(instruction, api);
        ContinueLoopStep(goal, rs, before, i, maxIterations, instruction, api);
        if reply.Raised? {
          return;
        }
        rs := rs + [(i, reply.message)];
        if IsStop(reply.message.content) {
          return;
        }
        i := i + 1;
      }
      assert Continuations(sessionContext, i, maxIterations, instruction, api) == ([], sessionContext, Exhausted);
      assert rs + [] == rs;
    }

    /**
      `run_autonomous_code_review`: uploads the first ten files (a failed
      upload is skipped), sends the first request with the uploaded ids, and
      continues until the iterations run out, a reply asks to stop, or a
      continuation raises. When the first request raises, its error is stored
      and no iteration is recorded.
     */
    method RunAutonomousCodeReview(found: seq<string>, fs: seq<SourceFile>, initialPrompt: string,
                                   maxIterations: nat, api: seq<Turn> -> ApiResult)
      returns (res: ReviewRun)
      requires Valid()
      modifies this
      ensures Valid()
      ensures |res.uploadedFiles| <= 10
      ensures forall p :: p in res.uploadedFiles ==> p in FirstTen(found) && Exists(fs, p)
      ensures res.uploadedFiles == Uploadable(FirstTen(found), fs)
      ensures uploadedFiles == UploadSteps(old(uploadedFiles), FirstTen(found), fs).2
      ensures var request := FirstRequest(initialPrompt, old(uploadedFiles), FirstTen(found), fs);
              && (api([request]).Raised? ==> res.error == Some(api([request]).error))
              && (api([request]).Replied? ==>
                    && |sessionContext| >= |old(sessionContext)| + 2
                    && sessionContext[..|old(sessionContext)| + 2]
                         == old(sessionContext) + [request, Turn(Assistant, api([request]).message.content)])
      ensures res.error.Some? <==> res.iterations == []
      ensures res.error.Some? ==> sessionContext == old(sessionContext)
      ensures res.iterations != [] ==>
                && |sessionContext| >= |old(sessionContext)| + 2
                && sessionContext[..|old(sessionContext)|] == old(sessionContext)
                && var request := sessionContext[|old(sessionContext)|];
                   var first := api([request]);
                   var (rs, session, _) := Continuations(sessionContext[..|old(sessionContext)| + 2], 2, maxIterations,
                                                         ContinueInstruction, api);
                   && request.role == User && StartsWith(request.content, initialPrompt)
                   && first.Replied? && res.iterations[0] == RunRecord(1, first.message)
                   && res.iterations[1..] == RunRecords(rs)
                   && sessionContext == session
      ensures forall k :: 0 <= k < |res.iterations| ==> res.iterations[k].iteration == k + 1
      ensures |res.iterations| <= if maxIterations == 0 then 1 else maxIterations
      ensures res.totalInput == RunTotalPrompt(res.iterations) && res.totalOutput == RunTotalCompletion(res.iterations)
    {
      var ids, uploaded := UploadAll(FirstTen(found), fs);
      var first := CreateAnalysisMessage(initialPrompt, ids, api);
      if first.Raised? {
        return ReviewRun(uploaded, [], Some(first.error), 0, 0);
      }
      ghost var start := sessionContext;
      ContextStartsWithTask(initialPrompt, uploadedFiles.vals, ids);
      RunRecordsNumbered(sessionContext, first.message, maxIterations, ContinueInstruction, api);
      var rs := ContinueLoop(ContinueInstruction, maxIterations, api);
      assert sessionContext[..|old(sessionContext)| + 2] == start;
      assert sessionContext[..|old(sessionContext)|] == old(sessionContext);
      assert sessionContext[|old(sessionContext)|] == start[|old(sessionContext)|];
      var its := [RunRecord(1, first.message)] + RunRecords(rs);
      assert its[1..] == RunRecords(rs);
      res := ReviewRun(uploaded, its, None, RunTotalPrompt(its), RunTotalCompletion(its));
    }
  }
}

=== FILE: code_quality.dfy ===
/**
  The integer, string and record code of the code-quality fixture: the class
  `a` and its method `f`, `UserManager_Bad`, `validate_complex_user`, the
  three user scores and `UserNotificationEmailProcessor`.
 */
module CodeQuality {
  import opened Common

  // ---------------------------------------------------------------------------
  // Module globals
  // ---------------------------------------------------------------------------

  /** A user record built by `AddUser`; `id` is `None` because `AddUser` sets no `id` key. */
  datatype UserRecord = UserRecord(name: string, age: int, emailAddress: string, createdAt: int,
                                   isActive: bool, loginCount: int, id: Option<int>)

  /** The module globals `data`, `cache` and `users` that the fixture writes. */
  class Globals {
    var data: seq<int>
    var cache: map<string, int>
    var users: seq<UserRecord>

    constructor()
      ensures data == [] && cache == map[] && users == []
    {
      data := [];
      cache := map[];
      users := [];
    }
  }

  // ---------------------------------------------------------------------------
  // class a, method f
  // ---------------------------------------------------------------------------

  /** The products `i·j·k` for `k` in `0..100`. */
  function Line(i: int, j: int): (r: seq<int>)
    ensures |r| == 100
  {
    seq(100, k requires 0 <= k < 100 => i * j * k)
  }

  /** The lines of `j` in `0..jn` for one `i`. */
  function Plane(i: int, jn: nat): seq<int>
  {
    if jn == 0 then [] else Plane(i, jn - 1) + Line(i, jn - 1)
  }

  /** The planes of `i` in `0..n`: what the triple loop of `f` appends for `n = 100`. */
  function Cube(n: nat): seq<int>
  {
    if n == 0 then [] else Cube(n - 1) + Plane(n - 1, 100)
  }

  lemma {:induction false} PlaneLength(i: int, jn: nat)
    ensures |Plane(i, jn)| == 100 * jn
  {
    if jn > 0 {
      PlaneLength(i, jn - 1);
    }
  }

  lemma {:induction false} CubeLength(n: nat)
    ensures |Cube(n)| == 10000 * n
  {
    if n > 0 {
      CubeLength(n - 1);
      PlaneLength(n - 1, 100);
    }
  }

  lemma {:induction false} PlaneEntry(i: int, jn: nat, j: nat, k: nat)
    requires j < jn && k < 100
    ensures 100 * j + k < |Plane(i, jn)| && Plane(i, jn)[100 * j + k] == i * j * k
  {
    PlaneLength(i, jn - 1);
    if j < jn - 1 {
      PlaneEntry(i, jn - 1, j, k);
    }
  }

  /**
    `f` appends a million values when it appends at all, and the value at
    `10000·i + 100·j + k` is `i·j·k`.
   */
  lemma {:induction false} CubeEntry(n: nat, i: nat, j: nat, k: nat)
    requires i < n && j < 100 && k < 100
    ensures |Cube(n)| == 10000 * n
    ensures 10000 * i + 100 * j + k < |Cube(n)| && Cube(n)[10000 * i + 100 * j + k] == i * j * k
  {
    CubeLength(n);
    CubeLength(n - 1);
    if i < n - 1 {
      CubeEntry(n - 1, i, j, k);
    } else {
      PlaneEntry(i, 100, j, k);
    }
  }

  /** The class `a`: `d` and `e` are never used and are left out. */
  class A {
    var b: seq<int>
    var c: int

    constructor()
      ensures b == [] && c == 0
    {
      b := [];
      c := 0;
    }

    /**
      `f`: when `x`, `y` and `z` are all non-zero it appends the products of
      the triple loop to `b`; it then stores `42x + 17y - 99z` in `c`, makes
      the global `data` the list `b` and files `c` under `'last_calc'`.
     */
    method F(g: Globals, x: int, y: int, z: int) returns (r: int)
      modifies this, g
      ensures b == old(b) + (if x != 0 && y != 0 && z != 0 then Cube(100) else [])
      ensures r == c == 42 * x + 17 * y - 99 * z
      ensures g.data == b
      ensures g.cache == old(g.cache)["last_calc" := r]
      ensures g.users == old(g.users)
    {
      if x != 0 {
        if y != 0 {
          if z != 0 {
            AppendCube();
          }
        }
      }
      assert old(b) + [] == old(b);
      c := x * 42 + y * 17 - z * 99;
      g.data := b;
      g.cache := g.cache["last_calc" := c];
      r := c;
    }

    /** The triple loop of `f`. */
    method AppendCube()
      modifies this
      ensures b == old(b) + Cube(100) && c == old(c)
    {
      AppendPlanes(100);
    }

    /** The planes of `i` in `0..n`, appended to `b`. */
    method AppendPlanes(n: nat)
      modifies this
      ensures b == old(b) + Cube(n) && c == old(c)
    {
      var i := 0;
      while i < n
        invariant 0 <= i <= n
        invariant b == old(b) + Cube(i) && c == old(c)
      {
        AppendPlane(i);
        i := i + 1;
      }
    }

    method AppendPlane(i: int)
      modifies this
      ensures b == old(b) + Plane(i, 100) && c == old(c)
    {
      var j := 0;
      while j < 100
        invariant 0 <= j <= 100
        invariant b == old(b) + Plane(i, j) && c == old(c)
      {
        AppendLine(i, j);
        j := j + 1;
      }
    }

    method AppendLine(i: int, j: int)
      modifies this
      ensures b == old(b) + Line(i, j) && c == old(c)
    {
      var k := 0;
      while k < 100
        invariant 0 <= k <= 100
        invariant b == old(b) + Line(i, j)[..k] && c == old(c)
      {
        b := b + [i * j * k];
        assert Line(i, j)[..k + 1] == Line(i, j)[..k] + [i * j * k];
        k := k + 1;
      }
      assert Line(i, j)[..100] == Line(i, j);
    }
  }

  // ---------------------------------------------------------------------------
  // UserManager_Bad
  // ---------------------------------------------------------------------------

  /** The record `AddUser` builds; the clock reading is a parameter. */
  function NewUser(userName: string, userAge: int, userEmail: string, now: int): UserRecord
  {
    UserRecord(userName, userAge, userEmail, now, true, 0, None)
  }

  /** `userList` after removing the first record whose `id` equals `userId`, if any. */
  function RemoveFirst(list: seq<UserRecord>, userId: Option<int>): seq<UserRecord>
  {
    if list == [] then []
    else if list[0].id == userId then list[1..]
    else [list[0]] + RemoveFirst(list[1..], userId)
  }

  /**
    `delete_user_by_id` removes nothing when no record has the `id`, and
    otherwise exactly the first record that has it.
   */
  lemma RemoveFirstSpec(list: seq<UserRecord>, userId: Option<int>) returns (i: nat)
    ensures i <= |list|
    ensures forall k :: 0 <= k < i ==> list[k].id != userId
    ensures i == |list| ==> RemoveFirst(list, userId) == list
    ensures i < |list| ==> list[i].id == userId && RemoveFirst(list, userId) == list[..i] + list[i + 1..]
  {
    i := FirstWithId(list, userId);
    if i == |list| {
      RemoveFirstMiss(list, userId);
    } else {
      RemoveFirstHit(list, userId, i);
    }
  }

  /** The index of the first record with the `id`, or `|list|` when there is none. */
  function FirstWithId(list: seq<UserRecord>, userId: Option<int>): (i: nat)
    ensures i <= |list|
    ensures forall k :: 0 <= k < i ==> list[k].id != userId
    ensures i < |list| ==> list[i].id == userId
  {
    if list == [] then 0
    else if list[0].id == userId then 0
    else 1 + FirstWithId(list[1..], userId)
  }

  /** With no record carrying the `id`, the loop runs out and nothing is deleted. */
  lemma {:induction false} RemoveFirstMiss(list: seq<UserRecord>, userId: Option<int>)
    requires forall k :: 0 <= k < |list| ==> list[k].id != userId
    ensures RemoveFirst(list, userId) == list
  {
    if list != [] {
      assert list[0].id != userId;
      RemoveFirstMiss(list[1..], userId);
      assert [list[0]] + list[1..] == list;
    }
  }

  /** The first record carrying the `id` is deleted, and the loop breaks. */
  lemma {:induction false} RemoveFirstHit(list: seq<UserRecord>, userId: Option<int>, i: nat)
    requires i < |list| && list[i].id == userId
    requires forall k :: 0 <= k < i ==> list[k].id != userId
    ensures RemoveFirst(list, userId) == list[..i] + list[i + 1..]
  {
    if i > 0 {
      assert list[0].id != userId;
      var t := list[1..];
      RemoveFirstHit(t, userId, i - 1);
      assert list[..i] == [list[0]] + t[..i - 1];
      assert list[i + 1..] == t[i..];
    }
  }

  /** Records built by `AddUser` carry no `id`, so `delete_user_by_id(None)` removes the first of them. */
  lemma DeleteNoneRemovesFirst(list: seq<UserRecord>, userName: string, userAge: int, userEmail: string, now: int)
    ensures RemoveFirst([NewUser(userName, userAge, userEmail, now)] + list, None) == list
  {
    assert ([NewUser(userName, userAge, userEmail, now)] + list)[1..] == list;
  }

  class UserManagerBad {
    var userList: seq<UserRecord>
    var totalUsers: int
    const maxUsers: int
    var currentUser: Option<UserRecord>

    constructor()
      ensures userList == [] && totalUsers == 0 && maxUsers == 1000 && currentUser == None
    {
      userList := [];
      totalUsers := 0;
      maxUsers := 1000;
      currentUser := None;
    }

    /** `AddUser`: the same new record goes to `userList` and to the global `users`. */
    method AddUser(g: Globals, userName: string, userAge: int, userEmail: string, now: int)
      modifies this, g
      ensures userList == old(userList) + [NewUser(userName, userAge, userEmail, now)]
      ensures totalUsers == old(totalUsers) + 1
      ensures g.users == old(g.users) + [NewUser(userName, userAge, userEmail, now)]
      ensures g.data == old(g.data) && g.cache == old(g.cache) && currentUser == old(currentUser)
    {
      var newUser := NewUser(userName, userAge, userEmail, now);
      userList := userList + [newUser];
      totalUsers := totalUsers + 1;
      g.users := g.users + [newUser];
    }

    /** `getUserByEmail`: the first record with that address, or `None`. */
    method GetUserByEmail(email: string) returns (r: Option<UserRecord>)
      ensures r.None? <==> forall i :: 0 <= i < |userList| ==> userList[i].emailAddress != email
      ensures r.Some? ==> exists i :: 0 <= i < |userList| && userList[i] == r.value && r.value.emailAddress == email
                                      && forall k :: 0 <= k < i ==> userList[k].emailAddress != email
    {
      var i := 0;
      while i < |userList|
        invariant 0 <= i <= |userList|
        invariant forall k :: 0 <= k < i ==> userList[k].emailAddress != email
      {
        if userList[i].emailAddress == email {
          return Some(userList[i]);
        }
        i := i + 1;
      }
      return None;
    }

    /** `delete_user_by_id`: deletes the first match and stops; `total_users` is not decremented. */
    method DeleteUserById(userId: Option<int>)
      modifies this
      ensures userList == RemoveFirst(old(userList), userId)
      ensures totalUsers == old(totalUsers) && currentUser == old(currentUser)
    {
      ghost var first := RemoveFirstSpec(userList, userId);
      var i := 0;
      while i < |userList|
        invariant 0 <= i <= |userList| && i <= first
        invariant userList == old(userList)
      {
        if userList[i].id == userId {
          userList := userList[..i] + userList[i + 1..];
          return;
        }
        i := i + 1;
      }
    }
  }

  // ---------------------------------------------------------------------------
  // validate_complex_user
  // ---------------------------------------------------------------------------

  /** Python's `key in j`; `None` is the `TypeError` of a number, a boolean or `None`. */
  function In(key: string, j: Json): Option<bool>
  {
    match j
    case JObj(fields) => Some(key in Keys(fields))
    case JArr(items) => Some(JStr(key) in items)
    case JStr(s) => Some(Contains(s, key))
    case _ => None
  }

  /** Python's `len(j)`; `None` is the `TypeError` of a value without a length. */
  function Len(j: Json): Option<nat>
  {
    match j
    case JObj(fields) => Some(|fields|)
    case JArr(items) => Some(|items|)
    case JStr(s) => Some(|s|)
    case _ => None
  }

  /** A value compared with an integer: booleans count as 0 and 1; anything else raises. */
  function Num(j: Json): Option<int>
  {
    match j
    case JInt(i) => Some(i)
    case JBool(b) => Some(if b then 1 else 0)
    case _ => None
  }

  /** `j[key]` once `key in j` held: only an object can be subscripted by a string. */
  function Sub(j: Json, key: string): Option<Json>
  {
    Index(j, key)
  }

  /**
    `validate_complex_user`, one nested test after another; `None` stands for
    the exception a value of the wrong type raises at some test.
   */
  function ValidateComplexUser(u: Json): Option<bool>
  {
    if u.JNull? then Some(false)
    else
      match In("name", u)
      case None => None
      case Some(false) => Some(false)
      case Some(true) => ValidateName(u)
  }

  function ValidateName(u: Json): Option<bool>
  {
    match Sub(u, "name")
    case None => None
    case Some(name) =>
      match Len(name)
      case None => None
      case Some(n) =>
        if n == 0 then Some(false)
        else
          match In("email", u)
          case None => None
          case Some(false) => Some(false)
          case Some(true) => ValidateEmail(u)
  }

  function ValidateEmail(u: Json): Option<bool>
  {
    match Sub(u, "email")
    case None => None
    case Some(email) =>
      match In("@", email)
      case None => None
      case Some(false) => Some(false)
      case Some(true) =>
        match In("age", u)
        case None => None
        case Some(false) => Some(false)
        case Some(true) => ValidateAge(u)
  }

  function ValidateAge(u: Json): Option<bool>
  {
    match Sub(u, "age")
    case None => None
    case Some(age) =>
      match Num(age)
      case None => None
      case Some(a) =>
        if a < 0 || a > 150 then Some(false)
        else
          match In("status", u)
          case None => None
          case Some(false) => Some(false)
          case Some(true) => ValidateStatus(u)
  }

  function ValidateStatus(u: Json): Option<bool>
  {
    match Sub(u, "status")
    case None => None
    case Some(status) => Some(status == JStr("active") || status == JStr("inactive"))
  }

  /** A user object whose `name` and `email` are strings, whose `age` is an integer and which has a `status`. */
  predicate WellTyped(fields: seq<(string, Json)>)
  {
    Lookup(fields, "name").Some? && Lookup(fields, "name").value.JStr?
    && Lookup(fields, "email").Some? && Lookup(fields, "email").value.JStr?
    && Lookup(fields, "age").Some? && Lookup(fields, "age").value.JInt?
    && Lookup(fields, "status").Some?
  }

  /**
    On a well-typed user object, `validate_complex_user` is true exactly when
    the name is non-empty, the email contains `@`, the age lies in `0..150`
    and the status is `active` or `inactive`.
   */
  lemma ValidateWellTyped(fields: seq<(string, Json)>)
    requires WellTyped(fields)
    ensures ValidateComplexUser(JObj(fields)) ==
              Some(Lookup(fields, "name").value.s != ""
                   && '@' in Lookup(fields, "email").value.s
                   && 0 <= Lookup(fields, "age").value.i <= 150
                   && Lookup(fields, "status").value in {JStr("active"), JStr("inactive")})
  {
    var email := Lookup(fields, "email").value.s;
    assert Contains(email, "@") <==> '@' in email by {
      if '@' in email {
        var i :| 0 <= i < |email| && email[i] == '@';
        assert OccursAt(email, "@", i);
      }
      if Contains(email, "@") {
        var i: nat :| i <= |email| && OccursAt(email, "@", i);
        assert email[i..i + 1][0] == '@';
      }
    }
  }

  /** `None` is not valid, and an object lacking any of the four keys is not valid either. */
  lemma ValidateMissing(fields: seq<(string, Json)>)
    ensures ValidateComplexUser(JNull) == Some(false)
    ensures Lookup(fields, "name").None? ==> ValidateComplexUser(JObj(fields)) == Some(false)
    ensures ValidateComplexUser(JObj(fields)) == Some(true) ==>
              Lookup(fields, "name").Some? && Lookup(fields, "email").Some?
              && Lookup(fields, "age").Some? && Lookup(fields, "status").Some?
  {
  }

  // ---------------------------------------------------------------------------
  // The three user scores
  // ---------------------------------------------------------------------------

  /** The counters and flags the scores read; `premium` is `None` when the key is absent. */
  datatype ScoreInput = ScoreInput(loginCount: int, postsCount: int, friendsCount: int, verified: Json, premium: Option<Json>)

  /** `user.get('premium', False)` taken as a truth value. */
  predicate Premium(u: ScoreInput)
  {
    u.premium.Some? && Truthy(u.premium.value)
  }

  /** `calculate_user_score_type1`. */
  function ScoreType1(u: ScoreInput): (score: int)
    ensures 0 <= score <= 125
  {
    (if u.loginCount > 10 then 50 else 0) + (if u.postsCount > 5 then 30 else 0)
    + (if u.friendsCount > 20 then 20 else 0) + (if Truthy(u.verified) then 25 else 0)
  }

  /** `calculate_user_score_type2`. */
  function ScoreType2(u: ScoreInput): (score: int)
  {
    var s1 := if u.loginCount > 10 then 50 else 0;
    var s2 := s1 + if u.postsCount > 5 then 30 else 0;
    var s3 := s2 + if u.friendsCount > 20 then 20 else 0;
    var s4 := s3 + if Truthy(u.verified) then 25 else 0;
    s4 + if Premium(u) then 15 else 0
  }

  /** `calculate_user_score_type3`. */
  function ScoreType3(u: ScoreInput): (score: int)
  {
    var s1 := if u.loginCount > 10 then 50 else 0;
    var s2 := s1 + if u.postsCount > 5 then 30 else 0;
    var s3 := s2 + if u.friendsCount > 20 then 20 else 0;
    var s4 := s3 + if Truthy(u.verified) then 25 else 0;
    s4 + if Premium(u) then 30 else 0
  }

  /** The copies differ from the first score only by the premium bonus: 15 for type 2 and 30 for type 3. */
  lemma ScoresDiffer(u: ScoreInput)
    ensures ScoreType2(u) == ScoreType1(u) + (if Premium(u) then 15 else 0)
    ensures ScoreType3(u) == ScoreType1(u) + (if Premium(u) then 30 else 0)
    ensures 0 <= ScoreType1(u) <= ScoreType2(u) <= ScoreType3(u) <= 155
  {
  }

  // ---------------------------------------------------------------------------
  // UserNotificationEmailProcessor
  // ---------------------------------------------------------------------------

  datatype NotifiedUser = NotifiedUser(id: int, name: string, email: string)

  class UserNotificationEmailProcessor {
    var users: seq<NotifiedUser>
    var notifications: seq<string>
    var emails: seq<string>
    var processedData: seq<string>

    /** One email, one notification and one processed name per user, and user `k` has id `k + 1`. */
    ghost predicate Valid()
      reads this
    {
      |emails| == |users| && |notifications| == |users| && |processedData| == |users|
      && forall k :: 0 <= k < |users| ==> users[k].id == k + 1
    }

    constructor()
      ensures Valid() && users == [] && notifications == [] && emails == [] && processedData == []
    {
      users := [];
      notifications := [];
      emails := [];
      processedData := [];
    }

    /** `add_user_and_send_welcome_email_and_create_notification`; the printed line is left out. */
    method AddUserAndSendWelcomeEmailAndCreateNotification(name: string, email: string) returns (user: NotifiedUser)
      requires Valid()
      modifies this
      ensures Valid()
      ensures user == NotifiedUser(|old(users)| + 1, name, email)
      ensures users == old(users) + [user]
      ensures emails == old(emails) + ["Welcome " + name + "!"]
      ensures notifications == old(notifications) + ["New user " + name + " registered"]
      ensures processedData == old(processedData) + [Upper(name)]
    {
      user := NotifiedUser(|users| + 1, name, email);
      users := users + [user];
      emails := emails + ["Welcome " + user.name + "!"];
      notifications := notifications + ["New user " + user.name + " registered"];
      processedData := processedData + [Upper(user.name)];
    }
  }
}

=== FILE: common.dfy ===
/**
  Shared vocabulary for the model: optional values, Python-style string
  operations (ASCII only), decimal rendering, JSON values as `json.load`
  returns them, and insertion-ordered dictionaries with `dict.update`.
 */
module Common {

  datatype Option<T> = None | Some(value: T)

  // ---------------------------------------------------------------------------
  // Characters (ASCII view of Python's str predicates)
  // ---------------------------------------------------------------------------

  /** `str.isspace()` restricted to the characters below U+0100. */
  predicate IsSpace(c: char)
  {
    c == ' ' || c == '\t' || c == '\n' || c == '\r' || c == '\U{000B}' || c == '\U{000C}'
    || c == '\U{001C}' || c == '\U{001D}' || c == '\U{001E}' || c == '\U{001F}'
    || c == '\U{0085}' || c == '\U{00A0}'
  }

  /** `str.isdigit()` restricted to ASCII digits. */
  predicate IsDigit(c: char)
  {
    '0' <= c <= '9'
  }

  function DigitValue(c: char): (d: nat)
    requires IsDigit(c)
    ensures d < 10
  {
    (c as int) - ('0' as int)
  }

  function DigitChar(d: nat): (c: char)
    requires d < 10
    ensures IsDigit(c) && DigitValue(c) == d
  {
    (('0' as int) + d) as char
  }

  function LowerChar(c: char): (r: char)
    ensures 'A' <= c <= 'Z' ==> 'a' <= r <= 'z'
    ensures !('A' <= c <= 'Z') ==> r == c
  {
    if 'A' <= c <= 'Z' then ((c as int) + 32) as char else c
  }

  function UpperChar(c: char): (r: char)
    ensures 'a' <= c <= 'z' ==> 'A' <= r <= 'Z'
    ensures !('a' <= c <= 'z') ==> r == c
  {
    if 'a' <= c <= 'z' then ((c as int) - 32) as char else c
  }

  /** `str.lower()` on ASCII letters. */
  function Lower(s: string): (r: string)
    ensures |r| == |s|
    ensures forall i :: 0 <= i < |s| ==> r[i] == LowerChar(s[i])
  {
    seq(|s|, i requires 0 <= i < |s| => LowerChar(s[i]))
  }

  /** `str.upper()` on ASCII letters. */
  function Upper(s: string): (r: string)
    ensures |r| == |s|
    ensures forall i :: 0 <= i < |s| ==> r[i] == UpperChar(s[i])
  {
    seq(|s|, i requires 0 <= i < |s| => UpperChar(s[i]))
  }

  // ---------------------------------------------------------------------------
  // Substrings
  // ---------------------------------------------------------------------------

  /** Python's `s[:n]`. */
  function Take(s: string, n: nat): string
  {
    if |s| <= n then s else s[..n]
  }

  predicate StartsWith(s: string, p: string)
  {
    |p| <= |s| && s[..|p|] == p
  }

  predicate EndsWith(s: string, p: string)
  {
    |p| <= |s| && s[|s| - |p|..] == p
  }

  /** `p` occurs in `s` starting at index `i`. */
  predicate OccursAt(s: string, p: string, i: nat)
  {
    i + |p| <= |s| && s[i..i + |p|] == p
  }

  /** Python's `p in s` for strings. */
  predicate Contains(s: string, p: string)
  {
    exists i: nat | i <= |s| :: OccursAt(s, p, i)
  }

  /** The middle part of a concatenation occurs in it, right after the first part. */
  lemma ContainsMiddle(a: string, b: string, c: string)
    ensures OccursAt(a + b + c, b, |a|)
    ensures Contains(a + b + c, b)
  {
    var s := a + b + c;
    assert s == a + (b + c);
    assert s[|a|..] == b + c;
    assert s[|a|..|a| + |b|] == s[|a|..][..|b|];
    assert OccursAt(s, b, |a|) && |a| <= |s|;
  }

  /** `s.find(p, i)`: the first occurrence at or after `i`, or -1. */
  function FindFrom(s: string, p: string, i: nat): (r: int)
    decreases |s| - i
    ensures r == -1 || (i <= r && OccursAt(s, p, r))
    ensures r == -1 ==> forall j: nat :: i <= j ==> !OccursAt(s, p, j)
    ensures r != -1 ==> forall j: nat :: i <= j < r ==> !OccursAt(s, p, j)
  {
    if i + |p| > |s| then -1
    else if OccursAt(s, p, i) then i
    else FindFrom(s, p, i + 1)
  }

  /** `s.find(p)`. */
  function Find(s: string, p: string): (r: int)
    ensures r == -1 <==> !Contains(s, p)
    ensures r != -1 ==> 0 <= r && OccursAt(s, p, r) && forall j: nat :: j < r ==> !OccursAt(s, p, j)
  {
    FindFrom(s, p, 0)
  }

  /** The last occurrence of `p` starting at or before `i`, or -1. */
  function RFindUpTo(s: string, p: string, i: int): (r: int)
    decreases i + 1
    ensures r == -1 || (0 <= r <= i && OccursAt(s, p, r))
    ensures r == -1 ==> forall j: nat :: j <= i ==> !OccursAt(s, p, j)
    ensures r != -1 ==> forall j: nat :: r < j <= i ==> !OccursAt(s, p, j)
  {
    if i < 0 then -1
    else if OccursAt(s, p, i) then i
    else RFindUpTo(s, p, i - 1)
  }

  /** `s.rfind(p)`. */
  function RFind(s: string, p: string): (r: int)
    ensures r == -1 <==> !Contains(s, p)
    ensures r != -1 ==> 0 <= r && OccursAt(s, p, r) && forall j: nat :: r < j ==> !OccursAt(s, p, j)
  {
    RFindUpTo(s, p, |s| - |p|)
  }

  /** `s.replace(p, q)`: leftmost, non-overlapping replacement of every occurrence. */
  function ReplaceAll(s: string, p: string, q: string): string
    requires |p| > 0
    decreases |s|
  {
    if |s| < |p| then s
    else if s[..|p|] == p then q + ReplaceAll(s[|p|..], p, q)
    else [s[0]] + ReplaceAll(s[1..], p, q)
  }

  /** Replacing a pattern that does not occur leaves the string as it was. */
  lemma {:induction false} ReplaceAbsent(s: string, p: string, q: string)
    requires |p| > 0 && !Contains(s, p)
    ensures ReplaceAll(s, p, q) == s
  {
    if |s| >= |p| {
      assert !OccursAt(s, p, 0);
      assert s[..|p|] != p;
      assert !Contains(s[1..], p) by {
        forall i: nat ensures !OccursAt(s[1..], p, i) {
          if OccursAt(s[1..], p, i) {
            assert s[1..][i..i + |p|] == s[i + 1..i + 1 + |p|];
            assert OccursAt(s, p, i + 1);
          }
        }
      }
      ReplaceAbsent(s[1..], p, q);
    }
  }

  // ---------------------------------------------------------------------------
  // Whitespace stripping
  // ---------------------------------------------------------------------------

  /** `str.lstrip()`. */
  function LStrip(s: string): string
    decreases |s|
  {
    if |s| > 0 && IsSpace(s[0]) then LStrip(s[1..]) else s
  }

  /** `str.rstrip()`. */
  function RStrip(s: string): string
    decreases |s|
  {
    if |s| > 0 && IsSpace(s[|s| - 1]) then RStrip(s[..|s| - 1]) else s
  }

  /** `str.strip()`. */
  function Strip(s: string): string
  {
    RStrip(LStrip(s))
  }

  /** `LStrip` drops the leading whitespace of `s` and nothing else. */
  lemma {:induction false} LStripSpec(s: string)
    decreases |s|
    ensures |LStrip(s)| <= |s| && LStrip(s) == s[|s| - |LStrip(s)|..]
    ensures forall i :: 0 <= i < |s| - |LStrip(s)| ==> IsSpace(s[i])
    ensures LStrip(s) == [] || !IsSpace(LStrip(s)[0])
  {
    if |s| > 0 && IsSpace(s[0]) {
      LStripSpec(s[1..]);
    }
  }

  /** `RStrip` drops the trailing whitespace of `s` and nothing else. */
  lemma {:induction false} RStripSpec(s: string)
    decreases |s|
    ensures |RStrip(s)| <= |s| && RStrip(s) == s[..|RStrip(s)|]
    ensures forall i :: |RStrip(s)| <= i < |s| ==> IsSpace(s[i])
    ensures RStrip(s) == [] || !IsSpace(RStrip(s)[|RStrip(s)| - 1])
  {
    if |s| > 0 && IsSpace(s[|s| - 1]) {
      RStripSpec(s[..|s| - 1]);
    }
  }

  /**
    `Strip` keeps the slice `s[i..j]` and drops only whitespace around it; what
    is left has no whitespace at either end.
   */
  lemma StripSpec(s: string) returns (i: nat, j: nat)
    ensures i <= j <= |s| && Strip(s) == s[i..j]
    ensures forall k :: 0 <= k < i ==> IsSpace(s[k])
    ensures forall k :: j <= k < |s| ==> IsSpace(s[k])
    ensures Strip(s) == [] || (!IsSpace(Strip(s)[0]) && !IsSpace(Strip(s)[|Strip(s)| - 1]))
  {
    var l := LStrip(s);
    LStripSpec(s);
    RStripSpec(l);
    var r := RStrip(l);
    i := |s| - |l|;
    j := i + |r|;
    assert r == s[i..j];
    forall k | j <= k < |s| ensures IsSpace(s[k]) {
      assert s[k] == l[k - i];
    }
    if r != [] {
      assert r[0] == l[0];
    }
  }

  /** A string with no surrounding whitespace is its own strip. */
  lemma StripOfStripped(s: string)
    requires s == [] || (!IsSpace(s[0]) && !IsSpace(s[|s| - 1]))
    ensures Strip(s) == s
  {
  }

  /** Stripping twice is stripping once. */
  lemma StripIdempotent(s: string)
    ensures Strip(Strip(s)) == Strip(s)
  {
    var _, _ := StripSpec(s);
    StripOfStripped(Strip(s));
  }

  // ---------------------------------------------------------------------------
  // Joining and splitting
  // ---------------------------------------------------------------------------

  /** `sep.join(parts)`. */
  function Join(sep: string, parts: seq<string>): string
    decreases |parts|
  {
    if |parts| == 0 then ""
    else if |parts| == 1 then parts[0]
    else parts[0] + sep + Join(sep, parts[1..])
  }

  /** Every part occurs in the joined string. */
  lemma {:induction false} JoinHasPart(sep: string, parts: seq<string>, k: nat)
    requires k < |parts|
    ensures Contains(Join(sep, parts), parts[k])
    decreases k
  {
    var j := Join(sep, parts);
    if k == 0 {
      assert OccursAt(j, parts[0], 0) by {
        if |parts| > 1 {
          assert j == parts[0] + (sep + Join(sep, parts[1..]));
        }
      }
    } else {
      var rest := Join(sep, parts[1..]);
      JoinHasPart(sep, parts[1..], k - 1);
      var i: nat :| i <= |rest| && OccursAt(rest, parts[1..][k - 1], i);
      var off := |parts[0]| + |sep|;
      assert j == (parts[0] + sep) + rest;
      assert j[off + i..off + i + |parts[k]|] == rest[i..i + |parts[k]|];
      assert OccursAt(j, parts[k], off + i);
    }
  }

  /** `s.split(c)` for a single separator character. */
  function Split(s: string, c: char): (r: seq<string>)
    decreases |s|
    ensures |r| >= 1
    ensures forall k :: 0 <= k < |r| ==> c !in r[k]
  {
    if s == [] then [""]
    else if s[0] == c then [""] + Split(s[1..], c)
    else var t := Split(s[1..], c); [[s[0]] + t[0]] + t[1..]
  }

  /** Joining the pieces of a split with the separator gives back the string. */
  lemma {:induction false} JoinSplit(s: string, c: char)
    ensures Join([c], Split(s, c)) == s
  {
    if s != [] {
      JoinSplit(s[1..], c);
      if s[0] == c {
        JoinSplitAtSep(s, c);
      } else {
        JoinSplitAtChar(s, c);
      }
    }
  }

  /** Step of `JoinSplit` when the string starts with the separator. */
  lemma JoinSplitAtSep(s: string, c: char)
    requires s != [] && s[0] == c && Join([c], Split(s[1..], c)) == s[1..]
    ensures Join([c], Split(s, c)) == s
  {
    var t := Split(s[1..], c);
    assert Split(s, c) == [""] + t;
    assert ([""] + t)[1..] == t;
    assert Join([c], [""] + t) == "" + [c] + Join([c], t);
    assert s == [c] + s[1..];
  }

  /** Step of `JoinSplit` when the string starts with another character. */
  lemma JoinSplitAtChar(s: string, c: char)
    requires s != [] && s[0] != c && Join([c], Split(s[1..], c)) == s[1..]
    ensures Join([c], Split(s, c)) == s
  {
    var t := Split(s[1..], c);
    assert Split(s, c) == [[s[0]] + t[0]] + t[1..];
    JoinPrepend([c], s[0], t);
    assert s == [s[0]] + s[1..];
  }

  /** A character put in front of the first part comes first in the joined string. */
  lemma JoinPrepend(sep: string, x: char, t: seq<string>)
    requires |t| >= 1
    ensures Join(sep, [[x] + t[0]] + t[1..]) == [x] + Join(sep, t)
  {
    var u := [[x] + t[0]] + t[1..];
    if |t| > 1 {
      var rest := Join(sep, t[1..]);
      assert u[1..] == t[1..];
      assert Join(sep, u) == u[0] + sep + rest;
      assert Join(sep, t) == t[0] + sep + rest;
    }
  }

  /** `"".join(parts)`. */
  function Concat(parts: seq<string>): string
  {
    if parts == [] then "" else parts[0] + Concat(parts[1..])
  }

  // ---------------------------------------------------------------------------
  // Decimal rendering (`str(n)`, f"{n}")
  // ---------------------------------------------------------------------------

  function Dec(n: nat): (r: string)
    decreases n
    ensures |r| >= 1
    ensures forall i :: 0 <= i < |r| ==> IsDigit(r[i])
  {
    if n < 10 then [DigitChar(n)] else Dec(n / 10) + [DigitChar(n % 10)]
  }

  /** f"{i}" for any integer. */
  function IntToString(i: int): string
  {
    if i < 0 then "-" + Dec(-i) else Dec(i)
  }

  function ParseDec(s: string): nat
    requires forall i :: 0 <= i < |s| ==> IsDigit(s[i])
  {
    if s == [] then 0 else ParseDec(s[..|s| - 1]) * 10 + DigitValue(s[|s| - 1])
  }

  lemma {:induction false} DecRoundTrip(n: nat)
    ensures ParseDec(Dec(n)) == n
  {
    if n >= 10 {
      DecRoundTrip(n / 10);
      var s := Dec(n);
      assert s[..|s| - 1] == Dec(n / 10);
    }
  }

  /** Different numbers have different decimal renderings. */
  lemma DecInjective(a: nat, b: nat)
    requires Dec(a) == Dec(b)
    ensures a == b
  {
    DecRoundTrip(a);
    DecRoundTrip(b);
  }

  /** Thousands-grouped decimal, f"{n:,}". */
  function Thousands(n: nat): string
    decreases n
  {
    if n < 1000 then Dec(n) else Thousands(n / 1000) + "," + Pad3(n % 1000)
  }

  function Pad3(n: nat): (r: string)
    requires n < 1000
    ensures |r| == 3
  {
    [DigitChar(n / 100), DigitChar((n / 10) % 10), DigitChar(n % 10)]
  }

  // ---------------------------------------------------------------------------
  // Sequences of numbers
  // ---------------------------------------------------------------------------

  function Sum(s: seq<int>): int
  {
    if s == [] then 0 else Sum(s[..|s| - 1]) + s[|s| - 1]
  }

  /** The pieces between slashes that pathlib keeps: empty and `.` pieces are dropped. */
  function KeptParts(pieces: seq<string>): (r: seq<string>)
    requires forall k :: 0 <= k < |pieces| ==> '/' !in pieces[k]
    ensures |r| <= |pieces|
    ensures forall k :: 0 <= k < |r| ==> r[k] != "" && r[k] != "." && '/' !in r[k]
  {
    if pieces == [] then []
    else
      var x := pieces[|pieces| - 1];
      KeptParts(pieces[..|pieces| - 1]) + (if x == "" || x == "." then [] else [x])
  }

  /** The parts of a path as `pathlib` parses it (a leading `/` aside). */
  function PathParts(p: string): (r: seq<string>)
    ensures forall k :: 0 <= k < |r| ==> r[k] != "" && r[k] != "." && '/' !in r[k]
  {
    KeptParts(Split(p, '/'))
  }

  /** `Path(path).name`: the last part, and "" when there is none, as for `.` and `/`. */
  function BaseName(path: string): (r: string)
    ensures '/' !in r && r != "."
    ensures r == "" <==> PathParts(path) == []
  {
    var ps := PathParts(path);
    if ps == [] then "" else ps[|ps| - 1]
  }

  // ---------------------------------------------------------------------------
  // JSON values as json.load produces them
  // ---------------------------------------------------------------------------

  /** A loaded JSON value; an object keeps its keys in file order, without duplicates. */
  datatype Json =
    | JNull
    | JBool(b: bool)
    | JInt(i: int)
    | JStr(s: string)
    | JArr(items: seq<Json>)
    | JObj(fields: seq<(string, Json)>)

  /** Python truthiness of a loaded value. */
  predicate Truthy(j: Json)
  {
    match j
    case JNull => false
    case JBool(b) => b
    case JInt(i) => i != 0
    case JStr(s) => s != ""
    case JArr(items) => items != []
    case JObj(fields) => fields != []
  }

  function Keys(fields: seq<(string, Json)>): (r: seq<string>)
    ensures |r| == |fields|
    ensures forall i :: 0 <= i < |fields| ==> r[i] == fields[i].0
  {
    seq(|fields|, i requires 0 <= i < |fields| => fields[i].0)
  }

  /** The first binding of `key` at or after position `k`. */
  function LookupFrom(fields: seq<(string, Json)>, key: string, k: nat): Option<Json>
    decreases |fields| - k
  {
    if k >= |fields| then None
    else if fields[k].0 == key then Some(fields[k].1)
    else LookupFrom(fields, key, k + 1)
  }

  lemma {:induction false} LookupFromSpec(fields: seq<(string, Json)>, key: string, k: nat)
    decreases |fields| - k
    ensures LookupFrom(fields, key, k).None? <==> forall i :: k <= i < |fields| ==> fields[i].0 != key
    ensures LookupFrom(fields, key, k).Some? ==>
              exists i :: k <= i < |fields| && fields[i] == (key, LookupFrom(fields, key, k).value)
  {
    if k < |fields| && fields[k].0 != key {
      LookupFromSpec(fields, key, k + 1);
    }
  }

  /** `key in d` and `d[key]` for an object: the first binding of `key`. */
  function Lookup(fields: seq<(string, Json)>, key: string): (r: Option<Json>)
    ensures r.None? <==> key !in Keys(fields)
    ensures r.Some? ==> exists i :: 0 <= i < |fields| && fields[i] == (key, r.value)
  {
    LookupFromSpec(fields, key, 0);
    LookupFrom(fields, key, 0)
  }

  lemma {:induction false} LookupFromAt(fields: seq<(string, Json)>, i: nat, k: nat)
    requires k <= i < |fields|
    requires forall j :: k <= j < i ==> fields[j].0 != fields[i].0
    ensures LookupFrom(fields, fields[i].0, k) == Some(fields[i].1)
    decreases i - k
  {
    if k < i {
      LookupFromAt(fields, i, k + 1);
    }
  }

  /** The binding at `i` is the one found when no earlier binding has its key. */
  lemma LookupAt(fields: seq<(string, Json)>, i: nat)
    requires i < |fields|
    requires forall j :: 0 <= j < i ==> fields[j].0 != fields[i].0
    ensures Lookup(fields, fields[i].0) == Some(fields[i].1)
  {
    LookupFromAt(fields, i, 0);
  }

  /** `d[key]` on a loaded value: None stands for the KeyError or TypeError Python raises. */
  function Index(j: Json, key: string): Option<Json>
  {
    if j.JObj? then Lookup(j.fields, key) else None
  }

  // ---------------------------------------------------------------------------
  // Insertion-ordered dictionaries
  // ---------------------------------------------------------------------------

  /** No string occurs twice. */
  predicate Distinct(s: seq<string>)
  {
    forall i, j :: 0 <= i < j < |s| ==> s[i] != s[j]
  }

  /** Concatenation of string lists is associative. */
  lemma ConcatAssoc(a: seq<string>, b: seq<string>, c: seq<string>)
    ensures a + b + c == a + (b + c)
  {
  }

  /** A prefix of distinct strings is distinct. */
  lemma DistinctPrefix(s: seq<string>, n: nat)
    requires Distinct(s) && n <= |s|
    ensures Distinct(s[..n])
  {
    forall a, b | 0 <= a < b < n ensures s[..n][a] != s[..n][b] {
      assert s[..n][a] == s[a] && s[..n][b] == s[b];
    }
  }

  /** A Python dict: its values and the order in which its keys were first inserted. */
  datatype ODict<V> = ODict(keys: seq<string>, vals: map<string, V>)
  {
    ghost predicate Valid()
    {
      (forall i, j :: 0 <= i < j < |keys| ==> keys[i] != keys[j])
      && (forall k :: k in vals <==> k in keys)
    }
  }

  function EmptyDict<V>(): (d: ODict<V>)
    ensures d.Valid() && d.keys == []
  {
    ODict([], map[])
  }

  /** `d[k] = v`: a new key goes to the end, an existing key keeps its place. */
  function Put<V>(d: ODict<V>, k: string, v: V): (r: ODict<V>)
    ensures d.Valid() ==> r.Valid()
    ensures r.vals == d.vals[k := v]
    ensures r.keys == if k in d.vals then d.keys else d.keys + [k]
  {
    if k in d.vals then ODict(d.keys, d.vals[k := v]) else ODict(d.keys + [k], d.vals[k := v])
  }

  /** The keys of `ks` that are not in `seen`, in order, each once. */
  function NewKeys(seen: set<string>, ks: seq<string>): seq<string>
    decreases |ks|
  {
    if ks == [] then []
    else if ks[0] in seen then NewKeys(seen, ks[1..])
    else [ks[0]] + NewKeys(seen + {ks[0]}, ks[1..])
  }

  /** `d.update(e)`, stepping through `e`'s keys in order. */
  function UpdateWith<V>(d: ODict<V>, ks: seq<string>, e: map<string, V>): (r: ODict<V>)
    requires forall k :: k in ks ==> k in e
    decreases |ks|
    ensures d.Valid() ==> r.Valid()
  {
    if ks == [] then d else UpdateWith(Put(d, ks[0], e[ks[0]]), ks[1..], e)
  }

  /** `d.update(e)`. */
  function Update<V>(d: ODict<V>, e: ODict<V>): ODict<V>
    requires d.Valid() && e.Valid()
  {
    UpdateWith(d, e.keys, e.vals)
  }

  lemma {:induction false} UpdateWithKeys<V>(d: ODict<V>, ks: seq<string>, e: map<string, V>)
    requires forall k :: k in ks ==> k in e
    ensures UpdateWith(d, ks, e).keys == d.keys + NewKeys(d.vals.Keys, ks)
    decreases |ks|
  {
    if ks != [] {
      var d' := Put(d, ks[0], e[ks[0]]);
      UpdateWithKeys(d', ks[1..], e);
      var tail := NewKeys(d'.vals.Keys, ks[1..]);
      if ks[0] in d.vals {
        assert d'.vals.Keys == d.vals.Keys;
        assert NewKeys(d.vals.Keys, ks) == tail;
      } else {
        assert d'.vals.Keys == d.vals.Keys + {ks[0]};
        assert NewKeys(d.vals.Keys, ks) == [ks[0]] + tail;
        assert d'.keys + tail == d.keys + ([ks[0]] + tail);
      }
    }
  }

  lemma {:induction false} UpdateWithVals<V>(d: ODict<V>, ks: seq<string>, e: map<string, V>)
    requires forall k :: k in ks ==> k in e
    ensures forall k :: k in UpdateWith(d, ks, e).vals <==> k in d.vals || k in ks
    ensures forall k :: k in ks ==> UpdateWith(d, ks, e).vals[k] == e[k]
    ensures forall k :: k in d.vals && k !in ks ==> UpdateWith(d, ks, e).vals[k] == d.vals[k]
    decreases |ks|
  {
    if ks != [] {
      var d' := Put(d, ks[0], e[ks[0]]);
      UpdateWithVals(d', ks[1..], e);
      assert forall k :: k in ks <==> k == ks[0] || k in ks[1..];
    }
  }

  /**
    `dict.update` overwrites: afterwards a key of `e` holds `e`'s value (the old
    one is dropped, nothing is accumulated), every other key keeps its value, old
    keys keep their places and new keys follow in `e`'s order.
   */
  lemma UpdateOverwrites<V>(d: ODict<V>, e: ODict<V>)
    requires d.Valid() && e.Valid()
    ensures Update(d, e).Valid()
    ensures Update(d, e).vals == d.vals + e.vals
    ensures Update(d, e).keys == d.keys + NewKeys(d.vals.Keys, e.keys)
  {
    UpdateWithKeys(d, e.keys, e.vals);
    UpdateWithVals(d, e.keys, e.vals);
    MapUnion(Update(d, e).vals, d.vals, e.vals);
  }

  /** A map holding the keys of `a` and `b`, with `b`'s values where both have one, is `a + b`. */
  lemma MapUnion<V>(r: map<string, V>, a: map<string, V>, b: map<string, V>)
    requires forall k :: k in r <==> k in a || k in b
    requires forall k :: k in b ==> r[k] == b[k]
    requires forall k :: k in a && k !in b ==> r[k] == a[k]
    ensures r == a + b
  {
  }
}

=== FILE: enhanced_editor.dfy ===
/**
  The enhanced fix-application engine: it finds the fix text in a review
  report, runs four matching strategies that map files to lists of fixes,
  merges them with `dict.update`, folds each file's fixes into its content
  and writes back the files that changed.

  Regular expressions are not modelled. What they find in the fix text comes
  in a `FixScan` (header matches, fenced blocks, file-mention matches), and
  what they find in source code comes from a `Syntax` value.
 */
module EnhancedEditor {
  import opened Common
  import opened Workspace

  // ---------------------------------------------------------------------------
  // Fixes and the regex abstraction
  // ---------------------------------------------------------------------------

  datatype FixKind = CodeReplacement | FunctionReplacement(targetName: string)

  /** One fix dictionary: its type, `new_code`, `description` and `method` (here `strategy`). */
  datatype Fix = Fix(kind: FixKind, newCode: string, description: string, strategy: string)

  /** A dict from file to its list of fixes. */
  type FileFixes = ODict<seq<Fix>>

  /**
    What the fix-text regexes find, in text order: the `(filename, code)` pairs
    of the `**File: ...**` header pattern, the fenced code blocks, and the
    `(filename, code)` pairs of the three file-mention patterns, one pattern
    after the other.
   */
  datatype FixScan = FixScan(headers: seq<(string, string)>, blocks: seq<Block>, fileMentions: seq<(string, string)>)

  /** The outcome of `re.search` followed by `re.sub` for a declaration pattern. */
  datatype Rewrite = NoMatch | BadTemplate | Rewritten(text: string)

  /**
    What the source-code regexes find: the `def`/`class` names a code fragment
    defines (functions first, then classes), whether a file content declares a
    name, and the result of replacing a declaration with new code.
   */
  datatype Syntax = Syntax(
    definedNames: string -> seq<string>,
    declares: (string, string) -> bool,
    rewriteDecl: (string, string, string) -> Rewrite)

  // ---------------------------------------------------------------------------
  // Locating the fix text in the report
  // ---------------------------------------------------------------------------

  /** Python's `key in container` for a loaded value; None is the TypeError it raises. */
  function PyIn(key: string, container: Json): (r: Option<bool>)
    ensures container.JObj? ==> r == Some(key in Keys(container.fields))
    ensures container.JStr? ==> r == Some(Contains(container.s, key))
    ensures r.None? <==> !(container.JObj? || container.JArr? || container.JStr?)
  {
    match container
    case JObj(fields) => Some(key in Keys(fields))
    case JArr(items) => Some(JStr(key) in items)
    case JStr(s) => Some(Contains(s, key))
    case _ => None
  }

  datatype Located = Located(value: Json) | NotLocated | LookupRaised

  /** `report['applied_fixes']['generated_fixes']` if both keys are there, else `report['generated_fixes']`. */
  function LocateFixes(report: seq<(string, Json)>): (r: Located)
    ensures (exists af :: Lookup(report, "applied_fixes") == Some(JObj(af)) && Lookup(af, "generated_fixes").Some?)
      ==> r == Located(Lookup(Lookup(report, "applied_fixes").value.fields, "generated_fixes").value)
    ensures Lookup(report, "applied_fixes").None? ==>
      r == (if "generated_fixes" in Keys(report) then Located(Lookup(report, "generated_fixes").value) else NotLocated)
  {
    match Lookup(report, "applied_fixes")
    case Some(af) =>
      (match PyIn("generated_fixes", af)
       case None => LookupRaised
       case Some(true) =>
         (match Index(af, "generated_fixes")
          case Some(v) => Located(v)
          case None => LookupRaised)
       case Some(false) => LocateTopLevel(report))
    case None => LocateTopLevel(report)
  }

  function LocateTopLevel(report: seq<(string, Json)>): Located
  {
    match Lookup(report, "generated_fixes")
    case Some(v) => Located(v)
    case None => NotLocated
  }

  datatype FixText = Text(text: string) | NoFixes(availableKeys: seq<string>) | Raised

  /**
    The fix text of a report: located, rejected with the report's keys when it
    is missing or falsy, then unwrapped (the first item's `text` of a list, or
    the body of a `[TextBlock(text='...')]` rendering). Any value that does not
    end up a string makes Python raise.
   */
  function FixesText(report: seq<(string, Json)>): (r: FixText)
    ensures r.NoFixes? ==> r.availableKeys == Keys(report)
    ensures LocateFixes(report).NotLocated? ==> r == NoFixes(Keys(report))
    ensures LocateFixes(report).Located? && !Truthy(LocateFixes(report).value) ==> r == NoFixes(Keys(report))
    ensures r.Text? ==> LocateFixes(report).Located? && Truthy(LocateFixes(report).value)
  {
    match LocateFixes(report)
    case LookupRaised => Raised
    case NotLocated => NoFixes(Keys(report))
    case Located(v) => if !Truthy(v) then NoFixes(Keys(report)) else Unwrap(v)
  }

  function Unwrap(v: Json): FixText
  {
    match v
    case JArr(items) =>
      if items != [] && items[0].JObj? && "text" in Keys(items[0].fields) then
        match Lookup(items[0].fields, "text")
        case Some(JStr(s)) => Text(s)
        case _ => Raised
      else Raised
    case JStr(s) => Text(if StartsWith(s, "[TextBlock(") then UnwrapTextBlock(s) else s)
    case _ => Raised
  }

  /** Replaces the escapes `\n`, `\t` and `\'`, in that order. */
  function Unescape(t: string): string
  {
    ReplaceAll(ReplaceAll(ReplaceAll(t, "\\n", "\n"), "\\t", "\t"), "\\'", "'")
  }

  /** The slice between the first `text='` and the last `')]`, unescaped; the string itself if there is none. */
  function UnwrapTextBlock(s: string): (r: string)
    ensures !Contains(s, "text='") ==> r == s
  {
    var start := Find(s, "text='") + 6;
    var end := RFind(s, "')]");
    if start > 5 && end > start then Unescape(s[start..end]) else s
  }

  const TextBlockOpen := "[TextBlock(text='"
  const TextBlockClose := "')]"

  /**
    Unwrapping the rendering of a one-block list gives back the block's text,
    provided the text is non-empty and has no backslash; an empty text leaves
    the rendering as it is.
   */
  lemma TextBlockRoundTrip(t: string)
    requires '\\' !in t
    ensures t != "" ==> UnwrapTextBlock(TextBlockOpen + t + TextBlockClose) == t
    ensures t == "" ==> UnwrapTextBlock(TextBlockOpen + t + TextBlockClose) == TextBlockOpen + t + TextBlockClose
  {
    var s := TextBlockOpen + t + TextBlockClose;
    var p := "text='";
    assert OccursAt(s, p, 11);
    forall j: nat | j < 11 ensures !OccursAt(s, p, j) {
      assert s[j] == TextBlockOpen[j];
      if j == 4 {
        assert s[5] == 'B';
      }
    }
    assert Find(s, p) == 11;
    assert OccursAt(s, TextBlockClose, |s| - 3);
    assert RFind(s, TextBlockClose) == |s| - 3;
    if t != "" {
      assert s[17..|s| - 3] == t;
      NoBackslashNoEscape(t, "\\n");
      ReplaceAbsent(t, "\\n", "\n");
      NoBackslashNoEscape(t, "\\t");
      ReplaceAbsent(t, "\\t", "\t");
      NoBackslashNoEscape(t, "\\'");
      ReplaceAbsent(t, "\\'", "'");
    }
  }

  lemma NoBackslashNoEscape(t: string, e: string)
    requires '\\' !in t
    requires |e| > 0 && e[0] == '\\'
    ensures !Contains(t, e)
  {
    forall i: nat | i <= |t| ensures !OccursAt(t, e, i) {
      if i + |e| <= |t| {
        assert t[i..i + |e|][0] == t[i];
      }
    }
  }

  // ---------------------------------------------------------------------------
  // Building dicts of fix lists
  // ---------------------------------------------------------------------------

  /** `d.get(k, [])`. */
  function FixesAt(d: FileFixes, k: string): seq<Fix>
  {
    if k in d.vals then d.vals[k] else []
  }

  /** `if k not in d: d[k] = []` followed by `d[k].append(f)`. */
  function AddFix(d: FileFixes, k: string, f: Fix): (r: FileFixes)
    ensures d.Valid() ==> r.Valid()
    ensures r.vals == d.vals[k := FixesAt(d, k) + [f]]
  {
    Put(d, k, FixesAt(d, k) + [f])
  }

  /** The dict a strategy builds from the `(file, fix)` pairs it emits, in order. */
  function Group(es: seq<(string, Fix)>): (r: FileFixes)
    ensures r.Valid()
  {
    if es == [] then EmptyDict() else AddFix(Group(es[..|es| - 1]), es[|es| - 1].0, es[|es| - 1].1)
  }

  /** The fixes emitted for `k`, in emission order. */
  function FixesFor(es: seq<(string, Fix)>, k: string): seq<Fix>
  {
    if es == [] then []
    else FixesFor(es[..|es| - 1], k) + (if es[|es| - 1].0 == k then [es[|es| - 1].1] else [])
  }

  lemma GroupSnoc(es: seq<(string, Fix)>, e: (string, Fix))
    ensures Group(es + [e]) == AddFix(Group(es), e.0, e.1)
  {
    assert (es + [e])[..|es|] == es;
  }

  lemma FixesForSnoc(es: seq<(string, Fix)>, e: (string, Fix), k: string)
    ensures FixesFor(es + [e], k) == FixesFor(es, k) + (if e.0 == k then [e.1] else [])
  {
    assert (es + [e])[..|es|] == es;
  }

  /** A grouped dict holds exactly the emitted files. */
  lemma {:induction false} GroupKeys(es: seq<(string, Fix)>)
    ensures forall k :: k in Group(es).vals <==> exists i :: 0 <= i < |es| && es[i].0 == k
  {
    if es != [] {
      var init := es[..|es| - 1];
      var e := es[|es| - 1];
      GroupKeys(init);
      forall k ensures k in Group(es).vals <==> exists i :: 0 <= i < |es| && es[i].0 == k {
        if k in Group(es).vals && k != e.0 {
          var i :| 0 <= i < |init| && init[i].0 == k;
          assert es[i].0 == k;
        }
        if exists i :: 0 <= i < |es| && es[i].0 == k {
          var i :| 0 <= i < |es| && es[i].0 == k;
          if i < |init| {
            assert init[i].0 == k;
          }
        }
      }
    }
  }

  /** Each file's list in a grouped dict is the fixes emitted for it, in emission order. */
  lemma {:induction false} GroupFixes(es: seq<(string, Fix)>, k: string)
    ensures FixesAt(Group(es), k) == FixesFor(es, k)
  {
    if es != [] {
      GroupFixes(es[..|es| - 1], k);
    }
  }

  /**
    A grouped dict holds exactly the emitted files, and each file's list is the
    fixes emitted for it, in emission order.
   */
  lemma GroupContents(es: seq<(string, Fix)>)
    ensures forall k :: k in Group(es).vals <==> exists i :: 0 <= i < |es| && es[i].0 == k
    ensures forall k :: FixesAt(Group(es), k) == FixesFor(es, k)
  {
    GroupKeys(es);
    forall k ensures FixesAt(Group(es), k) == FixesFor(es, k) {
      GroupFixes(es, k);
    }
  }

  // ---------------------------------------------------------------------------
  // Merging the four strategies
  // ---------------------------------------------------------------------------

  /** `_enhanced_parse_fixes`: header, proximity, function and mention results, merged with `dict.update` in that order. */
  function Merge(header: FileFixes, proximity: FileFixes, functions: FileFixes, mention: FileFixes): FileFixes
    requires header.Valid() && proximity.Valid() && functions.Valid() && mention.Valid()
  {
    UpdateOverwrites(header, proximity);
    UpdateOverwrites(Update(header, proximity), functions);
    Update(Update(Update(header, proximity), functions), mention)
  }

  /**
    For a file found by several strategies the merged dict holds the list of
    the last of them; earlier lists are dropped, not accumulated.
   */
  lemma MergeLaterWins(h: FileFixes, p: FileFixes, f: FileFixes, m: FileFixes)
    requires h.Valid() && p.Valid() && f.Valid() && m.Valid()
    ensures Merge(h, p, f, m).Valid()
    ensures forall k :: k in Merge(h, p, f, m).vals <==> k in h.vals || k in p.vals || k in f.vals || k in m.vals
    ensures forall k :: k in m.vals ==> Merge(h, p, f, m).vals[k] == m.vals[k]
    ensures forall k :: k !in m.vals && k in f.vals ==> Merge(h, p, f, m).vals[k] == f.vals[k]
    ensures forall k :: k !in m.vals && k !in f.vals && k in p.vals ==> Merge(h, p, f, m).vals[k] == p.vals[k]
    ensures forall k :: k !in m.vals && k !in f.vals && k !in p.vals && k in h.vals ==> Merge(h, p, f, m).vals[k] == h.vals[k]
  {
    var hp := Update(h, p);
    UpdateOverwrites(h, p);
    var hpf := Update(hp, f);
    UpdateOverwrites(hp, f);
    UpdateOverwrites(hpf, m);
    assert Merge(h, p, f, m).vals == h.vals + p.vals + f.vals + m.vals;
  }

  /** Every file a grouped dict holds was emitted; so if all emitted files exist, all its files exist. */
  lemma GroupKeysExist(es: seq<(string, Fix)>, dir: seq<SourceFile>)
    requires forall e :: e in es ==> Exists(dir, e.0)
    ensures forall k :: k in Group(es).vals ==> Exists(dir, k)
  {
    GroupContents(es);
    forall k | k in Group(es).vals ensures Exists(dir, k) {
      var i :| 0 <= i < |es| && es[i].0 == k;
      assert es[i] in es;
    }
  }

  // ---------------------------------------------------------------------------
  // Strategy 1: explicit `**File: name**` headers
  // ---------------------------------------------------------------------------

  function HeaderFix(clean: string, code: string): Fix
  {
    Fix(CodeReplacement, Strip(code), "Fix from explicit header for " + clean, "explicit_header")
  }

  /** A header's filename, stripped and without its `file_<digits>_` prefix. */
  function CleanName(filename: string): string
  {
    StripIdPrefix(Strip(filename))
  }

  /** One header match emits a fix for its clean name when that file exists. */
  function HeaderEmission(h: (string, string), dir: seq<SourceFile>): seq<(string, Fix)>
  {
    var clean := CleanName(h.0);
    if Exists(dir, clean) then [(clean, HeaderFix(clean, h.1))] else []
  }

  /**
    The pairs the header strategy emits: each names an existing file whose name
    is a header's filename with the `file_<digits>_` prefix removed, and every
    header naming an existing file emits one.
   */
  function HeaderEmissions(hs: seq<(string, string)>, dir: seq<SourceFile>): seq<(string, Fix)>
  {
    if hs == [] then [] else HeaderEmissions(hs[..|hs| - 1], dir) + HeaderEmission(hs[|hs| - 1], dir)
  }

  /** A pair is emitted by the header strategy exactly when some header match emits it on its own. */
  lemma {:induction false} HeaderEmissionsSpec(hs: seq<(string, string)>, dir: seq<SourceFile>)
    ensures forall e :: e in HeaderEmissions(hs, dir) <==> exists h :: h in hs && e in HeaderEmission(h, dir)
  {
    if hs != [] {
      var init := hs[..|hs| - 1];
      var last := hs[|hs| - 1];
      HeaderEmissionsSpec(init, dir);
      assert forall h :: h in hs <==> h in init || h == last;
    }
  }

  lemma HeaderStep(hs: seq<(string, string)>, i: nat, dir: seq<SourceFile>)
    requires i < |hs|
    ensures Group(HeaderEmissions(hs[..i + 1], dir))
      == if Exists(dir, CleanName(hs[i].0))
         then AddFix(Group(HeaderEmissions(hs[..i], dir)), CleanName(hs[i].0), HeaderFix(CleanName(hs[i].0), hs[i].1))
         else Group(HeaderEmissions(hs[..i], dir))
  {
    var before := HeaderEmissions(hs[..i], dir);
    assert hs[..i + 1][..i] == hs[..i];
    var clean := CleanName(hs[i].0);
    if Exists(dir, clean) {
      var fix := HeaderFix(clean, hs[i].1);
      assert HeaderEmissions(hs[..i + 1], dir) == before + [(clean, fix)];
      GroupSnoc(before, (clean, fix));
    } else {
      assert HeaderEmissions(hs[..i + 1], dir) == before;
    }
  }

  /** `_parse_explicit_file_headers`. */
  method ParseExplicitHeaders(hs: seq<(string, string)>, dir: seq<SourceFile>) returns (d: FileFixes)
    ensures d == Group(HeaderEmissions(hs, dir))
  {
    d := EmptyDict();
    assert hs[..0] == [];
    var i := 0;
    while i < |hs|
      invariant 0 <= i <= |hs|
      invariant d == Group(HeaderEmissions(hs[..i], dir))
    {
      HeaderStep(hs, i, dir);
      var clean := CleanName(hs[i].0);
      if Exists(dir, clean) {
        d := AddFix(d, clean, HeaderFix(clean, hs[i].1));
      }
      i := i + 1;
    }
    assert hs[..|hs|] == hs;
  }

  // ---------------------------------------------------------------------------
  // Strategy 2: filename mentions near code blocks
  // ---------------------------------------------------------------------------

  /** `abs(file_pos - code_start) < 500`. */
  predicate Near(pos: nat, b: Block)
  {
    -500 < pos - b.start < 500
  }

  /** The first block, in text order, that starts near `pos`. */
  function FirstNear(pos: nat, blocks: seq<Block>): (r: Option<nat>)
    ensures r.Some? ==> r.value < |blocks| && Near(pos, blocks[r.value])
    ensures r.Some? ==> forall j :: 0 <= j < r.value ==> !Near(pos, blocks[j])
    ensures r.None? ==> forall j :: 0 <= j < |blocks| ==> !Near(pos, blocks[j])
  {
    if blocks == [] then None
    else if Near(pos, blocks[0]) then Some(0)
    else match FirstNear(pos, blocks[1..])
      case None => None
      case Some(j) => Some(j + 1)
  }

  /**
    The start positions `re.finditer(re.escape(name), text, re.IGNORECASE)`
    reports from index `i` on: non-overlapping, left to right.
   */
  function MentionsFrom(text: string, name: string, i: nat): (r: seq<nat>)
    requires name != []
    decreases |text| - i
    ensures forall j :: 0 <= j < |r| ==> i <= r[j] && r[j] + |name| <= |text|
    ensures forall j :: 0 <= j < |r| ==> Lower(text[r[j]..r[j] + |name|]) == Lower(name)
  {
    if i + |name| > |text| then []
    else if Lower(text[i..i + |name|]) == Lower(name) then [i] + MentionsFrom(text, name, i + |name|)
    else MentionsFrom(text, name, i + 1)
  }

  function Mentions(text: string, name: string): seq<nat>
    requires name != []
  {
    MentionsFrom(text, name, 0)
  }

  function ProximityFix(name: string, b: Block): Fix
  {
    Fix(CodeReplacement, Strip(b.code), "Fix near filename mention for " + name, "filename_proximity")
  }

  /**
    What the mentions of one file emit: at most one fix per mention, made from
    the first block near that mention.
   */
  function FileProximity(name: string, mentions: seq<nat>, blocks: seq<Block>): (r: seq<(string, Fix)>)
    ensures |r| <= |mentions|
    ensures forall i :: 0 <= i < |r| ==> r[i].0 == name
  {
    if mentions == [] then []
    else
      var m := mentions[|mentions| - 1];
      FileProximity(name, mentions[..|mentions| - 1], blocks)
      + (match FirstNear(m, blocks)
         case Some(j) => [(name, ProximityFix(name, blocks[j]))]
         case None => [])
  }

  /** The pairs the proximity strategy emits, file by file in directory order. */
  function ProximityEmissions(files: seq<SourceFile>, text: string, blocks: seq<Block>): seq<(string, Fix)>
    requires forall i :: 0 <= i < |files| ==> IsPyName(files[i].name)
  {
    if files == [] then []
    else
      var f := files[|files| - 1];
      assert IsPyName(f.name);
      ProximityEmissions(files[..|files| - 1], text, blocks) + FileProximity(f.name, Mentions(text, f.name), blocks)
  }

  /** The set of names of some directory entries. */
  function Names(files: seq<SourceFile>): set<string>
  {
    set f | f in files :: f.name
  }

  lemma {:induction false} ProximityEmissionsNames(files: seq<SourceFile>, text: string, blocks: seq<Block>)
    requires forall i :: 0 <= i < |files| ==> IsPyName(files[i].name)
    ensures forall e :: e in ProximityEmissions(files, text, blocks) ==> e.0 in Names(files)
  {
    if files != [] {
      var init := files[..|files| - 1];
      ProximityEmissionsNames(init, text, blocks);
      assert Names(init) <= Names(files);
      var f := files[|files| - 1];
      assert f.name in Names(files);
    }
  }

  /** The block a scan stops at is the first near one. */
  lemma FirstNearIs(pos: nat, blocks: seq<Block>, bi: nat)
    requires bi <= |blocks|
    requires forall j :: 0 <= j < bi ==> !Near(pos, blocks[j])
    requires bi < |blocks| ==> Near(pos, blocks[bi])
    ensures FirstNear(pos, blocks) == if bi < |blocks| then Some(bi) else None
  {
  }

  lemma ProximityFileStep(files: seq<SourceFile>, fi: nat, text: string, blocks: seq<Block>)
    requires fi < |files| && forall i :: 0 <= i < |files| ==> IsPyName(files[i].name)
    ensures ProximityEmissions(files[..fi + 1], text, blocks)
      == ProximityEmissions(files[..fi], text, blocks) + FileProximity(files[fi].name, Mentions(text, files[fi].name), blocks)
  {
    assert files[..fi + 1][..fi] == files[..fi];
  }

  lemma ProximityMentionStep(before: seq<(string, Fix)>, name: string, ms: seq<nat>, mi: nat, blocks: seq<Block>, bi: nat)
    requires mi < |ms| && bi <= |blocks|
    requires FirstNear(ms[mi], blocks) == if bi < |blocks| then Some(bi) else None
    ensures bi < |blocks| ==>
              Group(before + FileProximity(name, ms[..mi + 1], blocks))
              == AddFix(Group(before + FileProximity(name, ms[..mi], blocks)), name, ProximityFix(name, blocks[bi]))
    ensures bi == |blocks| ==>
              Group(before + FileProximity(name, ms[..mi + 1], blocks))
              == Group(before + FileProximity(name, ms[..mi], blocks))
  {
    assert ms[..mi + 1][..mi] == ms[..mi];
    var sofar := FileProximity(name, ms[..mi], blocks);
    if bi < |blocks| {
      var e := (name, ProximityFix(name, blocks[bi]));
      assert FileProximity(name, ms[..mi + 1], blocks) == sofar + [e];
      assert before + (sofar + [e]) == (before + sofar) + [e];
      GroupSnoc(before + sofar, e);
    } else {
      assert FileProximity(name, ms[..mi + 1], blocks) == sofar + [];
      assert before + (sofar + []) == before + sofar;
    }
  }

  /** The scan for the first code block within 500 characters of a mention. */
  method ScanNear(pos: nat, blocks: seq<Block>) returns (r: Option<nat>)
    ensures r == FirstNear(pos, blocks)
  {
    var bi := 0;
    while bi < |blocks| && !Near(pos, blocks[bi])
      invariant 0 <= bi <= |blocks|
      invariant forall j :: 0 <= j < bi ==> !Near(pos, blocks[j])
    {
      bi := bi + 1;
    }
    FirstNearIs(pos, blocks, bi);
    r := if bi < |blocks| then Some(bi) else None;
  }

  /** Adds the fixes one file's mentions produce to `d`, the dict grouped from `before`. */
  method AddFileProximity(d0: FileFixes, ghost before: seq<(string, Fix)>, name: string, mentions: seq<nat>, blocks: seq<Block>)
    returns (d: FileFixes)
    requires d0 == Group(before)
    ensures d == Group(before + FileProximity(name, mentions, blocks))
  {
    d := d0;
    assert before + FileProximity(name, mentions[..0], blocks) == before;
    var mi := 0;
    while mi < |mentions|
      invariant 0 <= mi <= |mentions|
      invariant d == Group(before + FileProximity(name, mentions[..mi], blocks))
    {
      var near := ScanNear(mentions[mi], blocks);
      var bi := if near.Some? then near.value else |blocks|;
      ProximityMentionStep(before, name, mentions, mi, blocks, bi);
      if near.Some? {
        d := AddFix(d, name, ProximityFix(name, blocks[near.value]));
      }
      mi := mi + 1;
    }
    assert mentions[..|mentions|] == mentions;
  }

  /** `_parse_filename_with_codeblocks`. */
  method ParseFilenameWithCodeblocks(text: string, blocks: seq<Block>, dir: seq<SourceFile>) returns (d: FileFixes)
    ensures d == Group(ProximityEmissions(PyFiles(dir), text, blocks))
  {
    var files := PyFiles(dir);
    assert forall i :: 0 <= i < |files| ==> files[i] in files && IsPyName(files[i].name);
    d := EmptyDict();
    var fi := 0;
    while fi < |files|
      invariant 0 <= fi <= |files|
      invariant d == Group(ProximityEmissions(files[..fi], text, blocks))
    {
      var name := files[fi].name;
      d := AddFileProximity(d, ProximityEmissions(files[..fi], text, blocks), name, Mentions(text, name), blocks);
      ProximityFileStep(files, fi, text, blocks);
      fi := fi + 1;
    }
    assert files[..|files|] == files;
  }

  // ---------------------------------------------------------------------------
  // Strategy 3: functions and classes defined in code blocks
  // ---------------------------------------------------------------------------

  /** `_find_files_with_name` as a filter: the readable files that declare `name`. */
  function FilesDeclaring(files: seq<SourceFile>, name: string, syn: Syntax): seq<SourceFile>
  {
    if files == [] then []
    else
      var f := files[|files| - 1];
      FilesDeclaring(files[..|files| - 1], name, syn) + (if f.readError.None? && syn.declares(f.content, name) then [f] else [])
  }

  lemma {:induction false} FilesDeclaringSpec(files: seq<SourceFile>, name: string, syn: Syntax)
    ensures forall f :: f in FilesDeclaring(files, name, syn) <==> f in files && f.readError.None? && syn.declares(f.content, name)
  {
    if files != [] {
      var init := files[..|files| - 1];
      assert forall x :: x in files <==> x in init || x == files[|files| - 1];
      FilesDeclaringSpec(init, name, syn);
    }
  }

  /** `_find_files_with_name`: a file that cannot be read is skipped. */
  method FindFilesWithName(files: seq<SourceFile>, name: string, syn: Syntax) returns (r: seq<SourceFile>)
    ensures r == FilesDeclaring(files, name, syn)
  {
    r := [];
    var i := 0;
    while i < |files|
      invariant 0 <= i <= |files|
      invariant r == FilesDeclaring(files[..i], name, syn)
    {
      assert files[..i + 1][..i] == files[..i];
      if files[i].readError.None? && syn.declares(files[i].content, name) {
        r := r + [files[i]];
      }
      i := i + 1;
    }
    assert files[..|files|] == files;
  }

  function FunctionFix(code: string, name: string, file: string): Fix
  {
    Fix(FunctionReplacement(name), Strip(code), "Fix for " + name + " in " + file, "function_matching")
  }

  /** One fix per matching file, in the order the files were found. */
  function NameEmissions(code: string, name: string, matching: seq<SourceFile>): seq<(string, Fix)>
  {
    if matching == [] then []
    else
      var f := matching[|matching| - 1];
      NameEmissions(code, name, matching[..|matching| - 1]) + [(f.name, FunctionFix(code, name, f.name))]
  }

  lemma {:induction false} NameEmissionsSpec(code: string, name: string, matching: seq<SourceFile>)
    ensures |NameEmissions(code, name, matching)| == |matching|
    ensures forall i :: 0 <= i < |matching| ==>
              NameEmissions(code, name, matching)[i] == (matching[i].name, FunctionFix(code, name, matching[i].name))
  {
    if matching != [] {
      NameEmissionsSpec(code, name, matching[..|matching| - 1]);
    }
  }

  function CodeEmissions(code: string, names: seq<string>, files: seq<SourceFile>, syn: Syntax): seq<(string, Fix)>
  {
    if names == [] then []
    else
      var name := names[|names| - 1];
      CodeEmissions(code, names[..|names| - 1], files, syn) + NameEmissions(code, name, FilesDeclaring(files, name, syn))
  }

  lemma {:induction false} CodeEmissionsNames(code: string, names: seq<string>, files: seq<SourceFile>, syn: Syntax)
    ensures forall e :: e in CodeEmissions(code, names, files, syn) ==> e.0 in Names(files)
  {
    if names != [] {
      var name := names[|names| - 1];
      CodeEmissionsNames(code, names[..|names| - 1], files, syn);
      var matching := FilesDeclaring(files, name, syn);
      var tail := NameEmissions(code, name, matching);
      NameEmissionsSpec(code, name, matching);
      FilesDeclaringSpec(files, name, syn);
      forall e | e in tail ensures e.0 in Names(files) {
        var i :| 0 <= i < |tail| && tail[i] == e;
        assert matching[i] in files;
      }
    }
  }

  /** The pairs the function strategy emits: block by block, name by name, matching file by matching file. */
  function FunctionEmissions(codes: seq<string>, files: seq<SourceFile>, syn: Syntax): seq<(string, Fix)>
  {
    if codes == [] then []
    else
      var code := codes[|codes| - 1];
      FunctionEmissions(codes[..|codes| - 1], files, syn) + CodeEmissions(code, syn.definedNames(code), files, syn)
  }

  lemma {:induction false} FunctionEmissionsNames(codes: seq<string>, files: seq<SourceFile>, syn: Syntax)
    ensures forall e :: e in FunctionEmissions(codes, files, syn) ==> e.0 in Names(files)
  {
    if codes != [] {
      var code := codes[|codes| - 1];
      FunctionEmissionsNames(codes[..|codes| - 1], files, syn);
      CodeEmissionsNames(code, syn.definedNames(code), files, syn);
    }
  }

  function BlockCodes(blocks: seq<Block>): (r: seq<string>)
    ensures |r| == |blocks| && forall i :: 0 <= i < |blocks| ==> r[i] == blocks[i].code
  {
    seq(|blocks|, i requires 0 <= i < |blocks| => blocks[i].code)
  }

  lemma FunctionCodeStep(codes: seq<string>, ci: nat, files: seq<SourceFile>, syn: Syntax)
    requires ci < |codes|
    ensures FunctionEmissions(codes[..ci + 1], files, syn)
      == FunctionEmissions(codes[..ci], files, syn) + CodeEmissions(codes[ci], syn.definedNames(codes[ci]), files, syn)
  {
    assert codes[..ci + 1][..ci] == codes[..ci];
  }

  lemma FunctionNameStep(before: seq<(string, Fix)>, code: string, names: seq<string>, ni: nat, files: seq<SourceFile>, syn: Syntax)
    requires ni < |names|
    ensures before + CodeEmissions(code, names[..ni + 1], files, syn)
      == (before + CodeEmissions(code, names[..ni], files, syn)) + NameEmissions(code, names[ni], FilesDeclaring(files, names[ni], syn))
  {
    assert names[..ni + 1][..ni] == names[..ni];
  }

  lemma FunctionFileStep(before: seq<(string, Fix)>, code: string, name: string, matching: seq<SourceFile>, mi: nat)
    requires mi < |matching|
    ensures Group(before + NameEmissions(code, name, matching[..mi + 1]))
      == AddFix(Group(before + NameEmissions(code, name, matching[..mi])), matching[mi].name,
                FunctionFix(code, name, matching[mi].name))
  {
    assert matching[..mi + 1][..mi] == matching[..mi];
    var sofar := NameEmissions(code, name, matching[..mi]);
    var e := (matching[mi].name, FunctionFix(code, name, matching[mi].name));
    assert before + (sofar + [e]) == (before + sofar) + [e];
    GroupSnoc(before + sofar, e);
  }

  /** Adds one fix per file that declares `name` to `d`, the dict grouped from `before`. */
  method AddNameFixes(d0: FileFixes, ghost before: seq<(string, Fix)>, code: string, name: string, matching: seq<SourceFile>)
    returns (d: FileFixes)
    requires d0 == Group(before)
    ensures d == Group(before + NameEmissions(code, name, matching))
  {
    d := d0;
    assert matching[..0] == [] && before + [] == before;
    var mi := 0;
    while mi < |matching|
      invariant 0 <= mi <= |matching|
      invariant d == Group(before + NameEmissions(code, name, matching[..mi]))
    {
      FunctionFileStep(before, code, name, matching, mi);
      d := AddFix(d, matching[mi].name, FunctionFix(code, name, matching[mi].name));
      mi := mi + 1;
    }
    assert matching[..|matching|] == matching;
  }

  /** Adds the fixes for every name one code block defines. */
  method AddCodeFixes(d0: FileFixes, ghost before: seq<(string, Fix)>, code: string, names: seq<string>, files: seq<SourceFile>, syn: Syntax)
    returns (d: FileFixes)
    requires d0 == Group(before)
    ensures d == Group(before + CodeEmissions(code, names, files, syn))
  {
    d := d0;
    assert names[..0] == [];
    ghost var sofar := before;
    var ni := 0;
    while ni < |names|
      invariant 0 <= ni <= |names|
      invariant sofar == before + CodeEmissions(code, names[..ni], files, syn)
      invariant d == Group(sofar)
    {
      var matching := FindFilesWithName(files, names[ni], syn);
      d := AddNameFixes(d, sofar, code, names[ni], matching);
      FunctionNameStep(before, code, names, ni, files, syn);
      sofar := sofar + NameEmissions(code, names[ni], matching);
      ni := ni + 1;
    }
    assert names[..|names|] == names;
  }

  /** `_parse_function_fixes`. */
  method ParseFunctionFixes(blocks: seq<Block>, dir: seq<SourceFile>, syn: Syntax) returns (d: FileFixes)
    ensures d == Group(FunctionEmissions(BlockCodes(blocks), PyFiles(dir), syn))
  {
    var files := PyFiles(dir);
    var codes := BlockCodes(blocks);
    d := EmptyDict();
    var ci := 0;
    while ci < |codes|
      invariant 0 <= ci <= |codes|
      invariant d == Group(FunctionEmissions(codes[..ci], files, syn))
    {
      d := AddCodeFixes(d, FunctionEmissions(codes[..ci], files, syn), codes[ci], syn.definedNames(codes[ci]), files, syn);
      FunctionCodeStep(codes, ci, files, syn);
      ci := ci + 1;
    }
    assert codes[..|codes|] == codes;
  }

  // ---------------------------------------------------------------------------
  // Strategy 4: "In file X" / "X should be" / "Fix for X" mentions
  // ---------------------------------------------------------------------------

  function MentionFix(filename: string, code: string): Fix
  {
    Fix(CodeReplacement, Strip(code), "Fix from file mention for " + filename, "file_mention")
  }

  function MentionEmissions(ms: seq<(string, string)>, dir: seq<SourceFile>): seq<(string, Fix)>
  {
    if ms == [] then []
    else
      var m := ms[|ms| - 1];
      MentionEmissions(ms[..|ms| - 1], dir) + (if Exists(dir, m.0) then [(m.0, MentionFix(m.0, m.1))] else [])
  }

  lemma {:induction false} MentionEmissionsExist(ms: seq<(string, string)>, dir: seq<SourceFile>)
    ensures forall e :: e in MentionEmissions(ms, dir) ==> Exists(dir, e.0)
  {
    if ms != [] {
      MentionEmissionsExist(ms[..|ms| - 1], dir);
    }
  }

  /** One more mention: a mention of an existing file adds its fix to that file's list. */
  lemma MentionGroupStep(ms: seq<(string, string)>, i: nat, dir: seq<SourceFile>)
    requires i < |ms|
    ensures var before := Group(MentionEmissions(ms[..i], dir));
      Group(MentionEmissions(ms[..i + 1], dir)) ==
        if Exists(dir, ms[i].0) then AddFix(before, ms[i].0, MentionFix(ms[i].0, ms[i].1)) else before
  {
    assert ms[..i + 1][..i] == ms[..i];
    var before := MentionEmissions(ms[..i], dir);
    if Exists(dir, ms[i].0) {
      GroupSnoc(before, (ms[i].0, MentionFix(ms[i].0, ms[i].1)));
    } else {
      assert before + [] == before;
    }
  }

  /** `_parse_file_mentions`: the three patterns' matches come one pattern after the other. */
  method ParseFileMentions(ms: seq<(string, string)>, dir: seq<SourceFile>) returns (d: FileFixes)
    ensures d == Group(MentionEmissions(ms, dir))
  {
    d := EmptyDict();
    var i := 0;
    while i < |ms|
      invariant 0 <= i <= |ms|
      invariant d == Group(MentionEmissions(ms[..i], dir))
    {
      var filename := ms[i].0;
      MentionGroupStep(ms, i, dir);
      if Exists(dir, filename) {
        d := AddFix(d, filename, MentionFix(filename, ms[i].1));
      }
      i := i + 1;
    }
    assert ms[..|ms|] == ms;
  }

  // ---------------------------------------------------------------------------
  // All four strategies
  // ---------------------------------------------------------------------------

  /** The dict `_enhanced_parse_fixes` returns for the fix text `text`. */
  function ParseFixes(text: string, scan: FixScan, dir: seq<SourceFile>, syn: Syntax): FileFixes
  {
    Merge(Group(HeaderEmissions(scan.headers, dir)),
          Group(ProximityEmissions(PyFiles(dir), text, scan.blocks)),
          Group(FunctionEmissions(BlockCodes(scan.blocks), PyFiles(dir), syn)),
          Group(MentionEmissions(scan.fileMentions, dir)))
  }

  /** `_enhanced_parse_fixes`. */
  method EnhancedParseFixes(text: string, scan: FixScan, dir: seq<SourceFile>, syn: Syntax) returns (d: FileFixes)
    ensures d == ParseFixes(text, scan, dir, syn)
  {
    var header := ParseExplicitHeaders(scan.headers, dir);
    var proximity := ParseFilenameWithCodeblocks(text, scan.blocks, dir);
    var functions := ParseFunctionFixes(scan.blocks, dir, syn);
    var mention := ParseFileMentions(scan.fileMentions, dir);
    UpdateOverwrites(header, proximity);
    UpdateOverwrites(Update(header, proximity), functions);
    d := Update(header, proximity);
    d := Update(d, functions);
    d := Update(d, mention);
  }

  /** Every file the parsed dict holds exists in the directory. */
  lemma ParsedFilesExist(text: string, scan: FixScan, dir: seq<SourceFile>, syn: Syntax)
    ensures ParseFixes(text, scan, dir, syn).Valid()
    ensures forall k :: k in ParseFixes(text, scan, dir, syn).keys ==> Exists(dir, k)
  {
    var files := PyFiles(dir);
    var h := HeaderEmissions(scan.headers, dir);
    var p := ProximityEmissions(files, text, scan.blocks);
    var f := FunctionEmissions(BlockCodes(scan.blocks), files, syn);
    var m := MentionEmissions(scan.fileMentions, dir);
    HeaderEmissionsSpec(scan.headers, dir);
    ProximityEmissionsNames(files, text, scan.blocks);
    FunctionEmissionsNames(BlockCodes(scan.blocks), files, syn);
    MentionEmissionsExist(scan.fileMentions, dir);
    NamesExist(files, dir);
    GroupKeysExist(h, dir);
    GroupKeysExist(p, dir);
    GroupKeysExist(f, dir);
    GroupKeysExist(m, dir);
    MergeLaterWins(Group(h), Group(p), Group(f), Group(m));
  }

  lemma NamesExist(files: seq<SourceFile>, dir: seq<SourceFile>)
    requires forall f :: f in files ==> f in dir
    ensures forall k :: k in Names(files) ==> Exists(dir, k)
  {
    forall k | k in Names(files) ensures Exists(dir, k) {
      var x :| x in files && x.name == k;
      var j :| 0 <= j < |dir| && dir[j] == x;
    }
  }

  // ---------------------------------------------------------------------------
  // Applying one fix
  // ---------------------------------------------------------------------------

  /** A line whose stripped form starts with `import ` or `from `. */
  predicate IsImportLine(line: string)
  {
    var t := Strip(line);
    StartsWith(t, "import ") || StartsWith(t, "from ")
  }

  /** The first index from `k` on whose line is (`imp`) or is not (`!imp`) an import line; `|lines|` if none. */
  function FirstWhere(lines: seq<string>, k: nat, imp: bool): (r: nat)
    requires k <= |lines|
    decreases |lines| - k
    ensures k <= r <= |lines|
    ensures forall m :: k <= m < r ==> IsImportLine(lines[m]) != imp
    ensures r < |lines| ==> IsImportLine(lines[r]) == imp
  {
    if k == |lines| then k
    else if IsImportLine(lines[k]) == imp then k
    else FirstWhere(lines, k + 1, imp)
  }

  /**
    The import-section rewrite: the first run of import lines becomes the new
    code, as one line; None when there is no import line at all.
   */
  function ImportRewrite(lines: seq<string>, newCode: string): (r: Option<seq<string>>)
    ensures r.None? <==> forall m :: 0 <= m < |lines| ==> !IsImportLine(lines[m])
  {
    var i := FirstWhere(lines, 0, true);
    if i == |lines| then None
    else Some(lines[..i] + [newCode] + lines[FirstWhere(lines, i + 1, false)..])
  }

  /**
    What the rewrite does: the lines before the first import line and the lines
    from the end of that first import run on, later import lines included, are
    kept in order around the new code; the run `lines[i..j]` is dropped.
   */
  lemma ImportRunReplaced(lines: seq<string>, newCode: string) returns (i: nat, j: nat)
    requires exists m :: 0 <= m < |lines| && IsImportLine(lines[m])
    ensures i < j <= |lines|
    ensures ImportRewrite(lines, newCode) == Some(lines[..i] + [newCode] + lines[j..])
    ensures forall m :: 0 <= m < i ==> !IsImportLine(lines[m])
    ensures forall m :: i <= m < j ==> IsImportLine(lines[m])
    ensures j < |lines| ==> !IsImportLine(lines[j])
    ensures |ImportRewrite(lines, newCode).value| == |lines| - (j - i) + 1
  {
    i := FirstWhere(lines, 0, true);
    j := FirstWhere(lines, i + 1, false);
  }

  /**
    The lines the import walk has produced after the first `k` lines, when the
    first import run is `lines[first..last]`.
   */
  ghost function WalkedLines(lines: seq<string>, newCode: string, first: nat, last: nat, k: nat): seq<string>
    requires first <= last <= |lines| && k <= |lines|
  {
    if k <= first then lines[..k]
    else if k <= last then lines[..first] + [newCode]
    else lines[..first] + [newCode] + lines[last..k]
  }

  /** One more line: the new code at the start of the run, nothing inside it, the line itself elsewhere. */
  lemma WalkedNext(lines: seq<string>, newCode: string, first: nat, last: nat, k: nat)
    requires first <= last <= |lines| && k < |lines|
    requires first < |lines| ==> first < last
    ensures WalkedLines(lines, newCode, first, last, k + 1)
            == WalkedLines(lines, newCode, first, last, k)
               + (if k == first then [newCode] else if first < k < last then [] else [lines[k]])
  {
    if k < first {
      assert lines[..k + 1] == lines[..k] + [lines[k]];
    } else if k == last {
      assert lines[last..k + 1] == [lines[k]];
    } else if k > last {
      assert lines[last..k + 1] == lines[last..k] + [lines[k]];
    }
  }

  /** The line walk with the `in_imports` and `imports_added` flags. */
  method RewriteImports(lines: seq<string>, newCode: string) returns (r: Option<seq<string>>)
    ensures r == ImportRewrite(lines, newCode)
  {
    ghost var first := FirstWhere(lines, 0, true);
    ghost var last := if first < |lines| then FirstWhere(lines, first + 1, false) else |lines|;
    var newLines: seq<string> := [];
    var inImports := false;
    var importsAdded := false;
    var k := 0;
    while k < |lines|
      invariant 0 <= k <= |lines|
      invariant importsAdded <==> k > first
      invariant inImports <==> first < k <= last
      invariant newLines == WalkedLines(lines, newCode, first, last, k)
    {
      var line := lines[k];
      WalkedNext(lines, newCode, first, last, k);
      if IsImportLine(line) && !importsAdded {
        if !inImports {
          newLines := newLines + [newCode];
          importsAdded := true;
          inImports := true;
        }
      } else if inImports && !IsImportLine(line) {
        inImports := false;
        newLines := newLines + [line];
      } else if !inImports {
        newLines := newLines + [line];
      }
      k := k + 1;
    }
    if importsAdded {
      assert ImportRewrite(lines, newCode) == Some(lines[..first] + [newCode] + lines[last..]);
      if last == |lines| {
        assert lines[last..] == [];
      } else {
        assert lines[last..|lines|] == lines[last..];
      }
      assert newLines == lines[..first] + [newCode] + lines[last..];
      r := Some(newLines);
    } else {
      assert first == |lines|;
      r := None;
    }
  }

  /**
    The first defined name whose declaration pattern matches decides: its
    rewrite, or the exception `re.sub` raises. NoMatch when none matches.
   */
  function FirstDeclRewrite(content: string, names: seq<string>, newCode: string, syn: Syntax): (r: Rewrite)
    ensures r.NoMatch? <==> forall m :: 0 <= m < |names| ==> syn.rewriteDecl(content, names[m], newCode).NoMatch?
    ensures !r.NoMatch? ==> exists m :: 0 <= m < |names| && r == syn.rewriteDecl(content, names[m], newCode)
  {
    if names == [] then NoMatch
    else
      var w := syn.rewriteDecl(content, names[0], newCode);
      if !w.NoMatch? then w
      else
        var rest := FirstDeclRewrite(content, names[1..], newCode, syn);
        assert forall m :: 1 <= m < |names| ==> names[m] == names[1..][m - 1];
        rest
  }

  const FixMarkerEnd := "\n# === END CLAUDE FIX ===\n"

  /** The marked block appended at the end when no other rewrite applies. */
  function Fallback(content: string, fix: Fix): (r: string)
    ensures StartsWith(r, content) && |r| > |content|
    ensures EndsWith(r, fix.newCode + FixMarkerEnd)
  {
    var r := content + "\n\n# === CLAUDE GENERATED FIX (" + fix.strategy + ") ===\n" + fix.newCode + FixMarkerEnd;
    assert r[..|content|] == content;
    assert r == (content + "\n\n# === CLAUDE GENERATED FIX (" + fix.strategy + ") ===\n") + (fix.newCode + FixMarkerEnd);
    r
  }

  /** Whether a code replacement's new code starts, once stripped, with `import ` or `from `. */
  predicate IsImportCode(code: string)
  {
    var t := Strip(code);
    StartsWith(t, "import ") || StartsWith(t, "from ")
  }

  /** `_apply_single_fix`; None is an exception raised by `re.sub`. */
  function SingleFix(content: string, fix: Fix, syn: Syntax): Option<string>
  {
    match fix.kind
    case FunctionReplacement(target) =>
      (match syn.rewriteDecl(content, target, fix.newCode)
       case Rewritten(t) => Some(t)
       case BadTemplate => None
       case NoMatch => Some(Fallback(content, fix)))
    case CodeReplacement =>
      (match FirstDeclRewrite(content, syn.definedNames(fix.newCode), fix.newCode, syn)
       case Rewritten(t) => Some(t)
       case BadTemplate => None
       case NoMatch =>
         if IsImportCode(fix.newCode) then
           match ImportRewrite(Split(content, '\n'), fix.newCode)
           case Some(ls) => Some(Join("\n", ls))
           case None => Some(Fallback(content, fix))
         else Some(Fallback(content, fix)))
  }

  /** A function replacement whose target is not declared goes straight to the appended block, which always changes the content. */
  lemma FunctionMissAppends(content: string, fix: Fix, syn: Syntax)
    requires fix.kind.FunctionReplacement? && syn.rewriteDecl(content, fix.kind.targetName, fix.newCode).NoMatch?
    ensures SingleFix(content, fix, syn) == Some(Fallback(content, fix))
    ensures SingleFix(content, fix, syn).value != content
  {
  }

  /** A code replacement that matches no declaration and is not an import block is appended, and so changes the content. */
  lemma CodeMissAppends(content: string, fix: Fix, syn: Syntax)
    requires fix.kind.CodeReplacement? && !IsImportCode(fix.newCode)
    requires forall n :: n in syn.definedNames(fix.newCode) ==> syn.rewriteDecl(content, n, fix.newCode).NoMatch?
    ensures SingleFix(content, fix, syn) == Some(Fallback(content, fix))
    ensures SingleFix(content, fix, syn).value != content
  {
    var names := syn.definedNames(fix.newCode);
    assert forall m :: 0 <= m < |names| ==> names[m] in names;
  }

  /** An import block applied to content with an import line replaces the first import run. */
  lemma ImportCodeRewrites(content: string, fix: Fix, syn: Syntax)
    requires fix.kind.CodeReplacement? && IsImportCode(fix.newCode)
    requires FirstDeclRewrite(content, syn.definedNames(fix.newCode), fix.newCode, syn).NoMatch?
    requires exists m :: 0 <= m < |Split(content, '\n')| && IsImportLine(Split(content, '\n')[m])
    ensures exists i: nat, j: nat :: i < j <= |Split(content, '\n')| &&
              SingleFix(content, fix, syn) == Some(Join("\n", Split(content, '\n')[..i] + [fix.newCode] + Split(content, '\n')[j..]))
  {
    var i, j := ImportRunReplaced(Split(content, '\n'), fix.newCode);
  }

  /** `_apply_single_fix` as the source runs it. */
  method ApplySingleFix(content: string, fix: Fix, syn: Syntax) returns (r: Option<string>)
    ensures r == SingleFix(content, fix, syn)
  {
    if fix.kind.FunctionReplacement? {
      match syn.rewriteDecl(content, fix.kind.targetName, fix.newCode)
      case Rewritten(t) => r := Some(t);
      case BadTemplate => r := None;
      case NoMatch => r := Some(Fallback(content, fix));
    } else {
      var names := syn.definedNames(fix.newCode);
      var i := 0;
      while i < |names| && syn.rewriteDecl(content, names[i], fix.newCode).NoMatch?
        invariant 0 <= i <= |names|
        invariant forall m :: 0 <= m < i ==> syn.rewriteDecl(content, names[m], fix.newCode).NoMatch?
        invariant FirstDeclRewrite(content, names, fix.newCode, syn) == FirstDeclRewrite(content, names[i..], fix.newCode, syn)
      {
        assert names[i..][1..] == names[i + 1..];
        i := i + 1;
      }
      if i < |names| {
        assert names[i..][0] == names[i];
        match syn.rewriteDecl(content, names[i], fix.newCode) {
        case Rewritten(t) => r := Some(t);
        case BadTemplate => r := None;
        }
        return;
      }
      assert names[i..] == [];
      if IsImportCode(fix.newCode) {
        var ls := RewriteImports(Split(content, '\n'), fix.newCode);
        if ls.Some? {
          r := Some(Join("\n", ls.value));
          return;
        }
      }
      r := Some(Fallback(content, fix));
    }
  }

  // ---------------------------------------------------------------------------
  // Applying a file's fixes
  // ---------------------------------------------------------------------------

  /**
    The content after folding `fixes` into `content` in order, and the
    descriptions of the fixes that changed it. A fix that raises leaves the
    content as it was.
   */
  function FoldFixes(content: string, fixes: seq<Fix>, syn: Syntax): (r: (string, seq<string>))
    ensures |r.1| <= |fixes|
    ensures r.1 == [] ==> r.0 == content
  {
    if fixes == [] then (content, [])
    else
      var prev := FoldFixes(content, fixes[..|fixes| - 1], syn);
      var f := fixes[|fixes| - 1];
      match SingleFix(prev.0, f, syn)
      case Some(t) => if t != prev.0 then (t, prev.1 + [f.description]) else prev
      case None => prev
  }

  /** A function replacement whose target no content declares. */
  ghost predicate AlwaysMisses(fix: Fix, syn: Syntax)
  {
    fix.kind.FunctionReplacement? && forall c :: syn.rewriteDecl(c, fix.kind.targetName, fix.newCode).NoMatch?
  }

  /**
    When every fix is a function replacement that misses, each one is appended
    and counted: every description is recorded, in order, and the original
    content is a strict prefix of the result.
   */
  lemma {:induction false} FoldOfMisses(content: string, fixes: seq<Fix>, syn: Syntax)
    requires forall i :: 0 <= i < |fixes| ==> AlwaysMisses(fixes[i], syn)
    ensures |FoldFixes(content, fixes, syn).1| == |fixes|
    ensures forall i :: 0 <= i < |fixes| ==> FoldFixes(content, fixes, syn).1[i] == fixes[i].description
    ensures StartsWith(FoldFixes(content, fixes, syn).0, content)
    ensures fixes != [] ==> |FoldFixes(content, fixes, syn).0| > |content|
  {
    if fixes != [] {
      var init := fixes[..|fixes| - 1];
      var f := fixes[|fixes| - 1];
      FoldOfMisses(content, init, syn);
      var prev := FoldFixes(content, init, syn);
      FunctionMissAppends(prev.0, f, syn);
      var r := Fallback(prev.0, f);
      assert r[..|content|] == r[..|prev.0|][..|content|];
    }
  }

  /** Whether the `i`-th fix changes the content left by the fixes before it. */
  predicate ChangesAt(content: string, fixes: seq<Fix>, i: nat, syn: Syntax)
    requires i < |fixes|
  {
    var c := FoldFixes(content, fixes[..i], syn).0;
    var s := SingleFix(c, fixes[i], syn);
    s.Some? && s.value != c
  }

  /** Folding a longer list does not change what its first fixes see. */
  lemma FoldPrefix(content: string, fixes: seq<Fix>, n: nat, i: nat, syn: Syntax)
    requires i <= n <= |fixes|
    ensures FoldFixes(content, fixes[..n][..i], syn) == FoldFixes(content, fixes[..i], syn)
    ensures i < n ==> (ChangesAt(content, fixes[..n], i, syn) <==> ChangesAt(content, fixes, i, syn))
  {
    assert fixes[..n][..i] == fixes[..i];
  }

  /** The positions of the fixes that changed the content they were applied to, in order. */
  ghost function Changed(content: string, fixes: seq<Fix>, syn: Syntax): seq<nat>
  {
    if fixes == [] then []
    else
      var n := |fixes| - 1;
      Changed(content, fixes[..n], syn) + (if ChangesAt(content, fixes, n, syn) then [n] else [])
  }

  /**
    The descriptions recorded for a file are exactly those of the fixes that
    changed the content they were applied to, in order (`idx` lists those
    fixes), and the content right after the last of them is the final content.
   */
  lemma FoldDescriptions(content: string, fixes: seq<Fix>, syn: Syntax) returns (idx: seq<nat>)
    ensures |idx| == |FoldFixes(content, fixes, syn).1|
    ensures forall k :: 0 <= k < |idx| ==>
              idx[k] < |fixes| && ChangesAt(content, fixes, idx[k], syn)
              && FoldFixes(content, fixes, syn).1[k] == fixes[idx[k]].description
    ensures forall a, b :: 0 <= a < b < |idx| ==> idx[a] < idx[b]
    ensures forall i :: 0 <= i < |fixes| && ChangesAt(content, fixes, i, syn) ==> i in idx
    ensures idx != [] ==> idx[|idx| - 1] < |fixes|
    ensures idx != [] ==> FoldFixes(content, fixes[..idx[|idx| - 1] + 1], syn).0 == FoldFixes(content, fixes, syn).0
  {
    idx := ChangedLast(content, fixes, syn);
    ChangedListed(content, fixes, syn);
    ChangedSorted(content, fixes, syn);
    ChangedComplete(content, fixes, syn);
  }

  /** The changed positions are in range and increasing. */
  lemma {:induction false} ChangedSorted(content: string, fixes: seq<Fix>, syn: Syntax)
    ensures forall k :: 0 <= k < |Changed(content, fixes, syn)| ==> Changed(content, fixes, syn)[k] < |fixes|
    ensures forall a, b :: 0 <= a < b < |Changed(content, fixes, syn)| ==> Changed(content, fixes, syn)[a] < Changed(content, fixes, syn)[b]
  {
    if fixes != [] {
      var n := |fixes| - 1;
      ChangedSorted(content, fixes[..n], syn);
      var prevIdx := Changed(content, fixes[..n], syn);
      var idx := Changed(content, fixes, syn);
      assert |fixes[..n]| == n;
      assert forall k :: 0 <= k < |prevIdx| ==> prevIdx[k] < n;
      if ChangesAt(content, fixes, n, syn) {
        assert idx == prevIdx + [n];
        assert forall k :: 0 <= k < |prevIdx| ==> idx[k] == prevIdx[k];
      } else {
        assert idx == prevIdx;
      }
    }
  }

  /** Each recorded description belongs to the changed fix at the same place in the list of changed positions. */
  lemma {:induction false} ChangedListed(content: string, fixes: seq<Fix>, syn: Syntax)
    ensures var idx := Changed(content, fixes, syn);
            && |idx| == |FoldFixes(content, fixes, syn).1|
            && (forall k :: 0 <= k < |idx| ==>
                  idx[k] < |fixes| && ChangesAt(content, fixes, idx[k], syn)
                  && FoldFixes(content, fixes, syn).1[k] == fixes[idx[k]].description)
  {
    if fixes != [] {
      var n := |fixes| - 1;
      var init := fixes[..n];
      ChangedListed(content, init, syn);
      FoldLast(content, fixes, syn);
      var prevIdx := Changed(content, init, syn);
      var idx := Changed(content, fixes, syn);
      var prev := FoldFixes(content, init, syn);
      var r := FoldFixes(content, fixes, syn);
      forall k | 0 <= k < |idx|
        ensures idx[k] < |fixes| && ChangesAt(content, fixes, idx[k], syn) && r.1[k] == fixes[idx[k]].description
      {
        if k < |prevIdx| {
          FoldPrefix(content, fixes, n, prevIdx[k], syn);
          assert idx[k] == prevIdx[k] && r.1[k] == prev.1[k] && fixes[idx[k]] == init[idx[k]];
        }
      }
    }
  }

  /** Every fix that changed the content is among the changed positions. */
  lemma {:induction false} ChangedComplete(content: string, fixes: seq<Fix>, syn: Syntax)
    ensures forall i :: 0 <= i < |fixes| && ChangesAt(content, fixes, i, syn) ==> i in Changed(content, fixes, syn)
  {
    if fixes != [] {
      var n := |fixes| - 1;
      ChangedComplete(content, fixes[..n], syn);
      var idx := Changed(content, fixes, syn);
      forall i | 0 <= i < |fixes| && ChangesAt(content, fixes, i, syn) ensures i in idx {
        if i < n {
          FoldPrefix(content, fixes, n, i, syn);
          assert i in Changed(content, fixes[..n], syn);
        } else {
          assert idx[|idx| - 1] == n;
        }
      }
    }
  }

  /** The content right after the last changed position is the final content. */
  lemma ChangedLast(content: string, fixes: seq<Fix>, syn: Syntax) returns (idx: seq<nat>)
    ensures idx == Changed(content, fixes, syn)
    ensures idx != [] ==> idx[|idx| - 1] < |fixes|
    ensures idx != [] ==> FoldFixes(content, fixes[..idx[|idx| - 1] + 1], syn).0 == FoldFixes(content, fixes, syn).0
  {
    idx := Changed(content, fixes, syn);
    if idx != [] {
      ChangedSorted(content, fixes, syn);
      ChangedComplete(content, fixes, syn);
      var m := idx[|idx| - 1];
      assert forall k :: 0 <= k < |idx| ==> idx[k] <= m;
      forall i | m + 1 <= i < |fixes| ensures !ChangesAt(content, fixes, i, syn) {
        assert i !in idx;
      }
      NoChangeAfter(content, fixes, m + 1, syn);
    }
  }

  /** Fixes that change nothing can be dropped from the end of the list. */
  lemma {:induction false} NoChangeAfter(content: string, fixes: seq<Fix>, j: nat, syn: Syntax)
    requires j <= |fixes|
    requires forall i :: j <= i < |fixes| ==> !ChangesAt(content, fixes, i, syn)
    ensures FoldFixes(content, fixes[..j], syn) == FoldFixes(content, fixes, syn)
  {
    if j == |fixes| {
      assert fixes[..j] == fixes;
    } else {
      var n := |fixes| - 1;
      var init := fixes[..n];
      forall i | j <= i < n ensures !ChangesAt(content, init, i, syn) {
        FoldPrefix(content, fixes, n, i, syn);
      }
      NoChangeAfter(content, init, j, syn);
      FoldLast(content, fixes, syn);
      assert init[..j] == fixes[..j];
    }
  }

  /** One more fix: it is recorded, and its result kept, exactly when it changes the content. */
  lemma FoldLast(content: string, fixes: seq<Fix>, syn: Syntax)
    requires fixes != []
    ensures var n := |fixes| - 1;
            var prev := FoldFixes(content, fixes[..n], syn);
            var r := FoldFixes(content, fixes, syn);
            if ChangesAt(content, fixes, n, syn)
            then SingleFix(prev.0, fixes[n], syn) == Some(r.0) && r.1 == prev.1 + [fixes[n].description]
            else r == prev
  {
  }

  /** A fix that raises (a bad replacement template) leaves the content and records nothing. */
  lemma FoldSkipsRaising(content: string, fixes: seq<Fix>, i: nat, syn: Syntax)
    requires i < |fixes| && SingleFix(FoldFixes(content, fixes[..i], syn).0, fixes[i], syn).None?
    ensures FoldFixes(content, fixes[..i + 1], syn) == FoldFixes(content, fixes[..i], syn)
    ensures !ChangesAt(content, fixes, i, syn)
  {
    assert fixes[..i + 1][..i] == fixes[..i];
  }

  /** The loop of `_apply_fixes_to_file` over one file's fixes. */
  method ApplyFixesToContent(content: string, fixes: seq<Fix>, syn: Syntax) returns (modified: string, descs: seq<string>)
    ensures (modified, descs) == FoldFixes(content, fixes, syn)
  {
    modified := content;
    descs := [];
    var i := 0;
    while i < |fixes|
      invariant 0 <= i <= |fixes|
      invariant (modified, descs) == FoldFixes(content, fixes[..i], syn)
    {
      assert fixes[..i + 1][..i] == fixes[..i];
      var next := ApplySingleFix(modified, fixes[i], syn);
      if next.Some? && next.value != modified {
        modified := next.value;
        descs := descs + [fixes[i].description];
      }
      i := i + 1;
    }
    assert fixes[..|fixes|] == fixes;
  }

  /**
    One round of the per-file loop: read the file, fold its fixes, and write it
    back and record it only if the content changed. A failing read or write adds
    one error naming the file.
   */
  function ApplyToFile(res: Results, dir: seq<SourceFile>, root: string, name: string, fixes: seq<Fix>, syn: Syntax)
    : (r: (Results, seq<SourceFile>))
    requires Exists(dir, name)
    ensures SameNames(r.1, dir)
    ensures forall j :: 0 <= j < |dir| && dir[j].name != name ==> r.1[j] == dir[j]
    ensures |r.0.errors| + |r.0.filesModified| <= |res.errors| + |res.filesModified| + 1
    ensures res.errors <= r.0.errors && res.filesModified <= r.0.filesModified
    ensures var i := FindFile(dir, name).value;
            var fold := FoldFixes(dir[i].content, fixes, syn);
            && (dir[i].readError.None? && dir[i].writeError.None? ==> r.1[i].content == fold.0)
            && (dir[i].readError.None? && fold.0 == dir[i].content ==> r == (res, dir))
            && (r.1 != dir ==> r == (Results(res.filesModified + [PathOf(root, name)], res.fixesApplied + fold.1, res.errors),
                                    WriteAt(dir, i, fold.0)))
            && (r.0.errors != res.errors <==> dir[i].readError.Some? || (fold.0 != dir[i].content && dir[i].writeError.Some?))
            && (dir[i].readError.Some? ==>
                  r == (res.(errors := res.errors + [ApplyError(PathOf(root, name), dir[i].readError.value)]), dir))
            && (dir[i].readError.None? && fold.0 != dir[i].content && dir[i].writeError.Some? ==>
                  r == (res.(errors := res.errors + [ApplyError(PathOf(root, name), dir[i].writeError.value)]), dir))
  {
    var i := FindFile(dir, name).value;
    var path := PathOf(root, name);
    match dir[i].readError
    case Some(e) => (res.(errors := res.errors + [ApplyError(path, e)]), dir)
    case None =>
      var (modified, descs) := FoldFixes(dir[i].content, fixes, syn);
      if modified == dir[i].content then (res, dir)
      else
        match dir[i].writeError
        case Some(e) => (res.(errors := res.errors + [ApplyError(path, e)]), dir)
        case None =>
          (Results(res.filesModified + [path], res.fixesApplied + descs, res.errors), WriteAt(dir, i, modified))
  }

  /** `_apply_fixes_to_file` with the exception handler around it. */
  method ApplyFixesToFile(res: Results, dir: seq<SourceFile>, root: string, name: string, fixes: seq<Fix>, syn: Syntax)
    returns (res': Results, dir': seq<SourceFile>)
    requires Exists(dir, name)
    ensures (res', dir') == ApplyToFile(res, dir, root, name, fixes, syn)
  {
    var i := FindFile(dir, name).value;
    var path := PathOf(root, name);
    res', dir' := res, dir;
    if dir[i].readError.Some? {
      res' := res.(errors := res.errors + [ApplyError(path, dir[i].readError.value)]);
      return;
    }
    var modified, descs := ApplyFixesToContent(dir[i].content, fixes, syn);
    if modified != dir[i].content {
      if dir[i].writeError.Some? {
        res' := res.(errors := res.errors + [ApplyError(path, dir[i].writeError.value)]);
      } else {
        dir' := WriteAt(dir, i, modified);
        res' := Results(res.filesModified + [path], res.fixesApplied + descs, res.errors);
      }
    }
  }

  /** The per-file loop over the first `|ks|` keys of the parsed dict, in insertion order. */
  function ApplyEach(res: Results, dir: seq<SourceFile>, root: string, d: FileFixes, ks: seq<string>, syn: Syntax)
    : (r: (Results, seq<SourceFile>))
    requires forall k :: k in ks ==> Exists(dir, k)
    ensures SameNames(r.1, dir)
    ensures forall j :: 0 <= j < |dir| && dir[j].name !in ks ==> r.1[j] == dir[j]
    ensures |r.0.errors| + |r.0.filesModified| <= |res.errors| + |res.filesModified| + |ks|
  {
    if ks == [] then (res, dir)
    else
      var k := ks[|ks| - 1];
      var prev := ApplyEach(res, dir, root, d, ks[..|ks| - 1], syn);
      SameNamesExist(prev.1, dir, k);
      ApplyToFile(prev.0, prev.1, root, k, FixesAt(d, k), syn)
  }

  lemma ApplyEachStep(res: Results, dir: seq<SourceFile>, root: string, d: FileFixes, ks: seq<string>, i: nat, syn: Syntax)
    requires i < |ks| && forall k :: k in ks ==> Exists(dir, k)
    ensures forall k :: k in ks[..i] ==> Exists(dir, k)
    ensures forall k :: k in ks[..i + 1] ==> Exists(dir, k)
    ensures Exists(ApplyEach(res, dir, root, d, ks[..i], syn).1, ks[i])
    ensures ApplyEach(res, dir, root, d, ks[..i + 1], syn)
      == ApplyToFile(ApplyEach(res, dir, root, d, ks[..i], syn).0, ApplyEach(res, dir, root, d, ks[..i], syn).1,
                     root, ks[i], FixesAt(d, ks[i]), syn)
  {
    assert ks[..i + 1][..i] == ks[..i];
    SameNamesExist(ApplyEach(res, dir, root, d, ks[..i], syn).1, dir, ks[i]);
  }

  /** The last listed file's fixes change only that file's entry, folding them into its original content. */
  lemma ApplyEachLast(res: Results, dir: seq<SourceFile>, root: string, d: FileFixes, ks: seq<string>, syn: Syntax)
    requires ks != [] && Distinct(ks) && forall k :: k in ks ==> Exists(dir, k)
    ensures forall k :: k in ks[..|ks| - 1] ==> Exists(dir, k)
    ensures var ik := FindFile(dir, ks[|ks| - 1]).value;
            var prev := ApplyEach(res, dir, root, d, ks[..|ks| - 1], syn).1;
            var r := ApplyEach(res, dir, root, d, ks, syn).1;
            && |prev| == |r| == |dir|
            && (forall j :: 0 <= j < |dir| && j != ik ==> r[j] == prev[j])
            && (dir[ik].readError.None? && dir[ik].writeError.None? ==>
                  r[ik].content == FoldFixes(dir[ik].content, FixesAt(d, ks[|ks| - 1]), syn).0)
  {
    var k := ks[|ks| - 1];
    var init := ks[..|ks| - 1];
    assert forall x :: x in init ==> x in ks;
    var prev := ApplyEach(res, dir, root, d, init, syn);
    SameNamesExist(prev.1, dir, k);
    FindFileSameNames(prev.1, dir, k);
    var ik := FindFile(dir, k).value;
    assert prev.1[ik] == dir[ik];
    assert ApplyEach(res, dir, root, d, ks, syn) == ApplyToFile(prev.0, prev.1, root, k, FixesAt(d, k), syn);
  }

  /** The entry of the `m`-th listed file, when it can be read and written, holds its fixes folded into its content. */
  lemma {:induction false} ApplyEachWritesAt(res: Results, dir: seq<SourceFile>, root: string, d: FileFixes,
                                             ks: seq<string>, m: nat, syn: Syntax)
    requires forall k :: k in ks ==> Exists(dir, k)
    requires Distinct(ks) && m < |ks|
    ensures var i := FindFile(dir, ks[m]).value;
            dir[i].readError.None? && dir[i].writeError.None? ==>
              ApplyEach(res, dir, root, d, ks, syn).1[i].content == FoldFixes(dir[i].content, FixesAt(d, ks[m]), syn).0
  {
    var n := |ks| - 1;
    var init := ks[..n];
    ApplyEachLast(res, dir, root, d, ks, syn);
    if m < n {
      DistinctPrefix(ks, n);
      assert ks[m] == init[m] && ks[m] != ks[n];
      ApplyEachWritesAt(res, dir, root, d, init, m, syn);
      var i := FindFile(dir, ks[m]).value;
      var ik := FindFile(dir, ks[n]).value;
      assert dir[i].name != dir[ik].name;
    }
  }

  /**
    With distinct keys, after the loop the entry of every listed file that can
    be read and written holds that file's fixes folded into its original content.
   */
  lemma ApplyEachWrites(res: Results, dir: seq<SourceFile>, root: string, d: FileFixes, ks: seq<string>, syn: Syntax)
    requires forall k :: k in ks ==> Exists(dir, k)
    requires Distinct(ks)
    ensures var r := ApplyEach(res, dir, root, d, ks, syn);
            forall m :: 0 <= m < |ks| ==>
              var i := FindFile(dir, ks[m]).value;
              dir[i].readError.None? && dir[i].writeError.None? ==>
                r.1[i].content == FoldFixes(dir[i].content, FixesAt(d, ks[m]), syn).0
  {
    forall m | 0 <= m < |ks|
      ensures var i := FindFile(dir, ks[m]).value;
              dir[i].readError.None? && dir[i].writeError.None? ==>
                ApplyEach(res, dir, root, d, ks, syn).1[i].content == FoldFixes(dir[i].content, FixesAt(d, ks[m]), syn).0
    {
      ApplyEachWritesAt(res, dir, root, d, ks, m, syn);
    }
  }

  /** The loop of `apply_fixes_from_report` over the parsed dict. */
  method ApplyAllFiles(d: FileFixes, dir: seq<SourceFile>, root: string, syn: Syntax) returns (res: Results, dir': seq<SourceFile>)
    requires forall k :: k in d.keys ==> Exists(dir, k)
    ensures (res, dir') == ApplyEach(Results([], [], []), dir, root, d, d.keys, syn)
  {
    res, dir' := Results([], [], []), dir;
    var i := 0;
    while i < |d.keys|
      invariant 0 <= i <= |d.keys|
      invariant forall k :: k in d.keys[..i] ==> Exists(dir, k)
      invariant (res, dir') == ApplyEach(Results([], [], []), dir, root, d, d.keys[..i], syn)
    {
      ApplyEachStep(Results([], [], []), dir, root, d, d.keys, i, syn);
      res, dir' := ApplyFixesToFile(res, dir', root, d.keys[i], FixesAt(d, d.keys[i]), syn);
      i := i + 1;
    }
    assert d.keys[..|d.keys|] == d.keys;
  }

  // ---------------------------------------------------------------------------
  // The whole run
  // ---------------------------------------------------------------------------

  /** The dict `apply_fixes_from_report` returns, or an exception escaping it. */
  datatype Outcome =
    | Crashed
    | NoFixesInReport(availableKeys: seq<string>)
    | NoParseableFixes(debugText: string)
    | Completed(results: Results, totalFilesDetected: nat)

  /**
    `apply_fixes_from_report` on a loaded report: the resulting dict and the
    directory afterwards. `scanner` stands for the fix-text regexes.
   */
  function ApplyReport(report: seq<(string, Json)>, root: string, dir: seq<SourceFile>, scanner: string -> FixScan, syn: Syntax)
    : (r: (Outcome, seq<SourceFile>))
    ensures SameNames(r.1, dir)
    ensures !r.0.Completed? ==> r.1 == dir
    ensures FixesText(report).NoFixes? ==> r.0 == NoFixesInReport(Keys(report))
    ensures r.0.NoParseableFixes? ==> |r.0.debugText| <= 1000
    ensures r.0.NoParseableFixes? ==> FixesText(report).Text? && r.0.debugText == Take(FixesText(report).text, 1000)
    ensures r.0.Completed? ==> 0 < r.0.totalFilesDetected
    ensures r.0.Completed? ==> |r.0.results.errors| + |r.0.results.filesModified| <= r.0.totalFilesDetected
    ensures FixesText(report).Text? ==>
              var t := FixesText(report).text;
              forall j :: 0 <= j < |dir| && dir[j].name !in ParseFixes(t, scanner(t), dir, syn).keys ==> r.1[j] == dir[j]
  {
    match FixesText(report)
    case Raised => (Crashed, dir)
    case NoFixes(keys) => (NoFixesInReport(keys), dir)
    case Text(t) =>
      var d := ParseFixes(t, scanner(t), dir, syn);
      ParsedFilesExist(t, scanner(t), dir, syn);
      if d.keys == [] then (NoParseableFixes(Take(t, 1000)), dir)
      else
        var applied := ApplyEach(Results([], [], []), dir, root, d, d.keys, syn);
        (Completed(applied.0, |d.keys|), applied.1)
  }

  /**
    A completed run leaves every parsed file that can be read and written
    holding its fixes folded into its original content, and every other file
    as it was.
   */
  lemma CompletedWrites(report: seq<(string, Json)>, root: string, dir: seq<SourceFile>, scanner: string -> FixScan, syn: Syntax)
    requires ApplyReport(report, root, dir, scanner, syn).0.Completed?
    ensures FixesText(report).Text?
    ensures var t := FixesText(report).text;
            var d := ParseFixes(t, scanner(t), dir, syn);
            var r := ApplyReport(report, root, dir, scanner, syn);
            && (forall k :: k in d.keys ==> Exists(dir, k))
            && (forall k :: k in d.keys ==>
                  var i := FindFile(dir, k).value;
                  dir[i].readError.None? && dir[i].writeError.None? ==>
                    r.1[i].content == FoldFixes(dir[i].content, FixesAt(d, k), syn).0)
            && (forall j :: 0 <= j < |dir| && dir[j].name !in d.keys ==> r.1[j] == dir[j])
  {
    var t := FixesText(report).text;
    var d := ParseFixes(t, scanner(t), dir, syn);
    ParsedFilesExist(t, scanner(t), dir, syn);
    ApplyEachWrites(Results([], [], []), dir, root, d, d.keys, syn);
    var r := ApplyReport(report, root, dir, scanner, syn);
    forall k | k in d.keys
      ensures var i := FindFile(dir, k).value;
              dir[i].readError.None? && dir[i].writeError.None? ==>
                r.1[i].content == FoldFixes(dir[i].content, FixesAt(d, k), syn).0
    {
      var m :| 0 <= m < |d.keys| && d.keys[m] == k;
    }
  }

  /** `apply_fixes_from_report`. */
  method ApplyFixesFromReport(report: seq<(string, Json)>, root: string, dir: seq<SourceFile>, scanner: string -> FixScan, syn: Syntax)
    returns (out: Outcome, dir': seq<SourceFile>)
    ensures (out, dir') == ApplyReport(report, root, dir, scanner, syn)
  {
    dir' := dir;
    var located := FixesText(report);
    if located.Raised? {
      out := Crashed;
      return;
    }
    if located.NoFixes? {
      out := NoFixesInReport(located.availableKeys);
      return;
    }
    var text := located.text;
    var d := EnhancedParseFixes(text, scanner(text), dir, syn);
    if d.keys == [] {
      out := NoParseableFixes(Take(text, 1000));
      return;
    }
    ParsedFilesExist(text, scanner(text), dir, syn);
    var res;
    res, dir' := ApplyAllFiles(d, dir, root, syn);
    out := Completed(res, |d.keys|);
  }
}

=== FILE: iteration_prompts.dfy ===
/**
  The per-iteration prompt table: ten fixed sections for iterations 1 to 10 and
  a "Deep Dive" template for every later iteration.
 */
module IterationPrompts {
  import opened Common

  /** One table entry: a heading line, a blank indented line, an intro and five bullets. */
  function Section(k: nat, title: string, intro: string, bullets: seq<string>): string
  {
    "\n    ITERATION " + Dec(k) + ": " + title + "\n    \n    " + intro + BulletLines(bullets) + "\n    "
  }

  function BulletLines(bullets: seq<string>): string
  {
    if bullets == [] then "" else "\n    - " + bullets[0] + BulletLines(bullets[1..])
  }

  /** The text of table entry `k`. */
  function Table(k: nat): string
    requires 1 <= k <= 10
  {
    Section(k, Title(k), Intro(k), Bullets(k))
  }

  /** The heading of table entry `k`. */
  function Title(k: nat): string
    requires 1 <= k <= 10
  {
    match k
    case 1 => "Initial Security and Critical Bug Scan"
    case 2 => "Performance and Resource Analysis"
    case 3 => "Input Validation and Data Flow"
    case 4 => "Error Handling and Edge Cases"
    case 5 => "Architecture and Design Patterns"
    case 6 => "Concurrency and Thread Safety"
    case 7 => "Configuration and Environment"
    case 8 => "Integration and API Security"
    case 9 => "Business Logic and Domain Rules"
    case 10 => "Comprehensive Review and Risk Assessment"
  }

  /** The sentence that introduces the bullets of entry `k`. */
  function Intro(k: nat): string
    requires 1 <= k <= 10
  {
    match k
    case 1 => "Perform a high-level security and critical bug analysis:"
    case 2 => "Focus on performance and resource management:"
    case 3 => "Trace data flow and input validation:"
    case 4 => "Examine error handling and edge cases:"
    case 5 => "Review architecture and design:"
    case 6 => "Analyze concurrent code:"
    case 7 => "Check configuration and deployment:"
    case 8 => "Review external integrations:"
    case 9 => "Examine business logic:"
    case 10 => "Final comprehensive review:"
  }

  /** The five focus points of entry `k`. */
  function Bullets(k: nat): seq<string>
    requires 1 <= k <= 10
  {
    match k
    case 1 => ["SQL injection vulnerabilities", "XSS and injection attacks", "Authentication/authorization flaws", "Critical exceptions and crashes", "Memory safety issues"]
    case 2 => ["O(n\U{00B2}) or worse algorithms", "Memory leaks and resource exhaustion", "Database query optimization", "Caching inefficiencies", "Blocking operations"]
    case 3 => ["Unvalidated user inputs", "Data sanitization gaps", "Type confusion vulnerabilities", "Parameter pollution", "Boundary condition errors"]
    case 4 => ["Unhandled exceptions", "Information leakage in errors", "Race conditions", "Null pointer dereferences", "Resource cleanup failures"]
    case 5 => ["Violation of SOLID principles", "Circular dependencies", "Tight coupling issues", "Missing abstraction layers", "Inappropriate design patterns"]
    case 6 => ["Race conditions", "Deadlock potential", "Thread safety violations", "Shared state mutations", "Synchronization issues"]
    case 7 => ["Hardcoded secrets", "Insecure default configurations", "Environment-dependent bugs", "Missing configuration validation", "Production readiness issues"]
    case 8 => ["API security flaws", "Third-party library vulnerabilities", "Service communication security", "Data serialization issues", "Protocol implementation bugs"]
    case 9 => ["Business rule violations", "Workflow bypasses", "State machine errors", "Transaction integrity", "Domain model inconsistencies"]
    case 10 => ["Systematic risk assessment", "Attack surface analysis", "Impact and exploitability review", "Defense-in-depth evaluation", "Overall security posture"]
  }

  const DeepDiveHeadingTail := ": Deep Dive Analysis"

  /** Everything of the Deep Dive template after its heading line. */
  const DeepDiveBody :=
    "\n        \n        Continue your thorough analysis focusing on:"
    + "\n        - Subtle vulnerabilities you may have missed"
    + "\n        - Complex interaction bugs between components  "
    + "\n        - Advanced attack vectors and exploitation paths"
    + "\n        - Long-term maintainability issues"
    + "\n        - System-wide impact of identified issues"
    + "\n        \n        Look for patterns and connections between previously found issues.\n        "

  /** The template used for every iteration after the tenth. */
  function DeepDive(n: nat): string
  {
    Heading8(n, DeepDiveBody)
  }

  /** The heading line of the Deep Dive template. */
  function DeepDiveHeadingLine(n: nat): string
  {
    "ITERATION " + Dec(n) + DeepDiveHeadingTail
  }

  /** An eight-space indented Deep Dive heading line followed by `body`. */
  function Heading8(n: nat, body: string): string
  {
    "\n        " + DeepDiveHeadingLine(n) + body
  }

  /** Leading whitespace in front of a non-space character is exactly what LStrip drops. */
  lemma {:induction false} LStripSkips(w: string, x: string)
    requires forall i :: 0 <= i < |w| ==> IsSpace(w[i])
    requires x != [] && !IsSpace(x[0])
    ensures LStrip(w + x) == x
  {
    if w != [] {
      assert (w + x)[1..] == w[1..] + x;
      LStripSkips(w[1..], x);
    }
  }

  /**
    `get_iteration_prompt(n, max_iterations)`. None stands for the KeyError the
    table lookup raises for n <= 0. Every prompt that is returned starts, after
    its leading whitespace, with the heading `ITERATION n:`; iterations 1 to 10
    get their table entry and later ones the Deep Dive template. The second
    argument is not used.
   */
  function GetIterationPrompt(n: int, maxIterations: int): (r: Option<string>)
    ensures r.Some? <==> n >= 1
    ensures 1 <= n <= 10 ==> r == Some(Table(n))
    ensures n > 10 ==> r == Some(DeepDive(n)) && Contains(r.value, DeepDiveHeadingLine(n))
    ensures r.Some? ==> StartsWith(LStrip(r.value), "ITERATION " + Dec(n) + ":")
  {
    if n <= 0 then None
    else if n <= 10 then
      var t := Table(n);
      HeadingOf(n);
      Some(t)
    else
      DeepDiveHeading(n, DeepDiveBody);
      Some(DeepDive(n))
  }

  /** A heading behind indentation is what LStrip leaves at the front, and it occurs right after the indentation. */
  lemma HeadingAfterIndent(w: string, h: string, tail: string)
    requires forall i :: 0 <= i < |w| ==> IsSpace(w[i])
    requires h != [] && !IsSpace(h[0])
    ensures StartsWith(LStrip(w + h + tail), h)
    ensures OccursAt(w + h + tail, h, |w|)
  {
    assert w + h + tail == w + (h + tail);
    assert (h + tail)[..|h|] == h;
    LStripSkips(w, h + tail);
    assert (w + h + tail)[|w|..|w| + |h|] == h;
  }

  /** A section's text starts, after its leading indentation, with its `ITERATION k:` heading. */
  lemma SectionHeading(k: nat, title: string, intro: string, bullets: seq<string>)
    ensures StartsWith(LStrip(Section(k, title, intro, bullets)), "ITERATION " + Dec(k) + ":")
  {
    var h := "ITERATION " + Dec(k) + ":";
    var tail := " " + title + "\n    \n    " + intro + BulletLines(bullets) + "\n    ";
    SectionSplit(Dec(k), title, intro, BulletLines(bullets));
    HeadingAfterIndent("\n    ", h, tail);
  }

  /** The text of a section is its indentation, its heading, and the rest. */
  lemma SectionSplit(d: string, title: string, intro: string, bl: string)
    ensures "\n    ITERATION " + d + ": " + title + "\n    \n    " + intro + bl + "\n    "
            == "\n    " + ("ITERATION " + d + ":") + (" " + title + "\n    \n    " + intro + bl + "\n    ")
  {
    assert "\n    ITERATION " == "\n    " + "ITERATION ";
    assert ": " == ":" + " ";
  }

  lemma HeadingOf(k: nat)
    requires 1 <= k <= 10
    ensures StartsWith(LStrip(Table(k)), "ITERATION " + Dec(k) + ":")
  {
    SectionHeading(k, Title(k), Intro(k), Bullets(k));
  }

  lemma DeepDiveLineStart(n: nat)
    ensures StartsWith(DeepDiveHeadingLine(n), "ITERATION " + Dec(n) + ":")
  {
    var pre := "ITERATION " + Dec(n);
    assert DeepDiveHeadingTail == ":" + " Deep Dive Analysis";
    PrefixOfJoin(pre, ":", " Deep Dive Analysis");
  }

  /** `a + b` is a prefix of `a + (b + c)`. */
  lemma PrefixOfJoin(a: string, b: string, c: string)
    ensures StartsWith(a + (b + c), a + b)
  {
  }

  /** The Deep Dive heading starts with `ITERATION n:` and names the Deep Dive analysis. */
  lemma DeepDiveHeading(n: nat, body: string)
    ensures StartsWith(LStrip(Heading8(n, body)), "ITERATION " + Dec(n) + ":")
    ensures Contains(Heading8(n, body), DeepDiveHeadingLine(n))
  {
    var w := "\n        ";
    var h := DeepDiveHeadingLine(n);
    HeadingAfterIndent(w, h, body);
    DeepDiveLineStart(n);
    var h0 := "ITERATION " + Dec(n) + ":";
    var l := LStrip(Heading8(n, body));
    assert l[..|h0|] == l[..|h|][..|h0|];
  }
}

=== FILE: performance.dfy ===
/**
  The algorithms of the performance fixture, `PerformanceNightmare` and
  `inefficient_data_processing`, on integer items. Both copies of the fixture
  (under `code_under_review/` and `bad_code_bak/`) are the same file.
 */
module PerformanceDisaster {
  import opened Common

  predicate NoDuplicates(s: seq<int>)
  {
    forall i, j :: 0 <= i < j < |s| ==> s[i] != s[j]
  }

  // ---------------------------------------------------------------------------
  // Triplicate detection
  // ---------------------------------------------------------------------------

  /** Positions `j < k` after `i` and before `j` (exclusive) both hold `items[i]`, with the second one anywhere after the first. */
  predicate PairBefore(items: seq<int>, i: nat, j: nat)
    requires i < |items|
  {
    exists j', k' :: i < j' < j && j' < k' < |items| && items[j'] == items[i] && items[k'] == items[i]
  }

  /** Position `j` and some position strictly between `j` and `k` both hold `items[i]`. */
  predicate PairAt(items: seq<int>, i: nat, j: nat, k: nat)
    requires i < |items| && j < |items|
  {
    exists k' :: j < k' < k && k' < |items| && items[j] == items[i] && items[k'] == items[i]
  }

  /** Two later positions hold the same value as position `i`. */
  predicate HasTriple(items: seq<int>, i: nat)
    requires i < |items|
  {
    PairBefore(items, i, |items|)
  }

  /** Position `i` is the first occurrence of a value found at two later positions too. */
  predicate FirstOfTriple(items: seq<int>, i: nat)
    requires i < |items|
  {
    items[i] !in items[..i] && HasTriple(items, i)
  }

  /** The values whose first occurrence lies before `n` and which occur at least three times, by first occurrence. */
  function Triplicates(items: seq<int>, n: nat): seq<int>
    requires n <= |items|
  {
    if n == 0 then []
    else Triplicates(items, n - 1) + (if FirstOfTriple(items, n - 1) then [items[n - 1]] else [])
  }

  /** The index of the first occurrence of `v`. */
  function FirstIndex(s: seq<int>, v: int): (r: nat)
    requires v in s
    ensures r < |s| && s[r] == v && v !in s[..r]
  {
    if s[0] == v then 0
    else
      assert v in s[1..] by {
        var i :| 0 <= i < |s| && s[i] == v;
        assert s[1..][i - 1] == v;
      }
      var r := 1 + FirstIndex(s[1..], v);
      assert s[..r] == [s[0]] + s[1..][..r - 1];
      r
  }

  /** Every triplicate found before `n` is the value of a first occurrence before `n`. */
  lemma {:induction false} TriplicatesFrom(items: seq<int>, n: nat)
    requires n <= |items|
    ensures forall v :: v in Triplicates(items, n) ==>
              (v in items[..n] && FirstIndex(items, v) < n && FirstOfTriple(items, FirstIndex(items, v)))
  {
    if n > 0 {
      TriplicatesFrom(items, n - 1);
      forall v | v in Triplicates(items, n)
        ensures v in items[..n] && FirstIndex(items, v) < n && FirstOfTriple(items, FirstIndex(items, v))
      {
        if v in Triplicates(items, n - 1) {
          assert items[..n - 1] <= items[..n];
        } else {
          assert v == items[n - 1] && FirstOfTriple(items, n - 1);
          FirstIndexAt(items, n - 1);
        }
      }
    }
  }

  /** A position holding no earlier value is its value's first index. */
  lemma FirstIndexAt(s: seq<int>, i: nat)
    requires i < |s| && s[i] !in s[..i]
    ensures s[i] in s && FirstIndex(s, s[i]) == i
  {
  }

  /** The first index of a value is at most any position holding it. */
  lemma FirstIndexBefore(s: seq<int>, p: nat)
    requires p < |s|
    ensures s[p] in s && FirstIndex(s, s[p]) <= p
  {
  }

  /** A first occurrence with a triple is listed once its position is passed. */
  lemma {:induction false} TriplicatesHas(items: seq<int>, n: nat, i: nat)
    requires i < n <= |items| && FirstOfTriple(items, i)
    ensures items[i] in Triplicates(items, n)
  {
    var t := Triplicates(items, n - 1);
    if i < n - 1 {
      TriplicatesHas(items, n - 1, i);
      assert Triplicates(items, n) == t + (if FirstOfTriple(items, n - 1) then [items[n - 1]] else []);
    } else {
      assert Triplicates(items, n) == t + [items[i]];
    }
  }

  /** A value occurring earlier than `i` with a triple at `i` also has a triple at its first occurrence. */
  lemma TripleAtFirst(items: seq<int>, i: nat)
    requires i < |items| && HasTriple(items, i) && items[i] in items[..i]
    ensures FirstOfTriple(items, FirstIndex(items, items[i]))
  {
    assert items[i] in items;
    var f := FirstIndex(items, items[i]);
    var j', k' :| i < j' < |items| && j' < k' < |items| && items[j'] == items[i] && items[k'] == items[i];
    var p :| 0 <= p < i && items[..i][p] == items[i];
    FirstIndexBefore(items, p);
    assert f < i < j' && items[i] == items[f] && items[j'] == items[f];
  }

  /** The step of the outer loop: the value at `i` is added exactly when `i` is a first occurrence with a triple. */
  lemma TripleStep(items: seq<int>, i: nat)
    requires i < |items|
    ensures HasTriple(items, i) && items[i] !in Triplicates(items, i) <==> FirstOfTriple(items, i)
  {
    TriplicatesFrom(items, i);
    if HasTriple(items, i) && items[i] in items[..i] {
      TripleAtFirst(items, i);
      var f := FirstIndex(items, items[i]);
      var p :| 0 <= p < i && items[..i][p] == items[i];
      FirstIndexBefore(items, p);
      TriplicatesHas(items, i, f);
    }
  }

  /** Every value of `t` occurs in `items`, and `t` lists them in the order of their first occurrences there. */
  predicate ByFirstOccurrence(items: seq<int>, t: seq<int>)
  {
    (forall v :: v in t ==> v in items) &&
    forall a, b :: 0 <= a < b < |t| ==> FirstIndex(items, t[a]) < FirstIndex(items, t[b])
  }

  /** Two occurrences of `v` in `s` exactly when its count is at least two. */
  lemma {:induction false} TwoOccurrences(s: seq<int>, v: int)
    ensures multiset(s)[v] >= 2 <==> exists j, k :: 0 <= j < k < |s| && s[j] == v && s[k] == v
  {
    if s != [] {
      var init := s[..|s| - 1];
      assert s == init + [s[|s| - 1]];
      TwoOccurrences(init, v);
      if multiset(s)[v] >= 2 {
        if multiset(init)[v] < 2 {
          assert s[|s| - 1] == v && multiset(init)[v] == 1;
          assert v in multiset(init);
          var j :| 0 <= j < |init| && init[j] == v;
          assert s[j] == v;
        } else {
          var j, k :| 0 <= j < k < |init| && init[j] == v && init[k] == v;
          assert s[j] == v && s[k] == v;
        }
      }
      if exists j, k :: 0 <= j < k < |s| && s[j] == v && s[k] == v {
        var j, k :| 0 <= j < k < |s| && s[j] == v && s[k] == v;
        if k < |s| - 1 {
          assert init[j] == v && init[k] == v;
        } else {
          assert init[j] == v;
          assert v in multiset(init);
        }
      }
    }
  }

  /** A first occurrence has a triple exactly when its value occurs at least three times. */
  lemma FirstOfTripleCount(items: seq<int>, i: nat)
    requires i < |items| && items[i] !in items[..i]
    ensures HasTriple(items, i) <==> multiset(items)[items[i]] >= 3
  {
    var v := items[i];
    var rest := items[i + 1..];
    assert items == items[..i] + [v] + rest;
    assert multiset(items[..i])[v] == 0;
    assert multiset(items)[v] == 1 + multiset(rest)[v];
    TwoOccurrences(rest, v);
    if HasTriple(items, i) {
      var j', k' :| i < j' < |items| && j' < k' < |items| && items[j'] == v && items[k'] == v;
      assert rest[j' - i - 1] == v && rest[k' - i - 1] == v;
    }
    if multiset(rest)[v] >= 2 {
      var j, k :| 0 <= j < k < |rest| && rest[j] == v && rest[k] == v;
      assert items[j + i + 1] == v && items[k + i + 1] == v;
    }
  }

  /**
    `find_duplicates_nightmare` lists exactly the values occurring at least
    three times (a value occurring twice is left out), each once, in the
    order of their first occurrences.
   */
  lemma TriplicatesSpec(items: seq<int>)
    ensures forall v :: v in Triplicates(items, |items|) <==> multiset(items)[v] >= 3
    ensures NoDuplicates(Triplicates(items, |items|))
    ensures ByFirstOccurrence(items, Triplicates(items, |items|))
  {
    var n := |items|;
    assert items[..n] == items;
    TriplicatesFrom(items, n);
    forall v | multiset(items)[v] >= 3 ensures v in Triplicates(items, n) {
      assert v in items;
      var f := FirstIndex(items, v);
      FirstOfTripleCount(items, f);
      TriplicatesHas(items, n, f);
    }
    forall v | v in Triplicates(items, n) ensures multiset(items)[v] >= 3 {
      FirstOfTripleCount(items, FirstIndex(items, v));
    }
    TriplicatesOrdered(items, n);
  }

  lemma {:induction false} TriplicatesOrdered(items: seq<int>, n: nat)
    requires n <= |items|
    ensures ByFirstOccurrence(items, Triplicates(items, n))
    ensures NoDuplicates(Triplicates(items, n))
  {
    if n > 0 {
      TriplicatesOrdered(items, n - 1);
      var prev := Triplicates(items, n - 1);
      TriplicatesFrom(items, n - 1);
      if FirstOfTriple(items, n - 1) {
        var t := Triplicates(items, n);
        assert t == prev + [items[n - 1]];
        FirstIndexAt(items, n - 1);
        forall a, b | 0 <= a < b < |t| ensures FirstIndex(items, t[a]) < FirstIndex(items, t[b]) {
          if b == |t| - 1 {
            assert t[a] == prev[a] && prev[a] in prev;
          } else {
            assert t[a] == prev[a] && t[b] == prev[b];
          }
        }
      }
    }
  }

  // ---------------------------------------------------------------------------
  // Matching cells of a matrix
  // ---------------------------------------------------------------------------

  type Quad = (nat, nat, nat, nat)

  predicate InMatrix(m: seq<seq<int>>, i: nat, j: nat)
  {
    i < |m| && j < |m[i]|
  }

  /** Cells `(i, j)` and `(k, l)` hold equal values at distinct positions. */
  predicate Match(m: seq<seq<int>>, q: Quad)
  {
    InMatrix(m, q.0, q.1) && InMatrix(m, q.2, q.3) && m[q.0][q.1] == m[q.2][q.3] && (q.0 != q.2 || q.1 != q.3)
  }

  predicate LexLess(a: Quad, b: Quad)
  {
    a.0 < b.0 || (a.0 == b.0 && (a.1 < b.1 || (a.1 == b.1 && (a.2 < b.2 || (a.2 == b.2 && a.3 < b.3)))))
  }

  predicate LexSorted(s: seq<Quad>)
  {
    forall a, b :: 0 <= a < b < |s| ==> LexLess(s[a], s[b])
  }

  /** Matches of `(i, j)` against `(k, l)` for `l < ln`. */
  function MatchesL(m: seq<seq<int>>, i: nat, j: nat, k: nat, ln: nat): seq<Quad>
  {
    if ln == 0 then []
    else MatchesL(m, i, j, k, ln - 1) + (if Match(m, (i, j, k, ln - 1)) then [(i, j, k, ln - 1)] else [])
  }

  /** Matches of `(i, j)` against every cell of rows `k < kn`. */
  function MatchesK(m: seq<seq<int>>, i: nat, j: nat, kn: nat): seq<Quad>
    requires kn <= |m|
  {
    if kn == 0 then [] else MatchesK(m, i, j, kn - 1) + MatchesL(m, i, j, kn - 1, |m[kn - 1]|)
  }

  /** Matches of the cells `(i, j)` with `j < jn`. */
  function MatchesJ(m: seq<seq<int>>, i: nat, jn: nat): seq<Quad>
  {
    if jn == 0 then [] else MatchesJ(m, i, jn - 1) + MatchesK(m, i, jn - 1, |m|)
  }

  /** `part(0) + … + part(n - 1)`. */
  function Rows(part: nat -> seq<Quad>, n: nat): seq<Quad>
  {
    if n == 0 then [] else Rows(part, n - 1) + part(n - 1)
  }

  /** The matches of the cells of row `i`, for each row of `m`. */
  function RowOf(m: seq<seq<int>>): nat -> seq<Quad>
  {
    (i: nat) => if i < |m| then MatchesJ(m, i, |m[i]|) else []
  }

  /** Matches of the cells of rows `i < iN`. */
  function MatchesI(m: seq<seq<int>>, iN: nat): seq<Quad>
    requires iN <= |m|
  {
    Rows(RowOf(m), iN)
  }

  lemma SortedConcat(a: seq<Quad>, b: seq<Quad>)
    requires LexSorted(a) && LexSorted(b)
    requires forall x, y :: x in a && y in b ==> LexLess(x, y)
    ensures LexSorted(a + b)
  {
    forall p, q | 0 <= p < q < |a + b| ensures LexLess((a + b)[p], (a + b)[q]) {
      if q < |a| {
        assert (a + b)[p] == a[p] && (a + b)[q] == a[q];
      } else if p >= |a| {
        assert (a + b)[p] == b[p - |a|] && (a + b)[q] == b[q - |a|];
      } else {
        assert (a + b)[p] == a[p] && (a + b)[q] == b[q - |a|];
        assert a[p] in a && b[q - |a|] in b;
      }
    }
  }

  lemma {:induction false} MatchesLSpec(m: seq<seq<int>>, i: nat, j: nat, k: nat, ln: nat)
    ensures forall q {:trigger q in MatchesL(m, i, j, k, ln)} :: q in MatchesL(m, i, j, k, ln) <==> q.0 == i && q.1 == j && q.2 == k && q.3 < ln && Match(m, q)
    ensures LexSorted(MatchesL(m, i, j, k, ln))
  {
    if ln > 0 {
      MatchesLSpec(m, i, j, k, ln - 1);
      SortedConcat(MatchesL(m, i, j, k, ln - 1), if Match(m, (i, j, k, ln - 1)) then [(i, j, k, ln - 1)] else []);
    }
  }

  lemma {:induction false} MatchesKSpec(m: seq<seq<int>>, i: nat, j: nat, kn: nat)
    requires kn <= |m|
    ensures forall q {:trigger q in MatchesK(m, i, j, kn)} :: q in MatchesK(m, i, j, kn) <==> q.0 == i && q.1 == j && q.2 < kn && Match(m, q)
    ensures LexSorted(MatchesK(m, i, j, kn))
  {
    if kn > 0 {
      MatchesKSpec(m, i, j, kn - 1);
      MatchesLSpec(m, i, j, kn - 1, |m[kn - 1]|);
      SortedConcat(MatchesK(m, i, j, kn - 1), MatchesL(m, i, j, kn - 1, |m[kn - 1]|));
    }
  }

  lemma {:induction false} MatchesJSpec(m: seq<seq<int>>, i: nat, jn: nat)
    ensures forall q {:trigger q in MatchesJ(m, i, jn)} :: q in MatchesJ(m, i, jn) <==> q.0 == i && q.1 < jn && Match(m, q)
    ensures LexSorted(MatchesJ(m, i, jn))
  {
    if jn > 0 {
      MatchesJSpec(m, i, jn - 1);
      MatchesKSpec(m, i, jn - 1, |m|);
      SortedConcat(MatchesJ(m, i, jn - 1), MatchesK(m, i, jn - 1, |m|));
    }
  }

  /** One more cell of row `i` adds that cell's matches after `acc`. */
  lemma MatchesJStep(m: seq<seq<int>>, i: nat, j: nat, acc: seq<Quad>)
    ensures acc + MatchesJ(m, i, j + 1) == (acc + MatchesJ(m, i, j)) + MatchesK(m, i, j, |m|)
  {
    assert MatchesJ(m, i, j + 1) == MatchesJ(m, i, j) + MatchesK(m, i, j, |m|);
  }

  /** One more row adds that row's matches. */
  lemma MatchesIStep(m: seq<seq<int>>, i: nat)
    requires i < |m|
    ensures MatchesI(m, i + 1) == MatchesI(m, i) + MatchesJ(m, i, |m[i]|)
  {
    assert RowOf(m)(i) == MatchesJ(m, i, |m[i]|);
  }

  lemma MatchesISpec(m: seq<seq<int>>, iN: nat)
    requires iN <= |m|
    ensures forall q :: q in MatchesI(m, iN) <==> q.0 < iN && Match(m, q)
    ensures LexSorted(MatchesI(m, iN))
  {
    var part := RowOf(m);
    forall x: nat, q: Quad | x < iN ensures q in part(x) <==> q.0 == x && Match(m, q) {
      MatchesJSpec(m, x, |m[x]|);
    }
    forall x: nat | x < iN ensures LexSorted(part(x)) {
      MatchesJSpec(m, x, |m[x]|);
    }
    RowsSpec(part, iN, m);
  }

  /** Rows whose parts hold exactly their own row's matches, each sorted, concatenate to all those rows' matches, sorted. */
  lemma {:induction false} RowsSpec(part: nat -> seq<Quad>, n: nat, m: seq<seq<int>>)
    requires forall x: nat, q: Quad {:trigger q in part(x)} :: x < n ==> (q in part(x) <==> q.0 == x && Match(m, q))
    requires forall x: nat {:trigger part(x)} :: x < n ==> LexSorted(part(x))
    ensures forall q {:trigger q in Rows(part, n)} :: q in Rows(part, n) <==> q.0 < n && Match(m, q)
    ensures LexSorted(Rows(part, n))
  {
    if n > 0 {
      RowsSpec(part, n - 1, m);
      SortedConcat(Rows(part, n - 1), part(n - 1));
    }
  }

  /**
    `nested_loop_nightmare` lists every pair of equal cells at distinct
    positions, as `(i, j, k, l)`, once each and in lexicographic order.
   */
  lemma NestedMatchesSpec(m: seq<seq<int>>)
    ensures forall q :: q in MatchesI(m, |m|) <==> Match(m, q)
    ensures LexSorted(MatchesI(m, |m|))
  {
    MatchesISpec(m, |m|);
  }

  // ---------------------------------------------------------------------------
  // Fibonacci
  // ---------------------------------------------------------------------------

  /** `recursive_fibonacci_disaster`: `n` itself for `n <= 1`, negative numbers included. */
  function Fib(n: int): int
    decreases if n <= 1 then 0 else n
  {
    if n <= 1 then n else Fib(n - 1) + Fib(n - 2)
  }

  /** The linear-time reference: `k` more steps from the pair `(a, b)`. */
  function FibIter(a: int, b: int, k: nat): int
    decreases k
  {
    if k == 0 then a else FibIter(b, a + b, k - 1)
  }

  /** Stepping from consecutive Fibonacci numbers stays on the sequence. */
  lemma {:induction false} FibIterShift(n: nat, k: nat)
    ensures FibIter(Fib(n), Fib(n + 1), k) == Fib(n + k)
    decreases k
  {
    if k > 0 {
      FibIterShift(n + 1, k - 1);
    }
  }

  /** The doubly recursive definition agrees with the iterative one from `(0, 1)`; its values are never negative from 0 on. */
  lemma FibAgrees(n: nat)
    ensures Fib(n) == FibIter(0, 1, n)
    ensures Fib(n) >= 0
  {
    FibIterShift(0, n);
    FibNonNegative(n);
  }

  lemma {:induction false} FibNonNegative(n: nat)
    ensures Fib(n) >= 0 && Fib(n + 1) >= Fib(n)
  {
    if n > 0 {
      FibNonNegative(n - 1);
    }
  }

  // ---------------------------------------------------------------------------
  // Search, products and the four passes
  // ---------------------------------------------------------------------------

  /** The indices before `n` holding `target`, ascending. */
  function IndicesOf(data: seq<int>, target: int, n: nat): seq<nat>
    requires n <= |data|
  {
    if n == 0 then [] else IndicesOf(data, target, n - 1) + (if data[n - 1] == target then [n - 1] else [])
  }

  /** `inefficient_search` returns exactly the indices holding the target, strictly ascending. */
  lemma {:induction false} IndicesOfSpec(data: seq<int>, target: int, n: nat)
    requires n <= |data|
    ensures forall k: nat :: k in IndicesOf(data, target, n) <==> k < n && data[k] == target
    ensures forall a, b :: 0 <= a < b < |IndicesOf(data, target, n)| ==> IndicesOf(data, target, n)[a] < IndicesOf(data, target, n)[b]
  {
    if n > 0 {
      IndicesOfSpec(data, target, n - 1);
      var prev := IndicesOf(data, target, n - 1);
      var r := IndicesOf(data, target, n);
      forall a, b | 0 <= a < b < |r| ensures r[a] < r[b] {
        assert r[a] == prev[a] && prev[a] in prev;
        if b < |prev| {
          assert r[b] == prev[b];
        }
      }
    }
  }

  /** The sum of the items up to and including `i`. */
  function PrefixSum(numbers: seq<int>, i: nat): int
    requires i < |numbers|
  {
    Sum(numbers[..i + 1])
  }

  /** One row of `redundant_calculations`: row `i` against every `j`. */
  function ProductRow(numbers: seq<int>, i: nat): (r: seq<int>)
    requires i < |numbers|
    ensures |r| == |numbers|
  {
    seq(|numbers|, j requires 0 <= j < |numbers| => PrefixSum(numbers, i) * PrefixSum(numbers, j))
  }

  /** The first `rows` rows, in order. */
  function ProductRows(numbers: seq<int>, rows: nat): seq<int>
    requires rows <= |numbers|
  {
    if rows == 0 then [] else ProductRows(numbers, rows - 1) + ProductRow(numbers, rows - 1)
  }

  /** `redundant_calculations` yields `n·n` products. */
  lemma {:induction false} ProductRowsLength(numbers: seq<int>, rows: nat)
    requires rows <= |numbers|
    ensures |ProductRows(numbers, rows)| == rows * |numbers|
  {
    if rows > 0 {
      ProductRowsLength(numbers, rows - 1);
      assert (rows - 1) * |numbers| + |numbers| == rows * |numbers|;
    }
  }

  /** Entry `i·n + j` is row `i`'s entry `j`. */
  lemma {:induction false} ProductRowsEntry(numbers: seq<int>, rows: nat, i: nat, j: nat)
    requires i < rows <= |numbers| && j < |numbers|
    ensures i * |numbers| + j < rows * |numbers| == |ProductRows(numbers, rows)|
    ensures ProductRows(numbers, rows)[i * |numbers| + j] == PrefixSum(numbers, i) * PrefixSum(numbers, j)
  {
    var n := |numbers|;
    ProductRowsLength(numbers, rows - 1);
    ProductRowsLength(numbers, rows);
    if i < rows - 1 {
      ProductRowsEntry(numbers, rows - 1, i, j);
    } else {
      assert i * n + j - |ProductRows(numbers, rows - 1)| == j;
    }
  }

  /** The position of row `i`, entry `j` in a list of rows of `n` entries each. */
  function Cell(n: nat, i: nat, j: nat): nat
  {
    i * n + j
  }

  /**
    Entry `i·n + j` of `redundant_calculations` is
    the sum of the items up to `i` times the sum of the items up to `j`.
   */
  lemma ProductsSpec(numbers: seq<int>)
    ensures forall i, j :: 0 <= i < |numbers| && 0 <= j < |numbers| ==>
              Cell(|numbers|, i, j) < |ProductRows(numbers, |numbers|)| &&
              ProductRows(numbers, |numbers|)[Cell(|numbers|, i, j)] == PrefixSum(numbers, i) * PrefixSum(numbers, j)
  {
    forall i, j | 0 <= i < |numbers| && 0 <= j < |numbers|
      ensures Cell(|numbers|, i, j) < |ProductRows(numbers, |numbers|)| &&
              ProductRows(numbers, |numbers|)[Cell(|numbers|, i, j)] == PrefixSum(numbers, i) * PrefixSum(numbers, j)
    {
      ProductRowsEntry(numbers, |numbers|, i, j);
    }
  }

  /** `inefficient_data_processing`'s result: the count, the largest item, the smallest item and the total. */
  datatype Stats = Stats(count: nat, maxItem: int, minItem: int, total: int)

  class PerformanceNightmare {
    /** The items added so far, each once. */
    var data: seq<int>
    /** One log line per item actually added; the clock reading is a parameter. */
    var history: seq<string>
    var duplicateStorage: map<int, int>

    ghost predicate Valid()
      reads this
    {
      NoDuplicates(data)
    }

    constructor()
      ensures Valid() && data == [] && history == [] && duplicateStorage == map[]
    {
      data := [];
      history := [];
      duplicateStorage := map[];
    }

    /**
      `add_item`: an absent item is appended and logged; a present one changes
      neither; in both cases `duplicate_storage[len(data)]` is overwritten
      with the item, even when it is not the last one in `data`.
     */
    method AddItem(item: int, time: string)
      requires Valid()
      modifies this
      ensures Valid()
      ensures data == if item in old(data) then old(data) else old(data) + [item]
      ensures history == if item in old(data) then old(history)
                         else old(history) + ["Added " + IntToString(item) + " at " + time]
      ensures duplicateStorage == old(duplicateStorage)[|data| := item]
    {
      if item !in data {
        data := data + [item];
        history := history + ["Added " + IntToString(item) + " at " + time];
      }
      duplicateStorage := duplicateStorage[|data| := item];
    }

    /** `find_duplicates_nightmare`. */
    method FindDuplicatesNightmare(items: seq<int>) returns (duplicates: seq<int>)
      ensures duplicates == Triplicates(items, |items|)
    {
      duplicates := [];
      var i := 0;
      while i < |items|
        invariant 0 <= i <= |items|
        invariant duplicates == Triplicates(items, i)
      {
        duplicates := ScanPairs(items, i, duplicates);
        TripleStep(items, i);
        i := i + 1;
      }
    }

    /** The loops over `j` and `k` of `find_duplicates_nightmare` for one `i`. */
    method ScanPairs(items: seq<int>, i: nat, duplicates: seq<int>) returns (r: seq<int>)
      requires i < |items|
      ensures r == duplicates + (if HasTriple(items, i) && items[i] !in duplicates then [items[i]] else [])
    {
      r := duplicates;
      var j := i + 1;
      while j < |items|
        invariant i + 1 <= j <= |items|
        invariant r == duplicates + (if PairBefore(items, i, j) && items[i] !in duplicates then [items[i]] else [])
      {
        r := ScanThird(items, i, j, r);
        assert PairBefore(items, i, j + 1) <==> PairBefore(items, i, j) || PairAt(items, i, j, |items|) by {
          if PairAt(items, i, j, |items|) {
            var k' :| j < k' < |items| && items[j] == items[i] && items[k'] == items[i];
            assert i < j < j + 1 && j < k' < |items|;
          }
          if PairBefore(items, i, j + 1) && !PairBefore(items, i, j) {
            var j', k' :| i < j' < j + 1 && j' < k' < |items| && items[j'] == items[i] && items[k'] == items[i];
            assert j' == j;
          }
        }
        j := j + 1;
      }
    }

    /** The loop over `k` of `find_duplicates_nightmare` for one `i` and `j`. */
    method ScanThird(items: seq<int>, i: nat, j: nat, duplicates: seq<int>) returns (r: seq<int>)
      requires i < j < |items|
      ensures r == duplicates + (if PairAt(items, i, j, |items|) && items[i] !in duplicates then [items[i]] else [])
    {
      r := duplicates;
      var k := j + 1;
      while k < |items|
        invariant j + 1 <= k <= |items|
        invariant r == duplicates + (if PairAt(items, i, j, k) && items[i] !in duplicates then [items[i]] else [])
      {
        if items[i] == items[j] && items[j] == items[k] && items[i] !in r {
          r := r + [items[i]];
        }
        assert PairAt(items, i, j, k + 1) <==> PairAt(items, i, j, k) || (items[j] == items[i] && items[k] == items[i]) by {
          if PairAt(items, i, j, k + 1) && !PairAt(items, i, j, k) {
            var k' :| j < k' < k + 1 && k' < |items| && items[j] == items[i] && items[k'] == items[i];
            assert k' == k;
          }
        }
        k := k + 1;
      }
    }

    /** `inefficient_sort`: bubble sort in place; returns the same list. */
    method InefficientSort(a: array<int>) returns (r: array<int>)
      modifies a
      ensures r == a
      ensures forall p, q :: 0 <= p < q < a.Length ==> a[p] <= a[q]
      ensures multiset(a[..]) == multiset(old(a[..]))
    {
      var n := a.Length;
      var i := 0;
      while i < n
        invariant 0 <= i <= n
        invariant forall p, q :: n - i <= p < q < n ==> a[p] <= a[q]
        invariant forall p, q :: 0 <= p < n - i <= q < n ==> a[p] <= a[q]
        invariant multiset(a[..]) == multiset(old(a[..]))
      {
        BubblePass(a, n - i);
        i := i + 1;
      }
      r := a;
    }

    /** One pass of the inner loop over the first `m` items: the largest of them ends at `m - 1`. */
    method BubblePass(a: array<int>, m: nat)
      requires 1 <= m <= a.Length
      requires forall p, q :: m <= p < q < a.Length ==> a[p] <= a[q]
      requires forall p, q :: 0 <= p < m <= q < a.Length ==> a[p] <= a[q]
      modifies a
      ensures forall p, q :: m - 1 <= p < q < a.Length ==> a[p] <= a[q]
      ensures forall p, q :: 0 <= p < m - 1 <= q < a.Length ==> a[p] <= a[q]
      ensures multiset(a[..]) == multiset(old(a[..]))
    {
      var j := 0;
      while j < m - 1
        invariant 0 <= j <= m - 1
        invariant forall p :: 0 <= p < j ==> a[p] <= a[j]
        invariant forall p, q :: m <= p < q < a.Length ==> a[p] <= a[q]
        invariant forall p, q :: 0 <= p < m <= q < a.Length ==> a[p] <= a[q]
        invariant multiset(a[..]) == multiset(old(a[..]))
      {
        if a[j] > a[j + 1] {
          SwapNext(a, j);
        }
        j := j + 1;
      }
    }

    /** `data[j], data[j + 1] = data[j + 1], data[j]`. */
    method SwapNext(a: array<int>, j: nat)
      requires j + 1 < a.Length
      modifies a
      ensures a[j] == old(a[j + 1]) && a[j + 1] == old(a[j])
      ensures forall p :: 0 <= p < a.Length && p != j && p != j + 1 ==> a[p] == old(a[p])
      ensures multiset(a[..]) == multiset(old(a[..]))
    {
      a[j], a[j + 1] := a[j + 1], a[j];
    }

    /** `nested_loop_nightmare`. */
    method NestedLoopNightmare(matrix: seq<seq<int>>) returns (result: seq<Quad>)
      ensures result == MatchesI(matrix, |matrix|)
    {
      result := [];
      var i := 0;
      while i < |matrix|
        invariant 0 <= i <= |matrix|
        invariant result == MatchesI(matrix, i)
      {
        result := ScanRow(matrix, i, result);
        MatchesIStep(matrix, i);
        i := i + 1;
      }
    }

    method ScanRow(matrix: seq<seq<int>>, i: nat, acc: seq<Quad>) returns (result: seq<Quad>)
      requires i < |matrix|
      ensures result == acc + MatchesJ(matrix, i, |matrix[i]|)
    {
      result := acc;
      var j := 0;
      while j < |matrix[i]|
        invariant 0 <= j <= |matrix[i]|
        invariant result == acc + MatchesJ(matrix, i, j)
      {
        result := ScanCell(matrix, i, j, result);
        MatchesJStep(matrix, i, j, acc);
        j := j + 1;
      }
    }

    method ScanCell(matrix: seq<seq<int>>, i: nat, j: nat, acc: seq<Quad>) returns (result: seq<Quad>)
      requires InMatrix(matrix, i, j)
      ensures result == acc + MatchesK(matrix, i, j, |matrix|)
    {
      result := acc;
      var k := 0;
      while k < |matrix|
        invariant 0 <= k <= |matrix|
        invariant result == acc + MatchesK(matrix, i, j, k)
      {
        result := ScanOther(matrix, i, j, k, result);
        assert acc + MatchesK(matrix, i, j, k + 1) == acc + MatchesK(matrix, i, j, k) + MatchesL(matrix, i, j, k, |matrix[k]|);
        k := k + 1;
      }
    }

    method ScanOther(matrix: seq<seq<int>>, i: nat, j: nat, k: nat, acc: seq<Quad>) returns (result: seq<Quad>)
      requires InMatrix(matrix, i, j) && k < |matrix|
      ensures result == acc + MatchesL(matrix, i, j, k, |matrix[k]|)
    {
      result := acc;
      var l := 0;
      while l < |matrix[k]|
        invariant 0 <= l <= |matrix[k]|
        invariant result == acc + MatchesL(matrix, i, j, k, l)
      {
        if matrix[i][j] == matrix[k][l] && (i != k || j != l) {
          result := result + [(i, j, k, l)];
        }
        l := l + 1;
      }
    }

    /** `inefficient_search`. */
    method InefficientSearch(data: seq<int>, target: int) returns (foundIndices: seq<nat>)
      ensures foundIndices == IndicesOf(data, target, |data|)
    {
      foundIndices := [];
      var i := 0;
      while i < |data|
        invariant 0 <= i <= |data|
        invariant foundIndices == IndicesOf(data, target, i)
      {
        if data[i] == target {
          foundIndices := foundIndices + [i];
        }
        i := i + 1;
      }
    }

    /** `redundant_calculations`. */
    method RedundantCalculations(numbers: seq<int>) returns (results: seq<int>)
      ensures results == ProductRows(numbers, |numbers|)
    {
      results := [];
      var i := 0;
      while i < |numbers|
        invariant 0 <= i <= |numbers|
        invariant results == ProductRows(numbers, i)
      {
        var j := 0;
        while j < |numbers|
          invariant 0 <= j <= |numbers|
          invariant results == ProductRows(numbers, i) + ProductRow(numbers, i)[..j]
        {
          results := results + [PrefixSum(numbers, i) * PrefixSum(numbers, j)];
          assert ProductRow(numbers, i)[..j + 1] == ProductRow(numbers, i)[..j] + [ProductRow(numbers, i)[j]];
          j := j + 1;
        }
        assert ProductRow(numbers, i)[..j] == ProductRow(numbers, i);
        i := i + 1;
      }
    }
  }

  /** `inefficient_data_processing`: indexing the first item raises on an empty list. */
  method InefficientDataProcessing(dataList: seq<int>) returns (r: Stats)
    requires |dataList| > 0
    ensures r.count == |dataList|
    ensures r.maxItem in dataList && forall x :: x in dataList ==> x <= r.maxItem
    ensures r.minItem in dataList && forall x :: x in dataList ==> r.minItem <= x
    ensures r.total == Sum(dataList)
  {
    var count := 0;
    var i := 0;
    while i < |dataList|
      invariant 0 <= i <= |dataList|
      invariant count == |dataList[..i]|
    {
      count := count + 1;
      i := i + 1;
    }
    var maxItem := dataList[0];
    i := 0;
    while i < |dataList|
      invariant 0 <= i <= |dataList|
      invariant maxItem in dataList && forall p :: 0 <= p < i ==> dataList[p] <= maxItem
    {
      if dataList[i] > maxItem {
        maxItem := dataList[i];
      }
      i := i + 1;
    }
    var minItem := dataList[0];
    i := 0;
    while i < |dataList|
      invariant 0 <= i <= |dataList|
      invariant minItem in dataList && forall p :: 0 <= p < i ==> minItem <= dataList[p]
    {
      if dataList[i] < minItem {
        minItem := dataList[i];
      }
      i := i + 1;
    }
    var total := 0;
    i := 0;
    while i < |dataList|
      invariant 0 <= i <= |dataList|
      invariant total == Sum(dataList[..i])
    {
      assert dataList[..i + 1][..i] == dataList[..i];
      total := total + dataList[i];
      i := i + 1;
    }
    assert dataList[..i] == dataList;
    r := Stats(count, maxItem, minItem, total);
  }
}

=== FILE: simple_editor.dfy ===
/**
  The simple fix-application engine: it looks the fix text up under a fixed
  list of key-paths, maps files to whole new contents with three gated
  patterns (file headers, the code block nearest a filename, positional
  pairing), and replaces a file only when the stripped new content differs.

  The fix-text regexes are not modelled: what they find comes in a
  `SimpleScan` value.
 */
module SimpleEditor {
  import opened Common
  import opened Workspace

  // ---------------------------------------------------------------------------
  // Locating the fix text
  // ---------------------------------------------------------------------------

  /** The key-paths `_extract_fixes_text` tries, in order. */
  const KeyPaths: seq<seq<string>> := [["applied_fixes", "generated_fixes"], ["generated_fixes"], ["fixes"], ["fix_content"], ["content"]]

  /** `current = current[key]` along `path`; None is the KeyError or TypeError raised on the way. */
  function Follow(j: Json, path: seq<string>): Option<Json>
  {
    if path == [] then Some(j)
    else
      match Index(j, path[0])
      case None => None
      case Some(v) => Follow(v, path[1..])
  }

  /**
    What a value found at a key-path returns: a string as it is; for a
    non-empty list, its first item's `text` if that item is a dict with that
    key, else `str(first)`. Anything else is skipped (None).
   */
  function Normalise(v: Json, pyStr: Json -> string): Option<Json>
  {
    match v
    case JStr(_) => Some(v)
    case JArr(items) =>
      if items == [] then None
      else if items[0].JObj? && "text" in Keys(items[0].fields) then Lookup(items[0].fields, "text")
      else Some(JStr(pyStr(items[0])))
    case _ => None
  }

  /** What one key-path yields. */
  function Yield(report: Json, path: seq<string>, pyStr: Json -> string): Option<Json>
  {
    match Follow(report, path)
    case None => None
    case Some(v) => Normalise(v, pyStr)
  }

  /** The yield of the first key-path that yields anything. */
  function FirstYield(report: Json, paths: seq<seq<string>>, pyStr: Json -> string): Option<Json>
  {
    if paths == [] then None
    else
      match Yield(report, paths[0], pyStr)
      case Some(v) => Some(v)
      case None => FirstYield(report, paths[1..], pyStr)
  }

  /** `_extract_fixes_text`; `pyStr` stands for Python's `str()` of a loaded value. */
  function ExtractFixesText(report: seq<(string, Json)>, pyStr: Json -> string): Option<Json>
  {
    FirstYield(JObj(report), KeyPaths, pyStr)
  }

  /** The first path that yields decides; nothing is found only when no path yields. */
  lemma {:induction false} FirstYieldSpec(report: Json, paths: seq<seq<string>>, pyStr: Json -> string) returns (k: nat)
    ensures FirstYield(report, paths, pyStr).None? ==> forall m :: 0 <= m < |paths| ==> Yield(report, paths[m], pyStr).None?
    ensures FirstYield(report, paths, pyStr).Some? ==>
              k < |paths| && FirstYield(report, paths, pyStr) == Yield(report, paths[k], pyStr)
              && forall m :: 0 <= m < k ==> Yield(report, paths[m], pyStr).None?
  {
    if paths == [] {
      k := 0;
    } else if Yield(report, paths[0], pyStr).Some? {
      k := 0;
    } else {
      var k' := FirstYieldSpec(report, paths[1..], pyStr);
      k := k' + 1;
      assert forall m :: 1 <= m < |paths| ==> paths[m] == paths[1..][m - 1];
    }
  }

  /** A string stored under `applied_fixes.generated_fixes` is returned verbatim, whatever the other keys hold. */
  lemma NestedStringWins(report: seq<(string, Json)>, af: seq<(string, Json)>, s: string, pyStr: Json -> string)
    requires Lookup(report, "applied_fixes") == Some(JObj(af)) && Lookup(af, "generated_fixes") == Some(JStr(s))
    ensures ExtractFixesText(report, pyStr) == Some(JStr(s))
  {
    var path := KeyPaths[0];
    assert path[1..] == ["generated_fixes"] && path[1..][1..] == [];
    assert Follow(JStr(s), []) == Some(JStr(s));
    assert Follow(JObj(af), ["generated_fixes"]) == Some(JStr(s));
    assert Follow(JObj(report), path) == Some(JStr(s));
  }

  // ---------------------------------------------------------------------------
  // The report-structure summary
  // ---------------------------------------------------------------------------

  /** A summary value: strings at the leaves, objects inside. */
  predicate IsSummary(j: Json)
  {
    match j
    case JStr(_) => true
    case JObj(fields) => forall i :: 0 <= i < |fields| ==> IsSummary(fields[i].1)
    case _ => false
  }

  /** How deeply objects nest in a value. */
  function ObjDepth(j: Json): nat
  {
    match j
    case JObj(fields) => 1 + MaxOf(seq(|fields|, i requires 0 <= i < |fields| => ObjDepth(fields[i].1)))
    case _ => 0
  }

  function MaxOf(s: seq<nat>): (r: nat)
    ensures forall i :: 0 <= i < |s| ==> s[i] <= r
    ensures s == [] ==> r == 0
    ensures s != [] ==> r in s
  {
    if s == [] then 0
    else
      var rest := MaxOf(s[..|s| - 1]);
      if s[|s| - 1] < rest then rest else s[|s| - 1]
  }

  /** The description of one leaf value: its type, with the length of a list or string. */
  function LeafSummary(v: Json): string
  {
    match v
    case JArr(items) => "list[" + Dec(|items|) + "]"
    case JStr(s) => "string[" + Dec(|s|) + "]"
    case JInt(_) => "int"
    case JBool(_) => "bool"
    case JNull => "NoneType"
    case JObj(_) => "dict"
  }

  /** `explore_dict(d, depth)` with the limit `maxDepth`. */
  function Explore(fields: seq<(string, Json)>, depth: nat, maxDepth: nat): (r: Json)
    decreases maxDepth + 1 - depth, |fields|, 1
    ensures IsSummary(r)
    ensures depth <= maxDepth ==> r.JObj? && Keys(r.fields) == Keys(fields)
    ensures ObjDepth(r) <= if depth <= maxDepth then maxDepth + 1 - depth else 0
  {
    if depth > maxDepth then JStr("...")
    else
      var fs := ExploreFields(fields, depth, maxDepth);
      JObj(fs)
  }

  function ExploreFields(fields: seq<(string, Json)>, depth: nat, maxDepth: nat): (r: seq<(string, Json)>)
    requires depth <= maxDepth
    decreases maxDepth + 1 - depth, |fields|, 0
    ensures Keys(r) == Keys(fields)
    ensures forall i :: 0 <= i < |r| ==> IsSummary(r[i].1) && ObjDepth(r[i].1) <= maxDepth - depth
  {
    seq(|fields|, i requires 0 <= i < |fields| => (fields[i].0, Summarize(fields[i].1, depth, maxDepth)))
  }

  /** One value of an explored object: objects are opened one level deeper, anything else is summarised. */
  function Summarize(v: Json, depth: nat, maxDepth: nat): (r: Json)
    requires depth <= maxDepth
    decreases maxDepth + 1 - depth, 0, 2
    ensures IsSummary(r) && ObjDepth(r) <= maxDepth - depth
  {
    if v.JObj? then Explore(v.fields, depth + 1, maxDepth) else JStr(LeafSummary(v))
  }

  /**
    `_debug_report_structure(report)`: the report's own keys, each mapped to a
    summary; objects are opened at most three levels deep and "..." stands for
    anything deeper.
   */
  function DebugReportStructure(report: seq<(string, Json)>): (r: Json)
    ensures IsSummary(r) && r.JObj? && Keys(r.fields) == Keys(report)
    ensures ObjDepth(r) <= 3
  {
    Explore(report, 0, 2)
  }

  // ---------------------------------------------------------------------------
  // Matching a header's filename to a file
  // ---------------------------------------------------------------------------

  /** The first index whose name satisfies `p`. */
  function FirstMatch(names: seq<string>, p: string -> bool): (r: Option<nat>)
    ensures r.None? ==> forall i :: 0 <= i < |names| ==> !p(names[i])
    ensures r.Some? ==> r.value < |names| && p(names[r.value]) && forall i :: 0 <= i < r.value ==> !p(names[i])
  {
    if names == [] then None
    else if p(names[0]) then Some(0)
    else
      match FirstMatch(names[1..], p)
      case None => None
      case Some(i) => Some(i + 1)
  }

  /** Either name occurs in the other. */
  predicate Overlaps(name: string, clean: string)
  {
    Contains(name, clean) || Contains(clean, name)
  }

  /**
    `_find_matching_file`: strip, drop a `file_<digits>_` prefix, then the first
    exact match on either form, else the first file whose name contains or is
    contained in the cleaned name, else the cleaned name with `.py` added.
   */
  function FindMatchingFile(filename: string, names: seq<string>): (r: Option<nat>)
    ensures r.Some? ==> r.value < |names|
  {
    var f := Strip(filename);
    var clean := StripIdPrefix(f);
    match ExactStage(names, clean, f)
    case Some(i) => Some(i)
    case None =>
      match OverlapStage(names, clean)
      case Some(i) => Some(i)
      case None => if !EndsWith(clean, ".py") then PyStage(names, clean) else None
  }

  /** The first stage: a file named exactly the cleaned or the stripped name. */
  function ExactStage(names: seq<string>, clean: string, f: string): Option<nat>
  {
    FirstMatch(names, n => n == clean || n == f)
  }

  /** The second stage: a file whose name overlaps the cleaned name. */
  function OverlapStage(names: seq<string>, clean: string): Option<nat>
  {
    FirstMatch(names, n => Overlaps(n, clean))
  }

  /** The third stage: a file named the cleaned name with `.py` added. */
  function PyStage(names: seq<string>, clean: string): Option<nat>
  {
    FirstMatch(names, n => n == clean + ".py")
  }

  /** The exact and substring stages alone. */
  function TwoStageMatch(filename: string, names: seq<string>): Option<nat>
  {
    var f := Strip(filename);
    var clean := StripIdPrefix(f);
    match ExactStage(names, clean, f)
    case Some(i) => Some(i)
    case None => OverlapStage(names, clean)
  }

  /**
    The `.py` stage never finds anything: a name equal to the cleaned name plus
    `.py` contains the cleaned name, so the substring stage returns first.
   */
  lemma PyStageUnreachable(filename: string, names: seq<string>)
    ensures FindMatchingFile(filename, names) == TwoStageMatch(filename, names)
  {
    var clean := StripIdPrefix(Strip(filename));
    var r := PyStage(names, clean);
    if r.Some? {
      var name := names[r.value];
      assert name[..|clean|] == clean;
      assert Overlaps(name, clean) by {
        assert OccursAt(name, clean, 0);
      }
    }
  }

  /**
    A header whose name is nothing but an id prefix (or empty) matches the
    first Python file, since every string contains the empty string.
   */
  lemma EmptyNameMatchesFirst(filename: string, names: seq<string>)
    requires names != [] && forall i :: 0 <= i < |names| ==> IsPyName(names[i])
    requires StripIdPrefix(Strip(filename)) == ""
    ensures FindMatchingFile(filename, names) == Some(0)
  {
    var f := Strip(filename);
    ExactStageMissesPy(names, f);
    OverlapStageEmpty(names);
  }

  /** No Python file is named by a stripped header whose id-cleaned form is empty. */
  lemma ExactStageMissesPy(names: seq<string>, f: string)
    requires forall i :: 0 <= i < |names| ==> IsPyName(names[i])
    requires StripIdPrefix(f) == ""
    ensures ExactStage(names, StripIdPrefix(f), f) == None
  {
    forall i | 0 <= i < |names| ensures !(names[i] == "" || names[i] == f) {
      PyNameEnd(names[i]);
      if f != "" {
        IdPrefixEnd(f);
      }
    }
  }

  /** Every name overlaps the empty name, so the substring stage picks the first file. */
  lemma OverlapStageEmpty(names: seq<string>)
    requires names != []
    ensures OverlapStage(names, "") == Some(0)
  {
    assert OccursAt(names[0], "", 0);
  }

  lemma PyNameEnd(n: string)
    requires IsPyName(n)
    ensures n != "" && n[|n| - 1] == 'y'
  {
    assert n[|n| - 3..][2] == 'y';
  }

  lemma IdPrefixEnd(f: string)
    requires f != "" && StripIdPrefix(f) == ""
    ensures f[|f| - 1] == '_'
  {
  }

  // ---------------------------------------------------------------------------
  // Sorting by name
  // ---------------------------------------------------------------------------

  /** Python's `<=` on strings: lexicographic by code point. */
  predicate StrLe(a: string, b: string)
    decreases |a|
  {
    a == [] || (b != [] && (a[0] < b[0] || (a[0] == b[0] && StrLe(a[1..], b[1..]))))
  }

  lemma {:induction false} StrLeTotal(a: string, b: string)
    decreases |a|
    ensures StrLe(a, b) || StrLe(b, a)
  {
    if a != [] && b != [] && a[0] == b[0] {
      StrLeTotal(a[1..], b[1..]);
    }
  }

  lemma {:induction false} StrLeTrans(a: string, b: string, c: string)
    decreases |a|
    requires StrLe(a, b) && StrLe(b, c)
    ensures StrLe(a, c)
  {
    if a != [] && a[0] == b[0] && b[0] == c[0] {
      StrLeTrans(a[1..], b[1..], c[1..]);
    }
  }

  predicate SortedNames(s: seq<string>)
  {
    forall i, j :: 0 <= i < j < |s| ==> StrLe(s[i], s[j])
  }

  function InsertName(x: string, s: seq<string>): (r: seq<string>)
    ensures |r| == |s| + 1
  {
    if s == [] then [x]
    else if StrLe(x, s[0]) then [x] + s
    else [s[0]] + InsertName(x, s[1..])
  }

  /** `sorted(py_files, key=lambda x: x.name)`. */
  function SortNames(s: seq<string>): (r: seq<string>)
    ensures |r| == |s|
  {
    if s == [] then [] else InsertName(s[0], SortNames(s[1..]))
  }

  lemma {:induction false} InsertNameElems(x: string, s: seq<string>)
    ensures multiset(InsertName(x, s)) == multiset(s) + multiset{x}
    ensures forall y :: y in InsertName(x, s) <==> y == x || y in s
  {
    if s != [] {
      assert s == [s[0]] + s[1..];
      if !StrLe(x, s[0]) {
        InsertNameElems(x, s[1..]);
      }
    }
  }

  lemma {:induction false} InsertNameSorted(x: string, s: seq<string>)
    requires SortedNames(s)
    ensures SortedNames(InsertName(x, s))
  {
    if s == [] {
    } else if StrLe(x, s[0]) {
      FrontSorted(x, s);
    } else {
      InsertNameSorted(x, s[1..]);
      StrLeTotal(x, s[0]);
      InsertedAbove(x, s);
      FrontSorted(s[0], InsertName(x, s[1..]));
    }
  }

  /** A name no greater than every name of a sorted list can go in front of it. */
  lemma FrontSorted(h: string, t: seq<string>)
    requires SortedNames(t)
    requires t != [] ==> StrLe(h, t[0])
    ensures SortedNames([h] + t)
  {
    var r := [h] + t;
    forall i, j | 0 <= i < j < |r| ensures StrLe(r[i], r[j]) {
      if i == 0 {
        if j > 1 {
          StrLeTrans(h, t[0], t[j - 1]);
        }
      } else {
        assert r[i] == t[i - 1] && r[j] == t[j - 1];
      }
    }
  }

  /** Inserting a name above the head of a sorted list keeps the head below everything after it. */
  lemma InsertedAbove(x: string, s: seq<string>)
    requires SortedNames(s) && s != [] && StrLe(s[0], x)
    ensures InsertName(x, s[1..]) != [] ==> StrLe(s[0], InsertName(x, s[1..])[0])
  {
    var t := InsertName(x, s[1..]);
    InsertNameElems(x, s[1..]);
    assert t[0] in t;
    if t[0] != x {
      var m :| 0 <= m < |s[1..]| && s[1..][m] == t[0];
      assert s[m + 1] == t[0];
    }
  }

  /** Sorting yields the same names, in ascending order. */
  lemma {:induction false} SortNamesSpec(s: seq<string>)
    ensures SortedNames(SortNames(s))
    ensures multiset(SortNames(s)) == multiset(s)
    ensures |SortNames(s)| == |s|
  {
    if s != [] {
      SortNamesSpec(s[1..]);
      InsertNameSorted(s[0], SortNames(s[1..]));
      InsertNameElems(s[0], SortNames(s[1..]));
      assert s == [s[0]] + s[1..];
    }
    assert |SortNames(s)| == |multiset(SortNames(s))|;
  }

  // ---------------------------------------------------------------------------
  // Distinct names
  // ---------------------------------------------------------------------------

  lemma {:induction false} DistinctCounts(s: seq<string>)
    requires Distinct(s)
    ensures forall x :: multiset(s)[x] <= 1
  {
    if s != [] {
      assert s == [s[0]] + s[1..];
      DistinctCounts(s[1..]);
      assert s[0] !in s[1..];
    }
  }

  lemma RepeatCounts(s: seq<string>, i: nat, j: nat)
    requires i < j < |s| && s[i] == s[j]
    ensures multiset(s)[s[i]] >= 2
  {
    assert s == s[..j] + s[j..];
    assert s[i] == s[..j][i];
    assert s[j] == s[j..][0];
  }

  /** A rearrangement of distinct names has distinct names. */
  lemma DistinctPermutation(a: seq<string>, b: seq<string>)
    requires multiset(a) == multiset(b) && Distinct(a)
    ensures Distinct(b)
  {
    DistinctCounts(a);
    forall i, j | 0 <= i < j < |b| ensures b[i] != b[j] {
      if b[i] == b[j] {
        RepeatCounts(b, i, j);
      }
    }
  }

  // ---------------------------------------------------------------------------
  // Parsing the fix text into new file contents
  // ---------------------------------------------------------------------------

  /** What this editor's fix-text regexes find, in text order: `**File: ...**` header matches `(filename, code)` and fenced blocks. */
  datatype SimpleScan = SimpleScan(headers: seq<(string, string)>, blocks: seq<Block>)

  /** A dict from file to its whole new content. */
  type NewContents = ODict<string>

  /** The file a header names, if `_find_matching_file` finds one. */
  function HeaderTarget(h: (string, string), names: seq<string>): (r: Option<string>)
    ensures r.Some? ==> r.value in names
  {
    match FindMatchingFile(Strip(h.0), names)
    case Some(i) => Some(names[i])
    case None => None
  }

  /** Each header's target file and stripped code, in text order. */
  function Targets(hs: seq<(string, string)>, names: seq<string>): (r: seq<(Option<string>, string)>)
    ensures |r| == |hs| && forall i :: 0 <= i < |hs| ==> r[i] == (HeaderTarget(hs[i], names), Strip(hs[i].1))
  {
    seq(|hs|, i requires 0 <= i < |hs| => (HeaderTarget(hs[i], names), Strip(hs[i].1)))
  }

  /** Pattern 1 over the targets: each matched header sets its file's content; a later one for the same file overwrites. */
  function Pattern1Of(ts: seq<(Option<string>, string)>): NewContents
  {
    if ts == [] then EmptyDict()
    else
      var d := Pattern1Of(ts[..|ts| - 1]);
      var t := ts[|ts| - 1];
      match t.0
      case Some(n) => Put(d, n, t.1)
      case None => d
  }

  function Pattern1(hs: seq<(string, string)>, names: seq<string>): (r: NewContents)
    ensures r.Valid()
  {
    Pattern1Valid(Targets(hs, names));
    Pattern1Of(Targets(hs, names))
  }

  lemma {:induction false} Pattern1Valid(ts: seq<(Option<string>, string)>)
    ensures Pattern1Of(ts).Valid()
  {
    if ts != [] {
      var init := ts[..|ts| - 1];
      Pattern1Valid(init);
      var t := ts[|ts| - 1];
      if t.0.Some? {
        var r := Put(Pattern1Of(init), t.0.value, t.1);
        assert r.Valid();
        assert Pattern1Of(ts) == r;
      }
    }
  }

  /** One more header: its target, if any, is set to its code. */
  lemma Pattern1OfSnoc(ts: seq<(Option<string>, string)>, i: nat)
    requires i < |ts|
    ensures Pattern1Of(ts[..i + 1]) == if ts[i].0.Some? then Put(Pattern1Of(ts[..i]), ts[i].0.value, ts[i].1) else Pattern1Of(ts[..i])
  {
    assert ts[..i + 1][..i] == ts[..i];
  }

  /** The last target that is `k`. */
  function LastTargetFor(ts: seq<(Option<string>, string)>, k: string): (r: Option<nat>)
    ensures r.None? ==> forall j :: 0 <= j < |ts| ==> ts[j].0 != Some(k)
    ensures r.Some? ==> r.value < |ts| && ts[r.value].0 == Some(k)
    ensures r.Some? ==> forall j :: r.value < j < |ts| ==> ts[j].0 != Some(k)
  {
    if ts == [] then None
    else if ts[|ts| - 1].0 == Some(k) then Some(|ts| - 1)
    else LastTargetFor(ts[..|ts| - 1], k)
  }

  /** Pattern 1 has a file exactly when some header names it, and keeps the code of the last such header. */
  lemma {:induction false} Pattern1LastWins(ts: seq<(Option<string>, string)>, k: string)
    ensures k in Pattern1Of(ts).vals <==> LastTargetFor(ts, k).Some?
    ensures LastTargetFor(ts, k).Some? ==> Pattern1Of(ts).vals[k] == ts[LastTargetFor(ts, k).value].1
  {
    if ts != [] {
      Pattern1LastWins(ts[..|ts| - 1], k);
    }
  }

  /** Every file pattern 1 maps is one of the listed files. */
  lemma Pattern1Listed(hs: seq<(string, string)>, names: seq<string>)
    ensures forall k :: k in Pattern1(hs, names).vals ==> k in names
  {
    var ts := Targets(hs, names);
    assert Pattern1(hs, names) == Pattern1Of(ts);
    forall k | k in Pattern1Of(ts).vals ensures k in names {
      Pattern1LastWins(ts, k);
      var i := LastTargetFor(ts, k).value;
      assert ts[i].0 == HeaderTarget(hs[i], names) == Some(k);
    }
  }

  /** `|pos - b.start|`. */
  function Dist(pos: nat, b: Block): nat
  {
    if pos >= b.start then pos - b.start else b.start - pos
  }

  /** The block nearest to `pos`; the earliest of equally near blocks, as the comparison is strict. */
  function Closest(pos: nat, blocks: seq<Block>): (r: Option<nat>)
    ensures r.None? <==> blocks == []
    ensures r.Some? ==> r.value < |blocks|
    ensures r.Some? ==> forall j :: 0 <= j < |blocks| ==> Dist(pos, blocks[r.value]) <= Dist(pos, blocks[j])
    ensures r.Some? ==> forall j :: 0 <= j < r.value ==> Dist(pos, blocks[r.value]) < Dist(pos, blocks[j])
  {
    if blocks == [] then None
    else
      var init := blocks[..|blocks| - 1];
      var c := Closest(pos, init);
      assert forall j :: 0 <= j < |init| ==> init[j] == blocks[j];
      if c.None? || Dist(pos, blocks[|blocks| - 1]) < Dist(pos, blocks[c.value]) then Some(|blocks| - 1) else c
  }

  /** The `min_distance` / `closest_code` loop; None is the initial infinite distance. */
  /** One more block: it becomes the closest only when strictly nearer. */
  lemma ClosestSnoc(pos: nat, blocks: seq<Block>, i: nat)
    requires i < |blocks|
    ensures var c := Closest(pos, blocks[..i]);
      Closest(pos, blocks[..i + 1]) == if c.None? || Dist(pos, blocks[i]) < Dist(pos, blocks[c.value]) then Some(i) else c
  {
    assert blocks[..i + 1][..i] == blocks[..i];
  }

  method ClosestBlock(pos: nat, blocks: seq<Block>) returns (closest: Option<nat>)
    ensures closest == Closest(pos, blocks)
  {
    closest := None;
    var minDistance := 0;
    var i := 0;
    while i < |blocks|
      invariant 0 <= i <= |blocks|
      invariant closest == Closest(pos, blocks[..i])
      invariant closest.Some? ==> closest.value < i && minDistance == Dist(pos, blocks[closest.value])
    {
      ClosestSnoc(pos, blocks, i);
      var distance := Dist(pos, blocks[i]);
      if closest.None? || distance < minDistance {
        minDistance := distance;
        closest := Some(i);
      }
      i := i + 1;
    }
    assert blocks[..|blocks|] == blocks;
  }

  /**
    The code pattern 2 takes for the file `name`: the stripped code of the
    block nearest the first (case-sensitive) mention of the name, if that code
    is non-empty and closer than 1000 characters.
   */
  function NearCode(text: string, name: string, blocks: seq<Block>): Option<string>
  {
    if !Contains(text, name) then None
    else
      var pos := Find(text, name);
      match Closest(pos, blocks)
      case None => None
      case Some(c) =>
        var code := Strip(blocks[c].code);
        if code != "" && Dist(pos, blocks[c]) < 1000 then Some(code) else None
  }

  /** Each file's name with the code pattern 2 would give it, in directory order. */
  function NearCodes(text: string, blocks: seq<Block>, names: seq<string>): (r: seq<(string, Option<string>)>)
    ensures |r| == |names| && forall i :: 0 <= i < |names| ==> r[i] == (names[i], NearCode(text, names[i], blocks))
  {
    seq(|names|, i requires 0 <= i < |names| => (names[i], NearCode(text, names[i], blocks)))
  }

  /** Pattern 2 over the near codes: a file with a near code gets it. */
  function Pattern2Of(ns: seq<(string, Option<string>)>): (r: NewContents)
    ensures r.Valid()
  {
    if ns == [] then EmptyDict()
    else
      var d := Pattern2Of(ns[..|ns| - 1]);
      var (name, near) := ns[|ns| - 1];
      match near
      case Some(code) => Put(d, name, code)
      case None => d
  }

  function Pattern2(text: string, blocks: seq<Block>, names: seq<string>): NewContents
  {
    Pattern2Of(NearCodes(text, blocks, names))
  }

  /** The code of the last entry for `k`, if any. */
  function LastNear(ns: seq<(string, Option<string>)>, k: string): Option<string>
  {
    if ns == [] then None
    else if ns[|ns| - 1].0 == k && ns[|ns| - 1].1.Some? then ns[|ns| - 1].1
    else LastNear(ns[..|ns| - 1], k)
  }

  lemma {:induction false} Pattern2OfSpec(ns: seq<(string, Option<string>)>, k: string)
    ensures k in Pattern2Of(ns).vals <==> LastNear(ns, k).Some?
    ensures k in Pattern2Of(ns).vals ==> Pattern2Of(ns).vals[k] == LastNear(ns, k).value
  {
    if ns != [] {
      Pattern2OfSpec(ns[..|ns| - 1], k);
    }
  }

  lemma {:induction false} LastNearOfDistinct(ns: seq<(string, Option<string>)>, i: nat)
    requires i < |ns|
    requires forall j :: 0 <= j < |ns| && j != i ==> ns[j].0 != ns[i].0
    ensures LastNear(ns, ns[i].0) == ns[i].1
  {
    var k := ns[i].0;
    if i < |ns| - 1 {
      LastNearOfDistinct(ns[..|ns| - 1], i);
    } else {
      var init := ns[..|ns| - 1];
      forall j | 0 <= j < |init| ensures init[j].0 != k {
        assert init[j] == ns[j];
      }
      LastNearAbsent(init, k);
    }
  }

  lemma {:induction false} LastNearAbsent(ns: seq<(string, Option<string>)>, k: string)
    requires forall j :: 0 <= j < |ns| ==> ns[j].0 != k
    ensures LastNear(ns, k).None?
  {
    if ns != [] {
      LastNearAbsent(ns[..|ns| - 1], k);
    }
  }

  /**
    With distinct file names, a file gets content from pattern 2 exactly when
    it has near code, and gets that code.
   */
  lemma Pattern2Spec(text: string, blocks: seq<Block>, names: seq<string>, i: nat)
    requires i < |names| && Distinct(names)
    ensures names[i] in Pattern2(text, blocks, names).vals <==> NearCode(text, names[i], blocks).Some?
    ensures names[i] in Pattern2(text, blocks, names).vals ==> Pattern2(text, blocks, names).vals[names[i]] == NearCode(text, names[i], blocks).value
  {
    var ns := NearCodes(text, blocks, names);
    Pattern2OfSpec(ns, names[i]);
    LastNearOfDistinct(ns, i);
  }

  /** The stripped code of each block. */
  function BlockCodes(blocks: seq<Block>): (r: seq<string>)
    ensures |r| == |blocks| && forall i :: 0 <= i < |blocks| ==> r[i] == Strip(blocks[i].code)
  {
    seq(|blocks|, i requires 0 <= i < |blocks| => Strip(blocks[i].code))
  }

  /** The positional pairing of the first `n` sorted names with the first `n` codes. */
  function Positional(sorted: seq<string>, codes: seq<string>, n: nat): NewContents
    requires n <= |sorted| && n <= |codes|
  {
    if n == 0 then EmptyDict()
    else Put(Positional(sorted, codes, n - 1), sorted[n - 1], codes[n - 1])
  }

  lemma {:induction false} PositionalValid(sorted: seq<string>, codes: seq<string>, n: nat)
    requires n <= |sorted| && n <= |codes|
    ensures Positional(sorted, codes, n).Valid()
  {
    if n == 0 {
      assert Positional(sorted, codes, n) == EmptyDict();
    } else {
      var prev := Positional(sorted, codes, n - 1);
      PositionalValid(sorted, codes, n - 1);
      var r := Put(prev, sorted[n - 1], codes[n - 1]);
      assert r.Valid();
      assert Positional(sorted, codes, n) == r;
    }
  }

  /** Pattern 3: only when there are as many blocks as files. */
  function Pattern3(blocks: seq<Block>, names: seq<string>): (r: NewContents)
    ensures r.Valid()
  {
    if |blocks| == |names| then
      PositionalValid(SortNames(names), BlockCodes(blocks), |names|);
      Positional(SortNames(names), BlockCodes(blocks), |names|)
    else EmptyDict()
  }

  /** Pattern 3 maps only names from the sorted list. */
  lemma PositionalListed(sorted: seq<string>, codes: seq<string>, n: nat)
    requires n <= |sorted| && n <= |codes|
    ensures forall k :: k in Positional(sorted, codes, n).vals ==> k in sorted
  {
    forall k | k in Positional(sorted, codes, n).vals ensures k in sorted {
      if k !in sorted[..n] {
        PositionalFresh(sorted, codes, n, k);
      }
      var i :| 0 <= i < n && sorted[..n][i] == k;
      assert sorted[i] == k;
    }
  }

  lemma DistinctLast(s: seq<string>, n: nat)
    requires 0 < n <= |s| && Distinct(s)
    ensures s[n - 1] !in s[..n - 1]
  {
    var init := s[..n - 1];
    forall j | 0 <= j < |init| ensures init[j] != s[n - 1] {
      assert init[j] == s[j];
    }
  }

  /** A name outside the first `n` names is not among the positional keys. */
  lemma {:induction false} PositionalFresh(sorted: seq<string>, codes: seq<string>, n: nat, k: string)
    requires n <= |sorted| && n <= |codes| && k !in sorted[..n]
    ensures k !in Positional(sorted, codes, n).vals
  {
    if n > 0 {
      assert sorted[..n] == sorted[..n - 1] + [sorted[n - 1]];
      PositionalFresh(sorted, codes, n - 1, k);
    }
  }

  /** With distinct names, the positional keys are the first `n` names, in order. */
  lemma PositionalKeys(sorted: seq<string>, codes: seq<string>, n: nat)
    requires n <= |sorted| && n <= |codes| && Distinct(sorted)
    ensures Positional(sorted, codes, n).keys == sorted[..n]
  {
    forall i | 0 <= i < n ensures sorted[i] !in sorted[..i] {
      DistinctLast(sorted, i + 1);
    }
    PositionalKeysFresh(sorted, codes, n);
  }

  lemma {:induction false} PositionalKeysFresh(sorted: seq<string>, codes: seq<string>, n: nat)
    requires n <= |sorted| && n <= |codes|
    requires forall i :: 0 <= i < n ==> sorted[i] !in sorted[..i]
    ensures Positional(sorted, codes, n).keys == sorted[..n]
  {
    if n > 0 {
      PositionalKeysFresh(sorted, codes, n - 1);
      PositionalKeysStep(sorted, codes, n);
      assert sorted[..n] == sorted[..n - 1] + [sorted[n - 1]];
    } else {
      assert sorted[..0] == [];
    }
  }

  lemma PositionalKeysStep(sorted: seq<string>, codes: seq<string>, n: nat)
    requires 0 < n <= |sorted| && n <= |codes| && sorted[n - 1] !in sorted[..n - 1]
    ensures Positional(sorted, codes, n).keys == Positional(sorted, codes, n - 1).keys + [sorted[n - 1]]
  {
    PositionalFresh(sorted, codes, n - 1, sorted[n - 1]);
  }

  /** One step of the positional dict: the `n`-th name is set to the `n`-th code. */
  lemma PositionalStep(sorted: seq<string>, codes: seq<string>, n: nat)
    requires 0 < n <= |sorted| && n <= |codes|
    ensures Positional(sorted, codes, n).vals == Positional(sorted, codes, n - 1).vals[sorted[n - 1] := codes[n - 1]]
  {
  }

  /** With distinct names, the i-th name is paired with the i-th code. */
  lemma PositionalSpec(sorted: seq<string>, codes: seq<string>, n: nat)
    requires n <= |sorted| && n <= |codes| && Distinct(sorted)
    ensures forall i :: 0 <= i < n ==> sorted[i] in Positional(sorted, codes, n).vals
    ensures forall i :: 0 <= i < n ==> Positional(sorted, codes, n).vals[sorted[i]] == codes[i]
  {
    forall i | 0 <= i < n
      ensures sorted[i] in Positional(sorted, codes, n).vals && Positional(sorted, codes, n).vals[sorted[i]] == codes[i]
    {
      var later := sorted[i + 1..n];
      forall j | 0 <= j < |later| ensures later[j] != sorted[i] {
        assert later[j] == sorted[i + 1 + j];
      }
      PositionalAt(sorted, codes, n, i);
    }
  }

  /** A name no later name repeats keeps the code at its own position. */
  lemma {:induction false} PositionalAt(sorted: seq<string>, codes: seq<string>, n: nat, i: nat)
    requires i < n <= |sorted| && n <= |codes| && sorted[i] !in sorted[i + 1..n]
    ensures sorted[i] in Positional(sorted, codes, n).vals && Positional(sorted, codes, n).vals[sorted[i]] == codes[i]
  {
    PositionalStep(sorted, codes, n);
    if i < n - 1 {
      assert sorted[n - 1] == sorted[i + 1..n][n - 2 - i];
      assert sorted[i + 1..n - 1] == sorted[i + 1..n][..n - 2 - i];
      PositionalAt(sorted, codes, n - 1, i);
    }
  }

  /**
    With as many blocks as (distinct) files, pattern 3 gives the i-th file in
    name order the i-th block, and its keys are the files in name order.
   */
  lemma Pattern3Pairs(blocks: seq<Block>, names: seq<string>)
    requires |blocks| == |names| && Distinct(names)
    ensures Pattern3(blocks, names).keys == SortNames(names)
    ensures forall i :: 0 <= i < |names| ==> Pattern3(blocks, names).vals[SortNames(names)[i]] == Strip(blocks[i].code)
  {
    SortNamesSpec(names);
    DistinctPermutation(names, SortNames(names));
    PositionalKeys(SortNames(names), BlockCodes(blocks), |names|);
    PositionalSpec(SortNames(names), BlockCodes(blocks), |names|);
    assert SortNames(names)[..|names|] == SortNames(names);
  }

  /** `_parse_file_fixes_with_debug`: pattern 2 runs only if pattern 1 found nothing, pattern 3 only if both found nothing. */
  function SimpleParse(text: string, scan: SimpleScan, names: seq<string>): (r: NewContents)
    ensures r.Valid()
  {
    var p1 := Pattern1(scan.headers, names);
    if p1.keys != [] then p1
    else
      var p2 := Pattern2(text, scan.blocks, names);
      if p2.keys != [] then p2 else Pattern3(scan.blocks, names)
  }

  /** Every file the parse maps is one of the listed files. */
  lemma ParsedNamesListed(text: string, scan: SimpleScan, names: seq<string>)
    ensures forall k :: k in SimpleParse(text, scan, names).keys ==> k in names
  {
    SortNamesSpec(names);
    Pattern1Listed(scan.headers, names);
    var d := SimpleParse(text, scan, names);
    forall k | k in d.keys ensures k in names {
      assert k in d.vals;
      if Pattern1(scan.headers, names).keys == [] {
        var ns := NearCodes(text, scan.blocks, names);
        Pattern2OfSpec(ns, k);
        if k in Pattern2Of(ns).vals {
          LastNearListed(ns, k);
        } else {
          PositionalListed(SortNames(names), BlockCodes(scan.blocks), |names|);
          assert k in multiset(SortNames(names));
        }
      }
    }
  }

  lemma {:induction false} LastNearListed(ns: seq<(string, Option<string>)>, k: string)
    requires LastNear(ns, k).Some?
    ensures exists i :: 0 <= i < |ns| && ns[i].0 == k
  {
    if ns[|ns| - 1].0 != k || ns[|ns| - 1].1.None? {
      LastNearListed(ns[..|ns| - 1], k);
      var i :| 0 <= i < |ns| - 1 && ns[..|ns| - 1][i].0 == k;
      assert ns[i].0 == k;
    }
  }

  method ParsePattern1(hs: seq<(string, string)>, names: seq<string>) returns (d: NewContents)
    ensures d == Pattern1(hs, names)
  {
    ghost var ts := Targets(hs, names);
    d := EmptyDict();
    var i := 0;
    while i < |hs|
      invariant 0 <= i <= |hs|
      invariant d == Pattern1Of(ts[..i])
    {
      Pattern1OfSnoc(ts, i);
      var matched := FindMatchingFile(Strip(hs[i].0), names);
      if matched.Some? {
        d := Put(d, names[matched.value], Strip(hs[i].1));
      }
      i := i + 1;
    }
    assert ts[..|hs|] == ts;
  }

  method ParsePattern2(text: string, blocks: seq<Block>, names: seq<string>) returns (d: NewContents)
    ensures d == Pattern2(text, blocks, names)
  {
    ghost var ns := NearCodes(text, blocks, names);
    d := EmptyDict();
    var i := 0;
    while i < |names|
      invariant 0 <= i <= |names|
      invariant d == Pattern2Of(ns[..i])
    {
      assert ns[..i + 1][..i] == ns[..i];
      var name := names[i];
      if Contains(text, name) {
        var pos := Find(text, name);
        var closest := ClosestBlock(pos, blocks);
        if closest.Some? {
          var code := Strip(blocks[closest.value].code);
          if code != "" && Dist(pos, blocks[closest.value]) < 1000 {
            d := Put(d, name, code);
          }
        }
      }
      i := i + 1;
    }
    assert ns[..|names|] == ns;
  }

  method ParsePattern3(blocks: seq<Block>, names: seq<string>) returns (d: NewContents)
    ensures d == Pattern3(blocks, names)
  {
    d := EmptyDict();
    if |blocks| == |names| {
      var sorted := SortNames(names);
      var i := 0;
      while i < |sorted|
        invariant 0 <= i <= |sorted|
        invariant d == Positional(sorted, BlockCodes(blocks), i)
      {
        d := Put(d, sorted[i], Strip(blocks[i].code));
        i := i + 1;
      }
    }
  }

  method ParseFileFixesWithDebug(text: string, scan: SimpleScan, dir: seq<SourceFile>) returns (d: NewContents)
    ensures d == SimpleParse(text, scan, NamesOf(PyFiles(dir)))
  {
    var names := NamesOf(PyFiles(dir));
    d := ParsePattern1(scan.headers, names);
    if d.keys == [] {
      d := ParsePattern2(text, scan.blocks, names);
    }
    if d.keys == [] {
      d := ParsePattern3(scan.blocks, names);
    }
  }

  // ---------------------------------------------------------------------------
  // Applying the new contents
  // ---------------------------------------------------------------------------

  /**
    `_apply_fix_to_file` with the exception handler around it: a failed read
    or write is recorded as an error; otherwise the stripped new content is
    written, and recorded, only when it differs from what the file holds.
   */
  function ApplyFix(res: Results, dir: seq<SourceFile>, root: string, name: string, newContent: string)
    : (r: (Results, seq<SourceFile>))
    requires Exists(dir, name)
    ensures SameNames(r.1, dir)
    ensures forall j :: 0 <= j < |dir| && j != FindFile(dir, name).value ==> r.1[j] == dir[j]
    ensures var i := FindFile(dir, name).value;
            r.1[i].readError == dir[i].readError && r.1[i].writeError == dir[i].writeError
    ensures var i := FindFile(dir, name).value;
            dir[i].readError.None? && dir[i].writeError.None? ==> r.1[i].content == Strip(newContent)
    ensures var i := FindFile(dir, name).value;
            dir[i].readError.Some? || dir[i].content == Strip(newContent) ==> r.1 == dir
    ensures r.1 != dir <==> r.0.filesModified == res.filesModified + [PathOf(root, name)]
    ensures r.1 != dir ==> r.0 == Results(res.filesModified + [PathOf(root, name)], res.fixesApplied + ["Applied fix to " + name], res.errors)
    ensures r.1 == dir ==> r.0.filesModified == res.filesModified && r.0.fixesApplied == res.fixesApplied
    ensures |r.0.errors| <= |res.errors| + 1 && res.errors <= r.0.errors
    ensures var i := FindFile(dir, name).value;
            r.0.errors != res.errors <==>
              dir[i].readError.Some? || (dir[i].content != Strip(newContent) && dir[i].writeError.Some?)
    ensures var i := FindFile(dir, name).value;
            dir[i].readError.Some? ==>
              r == (res.(errors := res.errors + [ApplyError(PathOf(root, name), dir[i].readError.value)]), dir)
    ensures var i := FindFile(dir, name).value;
            dir[i].readError.None? && dir[i].content != Strip(newContent) && dir[i].writeError.Some? ==>
              r == (res.(errors := res.errors + [ApplyError(PathOf(root, name), dir[i].writeError.value)]), dir)
  {
    var i := FindFile(dir, name).value;
    var path := PathOf(root, name);
    match dir[i].readError
    case Some(e) => (res.(errors := res.errors + [ApplyError(path, e)]), dir)
    case None =>
      var stripped := Strip(newContent);
      if stripped == dir[i].content then (res, dir)
      else
        match dir[i].writeError
        case Some(e) => (res.(errors := res.errors + [ApplyError(path, e)]), dir)
        case None =>
          var dir' := WriteAt(dir, i, stripped);
          assert dir'[i] != dir[i];
          (Results(res.filesModified + [path], res.fixesApplied + ["Applied fix to " + name], res.errors), dir')
  }

  /** Applying the same new content a second time finds nothing to change and records nothing. */
  lemma ApplyFixIdempotent(res: Results, dir: seq<SourceFile>, root: string, name: string, newContent: string)
    requires Exists(dir, name)
    requires var i := FindFile(dir, name).value; dir[i].readError.None? && dir[i].writeError.None?
    ensures var once := ApplyFix(res, dir, root, name, newContent);
            Exists(once.1, name) && ApplyFix(once.0, once.1, root, name, newContent) == once
  {
    var once := ApplyFix(res, dir, root, name, newContent);
    SameNamesExist(once.1, dir, name);
    var i := FindFile(dir, name).value;
    assert FindFile(once.1, name) == FindFile(dir, name) by {
      FindFileSameNames(once.1, dir, name);
    }
  }

  /** `_apply_fix_to_file` itself. */
  method ApplyFixToFile(res: Results, dir: seq<SourceFile>, root: string, name: string, newContent: string)
    returns (res': Results, dir': seq<SourceFile>)
    requires Exists(dir, name)
    ensures (res', dir') == ApplyFix(res, dir, root, name, newContent)
  {
    var i := FindFile(dir, name).value;
    var path := PathOf(root, name);
    res', dir' := res, dir;
    if dir[i].readError.Some? {
      res' := res.(errors := res.errors + [ApplyError(path, dir[i].readError.value)]);
      return;
    }
    var stripped := Strip(newContent);
    if stripped != dir[i].content {
      if dir[i].writeError.Some? {
        res' := res.(errors := res.errors + [ApplyError(path, dir[i].writeError.value)]);
      } else {
        dir' := WriteAt(dir, i, stripped);
        res' := Results(res.filesModified + [path], res.fixesApplied + ["Applied fix to " + name], res.errors);
      }
    }
  }

  /** The loop of `apply_fixes_from_report` over the first `|ks|` keys of the parsed dict. */
  function ApplyEach(res: Results, dir: seq<SourceFile>, root: string, d: NewContents, ks: seq<string>)
    : (r: (Results, seq<SourceFile>))
    requires forall k :: k in ks ==> Exists(dir, k) && k in d.vals
    ensures SameNames(r.1, dir)
  {
    if ks == [] then (res, dir)
    else
      var k := ks[|ks| - 1];
      var prev := ApplyEach(res, dir, root, d, ks[..|ks| - 1]);
      SameNamesExist(prev.1, dir, k);
      ApplyFix(prev.0, prev.1, root, k, d.vals[k])
  }

  lemma ApplyEachStep(res: Results, dir: seq<SourceFile>, root: string, d: NewContents, ks: seq<string>, i: nat)
    requires i < |ks| && forall k :: k in ks ==> Exists(dir, k) && k in d.vals
    ensures forall k :: k in ks[..i] ==> Exists(dir, k) && k in d.vals
    ensures forall k :: k in ks[..i + 1] ==> Exists(dir, k) && k in d.vals
    ensures Exists(ApplyEach(res, dir, root, d, ks[..i]).1, ks[i])
    ensures ApplyEach(res, dir, root, d, ks[..i + 1])
      == ApplyFix(ApplyEach(res, dir, root, d, ks[..i]).0, ApplyEach(res, dir, root, d, ks[..i]).1, root, ks[i], d.vals[ks[i]])
  {
    assert ks[..i + 1][..i] == ks[..i];
    SameNamesExist(ApplyEach(res, dir, root, d, ks[..i]).1, dir, ks[i]);
  }

  /**
    The loop leaves the entries of unlisted files untouched, keeps every
    entry's read and write failures, and adds at most one error per listed file.
   */
  lemma {:induction false} ApplyEachFrame(res: Results, dir: seq<SourceFile>, root: string, d: NewContents, ks: seq<string>)
    requires forall k :: k in ks ==> Exists(dir, k) && k in d.vals
    ensures var r := ApplyEach(res, dir, root, d, ks);
            forall j :: 0 <= j < |dir| && dir[j].name !in ks ==> r.1[j] == dir[j]
    ensures var r := ApplyEach(res, dir, root, d, ks);
            forall j :: 0 <= j < |dir| ==> r.1[j].readError == dir[j].readError && r.1[j].writeError == dir[j].writeError
    ensures var r := ApplyEach(res, dir, root, d, ks);
            res.errors <= r.0.errors && |r.0.errors| <= |res.errors| + |ks|
  {
    if ks != [] {
      var k := ks[|ks| - 1];
      var init := ks[..|ks| - 1];
      ApplyEachLast(res, dir, root, d, ks);
      ApplyEachFrame(res, dir, root, d, init);
      var ik := FindFile(dir, k).value;
      var r := ApplyEach(res, dir, root, d, ks);
      forall j | 0 <= j < |dir| && dir[j].name !in ks ensures r.1[j] == dir[j] {
        assert dir[j].name !in init;
        assert j != ik;
      }
    }
  }

  /** The last listed file's fix changes only that file's entry, and writes it when it can. */
  lemma ApplyEachLast(res: Results, dir: seq<SourceFile>, root: string, d: NewContents, ks: seq<string>)
    requires ks != [] && forall k :: k in ks ==> Exists(dir, k) && k in d.vals
    ensures forall k :: k in ks[..|ks| - 1] ==> Exists(dir, k) && k in d.vals
    ensures var ik := FindFile(dir, ks[|ks| - 1]).value;
            var prev := ApplyEach(res, dir, root, d, ks[..|ks| - 1]).1;
            var r := ApplyEach(res, dir, root, d, ks).1;
            && |prev| == |r| == |dir|
            && (forall j :: 0 <= j < |dir| && j != ik ==> r[j] == prev[j])
            && (prev[ik].readError.None? && prev[ik].writeError.None? ==> r[ik].content == Strip(d.vals[ks[|ks| - 1]]))
            && r[ik].readError == prev[ik].readError && r[ik].writeError == prev[ik].writeError && r[ik].name == prev[ik].name
    ensures var e0 := ApplyEach(res, dir, root, d, ks[..|ks| - 1]).0.errors;
            var e1 := ApplyEach(res, dir, root, d, ks).0.errors;
            e0 <= e1 && |e1| <= |e0| + 1
  {
    var k := ks[|ks| - 1];
    var init := ks[..|ks| - 1];
    assert forall x :: x in init ==> x in ks;
    var prev := ApplyEach(res, dir, root, d, init);
    SameNamesExist(prev.1, dir, k);
    FindFileSameNames(prev.1, dir, k);
    assert ApplyEach(res, dir, root, d, ks) == ApplyFix(prev.0, prev.1, root, k, d.vals[k]);
  }

  /** The entry of the `m`-th listed file, when it can be read and written, holds its stripped new content. */
  lemma {:induction false} ApplyEachWritesAt(res: Results, dir: seq<SourceFile>, root: string, d: NewContents,
                                             ks: seq<string>, m: nat)
    requires forall k :: k in ks ==> Exists(dir, k) && k in d.vals
    requires Distinct(ks) && m < |ks|
    ensures var i := FindFile(dir, ks[m]).value;
            dir[i].readError.None? && dir[i].writeError.None? ==>
              ApplyEach(res, dir, root, d, ks).1[i].content == Strip(d.vals[ks[m]])
  {
    var n := |ks| - 1;
    var init := ks[..n];
    ApplyEachLast(res, dir, root, d, ks);
    var ik := FindFile(dir, ks[n]).value;
    var i := FindFile(dir, ks[m]).value;
    if m < n {
      DistinctPrefix(ks, n);
      assert ks[m] == init[m] && ks[m] != ks[n];
      ApplyEachWritesAt(res, dir, root, d, init, m);
      assert dir[i].name != dir[ik].name;
    } else {
      ApplyEachFrame(res, dir, root, d, init);
    }
  }

  /**
    With distinct keys, after the loop the entry of every listed file that
    can be read and written holds that file's stripped new content.
   */
  lemma ApplyEachWrites(res: Results, dir: seq<SourceFile>, root: string, d: NewContents, ks: seq<string>)
    requires forall k :: k in ks ==> Exists(dir, k) && k in d.vals
    requires Distinct(ks)
    ensures var r := ApplyEach(res, dir, root, d, ks);
            forall m :: 0 <= m < |ks| ==>
              var i := FindFile(dir, ks[m]).value;
              dir[i].readError.None? && dir[i].writeError.None? ==> r.1[i].content == Strip(d.vals[ks[m]])
  {
    forall m | 0 <= m < |ks|
      ensures var i := FindFile(dir, ks[m]).value;
              dir[i].readError.None? && dir[i].writeError.None? ==>
                ApplyEach(res, dir, root, d, ks).1[i].content == Strip(d.vals[ks[m]])
    {
      ApplyEachWritesAt(res, dir, root, d, ks, m);
    }
  }

  /**
    The errors a run over `ks` records, read off the directory as it was
    before the run: one `Error applying fixes to …` per listed file that
    cannot be read, or that cannot be written while its new content differs,
    in key order.
   */
  function RunErrors(dir: seq<SourceFile>, root: string, d: NewContents, ks: seq<string>): seq<string>
    requires forall k :: k in ks ==> Exists(dir, k) && k in d.vals
  {
    if ks == [] then []
    else
      var k := ks[|ks| - 1];
      var i := FindFile(dir, k).value;
      RunErrors(dir, root, d, ks[..|ks| - 1]) + EntryError(dir[i], PathOf(root, k), d.vals[k])
  }

  /** The error, if any, that applying `newContent` to the entry `f` at `path` records. */
  function EntryError(f: SourceFile, path: string, newContent: string): seq<string>
  {
    if f.readError.Some? then [ApplyError(path, f.readError.value)]
    else if f.content != Strip(newContent) && f.writeError.Some? then [ApplyError(path, f.writeError.value)]
    else []
  }

  /** The last step of a run records the error of the last listed entry as the run had left it. */
  lemma ApplyEachLastErrors(res: Results, dir: seq<SourceFile>, root: string, d: NewContents, ks: seq<string>)
    requires ks != [] && forall k :: k in ks ==> Exists(dir, k) && k in d.vals
    ensures forall k :: k in ks[..|ks| - 1] ==> Exists(dir, k) && k in d.vals
    ensures var k := ks[|ks| - 1];
            var prev := ApplyEach(res, dir, root, d, ks[..|ks| - 1]);
            ApplyEach(res, dir, root, d, ks).0.errors
              == prev.0.errors + EntryError(prev.1[FindFile(dir, k).value], PathOf(root, k), d.vals[k])
  {
    var k := ks[|ks| - 1];
    var init := ks[..|ks| - 1];
    assert forall x :: x in init ==> x in ks;
    var prev := ApplyEach(res, dir, root, d, init);
    SameNamesExist(prev.1, dir, k);
    FindFileSameNames(prev.1, dir, k);
    assert ApplyEach(res, dir, root, d, ks) == ApplyFix(prev.0, prev.1, root, k, d.vals[k]);
  }

  /**
    With distinct keys, a failure on one file records exactly its own error
    and the loop goes on: the errors of the run are `RunErrors`.
   */
  lemma {:induction false} ApplyEachErrors(res: Results, dir: seq<SourceFile>, root: string, d: NewContents, ks: seq<string>)
    requires forall k :: k in ks ==> Exists(dir, k) && k in d.vals
    requires Distinct(ks)
    ensures ApplyEach(res, dir, root, d, ks).0.errors == res.errors + RunErrors(dir, root, d, ks)
  {
    if ks != [] {
      var n := |ks| - 1;
      var k := ks[n];
      var tail := EntryError(dir[FindFile(dir, k).value], PathOf(root, k), d.vals[k]);
      ApplyEachErrorsLast(res, dir, root, d, ks);
      assert RunErrors(dir, root, d, ks) == RunErrors(dir, root, d, ks[..n]) + tail;
      assert ApplyEach(res, dir, root, d, ks[..n]).0.errors == res.errors + RunErrors(dir, root, d, ks[..n]) by {
        DistinctPrefix(ks, n);
        ApplyEachErrors(res, dir, root, d, ks[..n]);
      }
      ConcatAssoc(res.errors, RunErrors(dir, root, d, ks[..n]), tail);
    }
  }

  /** The last listed key of distinct keys still finds its entry as it was before the run. */
  lemma ApplyEachErrorsLast(res: Results, dir: seq<SourceFile>, root: string, d: NewContents, ks: seq<string>)
    requires ks != [] && forall k :: k in ks ==> Exists(dir, k) && k in d.vals
    requires Distinct(ks)
    ensures forall k :: k in ks[..|ks| - 1] ==> Exists(dir, k) && k in d.vals
    ensures var k := ks[|ks| - 1];
            ApplyEach(res, dir, root, d, ks).0.errors
              == ApplyEach(res, dir, root, d, ks[..|ks| - 1]).0.errors
                 + EntryError(dir[FindFile(dir, k).value], PathOf(root, k), d.vals[k])
  {
    var n := |ks| - 1;
    var k := ks[n];
    var init := ks[..n];
    ApplyEachLastErrors(res, dir, root, d, ks);
    var ik := FindFile(dir, k).value;
    assert k !in init by {
      forall m | 0 <= m < n ensures init[m] != k {
        assert init[m] == ks[m];
      }
    }
    ApplyEachFrame(res, dir, root, d, init);
  }

  /** The loop itself. */
  method ApplyAll(d: NewContents, dir: seq<SourceFile>, root: string) returns (res: Results, dir': seq<SourceFile>)
    requires forall k :: k in d.keys ==> Exists(dir, k) && k in d.vals
    ensures (res, dir') == ApplyEach(Results([], [], []), dir, root, d, d.keys)
  {
    res, dir' := Results([], [], []), dir;
    var i := 0;
    while i < |d.keys|
      invariant 0 <= i <= |d.keys|
      invariant (res, dir') == ApplyEach(Results([], [], []), dir, root, d, d.keys[..i])
    {
      ApplyEachStep(Results([], [], []), dir, root, d, d.keys, i);
      res, dir' := ApplyFixToFile(res, dir', root, d.keys[i], d.vals[d.keys[i]]);
      i := i + 1;
    }
    assert d.keys[..|d.keys|] == d.keys;
  }

  // ---------------------------------------------------------------------------
  // The whole run
  // ---------------------------------------------------------------------------

  // ---------------------------------------------------------------------------
  // Pattern counts reported when no fix parses
  // ---------------------------------------------------------------------------

  /**
    `len(re.findall(p, s[i:]))` for a pattern matching only the literal `p`:
    matches are found left to right and each search resumes after the
    previous match, so matches never overlap.
   */
  function CountFrom(s: string, p: string, i: nat): (r: nat)
    requires |p| > 0
    decreases |s| - i
    ensures r > 0 <==> exists j: nat :: i <= j && OccursAt(s, p, j)
  {
    if i + |p| > |s| then 0
    else if OccursAt(s, p, i) then 1 + CountFrom(s, p, i + |p|)
    else CountFrom(s, p, i + 1)
  }

  lemma MulSucc(a: nat, n: nat)
    ensures (1 + a) * n == n + a * n
  {
  }

  /** Non-overlapping matches of `p` in `s[i:]` take up at most its length. */
  lemma {:induction false} CountFromBound(s: string, p: string, i: nat)
    requires |p| > 0 && i <= |s|
    decreases |s| - i
    ensures CountFrom(s, p, i) * |p| <= |s| - i
  {
    if i + |p| > |s| {
    } else if OccursAt(s, p, i) {
      var rest := CountFrom(s, p, i + |p|);
      CountFromBound(s, p, i + |p|);
      MulSucc(rest, |p|);
      assert CountFrom(s, p, i) == 1 + rest;
    } else {
      CountFromBound(s, p, i + 1);
    }
  }

  /** The number of indexes at or after `i` where `p` starts, overlapping occurrences included. */
  function PositionsFrom(s: string, p: string, i: nat): nat
    decreases |s| - i
  {
    if i >= |s| then 0
    else (if OccursAt(s, p, i) then 1 else 0) + PositionsFrom(s, p, i + 1)
  }

  /** No occurrence of `p` can start strictly inside another one. */
  predicate NoSelfOverlap(p: string)
  {
    forall j :: 0 < j < |p| ==> p[j..] != p[..|p| - j]
  }

  /** An occurrence of a non-self-overlapping `p` at `i` rules out one at `k`, for `i < k < i + |p|`. */
  lemma NoOccurrenceInside(s: string, p: string, i: nat, k: nat)
    requires NoSelfOverlap(p) && OccursAt(s, p, i) && i < k < i + |p|
    ensures !OccursAt(s, p, k)
  {
    var j := k - i;
    assert p[j..] != p[..|p| - j];
    assert s[k..i + |p|] == p[j..];
    if k + |p| <= |s| {
      assert s[k..k + |p|][..|p| - j] == s[k..i + |p|];
    }
  }

  /** With no occurrence starting in `[i, k)`, the positions from `i` are those from `k`. */
  lemma {:induction false} PositionsSkip(s: string, p: string, i: nat, k: nat)
    requires i <= k && forall m: nat :: i <= m < k ==> !OccursAt(s, p, m)
    decreases k - i
    ensures PositionsFrom(s, p, i) == PositionsFrom(s, p, k)
  {
    if i < k {
      PositionsSkip(s, p, i + 1, k);
      if i >= |s| {
        assert PositionsFrom(s, p, i) == 0;
        assert PositionsFrom(s, p, k) == 0;
      }
    }
  }

  /** Past the last place `p` fits there is no position left. */
  lemma {:induction false} PositionsNone(s: string, p: string, i: nat)
    requires |p| > 0 && i + |p| > |s|
    decreases |s| - i
    ensures PositionsFrom(s, p, i) == 0
  {
    if i < |s| {
      PositionsNone(s, p, i + 1);
    }
  }

  /** After an occurrence of a non-self-overlapping `p`, the next one can only start past its end. */
  lemma PositionsAfterMatch(s: string, p: string, i: nat)
    requires NoSelfOverlap(p) && OccursAt(s, p, i) && |p| > 0
    ensures PositionsFrom(s, p, i) == 1 + PositionsFrom(s, p, i + |p|)
  {
    forall m: nat | i + 1 <= m < i + |p| ensures !OccursAt(s, p, m) {
      NoOccurrenceInside(s, p, i, m);
    }
    PositionsSkip(s, p, i + 1, i + |p|);
  }

  /**
    For a pattern that cannot overlap itself, the non-overlapping count of
    `findall` is the number of places where the pattern starts.
   */
  lemma {:induction false} CountFromPositions(s: string, p: string, i: nat)
    requires |p| > 0 && NoSelfOverlap(p)
    decreases |s| - i
    ensures CountFrom(s, p, i) == PositionsFrom(s, p, i)
  {
    if i + |p| > |s| {
      PositionsNone(s, p, i);
    } else if OccursAt(s, p, i) {
      CountFromPositions(s, p, i + |p|);
      PositionsAfterMatch(s, p, i);
    } else {
      CountFromPositions(s, p, i + 1);
    }
  }

  /** `.py` cannot overlap itself, so `python_mentions` counts every place it starts. */
  lemma PythonMentionsArePositions(s: string)
    ensures CountFrom(s, ".py", 0) == PositionsFrom(s, ".py", 0)
  {
    var p := ".py";
    assert p[1..] != p[..2] by { assert p[1..][0] == 'p' && p[..2][0] == '.'; }
    assert p[2..] != p[..1] by { assert p[2..][0] == 'y' && p[..1][0] == '.'; }
    CountFromPositions(s, p, 0);
  }

  /** The letters of `File:` under `re.IGNORECASE`, which also lets `i` match `İ` and the dotless `ı`. */
  predicate FileWordAt(s: string, i: nat)
  {
    i + 5 <= |s|
    && (s[i] == 'f' || s[i] == 'F')
    && (s[i + 1] == 'i' || s[i + 1] == 'I' || s[i + 1] == '\U{0130}' || s[i + 1] == '\U{0131}')
    && (s[i + 2] == 'l' || s[i + 2] == 'L')
    && (s[i + 3] == 'e' || s[i + 3] == 'E')
    && s[i + 4] == ':'
  }

  /** The end of the run of whitespace that starts at `i`. */
  function SkipSpace(s: string, i: nat): (r: nat)
    requires i <= |s|
    decreases |s| - i
    ensures i <= r <= |s|
    ensures forall k :: i <= k < r ==> IsSpace(s[k])
    ensures r == |s| || !IsSpace(s[r])
  {
    if i < |s| && IsSpace(s[i]) then SkipSpace(s, i + 1) else i
  }

  /**
    The end of a match of `\*\*\s*File:` (ignoring case) starting at `i`, if
    there is one. Taking all the whitespace loses no match, since no letter
    of `File:` is whitespace.
   */
  function HeaderEnd(s: string, i: nat): (r: Option<nat>)
    requires i <= |s|
    ensures r.Some? ==> i + 7 <= r.value <= |s|
    ensures r.Some? <==> i + 2 <= |s| && s[i] == '*' && s[i + 1] == '*' && FileWordAt(s, SkipSpace(s, i + 2))
  {
    if i + 2 <= |s| && s[i] == '*' && s[i + 1] == '*' then
      var j := SkipSpace(s, i + 2);
      if FileWordAt(s, j) then Some(j + 5) else None
    else None
  }

  /** `len(re.findall(r'\*\*\s*File:', s[i:], re.IGNORECASE))`. */
  function HeadersFrom(s: string, i: nat): (r: nat)
    requires i <= |s|
    decreases |s| - i
    ensures 7 * r <= |s| - i
    ensures r > 0 <==> exists j :: i <= j <= |s| && HeaderEnd(s, j).Some?
  {
    if i == |s| then 0
    else
      match HeaderEnd(s, i)
      case Some(e) => 1 + HeadersFrom(s, e)
      case None => HeadersFrom(s, i + 1)
  }

  /** `_debug_patterns`: the `file_pattern_attempts` of the no-parseable-fixes dict. */
  datatype PatternCounts = PatternCounts(fileHeaders: nat, codeBlocks: nat, pythonMentions: nat, textLength: nat)

  /**
    The counts of header-like matches, of fences and of `.py` mentions, and
    the length of the text: there is a header count exactly when some
    `**File:` match exists, a fence count exactly when the text holds a
    fence, and a mention for every place `.py` starts.
   */
  function DebugPatterns(t: string): (r: PatternCounts)
    ensures r.textLength == |t|
    ensures 7 * r.fileHeaders <= |t| && 3 * r.codeBlocks <= |t| && 3 * r.pythonMentions <= |t|
    ensures r.fileHeaders > 0 <==> exists j :: 0 <= j <= |t| && HeaderEnd(t, j).Some?
    ensures r.codeBlocks > 0 <==> Contains(t, "```")
    ensures r.pythonMentions == PositionsFrom(t, ".py", 0)
  {
    PythonMentionsArePositions(t);
    CountFromBound(t, "```", 0);
    CountFromBound(t, ".py", 0);
    var fences := CountFrom(t, "```", 0);
    assert fences > 0 <==> Contains(t, "```");
    PatternCounts(HeadersFrom(t, 0), fences, CountFrom(t, ".py", 0), |t|)
  }

  /** The dict `apply_fixes_from_report` returns, or an exception escaping it. */
  datatype SimpleOutcome =
    | Crashed
    | NoFixesInReport(reportStructure: Json)
    | NoParseableFixes(textLength: nat, textPreview: string, patterns: PatternCounts)
    | Completed(results: Results)

  /** Every listed Python file is an entry of the directory. */
  lemma PyNamesExist(dir: seq<SourceFile>, k: string)
    requires k in NamesOf(PyFiles(dir))
    ensures Exists(dir, k)
  {
    var names := NamesOf(PyFiles(dir));
    var m :| 0 <= m < |names| && names[m] == k;
    var f := PyFiles(dir)[m];
    assert f in dir;
    var j :| 0 <= j < |dir| && dir[j] == f;
    assert dir[j].name == k;
  }

  /** The parsed files all exist, and each key maps to a content. */
  lemma ParsedReady(text: string, scan: SimpleScan, dir: seq<SourceFile>)
    ensures var d := SimpleParse(text, scan, NamesOf(PyFiles(dir)));
            forall k :: k in d.keys ==> Exists(dir, k) && k in d.vals
  {
    var d := SimpleParse(text, scan, NamesOf(PyFiles(dir)));
    ParsedNamesListed(text, scan, NamesOf(PyFiles(dir)));
    forall k | k in d.keys ensures Exists(dir, k) && k in d.vals {
      PyNamesExist(dir, k);
    }
  }

  /**
    When the fix text is missing or falsy: `report['applied_fixes'].keys()`
    raises unless that value is a dict, and otherwise the report's structure
    is returned.
   */
  function NoFixes(report: seq<(string, Json)>): (r: SimpleOutcome)
    ensures r.Crashed? || r.NoFixesInReport?
  {
    match Lookup(report, "applied_fixes")
    case Some(v) => if v.JObj? then NoFixesInReport(DebugReportStructure(report)) else Crashed
    case None => NoFixesInReport(DebugReportStructure(report))
  }

  /**
    `apply_fixes_from_report` on a loaded report: the resulting dict and the
    directory afterwards. `scanner` stands for the fix-text regexes and
    `pyStr` for Python's `str()`. A crash happens exactly when the located
    value is a truthy non-string, or is missing or falsy while
    `applied_fixes` holds a non-dict; the structure summary comes exactly
    when it is missing or falsy otherwise; the preview is the first 500
    characters, followed by the pattern counts. Only a completed run changes
    the directory.
   */
  function SimpleApplyReport(report: seq<(string, Json)>, root: string, dir: seq<SourceFile>,
                             scanner: string -> SimpleScan, pyStr: Json -> string): (r: (SimpleOutcome, seq<SourceFile>))
    ensures SameNames(r.1, dir)
    ensures !r.0.Completed? ==> r.1 == dir
    ensures var x := ExtractFixesText(report, pyStr);
            var missing := x.None? || !Truthy(x.value);
            var badApplied := Lookup(report, "applied_fixes").Some? && !Lookup(report, "applied_fixes").value.JObj?;
            && (r.0.Crashed? <==> (missing && badApplied) || (!missing && !x.value.JStr?))
            && (r.0.NoFixesInReport? <==> missing && !badApplied)
            && (r.0.NoFixesInReport? ==> r.0.reportStructure == DebugReportStructure(report))
            && (r.0.NoParseableFixes? ==>
                  x.value.JStr? && r.0.textLength == |x.value.s| && r.0.textPreview == Take(x.value.s, 500)
                  && r.0.patterns == DebugPatterns(x.value.s))
  {
    match ExtractFixesText(report, pyStr)
    case None => (NoFixes(report), dir)
    case Some(v) =>
      if !Truthy(v) then (NoFixes(report), dir)
      else if !v.JStr? then (Crashed, dir)
      else
        var t := v.s;
        var d := SimpleParse(t, scanner(t), NamesOf(PyFiles(dir)));
        if d.keys == [] then (NoParseableFixes(|t|, Take(t, 500), DebugPatterns(t)), dir)
        else
          ParsedReady(t, scanner(t), dir);
          var applied := ApplyEach(Results([], [], []), dir, root, d, d.keys);
          (Completed(applied.0), applied.1)
  }

  /**
    A completed run writes the stripped new content of every parsed file
    that can be read and written, leaves every other file as it was, and
    records exactly the errors of the parsed files that fail, in key order.
   */
  lemma SimpleCompletedWrites(report: seq<(string, Json)>, root: string, dir: seq<SourceFile>,
                              scanner: string -> SimpleScan, pyStr: Json -> string)
    requires SimpleApplyReport(report, root, dir, scanner, pyStr).0.Completed?
    ensures var x := ExtractFixesText(report, pyStr);
            x.Some? && x.value.JStr?
    ensures var t := ExtractFixesText(report, pyStr).value.s;
            var d := SimpleParse(t, scanner(t), NamesOf(PyFiles(dir)));
            var r := SimpleApplyReport(report, root, dir, scanner, pyStr);
            && (forall k :: k in d.keys ==> Exists(dir, k) && k in d.vals)
            && (forall k :: k in d.keys ==>
                  var i := FindFile(dir, k).value;
                  dir[i].readError.None? && dir[i].writeError.None? ==> r.1[i].content == Strip(d.vals[k]))
            && (forall j :: 0 <= j < |dir| && dir[j].name !in d.keys ==> r.1[j] == dir[j])
            && |r.0.results.errors| <= |d.keys|
            && r.0.results.errors == RunErrors(dir, root, d, d.keys)
  {
    var t := ExtractFixesText(report, pyStr).value.s;
    var d := SimpleParse(t, scanner(t), NamesOf(PyFiles(dir)));
    ParsedReady(t, scanner(t), dir);
    ApplyEachErrors(Results([], [], []), dir, root, d, d.keys);
    ApplyEachFrame(Results([], [], []), dir, root, d, d.keys);
    ApplyEachWrites(Results([], [], []), dir, root, d, d.keys);
    var r := SimpleApplyReport(report, root, dir, scanner, pyStr);
    forall k | k in d.keys
      ensures var i := FindFile(dir, k).value;
              dir[i].readError.None? && dir[i].writeError.None? ==> r.1[i].content == Strip(d.vals[k])
    {
      var m :| 0 <= m < |d.keys| && d.keys[m] == k;
    }
  }

  /** `apply_fixes_from_report`. */
  method ApplyFixesFromReport(report: seq<(string, Json)>, root: string, dir: seq<SourceFile>,
                              scanner: string -> SimpleScan, pyStr: Json -> string)
    returns (out: SimpleOutcome, dir': seq<SourceFile>)
    ensures (out, dir') == SimpleApplyReport(report, root, dir, scanner, pyStr)
  {
    dir' := dir;
    var located := ExtractFixesText(report, pyStr);
    if located.None? || !Truthy(located.value) {
      out := NoFixes(report);
      return;
    }
    if !located.value.JStr? {
      out := Crashed;
      return;
    }
    var text := located.value.s;
    var d := ParseFileFixesWithDebug(text, scanner(text), dir);
    if d.keys == [] {
      out := NoParseableFixes(|text|, Take(text, 500), DebugPatterns(text));
      return;
    }
    ParsedReady(text, scanner(text), dir);
    var res;
    res, dir' := ApplyAll(d, dir, root);
    out := Completed(res);
  }
}

=== FILE: three_phase.dfy ===
/**
  The three-phase reviewer: an analysis-only review (phase 1), a human
  decision on its findings (phase 2) and, only when the human approved, a
  request for the fixes (phase 3). The two fields `review_results` and
  `human_decisions` carry the state from one phase to the next; either can
  also be loaded from a saved file.

  A phase either returns its result dict or raises; a raised exception is
  the `Failed` outcome carrying the error text.
 */
module ThreePhase {
  import opened Common
  import opened Workspace
  import opened ModelClient
  import opened CleanReview

  datatype PhaseResult = Returned(value: Json) | Failed(error: string)

  /** Reading and parsing a saved JSON file: its value, or the error that `open`/`json.load` raised. */
  datatype Loaded = Loaded(value: Json) | LoadFailed(error: string)

  /** The five answers phase 2 reads from the human, in the order it asks for them. */
  datatype PhaseAnswers = PhaseAnswers(name: string, assessment: string, approve: string, priority: string, notes: string)

  const NoReviewError: string := "No review results available. Run phase1_review first."
  const NoDecisionsError: string := "No human decisions available. Run phase2_human_review first."
  const NotApprovedMessage: string := "Human reviewer did not approve fixes"

  /** The error text recorded when looking up `key` fails: the text of the `KeyError` for a missing key. */
  function MissingKey(key: string): string
  {
    "'" + key + "'"
  }

  /** `'{:.4f}'.format(v)` accepts the value: a number (Python's `bool` is one). */
  predicate Numeric(j: Json)
  {
    j.JInt? || j.JBool?
  }

  // ---------------------------------------------------------------------------
  // Phase 1
  // ---------------------------------------------------------------------------

  /** The analysis-only request of phase 1; its fixed instructions are abbreviated to their first line. */
  function AnalysisPrompt(reviewGoals: string): string
  {
    "You are a senior code reviewer conducting a thorough code review.\nREVIEW GOALS: " + reviewGoals
  }

  function TokensUsed(m: Message): Json
  {
    JObj([("input", JInt(PromptTokens(m))), ("output", JInt(CompletionTokens(m)))])
  }

  function StrArray(xs: seq<string>): (r: Json)
    ensures r.JArr? && |r.items| == |xs| && forall k :: 0 <= k < |xs| ==> r.items[k] == JStr(xs[k])
  {
    JArr(seq(|xs|, k requires 0 <= k < |xs| => JStr(xs[k])))
  }

  /** The `review_results` dict of a successful phase 1. */
  function ReviewJson(timestamp: string, codebasePath: string, reviewGoals: string, files: seq<string>, model: string,
                      m: Message, cost: int, duration: string): Json
  {
    JObj([("phase", JStr("review")),
          ("timestamp", JStr(timestamp)),
          ("codebase_path", JStr(codebasePath)),
          ("review_goals", JStr(reviewGoals)),
          ("files_analyzed", StrArray(files)),
          ("model_used", JStr(model)),
          ("analysis", JStr(m.content)),
          ("tokens_used", TokensUsed(m)),
          ("cost_estimate", JInt(cost)),
          ("duration", JStr(duration))])
  }

  /** The dict shape of `ReviewJson`, with its values left open. */
  function ReviewShape(p0: Json, p1: Json, p2: Json, p3: Json, p4: Json, p5: Json, p6: Json, p7: Json, p8: Json, p9: Json)
    : Json
  {
    JObj([("phase", p0), ("timestamp", p1), ("codebase_path", p2), ("review_goals", p3), ("files_analyzed", p4),
          ("model_used", p5), ("analysis", p6), ("tokens_used", p7), ("cost_estimate", p8), ("duration", p9)])
  }

  lemma ReviewShapeLookups(p0: Json, p1: Json, p2: Json, p3: Json, p4: Json, p5: Json, p6: Json, p7: Json, p8: Json, p9: Json)
    ensures var j := ReviewShape(p0, p1, p2, p3, p4, p5, p6, p7, p8, p9);
            && Index(j, "codebase_path") == Some(p2)
            && Index(j, "review_goals") == Some(p3)
            && Index(j, "analysis") == Some(p6)
            && Index(j, "cost_estimate") == Some(p8)
  {
    var f := ReviewShape(p0, p1, p2, p3, p4, p5, p6, p7, p8, p9).fields;
    LookupAt(f, 2);
    LookupAt(f, 3);
    LookupAt(f, 6);
    LookupAt(f, 8);
  }

  /** Phase 2 can show a phase-1 result: it is truthy, has every field the display reads, and carries the reply as its analysis. */
  lemma ReviewJsonShown(timestamp: string, codebasePath: string, reviewGoals: string, files: seq<string>,
                        model: string, m: Message, cost: int, duration: string)
    ensures var j := ReviewJson(timestamp, codebasePath, reviewGoals, files, model, m, cost, duration);
            && Truthy(j)
            && DisplayError(j).None?
            && Index(j, "analysis") == Some(JStr(m.content))
  {
    assert ReviewJson(timestamp, codebasePath, reviewGoals, files, model, m, cost, duration)
        == ReviewShape(JStr("review"), JStr(timestamp), JStr(codebasePath), JStr(reviewGoals), StrArray(files),
                       JStr(model), JStr(m.content), TokensUsed(m), JInt(cost), JStr(duration));
    ReviewShapeLookups(JStr("review"), JStr(timestamp), JStr(codebasePath), JStr(reviewGoals), StrArray(files),
                       JStr(model), JStr(m.content), TokensUsed(m), JInt(cost), JStr(duration));
  }

  // ---------------------------------------------------------------------------
  // Phase 2
  // ---------------------------------------------------------------------------

  /** The `decisions` dict: stripped answers, and approval iff the stripped, lower-cased answer is `y`. */
  function DecisionsDict(a: PhaseAnswers, timestamp: string): Json
  {
    JObj([("timestamp", JStr(timestamp)),
          ("human_reviewer", JStr(Strip(a.name))),
          ("overall_assessment", JStr(Strip(a.assessment))),
          ("approved_for_fixes", JBool(Approves(a.approve))),
          ("priority_focus", JStr(Strip(a.priority))),
          ("additional_notes", JStr(Strip(a.notes)))])
  }

  /** Phase 3 can read the decisions phase 2 stores: approval and the two fields its request quotes. */
  lemma DecisionsDictReadable(a: PhaseAnswers, timestamp: string)
    ensures var d := DecisionsDict(a, timestamp);
            && Truthy(d)
            && Index(d, "approved_for_fixes") == Some(JBool(Approves(a.approve)))
            && Index(d, "priority_focus") == Some(JStr(Strip(a.priority)))
            && Index(d, "additional_notes") == Some(JStr(Strip(a.notes)))
  {
    var f := DecisionsDict(a, timestamp).fields;
    LookupAt(f, 3);
    LookupAt(f, 4);
    LookupAt(f, 5);
  }

  /** The dict phase 2 saves and returns. */
  function Combined(review: Json, decisions: Json): Json
  {
    JObj([("phase", JStr("human_review")), ("original_review", review), ("human_decisions", decisions)])
  }

  /**
    The text of the error that formatting a non-numeric cost with `.4f`
    raises: a `ValueError` for a string, a `TypeError` for the other kinds.
   */
  function FormatError(j: Json): (r: string)
    requires !Numeric(j)
    ensures j.JStr? <==> r == "Unknown format code 'f' for object of type 'str'"
  {
    match j
    case JStr(_) => "Unknown format code 'f' for object of type 'str'"
    case JNull => "unsupported format string passed to NoneType.__format__"
    case JArr(_) => "unsupported format string passed to list.__format__"
    case JObj(_) => "unsupported format string passed to dict.__format__"
  }

  /** The first of the fields the display reads that `review` lacks, if any. */
  function DisplayError(review: Json): Option<string>
  {
    if Index(review, "codebase_path").None? then Some(MissingKey("codebase_path"))
    else if Index(review, "review_goals").None? then Some(MissingKey("review_goals"))
    else if Index(review, "cost_estimate").None? then Some(MissingKey("cost_estimate"))
    else if !Numeric(Index(review, "cost_estimate").value) then Some(FormatError(Index(review, "cost_estimate").value))
    else if Index(review, "analysis").None? then Some(MissingKey("analysis"))
    else None
  }

  /** Phase 2 once its review results are in place: the checks, the decisions, and the save. */
  function Phase2Shown(review: Json, decisions: Json, a: PhaseAnswers, timestamp: string, saveError: Option<string>)
    : (PhaseResult, Json, Json)
  {
    if !Truthy(review) then (Failed(NoReviewError), review, decisions)
    else if DisplayError(review).Some? then (Failed(DisplayError(review).value), review, decisions)
    else if saveError.Some? then (Failed(saveError.value), review, decisions)
    else (Returned(Combined(review, DecisionsDict(a, timestamp))), review, DecisionsDict(a, timestamp))
  }

  /**
    `phase2_human_review` on the two fields: the result and the fields
    afterwards. A given file replaces the review results before anything is
    checked; the decisions are stored only once they were saved.
   */
  function Phase2(review: Json, decisions: Json, reviewFile: Option<Loaded>, a: PhaseAnswers, timestamp: string,
                  saveError: Option<string>): (PhaseResult, Json, Json)
  {
    match reviewFile
    case Some(LoadFailed(e)) => (Failed(e), review, decisions)
    case Some(Loaded(j)) => Phase2Shown(j, decisions, a, timestamp, saveError)
    case None => Phase2Shown(review, decisions, a, timestamp, saveError)
  }

  /**
    Phase 2 gating: without results (none loaded and none given) it raises
    the "no review results" error and changes nothing; a failure never
    touches the decisions; a success returns exactly the review it used and
    the decisions it stored, approval being the answer `y` in either case.
   */
  lemma Phase2Spec(review: Json, decisions: Json, reviewFile: Option<Loaded>, a: PhaseAnswers, timestamp: string,
                   saveError: Option<string>)
    ensures var (r, rr, hd) := Phase2(review, decisions, reviewFile, a, timestamp, saveError);
            && (reviewFile.None? && !Truthy(review) ==> r == Failed(NoReviewError) && rr == review && hd == decisions)
            && (reviewFile.None? ==> rr == review)
            && (reviewFile.Some? && reviewFile.value.Loaded? ==> rr == reviewFile.value.value)
            && (r.Failed? ==> hd == decisions)
            && (r.Returned? ==>
                  && Truthy(rr)
                  && saveError.None?
                  && Index(r.value, "original_review") == Some(rr)
                  && Index(r.value, "human_decisions") == Some(hd)
                  && Index(hd, "approved_for_fixes") == Some(JBool(Strip(a.approve) == "y" || Strip(a.approve) == "Y")))
  {
    match reviewFile
    case Some(LoadFailed(e)) =>
    case Some(Loaded(j)) => Phase2ShownSpec(j, decisions, a, timestamp, saveError);
    case None => Phase2ShownSpec(review, decisions, a, timestamp, saveError);
  }

  lemma Phase2ShownSpec(review: Json, decisions: Json, a: PhaseAnswers, timestamp: string, saveError: Option<string>)
    ensures var (r, rr, hd) := Phase2Shown(review, decisions, a, timestamp, saveError);
            && rr == review
            && (!Truthy(review) ==> r == Failed(NoReviewError) && hd == decisions)
            && (r.Failed? ==> hd == decisions)
            && (r.Returned? ==>
                  && Truthy(rr)
                  && saveError.None?
                  && Index(r.value, "original_review") == Some(rr)
                  && Index(r.value, "human_decisions") == Some(hd)
                  && Index(hd, "approved_for_fixes") == Some(JBool(Strip(a.approve) == "y" || Strip(a.approve) == "Y")))
  {
    var (r, rr, hd) := Phase2Shown(review, decisions, a, timestamp, saveError);
    if r.Returned? {
      assert r.value == Combined(rr, hd) && hd == DecisionsDict(a, timestamp);
      DecisionsDictReadable(a, timestamp);
      ApprovesSpec(a.approve);
      LookupAt(r.value.fields, 1);
      LookupAt(r.value.fields, 2);
    }
  }

  // ---------------------------------------------------------------------------
  // Phase 3
  // ---------------------------------------------------------------------------

  /** The implementation request; its fixed instructions are abbreviated to the quoted fields. */
  function ImplementationPrompt(approved: string, priority: string, notes: string, analysis: string): string
  {
    "HUMAN DECISIONS:\n- Approved for fixes: " + approved
      + "\n- Priority focus: " + priority
      + "\n- Additional notes: " + notes
      + "\nORIGINAL ANALYSIS:\n" + analysis
      + "\nYOUR TASK:\n1. Focus on " + priority + " priority issues"
  }

  /** The request quotes the original analysis and the priority focus. */
  lemma ImplementationPromptQuotes(approved: string, priority: string, notes: string, analysis: string)
    ensures Contains(ImplementationPrompt(approved, priority, notes, analysis), analysis)
    ensures Contains(ImplementationPrompt(approved, priority, notes, analysis), priority)
  {
    var h1, h2, h3 := "HUMAN DECISIONS:\n- Approved for fixes: ", "\n- Priority focus: ", "\n- Additional notes: ";
    var h4, h5, h6 := "\nORIGINAL ANALYSIS:\n", "\nYOUR TASK:\n1. Focus on ", " priority issues";
    PromptRegrouped(h1, approved, h2, priority, h3, notes, h4, analysis, h5, h6);
    ContainsMiddle(h1 + approved + h2 + priority + h3 + notes + h4, analysis, h5 + priority + h6);
    ContainsMiddle(h1 + approved + h2, priority, h3 + notes + h4 + analysis + h5 + priority + h6);
  }

  /** The prompt's pieces regrouped around the analysis and around the first mention of the priority. */
  lemma PromptRegrouped(h1: string, approved: string, h2: string, priority: string, h3: string, notes: string,
                        h4: string, analysis: string, h5: string, h6: string)
    ensures var p := h1 + approved + h2 + priority + h3 + notes + h4 + analysis + h5 + priority + h6;
            && p == (h1 + approved + h2 + priority + h3 + notes + h4) + analysis + (h5 + priority + h6)
            && p == (h1 + approved + h2) + priority + (h3 + notes + h4 + analysis + h5 + priority + h6)
  {
  }

  const NotApprovedResult: Json := JObj([("status", JStr("not_approved")), ("message", JStr(NotApprovedMessage))])

  /** The `fix_results` dict of an approved phase 3. */
  function FixResults(timestamp: string, priority: Json, m: Message, cost: int): Json
  {
    JObj([("phase", JStr("apply_fixes")),
          ("timestamp", JStr(timestamp)),
          ("human_approved", JBool(true)),
          ("priority_focus", priority),
          ("implemented_fixes", JStr(m.content)),
          ("tokens_used", TokensUsed(m)),
          ("cost_estimate", JInt(cost))])
  }

  function FinalResults(review: Json, decisions: Json, fixes: Json): Json
  {
    JObj([("phase", JStr("complete")), ("review_results", review), ("human_decisions", decisions), ("applied_fixes", fixes)])
  }

  /** Phase 3 after its decisions are in place: the approval check, the request, and the saved result. */
  function Phase3Apply(review: Json, decisions: Json, session: seq<Turn>, api: seq<Turn> -> ApiResult,
                       timestamp: string, cost: int, saveError: Option<string>, pyStr: Json -> string)
    : (PhaseResult, seq<Turn>)
  {
    if !Truthy(decisions) then (Failed(NoDecisionsError), session)
    else
      var approved := Index(decisions, "approved_for_fixes");
      if approved.None? then (Failed(MissingKey("approved_for_fixes")), session)
      else if !Truthy(approved.value) then (Returned(NotApprovedResult), session)
      else
        var priority := Index(decisions, "priority_focus");
        var notes := Index(decisions, "additional_notes");
        var analysis := Index(review, "analysis");
        if priority.None? then (Failed(MissingKey("priority_focus")), session)
        else if notes.None? then (Failed(MissingKey("additional_notes")), session)
        else if analysis.None? then (Failed(MissingKey("analysis")), session)
        else if session == [] then (Failed(NoSessionError), session)
        else
          var prompt := ImplementationPrompt(pyStr(approved.value), pyStr(priority.value), pyStr(notes.value),
                                             pyStr(analysis.value));
          var (reply, s) := ContinueStep(session, prompt, api);
          match reply
          case Raised(e) => (Failed(e), s)
          case Replied(m) =>
            if saveError.Some? then (Failed(saveError.value), s)
            else (Returned(FinalResults(review, decisions, FixResults(timestamp, priority.value, m, cost))), s)
  }

  /**
    `phase3_apply_fixes` on the two fields and the client's history: the
    result, both fields and the history afterwards. A given file replaces
    the review results, then the decisions; a file without decisions has
    already replaced the review results when the lookup raises.
   */
  function Phase3(review: Json, decisions: Json, decisionsFile: Option<Loaded>, session: seq<Turn>,
                  api: seq<Turn> -> ApiResult, timestamp: string, cost: int, saveError: Option<string>,
                  pyStr: Json -> string): (PhaseResult, Json, Json, seq<Turn>)
  {
    match decisionsFile
    case Some(LoadFailed(e)) => (Failed(e), review, decisions, session)
    case Some(Loaded(j)) =>
      if Index(j, "original_review").None? then (Failed(MissingKey("original_review")), review, decisions, session)
      else
        var rr := Index(j, "original_review").value;
        if Index(j, "human_decisions").None? then (Failed(MissingKey("human_decisions")), rr, decisions, session)
        else
          var hd := Index(j, "human_decisions").value;
          var (r, s) := Phase3Apply(rr, hd, session, api, timestamp, cost, saveError, pyStr);
          (r, rr, hd, s)
    case None =>
      var (r, s) := Phase3Apply(review, decisions, session, api, timestamp, cost, saveError, pyStr);
      (r, review, decisions, s)
  }

  lemma FinalResultsFields(review: Json, decisions: Json, fixes: Json)
    ensures Index(FinalResults(review, decisions, fixes), "review_results") == Some(review)
    ensures Index(FinalResults(review, decisions, fixes), "human_decisions") == Some(decisions)
    ensures Index(FinalResults(review, decisions, fixes), "applied_fixes") == Some(fixes)
  {
    var f := FinalResults(review, decisions, fixes).fields;
    LookupAt(f, 1);
    LookupAt(f, 2);
    LookupAt(f, 3);
  }

  lemma FixResultsFields(timestamp: string, priority: Json, m: Message, cost: int)
    ensures Index(FixResults(timestamp, priority, m, cost), "human_approved") == Some(JBool(true))
    ensures Index(FixResults(timestamp, priority, m, cost), "implemented_fixes") == Some(JStr(m.content))
  {
    var f := FixResults(timestamp, priority, m, cost).fields;
    LookupAt(f, 2);
    LookupAt(f, 4);
  }

  /** The approval, read from the decisions as phase 3 reads it. */
  predicate ApprovedIn(decisions: Json)
  {
    Truthy(decisions) && Index(decisions, "approved_for_fixes").Some? && Truthy(Index(decisions, "approved_for_fixes").value)
  }

  /**
    Phase 3 gating, once the decisions are in place: without decisions it
    raises the "no human decisions" error; decisions that do not approve
    give `not_approved` and no request (the history is unchanged); the model
    is asked only under an approval; a success bundles the review, the
    decisions and the fixes, marked as human-approved.
   */
  lemma Phase3ApplySpec(review: Json, decisions: Json, session: seq<Turn>, api: seq<Turn> -> ApiResult,
                        timestamp: string, cost: int, saveError: Option<string>, pyStr: Json -> string)
    ensures var (r, s) := Phase3Apply(review, decisions, session, api, timestamp, cost, saveError, pyStr);
            && (!Truthy(decisions) ==> r == Failed(NoDecisionsError) && s == session)
            && (Truthy(decisions) && Index(decisions, "approved_for_fixes").Some? && !ApprovedIn(decisions)
                ==> r == Returned(NotApprovedResult) && s == session)
            && (s != session ==> ApprovedIn(decisions) && |s| > |session|)
            && (r.Returned? && r != Returned(NotApprovedResult) ==>
                  && ApprovedIn(decisions)
                  && Index(r.value, "review_results") == Some(review)
                  && Index(r.value, "human_decisions") == Some(decisions)
                  && Index(r.value, "applied_fixes").Some?
                  && Index(Index(r.value, "applied_fixes").value, "human_approved") == Some(JBool(true)))
  {
    var (r, s) := Phase3Apply(review, decisions, session, api, timestamp, cost, saveError, pyStr);
    Phase3ApplySession(review, decisions, session, api, timestamp, cost, saveError, pyStr);
    if r.Returned? && r != Returned(NotApprovedResult) {
      var approved := Index(decisions, "approved_for_fixes");
      var priority := Index(decisions, "priority_focus");
      var notes := Index(decisions, "additional_notes");
      var analysis := Index(review, "analysis");
      var prompt := ImplementationPrompt(pyStr(approved.value), pyStr(priority.value), pyStr(notes.value),
                                         pyStr(analysis.value));
      var reply := ContinueStep(session, prompt, api).0;
      var fixes := FixResults(timestamp, priority.value, reply.message, cost);
      assert r.value == FinalResults(review, decisions, fixes);
      FinalResultsFields(review, decisions, fixes);
      FixResultsFields(timestamp, priority.value, reply.message, cost);
    }
  }

  /** Phase 3 talks to the model only under an approval, and then the history grows. */
  lemma Phase3ApplySession(review: Json, decisions: Json, session: seq<Turn>, api: seq<Turn> -> ApiResult,
                           timestamp: string, cost: int, saveError: Option<string>, pyStr: Json -> string)
    ensures var s := Phase3Apply(review, decisions, session, api, timestamp, cost, saveError, pyStr).1;
            s != session ==> ApprovedIn(decisions) && |s| > |session|
  {
    if ApprovedIn(decisions) && Index(decisions, "priority_focus").Some? && Index(decisions, "additional_notes").Some?
       && Index(review, "analysis").Some? && session != [] {
      var prompt := ImplementationPrompt(pyStr(Index(decisions, "approved_for_fixes").value),
                                         pyStr(Index(decisions, "priority_focus").value),
                                         pyStr(Index(decisions, "additional_notes").value),
                                         pyStr(Index(review, "analysis").value));
      ContinueStepGrows(session, prompt, api);
    }
  }

  /** Phase 3 gating with its file: a loaded file supplies both fields before the same checks run. */
  lemma Phase3Spec(review: Json, decisions: Json, decisionsFile: Option<Loaded>, session: seq<Turn>,
                   api: seq<Turn> -> ApiResult, timestamp: string, cost: int, saveError: Option<string>,
                   pyStr: Json -> string)
    ensures var (r, rr, hd, s) := Phase3(review, decisions, decisionsFile, session, api, timestamp, cost, saveError, pyStr);
            && (decisionsFile.None? ==> rr == review && hd == decisions)
            && (decisionsFile.Some? && decisionsFile.value.LoadFailed? ==> r.Failed? && rr == review && hd == decisions && s == session)
            && (decisionsFile.None? && !Truthy(decisions) ==> r == Failed(NoDecisionsError) && s == session)
            && (s != session ==> ApprovedIn(hd) && |s| > |session|)
            && (r.Returned? && r != Returned(NotApprovedResult) ==>
                  && ApprovedIn(hd)
                  && Index(r.value, "review_results") == Some(rr)
                  && Index(r.value, "human_decisions") == Some(hd)
                  && Index(r.value, "applied_fixes").Some?
                  && Index(Index(r.value, "applied_fixes").value, "human_approved") == Some(JBool(true)))
  {
    match decisionsFile
    case Some(LoadFailed(e)) =>
    case Some(Loaded(j)) =>
      if Index(j, "original_review").Some? && Index(j, "human_decisions").Some? {
        Phase3ApplySpec(Index(j, "original_review").value, Index(j, "human_decisions").value, session, api,
                        timestamp, cost, saveError, pyStr);
      }
    case None =>
      Phase3ApplySpec(review, decisions, session, api, timestamp, cost, saveError, pyStr);
  }

  /** The request an approved phase 3 sends after phase 2 stored the answers `a` over a review whose analysis is `analysis`. */
  function RequestFor(a: PhaseAnswers, analysis: Json, pyStr: Json -> string): string
  {
    ImplementationPrompt(pyStr(JBool(true)), pyStr(JStr(Strip(a.priority))), pyStr(JStr(Strip(a.notes))), pyStr(analysis))
  }

  /** Phase 3 over the decisions phase 2 stores: the answer `y` sends the request, any other answer stops. */
  lemma Phase3OnDecisions(review: Json, a: PhaseAnswers, t2: string, session: seq<Turn>, api: seq<Turn> -> ApiResult,
                          t3: string, cost: int, pyStr: Json -> string)
    requires Index(review, "analysis").Some? && session != []
    ensures var d := DecisionsDict(a, t2);
            var (r3, s) := Phase3Apply(review, d, session, api, t3, cost, None, pyStr);
            var (reply, s') := ContinueStep(session, RequestFor(a, Index(review, "analysis").value, pyStr), api);
            && (!Approves(a.approve) ==> r3 == Returned(NotApprovedResult) && s == session)
            && (Approves(a.approve) ==>
                  && s == s'
                  && (reply.Replied? ==>
                        r3 == Returned(FinalResults(review, d, FixResults(t3, JStr(Strip(a.priority)), reply.message, cost)))))
  {
    DecisionsDictReadable(a, t2);
  }

  /**
    The phases in sequence: phase 2 accepts what a successful phase 1
    stored; with the answer `y`, phase 3 sends the fixes request, which
    quotes the phase-1 analysis, and returns the model's reply as the
    implemented fixes; any other answer makes phase 3 stop with
    `not_approved` without a request.
   */
  lemma PhasesInSequence(t1: string, codebasePath: string, reviewGoals: string, files: seq<string>, model: string,
                         m: Message, cost1: int, duration: string, hd0: Json, a: PhaseAnswers, t2: string,
                         session: seq<Turn>, api: seq<Turn> -> ApiResult, t3: string, cost: int, pyStr: Json -> string)
    requires session != []
    ensures var review := ReviewJson(t1, codebasePath, reviewGoals, files, model, m, cost1, duration);
            var (r2, rr, hd) := Phase2(review, hd0, None, a, t2, None);
            var (r3, _, _, s) := Phase3(rr, hd, None, session, api, t3, cost, None, pyStr);
            var (reply, s') := ContinueStep(session, RequestFor(a, JStr(m.content), pyStr), api);
            && r2.Returned? && rr == review && hd == DecisionsDict(a, t2)
            && (!Approves(a.approve) ==> r3 == Returned(NotApprovedResult) && s == session)
            && (Approves(a.approve) ==>
                  && s == s'
                  && (reply.Replied? ==>
                        && r3.Returned?
                        && Index(r3.value, "applied_fixes").Some?
                        && Index(Index(r3.value, "applied_fixes").value, "implemented_fixes") == Some(JStr(reply.message.content))))
  {
    var review := ReviewJson(t1, codebasePath, reviewGoals, files, model, m, cost1, duration);
    ReviewJsonShown(t1, codebasePath, reviewGoals, files, model, m, cost1, duration);
    var d := DecisionsDict(a, t2);
    assert Phase2(review, hd0, None, a, t2, None) == (Returned(Combined(review, d)), review, d);
    Phase3OnDecisions(review, a, t2, session, api, t3, cost, pyStr);
    var reply := ContinueStep(session, RequestFor(a, JStr(m.content), pyStr), api).0;
    if Approves(a.approve) && reply.Replied? {
      var fixes := FixResults(t3, JStr(Strip(a.priority)), reply.message, cost);
      FinalResultsFields(review, d, fixes);
      FixResultsFields(t3, JStr(Strip(a.priority)), reply.message, cost);
    }
  }

  // ---------------------------------------------------------------------------
  // The reviewer
  // ---------------------------------------------------------------------------

  class ThreePhaseReviewer {
    const client: Client
    /** `review_results`; `JNull` is Python's `None`. */
    var reviewResults: Json
    /** `human_decisions`. */
    var humanDecisions: Json

    ghost predicate Valid()
      reads this, client
    {
      client.Valid()
    }

    constructor(model: string)
      ensures Valid() && fresh(client) && client.model == model
      ensures client.uploadedFiles.keys == [] && client.sessionContext == []
      ensures reviewResults == JNull && humanDecisions == JNull
    {
      client := new Client(model);
      reviewResults := JNull;
      humanDecisions := JNull;
    }

    /**
      `phase1_review`: uploads the first ten files, sends the analysis-only
      request and, once the reply is saved, stores the results. A raising
      request or save leaves both fields as they were.
     */
    method Phase1Review(codebasePath: string, reviewGoals: string, found: seq<string>, fs: seq<SourceFile>,
                        timestamp: string, cost: int, duration: string, api: seq<Turn> -> ApiResult,
                        saveError: Option<string>)
      returns (r: PhaseResult)
      requires Valid()
      modifies this, client
      ensures Valid()
      ensures humanDecisions == old(humanDecisions)
      ensures client.uploadedFiles == UploadSteps(old(client.uploadedFiles), FirstTen(found), fs).2
      ensures var request := FirstRequest(AnalysisPrompt(reviewGoals), old(client.uploadedFiles), FirstTen(found), fs);
              && (api([request]).Raised? ==>
                    r == Failed(api([request]).error) && client.sessionContext == old(client.sessionContext))
              && (api([request]).Replied? ==>
                    && client.sessionContext
                         == old(client.sessionContext) + [request, Turn(Assistant, api([request]).message.content)]
                    && r == (if saveError.Some? then Failed(saveError.value)
                             else Returned(ReviewJson(timestamp, codebasePath, reviewGoals, FirstTen(found), client.model,
                                                      api([request]).message, cost, duration))))
      ensures r.Failed? ==> reviewResults == old(reviewResults)
      ensures r.Returned? ==>
                && |client.sessionContext| == |old(client.sessionContext)| + 2
                && client.sessionContext[|old(client.sessionContext)|].role == User
                && StartsWith(client.sessionContext[|old(client.sessionContext)|].content, AnalysisPrompt(reviewGoals))
                && var m := api([client.sessionContext[|old(client.sessionContext)|]]);
                   && m.Replied?
                   && r.value == ReviewJson(timestamp, codebasePath, reviewGoals, FirstTen(found), client.model,
                                            m.message, cost, duration)
                   && reviewResults == r.value
      ensures r.Returned? <==> saveError.None? && client.sessionContext != old(client.sessionContext)
    {
      var ids, _ := client.UploadAll(FirstTen(found), fs);
      var prompt := AnalysisPrompt(reviewGoals);
      ContextShape(prompt, client.uploadedFiles.vals, ids);
      var reply := client.CreateAnalysisMessage(prompt, ids, api);
      if reply.Raised? {
        return Failed(reply.error);
      }
      var results := ReviewJson(timestamp, codebasePath, reviewGoals, FirstTen(found), client.model, reply.message,
                                cost, duration);
      if saveError.Some? {
        return Failed(saveError.value);
      }
      reviewResults := results;
      r := Returned(results);
    }

    /** `phase2_human_review`. */
    method Phase2HumanReview(reviewFile: Option<Loaded>, a: PhaseAnswers, timestamp: string, saveError: Option<string>)
      returns (r: PhaseResult)
      modifies this
      ensures (r, reviewResults, humanDecisions)
                == Phase2(old(reviewResults), old(humanDecisions), reviewFile, a, timestamp, saveError)
    {
      if reviewFile.Some? {
        if reviewFile.value.LoadFailed? {
          return Failed(reviewFile.value.error);
        }
        reviewResults := reviewFile.value.value;
      }
      if !Truthy(reviewResults) {
        return Failed(NoReviewError);
      }
      var shown := DisplayError(reviewResults);
      if shown.Some? {
        return Failed(shown.value);
      }
      var decisions := DecisionsDict(a, timestamp);
      if saveError.Some? {
        return Failed(saveError.value);
      }
      humanDecisions := decisions;
      r := Returned(Combined(reviewResults, decisions));
    }

    /** `phase3_apply_fixes`. */
    method Phase3ApplyFixes(decisionsFile: Option<Loaded>, api: seq<Turn> -> ApiResult, timestamp: string, cost: int,
                            saveError: Option<string>, pyStr: Json -> string)
      returns (r: PhaseResult)
      modifies this, client
      ensures client.uploadedFiles == old(client.uploadedFiles)
      ensures (r, reviewResults, humanDecisions, client.sessionContext)
                == Phase3(old(reviewResults), old(humanDecisions), decisionsFile, old(client.sessionContext), api,
                          timestamp, cost, saveError, pyStr)
    {
      if decisionsFile.Some? {
        if decisionsFile.value.LoadFailed? {
          return Failed(decisionsFile.value.error);
        }
        var j := decisionsFile.value.value;
        var orig := Index(j, "original_review");
        if orig.None? {
          return Failed(MissingKey("original_review"));
        }
        reviewResults := orig.value;
        var hd := Index(j, "human_decisions");
        if hd.None? {
          return Failed(MissingKey("human_decisions"));
        }
        humanDecisions := hd.value;
      }
      if !Truthy(humanDecisions) {
        return Failed(NoDecisionsError);
      }
      var approved := Index(humanDecisions, "approved_for_fixes");
      if approved.None? {
        return Failed(MissingKey("approved_for_fixes"));
      }
      if !Truthy(approved.value) {
        return Returned(NotApprovedResult);
      }
      var priority := Index(humanDecisions, "priority_focus");
      var notes := Index(humanDecisions, "additional_notes");
      var analysis := Index(reviewResults, "analysis");
      if priority.None? {
        return Failed(MissingKey("priority_focus"));
      }
      if notes.None? {
        return Failed(MissingKey("additional_notes"));
      }
      if analysis.None? {
        return Failed(MissingKey("analysis"));
      }
      var prompt := ImplementationPrompt(pyStr(approved.value), pyStr(priority.value), pyStr(notes.value),
                                         pyStr(analysis.value));
      var reply := client.ContinueSession(prompt, api);
      if reply.Raised? {
        return Failed(reply.error);
      }
      if saveError.Some? {
        return Failed(saveError.value);
      }
      r := Returned(FinalResults(reviewResults, humanDecisions, FixResults(timestamp, priority.value, reply.message, cost)));
    }
  }
}

=== FILE: workspace.dfy ===
/**
  The directory a fix report is applied to. A directory is the sequence of its
  entries in the order `Path.glob` lists them; reading or writing an entry may
  fail with the error message the entry carries.
 */
module Workspace {
  import opened Common

  datatype SourceFile = SourceFile(name: string, content: string, readError: Option<string>, writeError: Option<string>)

  /** A fenced code block found in the fix text: where it starts and ends, and its captured body. */
  datatype Block = Block(start: nat, end: nat, code: string)

  /** `(codebase_path / name).exists()`. */
  predicate Exists(dir: seq<SourceFile>, name: string)
  {
    exists i :: 0 <= i < |dir| && dir[i].name == name
  }

  /** The index of the entry called `name`, if any. */
  function FindFile(dir: seq<SourceFile>, name: string): (r: Option<nat>)
    ensures r.None? <==> !Exists(dir, name)
    ensures r.Some? ==> r.value < |dir| && dir[r.value].name == name
    ensures r.Some? ==> forall j :: 0 <= j < r.value ==> dir[j].name != name
  {
    if dir == [] then None
    else if dir[0].name == name then Some(0)
    else match FindFile(dir[1..], name)
      case None => None
      case Some(i) => Some(i + 1)
  }

  /** A name `codebase_path.glob("*.py")` lists: it ends in `.py` and lies directly in the directory. */
  predicate IsPyName(name: string)
  {
    EndsWith(name, ".py") && '/' !in name
  }

  /** The entries `codebase_path.glob("*.py")` yields, in directory order. */
  function PyFiles(dir: seq<SourceFile>): (r: seq<SourceFile>)
    ensures |r| <= |dir|
    ensures forall f :: f in r ==> f in dir && IsPyName(f.name)
    ensures forall f :: f in dir && IsPyName(f.name) ==> f in r
  {
    if dir == [] then []
    else
      var last := dir[|dir| - 1];
      var init := dir[..|dir| - 1];
      assert forall f :: f in dir ==> f in init || f == last;
      PyFiles(init) + (if IsPyName(last.name) then [last] else [])
  }

  /** The directory after `name`'s entry at index `i` was overwritten with `content`. */
  function WriteAt(dir: seq<SourceFile>, i: nat, content: string): (r: seq<SourceFile>)
    requires i < |dir|
    ensures |r| == |dir| && r[i].content == content && r[i].name == dir[i].name
    ensures forall j :: 0 <= j < |dir| && j != i ==> r[j] == dir[j]
  {
    dir[i := dir[i].(content := content)]
  }

  /** Two states of one directory: the same entries in the same order, contents aside. */
  predicate SameNames(a: seq<SourceFile>, b: seq<SourceFile>)
  {
    |a| == |b| && forall j :: 0 <= j < |a| ==> a[j].name == b[j].name
  }

  lemma SameNamesExist(a: seq<SourceFile>, b: seq<SourceFile>, name: string)
    requires SameNames(a, b)
    ensures Exists(a, name) <==> Exists(b, name)
  {
    if Exists(a, name) {
      var i :| 0 <= i < |a| && a[i].name == name;
      assert b[i].name == name;
    }
    if Exists(b, name) {
      var i :| 0 <= i < |b| && b[i].name == name;
      assert a[i].name == name;
    }
  }

  /** Entries with the same names are looked up at the same index. */
  lemma {:induction false} FindFileSameNames(a: seq<SourceFile>, b: seq<SourceFile>, name: string)
    requires SameNames(a, b)
    ensures FindFile(a, name) == FindFile(b, name)
  {
    if a != [] {
      FindFileSameNames(a[1..], b[1..], name);
    }
  }

  /**
    `str(codebase_path / name)` for a file name of the directory: pathlib drops
    the empty and `.` parts of the root and keeps a leading `/`, so the root
    `.` contributes nothing and the root `/` no second slash.
   */
  function PathOf(root: string, name: string): string
  {
    (if StartsWith(root, "/") then "/" else "") + Join("/", PathParts(root) + [name])
  }

  /** A slash-free word followed by a slash splits into the word and an empty piece. */
  lemma {:induction false} SplitTrailingSlash(w: string)
    requires '/' !in w
    ensures Split(w + "/", '/') == [w, ""]
  {
    if w == [] {
      assert w + "/" == "/";
      assert Split("", '/') == [""];
    } else {
      SplitTrailingSlash(w[1..]);
      assert (w + "/")[1..] == w[1..] + "/";
      assert [w[0]] + w[1..] == w;
    }
  }

  /** Under the root `.` a file is named by its own name. */
  lemma PathOfDot(name: string)
    ensures PathOf(".", name) == name
  {
    SplitWord(".");
    assert ["."][..0] == [];
    assert PathParts(".") == [];
  }

  /** A word without a slash splits into itself. */
  lemma {:induction false} SplitWord(w: string)
    requires '/' !in w
    ensures Split(w, '/') == [w]
  {
    if w != [] {
      SplitWord(w[1..]);
      assert [w[0]] + w[1..] == w;
    }
  }

  /** Under the root `/` a file is named `/name`, with one slash. */
  lemma PathOfSlash(name: string)
    ensures PathOf("/", name) == "/" + name
  {
    assert Split("/", '/') == ["", ""];
  }

  /** A trailing slash of the root is not doubled. */
  lemma PathOfTrailingSlash(name: string)
    ensures PathOf("src/", name) == "src/" + name
  {
    SplitTrailingSlash("src");
    assert "src" + "/" == "src/";
    assert ["src", ""][..1] == ["src"] && ["src"][..0] == [];
    assert PathParts("src/") == ["src"];
    assert Join("/", ["src", name]) == "src" + "/" + name;
  }

  /**
    The roots `.` and `/`: a file directly under them is named `name` and
    `/name`; and a root with a trailing slash, such as `src/`, gives `src/name`.
   */
  lemma PathOfTrivialRoots(name: string)
    ensures PathOf(".", name) == name
    ensures PathOf("/", name) == "/" + name
    ensures PathOf("src/", name) == "src/" + name
  {
    PathOfDot(name);
    PathOfSlash(name);
    PathOfTrailingSlash(name);
  }

  /** The `files_modified`, `fixes_applied` and `errors` lists of an editor's results dict. */
  datatype Results = Results(filesModified: seq<string>, fixesApplied: seq<string>, errors: seq<string>)

  /** The error an editor records when applying to one file raises `e`. */
  function ApplyError(path: string, e: string): string
  {
    "Error applying fixes to " + path + ": " + e
  }

  /** The names of some directory entries, in order. */
  function NamesOf(files: seq<SourceFile>): (r: seq<string>)
    ensures |r| == |files| && forall i :: 0 <= i < |files| ==> r[i] == files[i].name
  {
    seq(|files|, i requires 0 <= i < |files| => files[i].name)
  }

  // ---------------------------------------------------------------------------
  // The `file_<digits>_` prefix of uploaded-file ids
  // ---------------------------------------------------------------------------

  /** The number of ASCII digits `s` starts with. */
  function LeadingDigits(s: string): (k: nat)
    ensures k <= |s|
    ensures forall i :: 0 <= i < k ==> IsDigit(s[i])
    ensures k < |s| ==> !IsDigit(s[k])
  {
    if s != [] && IsDigit(s[0]) then 1 + LeadingDigits(s[1..]) else 0
  }

  /**
    `re.sub(r'^file_\d+_', '', s)`: drops a leading `file_`, one or more digits
    and an underscore; anything else is returned unchanged. What is left is
    always a suffix of `s`.
   */
  function StripIdPrefix(s: string): (r: string)
    ensures EndsWith(s, r)
    ensures r != s ==> StartsWith(s, "file_") && |r| + 7 <= |s| && s[|s| - |r| - 1] == '_'
    ensures r != s ==> forall i :: 5 <= i < |s| - |r| - 1 ==> IsDigit(s[i])
  {
    if StartsWith(s, "file_") then
      var k := LeadingDigits(s[5..]);
      if 1 <= k && 5 + k < |s| && s[5 + k] == '_' then
        var r := s[5 + k + 1..];
        assert forall i :: 5 <= i < 5 + k ==> IsDigit(s[i]) by {
          forall i | 5 <= i < 5 + k ensures IsDigit(s[i]) {
            assert s[i] == s[5..][i - 5];
          }
        }
        r
      else s
    else s
  }

  lemma {:induction false} LeadingDigitsOf(d: string, rest: string)
    requires forall i :: 0 <= i < |d| ==> IsDigit(d[i])
    requires rest == [] || !IsDigit(rest[0])
    ensures LeadingDigits(d + rest) == |d|
  {
    if d != [] {
      assert (d + rest)[1..] == d[1..] + rest;
      LeadingDigitsOf(d[1..], rest);
    }
  }

  /** Removing the prefix from an uploaded-file id `file_<n>_<name>` gives back `name`. */
  lemma StripIdPrefixOfId(n: nat, name: string)
    ensures StripIdPrefix("file_" + Dec(n) + "_" + name) == name
  {
    var s := "file_" + Dec(n) + "_" + name;
    var d := Dec(n);
    assert s[..5] == "file_";
    assert s[5..] == d + ("_" + name);
    LeadingDigitsOf(d, "_" + name);
    assert s[5 + |d|] == '_';
    assert s[5 + |d| + 1..] == name;
  }
}
